=== FILE: README.md ===
# Legal corpus retrieval and ingestion, modelled in Dafny

This project models the pure text-processing core of a tool that collects
Chinese laws into SQLite and serves them over MCP. It covers the following
parts:

- **Article splitter.** The line-by-line state machine turns a law's full text
  into article records `(article_number_int, article_number_str,
  chapter_path, content)`. It tracks the 编 / 分编 / 章 / 节 hierarchy and uses
  the built-in Chinese-numeral converter.
- **Table-of-contents builder.** Heading lines are folded into a nested
  编 → 章 → 节 tree.
- **MCP server helpers:**
  - alias resolution;
  - article extraction by hint ranges and by keyword;
  - parsing of a typed article number;
  - grouping and ranking of concept hits;
  - the candidate phrases of a concept query;
  - the search-result merge that deduplicates by law id;
  - the FTS5 query built from synonym groups.
- **Query rewriter.** Four lookups expand a query, and the result is assembled
  into an FTS5 `OR` query.
- **Crawler text normalisation.** `clean_text`, `extract_date`, and the NPC
  crawler's regex article extractor.
- **Ingestion of downloaded archives:**
  - the file-name rule;
  - the amendment pattern cascade;
  - the insert-or-update keyed on (title, publish date, category);
  - the status assigned from the folder layout.
- **Alias seeding migration.** Short-name and abbreviation aliases are
  generated and deduplicated on (alias, law id).

Database tables are sequences of records. SQL queries are functions over
those sequences. Database lookups whose contents the code does not control
are parameters, and so is the integrity check of an insert. Python regular
expressions are written out as predicates over `seq<char>`, with the
matching rule of the regex engine: greedy or lazy, leftmost match.

Modules, one per file:

| File | Module | Contents |
|---|---|---|
| `strings.dfy` | `Strings` | `str.strip`, `split`, `join`, `replace`, `int()`, `str()`, `isdigit` and the whitespace set |
| `sorting.dfy` | `Sorting` | stable sort by a key, descending (`sorted(..., reverse=True)`) |
| `seqs.dfy` | `Seqs` | the first element that carries a given law id (the `seen` dictionaries and sets); the kept elements of a list comprehension with a filter, and their positions |
| `catalog.dfy` | `Catalog` | the `laws` and `law_aliases` rows |
| `numerals.dfy` | `Numerals` | the fallback numeral converter and `_parse_article_number` |
| `article_splitter.dfy` | `ArticleSplitter` | `split_law` |
| `law_structure.dfy` | `LawStructure` | `get_law_structure` |
| `alias_resolver.dfy` | `AliasResolver` | `resolve_law_alias_cached` |
| `article_extract.dfy` | `ArticleExtract` | `_extract_articles_by_hints`, `_extract_articles_by_keyword`, `_parse_article_number_input` |
| `concept_search.dfy` | `ConceptSearch` | `format_concept_results` and the candidate list of `resolve_concept_cached` |
| `quoting.dfy` | `Quoting` | reading back double-quoted FTS5 words; the phrase quoting of `search_laws_pro` |
| `search_merge.dfy` | `SearchMerge` | the `search_laws` merge and answer, `_expand_synonyms`, `_build_fts_query_with_synonyms` |
| `query_rewriter.dfy` | `QueryRewriter` | `expand_query` |
| `crawler_text.dfy` | `CrawlerText` | `clean_text`, `extract_date` |
| `npc_extract.dfy` | `NpcExtract` | `NPCCrawler._extract_articles` |
| `ingestion.dfy` | `Ingestion` | `process_zip` and `run` of the download processor |
| `alias_seeding.dfy` | `AliasSeeding` | `expand_aliases` of the fifth migration |

Many properties are stated against a second, independent description of the
same behaviour:

- the fallback converter is paired with the standard way laws write
  1..9999 in numerals (`Numerals.Render`);
- the splitter's state machine is paired with a reference definition of
  which lines each article collects (`ArticleSplitter.Articles`), and its
  heading state with the levels read off the lines alone
  (`ArticleSplitter.LevelsOf`);
- whitespace collapsing and cleaning are paired with the whitespace-separated
  words of the input (`Strings.SplitWhitespace`);
- the TOC tree is paired with its preorder listing (`LawStructure.Flatten`)
  and with the depth each heading belongs at, read off the headings alone
  (`LawStructure.DepthAt`); the two together fix the tree;
- the hint extractor is paired with the positions of the segments the hints
  ask for (`Seqs.Chosen`);
- date extraction is paired with the first pattern whose first match is a
  valid date (`CrawlerText.FirstAccepting`);
- the quoted FTS5 queries are paired with the words a reader of the quotes
  recovers (`Quoting.Unquote`);
- the NPC extractor is paired with the layout of a law it reads back
  (`NpcExtract.Layout`).

## Model

| member | source | states |
|---|---|---|
| Numerals.Cn2anIgnoresOthers | article_splitter.py:39-42 | characters outside the numeral table never change the converted value |
| Numerals.FoldLead | article_splitter.py:37-50 | reading the numerals of a number (digit, unit, and 零 for a gap) from a state with no pending digit adds the number less its units digit to the result, and leaves the units digit pending |
| Numerals.Cn2anRender | article_splitter.py:30-51 | the fallback converter reads back every number 1..9999 written the way law texts write it, including 十 with an implicit one and 零 for gaps |
| Numerals.ParseArticleNumberSpellings | article_splitter.py:70-93 | an article number written in numerals or in digits gives the same integer and the same string form, so a suffix never changes the integer; without a suffix the string form is the integer's decimal digits |
| ArticleSplitter.AfterNumber | article_splitter.py:60-61 | the optional suffix group is taken exactly when the text after 条 starts with 之 and a numeral 一..十; suffix and rest together are that text |
| ArticleSplitter.MatchArticle | article_splitter.py:58-62 | a line matches only when it starts with 第, and the number group is a non-empty run of numerals or of digits |
| ArticleSplitter.MatchArticleSpells | article_splitter.py:58-62 | the groups of a match spell out the whole line: 第, number, 条, suffix, rest |
| ArticleSplitter.MatchRendered | article_splitter.py:58-62 | the head line of article n, written in numerals, matches with that numeral, no suffix and the rest of the line |
| ArticleSplitter.Classify | article_splitter.py:142-201 | a line is blank exactly when it is empty, and an article head exactly when the article pattern matches it, with the match's groups |
| ArticleSplitter.ClassifyRenderedHead | article_splitter.py:152-197 | the head line of article n is taken for an article head, not a heading, and yields the number (n, "n") |
| ArticleSplitter.NotHeading | article_splitter.py:65-68 | a line 第<numerals>条… never matches a 编/分编/章/节 heading pattern |
| ArticleSplitter.MatchNotHeading | article_splitter.py:65-68 | a line the article pattern matches, with digits or numerals, matches none of the 编 / 分编 / 章 / 节 patterns |
| ArticleSplitter.HierAfterLevels | article_splitter.py:152-175 | after any lines, the heading levels are those of the lines alone: the last 编, the last 分编 after it, the last 章 after both and the last 节 after all three, each empty where there is none |
| ArticleSplitter.OpenedPath | article_splitter.py:152-194 | an article head after lines `pre` opens an article holding just that line, whose chapter path is the path of the heading levels of `pre` |
| ArticleSplitter.NonEmpty | article_splitter.py:193-194 | the chapter path keeps exactly the non-empty levels, in order |
| ArticleSplitter.EmitOpened | article_splitter.py:128-140 | a flush of an opened article always emits one record, carrying the number and path fixed when its head line was read, and a content that starts with the stripped head line |
| ArticleSplitter.RunArticles | article_splitter.py:128-204 | the state machine emits what the reference definition gives: each article head line collects the blank and body lines up to the next head line, skipping headings |
| ArticleSplitter.AttachedLines | article_splitter.py:142-201 | every line an article collects is a blank or body line that comes before the next article head line, so heading lines and lines of later articles never enter its content |
| ArticleSplitter.SplitLawIsArticles | article_splitter.py:109-204 | empty content gives no records; otherwise `split_law` equals the reference articles of the content's lines, with no hierarchy at the start |
| ArticleSplitter.ArticlesFromHeads | article_splitter.py:178-201 | in the reference definition, every article head line yields exactly one record, in order |
| ArticleSplitter.SplitLawCount | article_splitter.py:128-204 | `split_law` yields exactly one record per article head line, in document order; each record's number comes from its head line and its content starts with that line |
| LawStructure.MatchHeading | database/db_manager.py:208-210 | a heading line gives a name 第…编/章/节 and a non-empty title that starts with a non-space |
| LawStructure.MatchHeadingSpells | database/db_manager.py:208-210 | name, a non-empty whitespace run and title together spell out the stripped line |
| LawStructure.MatchHeadingOfRendered | database/db_manager.py:208-210 | every heading numbered 1 to 99 the standard way (一, 十一, 二十, 九十九), followed by 编/章/节, a space and a title, is read back with that name and title |
| LawStructure.FlattenAddAt | database/db_manager.py:213-249 | adding a leaf on the chain of last nodes lists it last in preorder |
| LawStructure.TocStepAdds | database/db_manager.py:220-249 | 编 goes to the top level; 章 goes under the open 编, else to the top; 节 goes under the open 章, else the open 编, else to the top |
| LawStructure.TocStepProps | database/db_manager.py:213-249 | each heading keeps the tree ranked (编 above 章 above 节) and appends the heading to its preorder listing |
| LawStructure.BuildFrom | database/db_manager.py:213-254 | folding the lines keeps the tree ranked; the preorder listing grows by exactly the heading lines, in order, so blank lines, article lines and other text add no node |
| LawStructure.DepthsAddAt | database/db_manager.py:220-249 | a node appended under the chain of current nodes at depth `d` is listed last in preorder at depth `d` |
| LawStructure.AppendFlags | database/db_manager.py:220-237 | after a heading, a 编 is open when this or an earlier heading is a 编 (`current_bian` is never cleared); a 章 is open when this heading is a 章, or it is a 节 and a 章 was open (a 编 clears `current_zhang`) |
| LawStructure.TocStepNests | database/db_manager.py:220-249 | each heading is placed at the depth the earlier headings imply: a 编 at the top, a 章 one down when some 编 came before, a 节 one further down when a 章 is open since the last 编; the open flags stay those the headings imply |
| LawStructure.BuildFromNests | database/db_manager.py:213-254 | folding the lines keeps every node at the depth its heading belongs at |
| LawStructure.TocDetermined | database/db_manager.py:213-254 | two forests with the same preorder listing and the same depths are equal, so listing and depths fix the tree |
| LawStructure.ArticleLineNoHeading | database/db_manager.py:208-249 | a stripped line of the form 第<numerals>条… matches none of the 编, 章 and 节 heading patterns, so it adds no node |
| LawStructure.BuildToc | database/db_manager.py:183-260 | the tree's preorder listing is the sequence of heading lines of the content, every node ranks below its parent, and every heading sits at the depth the headings before it imply (so a 章 after a 编 is that 编's child, not a sibling) |
| LawStructure.BuildTocUnique | database/db_manager.py:183-260 | any forest listing the heading lines in order, each at its implied depth, is the TOC |
| LawStructure.LawStructure | mcp_server.py:1161-1222 | the answer is "no content" exactly for empty content, "no structure" exactly when no line is a heading, and otherwise the ranked tree of all heading lines, each nested at its implied depth |
| AliasResolver.Hits | mcp_server.py:127-146 | the rows a query returns are exactly the alias rows that join a law in force and match the alias (equal, or containing the query), at the stored or the 0.9-scaled confidence |
| AliasResolver.Best | mcp_server.py:132-133 | `LIMIT 1` picks a returned row that no other row sorts ahead of, by confidence and then publish date, both descending; only an empty result gives none |
| AliasResolver.Resolve | mcp_server.py:121-149 | an exact match is returned when one exists; only otherwise is a substring match returned, and then exactly when one exists |
| AliasResolver.ResolveFindsIff | mcp_server.py:121-149 | resolution finds a law exactly when some alias of a law in force contains the query |
| AliasResolver.ExactWins | mcp_server.py:127-146 | when an exact alias matches, the answer is an exact match with the highest stored confidence, never a scaled substring hit |
| ArticleExtract.NextMarker | mcp_server.py:274 | the next 第<numerals>条 match is the leftmost one at or after the position |
| ArticleExtract.SegmentsCover | mcp_server.py:274-277 | splitting loses nothing: the text before the first marker, followed by every marker and its body, is the content |
| ArticleExtract.SegmentsWellCut | mcp_server.py:274-277 | every split marker is one whole match and no body contains a match |
| ArticleExtract.Cap | mcp_server.py:287-288 | a text longer than the cap keeps its first characters and gains "..."; a shorter one is unchanged |
| ArticleExtract.AnyTargetIff | mcp_server.py:268-269 | the emptiness test of the target set agrees with the set the hints describe |
| ArticleExtract.HintOfSingle | mcp_server.py:253-266 | a hint 第n条 targets the number n |
| ArticleExtract.HintOfRange | mcp_server.py:255-261 | a hint 第a-b条 targets the inclusive range a..b |
| ArticleExtract.HintsComma | mcp_server.py:253 | a comma joins hints: `x,y` targets a number exactly when x or y does |
| ArticleExtract.HintPieces | mcp_server.py:275-289 | at most one piece per segment, each at most 500 characters plus "..." |
| ArticleExtract.HintPiecesSelects | mcp_server.py:275-289 | the pieces are the capped texts of exactly the segments whose article number a hint asks for (a segment is in the list if and only if it is asked for), in the order they occur in the text |
| ArticleExtract.ExtractByHints | mcp_server.py:245-291 | empty content, empty hints or hints that target nothing give ""; otherwise the answer is the capped segments at the chosen positions, in text order, joined by blank lines, whatever the number of articles asked for |
| ArticleExtract.MarkerNumberRendered | mcp_server.py:278-283 | the marker of article n written in numerals converts back to n |
| ArticleExtract.ExtractOneArticle | mcp_server.py:245-291 | asking by hint for article m of a text holding article n gives that article, capped, exactly when m = n, and "" otherwise |
| ArticleExtract.TailsAreSuffixes | mcp_server.py:303-309 | every extra match term is a proper suffix of the keyword, at least three characters long |
| ArticleExtract.MatchTermsCore | mcp_server.py:303-316 | a body matches some term exactly when it contains the keyword's last three characters (the whole keyword when it is at most three long) |
| ArticleExtract.MentioningBounds | mcp_server.py:311-320 | at most one piece per segment, each at most 400 characters plus "..." |
| ArticleExtract.CollectMentioning | mcp_server.py:311-322 | the loop that breaks at the limit yields the first `max_articles` matching pieces (at least one when any matches), in text order |
| ArticleExtract.ExtractByKeyword | mcp_server.py:293-324 | empty content or keyword gives ""; otherwise the first `max_articles` matching pieces joined by blank lines |
| ArticleExtract.LazyEnd | mcp_server.py:743-745 | the lazy number group ends at the first position from which the rest is a whole 之X suffix, or nothing |
| ArticleExtract.ParseInputOf | mcp_server.py:739-755 | 第x条 with an optional suffix reads as the decimal value of x when x is digits, and as its converted numeral otherwise |
| ArticleExtract.ParseInputRoundTrip | mcp_server.py:739-755 | an article number typed in digits or in numerals, with 第, 条 and an optional 之X suffix, reads back as that number |
| ArticleExtract.ParseInputOfStored | mcp_server.py:739-755 | the stored `article_number_str` of the splitter reads back as its `article_number_int` |
| ConceptSearch.ConceptCandidates | mcp_server.py:174-187 | the query comes first, and a query of at most one token is the only candidate |
| ConceptSearch.LevelsMembers | mcp_server.py:179-183 | the sub-phrase loop lists exactly the joined contiguous runs of at most the given length that differ from the query |
| ConceptSearch.CandidatesAreSubPhrases | mcp_server.py:174-187 | for several tokens, the candidates after the query are exactly the proper contiguous sub-phrases that differ from the query; the single tokens add nothing new |
| ConceptSearch.GroupLaws | mcp_server.py:332-345 | grouping keeps one entry per law, one for every law of the hits, each with the title and relevance of that law's first hit |
| ConceptSearch.GroupLists | mcp_server.py:332-345 | each entry lists every topic and every hint string of its law's hits, each once |
| ConceptSearch.Head3 | mcp_server.py:349-350 | at most the first three items, and all of them when there are at most three |
| ConceptSearch.View | mcp_server.py:352-364 | a shown entry keeps its law, title and relevance; without inline articles or stored text it shows no articles |
| ConceptSearch.ShownProps | mcp_server.py:348-367 | exactly min(`limit`, number of laws) entries are shown, each law once, by non-increasing relevance; every law of the hits is shown or ranks no higher than the last one shown |
| ConceptSearch.FormatConceptResults | mcp_server.py:326-369 | `None` exactly for no hits; otherwise exactly min(`limit`, number of laws) entries, distinct laws by non-increasing relevance, each with its first hit's title and relevance, and no unshown law outranks the last shown |
| ConceptSearch.ShownLists | mcp_server.py:332-363 | each shown entry is the view of the ranked entry listing all its law's topics and hints |
| Sorting.SortDesc | mcp_server.py:348 | the result is a permutation of the input, by non-increasing key, keeping the input order among equal keys |
| SearchMerge.Seed | mcp_server.py:610-616 | the seen set holds exactly the concept ids and the alias id |
| SearchMerge.Keep | mcp_server.py:577-585 | kept rows carry no seen id and no id twice, and their ids are exactly the row ids not seen |
| SearchMerge.KeepFirstRows | mcp_server.py:577-585 | each kept row is the first row of its id, in the order of the rows |
| SearchMerge.KeepConcat | mcp_server.py:577-621 | adding two lists of rows in turn is adding the second after the first's ids are seen |
| SearchMerge.MergeOnce | mcp_server.py:575-621 | across fallback, FTS and vector rows each law id appears at most once, never one shown by an alias or concept hit, and as its first row |
| SearchMerge.Parts | mcp_server.py:624-633 | the alias text, concept text and search entries appear in that order, a divider only between earlier parts and entries, and nothing only when all are empty |
| SearchMerge.Answer | mcp_server.py:624-637 | the reply is the alias section, then the concept section, a blank line apart; the merged entries come last, a blank line apart, behind the divider exactly when a section precedes them; when alias text, concept text and entries are all empty the reply is the not-found message |
| SearchMerge.ExpandSynonyms | mcp_server.py:704-719 | the lookup's group when it finds one, otherwise the keyword alone |
| SearchMerge.Clause | mcp_server.py:729-735 | a clause is parenthesised exactly when the synonym list has more than one entry, and otherwise is the quoted token |
| SearchMerge.Clauses | mcp_server.py:728-736 | one clause per token, in order |
| SearchMerge.QueryRendered | mcp_server.py:722-736 | the AND query is the rendering of its clause pieces, whose quoted words are every token or synonym in order |
| SearchMerge.FtsQueryWords | mcp_server.py:722-736 | reading the quoted words of the AND query gives, token by token, the synonyms (or the token alone) |
| Quoting.UnquoteRender | mcp_server.py:732-735 | reading a rendering of bare and quoted pieces gives back exactly the quoted words, when neither holds a quote character |
| Quoting.AlternativesJoin | mcp_server.py:732 | joining quoted words with a separator renders the alternatives, whose quoted words are those words |
| Quoting.PhraseQuery | database/db_manager.py:151-152 | the phrase query is wrapped in double quotes |
| Quoting.PhraseRoundTrip | database/db_manager.py:151-152 | inside the quotes every quote comes paired, and undoubling gives back the raw query |
| Quoting.EscapeRoundTrip | database/db_manager.py:151 | doubling quotes is undone by undoubling them, and leaves only paired quotes |
| QueryRewriter.AliasTitles | query_rewriter.py:39-47 | the titles found are exactly those of the laws in force that have the query as an alias |
| QueryRewriter.TitleAliases | query_rewriter.py:51-59 | the aliases found are exactly those of the laws titled the query |
| QueryRewriter.CanonicalOf | query_rewriter.py:64-67 | the first canonical term of a synonym row for the query, and none exactly when no row has the query as its term |
| QueryRewriter.TermsOf | query_rewriter.py:72-75 | the terms found are exactly those whose canonical term is the query |
| QueryRewriter.AddAll | query_rewriter.py:46-75 | adding to a set without repetition yields the union, still without repetition |
| QueryRewriter.Expanded | query_rewriter.py:29-75 | the expansion holds the stripped query and exactly the results of the four lookups for it, each once, with no lookup applied to another's result |
| QueryRewriter.ExpandQueryPlain | query_rewriter.py:25-90 | empty input gives ""; a failed lookup, a query with a space, or a query with no other term gives the stripped query, unquoted |
| QueryRewriter.SortedTerms | query_rewriter.py:88 | sorting keeps the terms and puts them in non-increasing length |
| QueryRewriter.OrQueryWords | query_rewriter.py:93-94 | reading the quoted words of the OR query gives the terms without their quote characters |
| QueryRewriter.ExpandQueryTerms | query_rewriter.py:85-94 | otherwise the result is an OR of quoted words: every expansion term once, quotes removed, longest first |
| CrawlerText.CollapseProps | crawler/base_crawler.py:143 | collapsing replaces every whitespace run by exactly one space: the result is the words of the input joined by single spaces, with one space in front when the input starts with whitespace and one behind when it ends with whitespace after a word |
| CrawlerText.CleanText | crawler/base_crawler.py:138-145 | the output is the whitespace-separated words of the input joined by single spaces, so empty or all-space input gives "" and the output has no edge whitespace |
| CrawlerText.CleanTextIdempotent | crawler/base_crawler.py:138-145 | cleaning a cleaned text changes nothing |
| CrawlerText.FirstMatch | crawler/base_crawler.py:189 | `re.search` finds the leftmost position where the pattern matches |
| CrawlerText.Pad | crawler/base_crawler.py:196 | a zero-padded decimal of the number, exactly the width when the number fits |
| CrawlerText.TryPatterns | crawler/base_crawler.py:188-198 | the loop returns nothing exactly when no pattern from the current one on has a first match that is a valid date; otherwise it returns the date of the first such pattern, written YYYY-MM-DD, and a pattern whose first match is no date passes on to the next |
| CrawlerText.ExtractDate | crawler/base_crawler.py:177-200 | empty input gives `None`; otherwise `None` exactly when every pattern fails, and a date comes from the first pattern, in the order 年月日, '-', '.', '/', whose first match is a valid date |
| CrawlerText.ExtractDateFallsThrough | crawler/base_crawler.py:188-198 | in "2023-13-01 2023/1/2" the '-' pattern finds month 13, which is no date, and the '/' pattern gives "2023-01-02" |
| CrawlerText.NoSeparator | crawler/base_crawler.py:181-189 | a pattern cannot match a text without its first separator |
| CrawlerText.ExtractDateRoundTrip | crawler/base_crawler.py:181-196 | a formatted valid date is read back as itself |
| CrawlerText.ExtractDateIdempotent | crawler/base_crawler.py:177-200 | extracting from an extracted date gives it again |
| Ingestion.LastDated | process_downloads.py:84 | the greedy `(.+)` ends at the last position followed by `_<8 digits>.docx` |
| Ingestion.Stem | process_downloads.py:89 | the stem is the name without its last extension, or the whole name |
| Ingestion.ParseFileName | process_downloads.py:84-90 | a dated name gives the longest title on the first line that `_<8 digits>.docx` follows (no later position on that line starts such a suffix) and the date as YYYY-MM-DD; any other name gives the stem and "Unknown" |
| Ingestion.ParseDatedName | process_downloads.py:84-87 | `<title>_<date>.docx` gives back that title and date |
| Ingestion.SearchFrom | process_downloads.py:110 | a found group is non-empty, within one line, and enclosed by the pattern's text in the title; none means no match anywhere |
| Ingestion.AmendFrom | process_downloads.py:109-114 | the first pattern that matches sets the flag and the base title; no match gives 0 and none |
| Ingestion.Amendment | process_downloads.py:99-114 | the flag is 1 exactly when a base title is found; the base title is the group of the first pattern, in the order tried, that matches, and every earlier pattern finds nothing; it is non-empty, on one line, and enclosed in the title by that pattern's delimiters |
| Ingestion.DecisionAmends | process_downloads.py:104-114 | 关于修改《X》的决定 is an amendment of X, for any non-empty one-line X, so 关于修改《Y修正案》的决定 gives Y修正案: the first pattern decides before the 修正案 pattern is tried |
| Ingestion.ActAmends | process_downloads.py:107-114 | X修正案… without 《 or 〈 is an amendment of X |
| Ingestion.NoAmendment | process_downloads.py:99-114 | a title with none of the patterns' marks is not an amendment |
| Ingestion.FindKey | process_downloads.py:95-97 | the first row with the key, or none when no row has it |
| Ingestion.ProcessFileEffect | process_downloads.py:94-125 | the file ends recorded with its status and amendment columns; a new key appends exactly the inserted row; a known key changes only the status and amendment columns of its first row; rows without the key are unchanged; validity is kept |
| Ingestion.ProcessFileIdempotent | process_downloads.py:94-125 | processing the same file again changes nothing |
| Ingestion.ProcessZipRecords | process_downloads.py:82-126 | every file of the archive ends recorded, at most one row is added per file, and key uniqueness is kept |
| Ingestion.StaysRecordedAll | process_downloads.py:82-126 | a record of the same category and status survives processing further files |
| Ingestion.Zips | process_downloads.py:153-159 | the archives of a folder are exactly its names ending in .zip |
| Ingestion.FolderJobs | process_downloads.py:157-160 | every archive in a sub-folder is processed with the sub-folder's name as its status |
| Ingestion.CategoryJobsStatus | process_downloads.py:148-160 | an archive is processed in a category exactly when it lies at the category root with status 有效, or in a sub-folder whose name is its status |
| Ingestion.RunJobsFrom | process_downloads.py:139-160 | the jobs of a run are exactly those of its category folders |
| AliasSeeding.EntryRows | migrations/005_fix_and_expand.py:161-164 | an entry proposes each listed alias different from the title, as an abbreviation at 0.9 |
| AliasSeeding.AbbrevRows | migrations/005_fix_and_expand.py:160-164 | the abbreviations proposed are those of every key contained in the title |
| AliasSeeding.ProposalsAre | migrations/005_fix_and_expand.py:76-164 | a row is proposed exactly when it is a law in force's short name (prefix removed, 0.95) or one of its abbreviations |
| AliasSeeding.ProposalsShortFirst | migrations/005_fix_and_expand.py:81-164 | a short-name proposal always precedes an abbreviation of the same pair, and proposals name laws of the input |
| AliasSeeding.AcceptSound | migrations/005_fix_and_expand.py:166-183 | accepted rows are proposals, not present before and accepted by the database, each pair once |
| AliasSeeding.AcceptComplete | migrations/005_fix_and_expand.py:166-183 | every proposal the database accepts ends with its pair present |
| AliasSeeding.DistinctPairsCount | migrations/005_fix_and_expand.py:172-181 | rows with distinct pairs count as many pairs as rows |
| AliasSeeding.ExpandAliases | migrations/005_fix_and_expand.py:166-183 | the table is only appended to, and the count is the number appended |
| AliasSeeding.ExpandAliasesEffect | migrations/005_fix_and_expand.py:71-183 | every new row is an accepted proposal with a new pair, none twice; the count is the number of new pairs; every accepted proposal's pair ends present |
| AliasSeeding.ShortNameWins | migrations/005_fix_and_expand.py:81-181 | when the short name is accepted, the 0.9 abbreviation with the same pair is never inserted |
| AliasSeeding.CriminalLawShortName | migrations/005_fix_and_expand.py:83-181 | 中华人民共和国刑法 keeps 刑法 as its short name, and the 刑法 abbreviation is not inserted |
| NpcExtract.ExtractArticles | crawler/npc_crawler.py:184-203 | articles are numbered 1, 2, 3 in match order, their number is 第 + a class numeral + 条, and each body is stripped and holds no marker; these clauses alone do not tie the articles to the text, which `ExtractLayout` does |
| NpcExtract.HeadNeedsSpace | crawler/npc_crawler.py:188 | no article starts where 条 is followed by a non-space, such as 之一 |
| NpcExtract.InsertedArticleLost | crawler/npc_crawler.py:188-193 | in any text, an inserted article 第X条之一 starts no match and lies inside no extracted body, so its text is in no article |
| NpcExtract.ScanLayout | crawler/npc_crawler.py:188-190 | the regex finds one match per line of a law laid out one article per line |
| NpcExtract.ExtractLayout | crawler/npc_crawler.py:184-203 | a law laid out one article per line is read back exactly, numbered from 1 |
| NpcExtract.ZeroOutsideClass | crawler/npc_crawler.py:188 | article 101 is written 一百零一, and 零 is outside the class as written |
| NpcExtract.ZeroMergesArticles | crawler/npc_crawler.py:188 | with the class as written, articles 100 and 101 laid out in turn come out as one article 100 whose body swallows article 101 |
| NpcExtract.ZeroCorrected | crawler/npc_crawler.py:188 | with 零 in the class, the same text reads back as articles 100 and 101 |

## Left out

- The network, Selenium, HTML parsing, Streamlit and CLI glue, and the DDL and
  backfill migrations other than `expand_aliases`. SQLite FTS5 ranking,
  `snippet`, jieba segmentation and the vector store are left out too. The
  FTS, vector and fallback result rows are inputs to the merge.
- The connection pool, `lru_cache`, the preload threads and the vector
  search thread. They can change which rows and lookups reach the merge:
  - a vector search still running when `t.join(timeout=10.0)` returns
    contributes no rows (mcp_server.py:536-544);
  - the cached resolvers (mcp_server.py:121, 151, 164) keep answering from
    the table as it was until `clear_caches` runs (mcp_server.py:1283-1290).

  The model takes those rows and lookups as inputs, so its merge and format
  contracts hold for whatever arrives, stale or missing rows included.
- The `cn2an` library path of the numeral converter. Only the built-in
  fallback is modelled. The fallback never raises, so the "0 on failure"
  branch of `_parse_article_number_input` is unreachable in the model.
- DOCX text extraction and zip extraction. A file is a name plus its
  content, and an archive is a list of files in the order `glob` returns
  them, which is left unspecified. The FTS rebuild after each archive is not
  modelled.
- Python's set iteration order in `expand_query`. It is replaced by
  insertion order, and the contracts state only what holds for every order:
  which terms appear, and non-increasing length.
- SQLite ties after `ORDER BY`. The alias resolver picks a maximal row,
  and the contracts state only maximality.
- The concept lookup of `resolve_concept_cached` (mcp_server.py:189-241):
  for each candidate, the exact `law_topics` match, then the synonym match,
  and finally the fuzzy `LIKE` match with `LIMIT 10`. Only its candidate
  list (`ConceptSearch.ConceptCandidates`) is modelled. The hits it returns,
  ordered by `t.relevance DESC` with SQLite's order among equal relevances,
  are an input to `ConceptSearch.FormatConceptResults`, as the FTS, vector
  and fallback rows are an input to the merge.
- `LIKE '%q%'` is a plain substring test. ASCII case folding and the `%` and
  `_` wildcards inside the query are left out.
- `\d`, `str.isdigit` and `int()` accept ASCII digits only. Unicode digits
  are left out.
- `strftime('%Y')` is modelled for years 1..9999, zero-padded to four
  digits.
- The integrity check of an alias insert is a caller-supplied predicate on
  the row. The `law_aliases` schema is not part of this model.
- `NULL` columns are absent: a missing base title is `None`, and every other
  column is a string.
- Law ids are assumed unique where a law is looked up by id, as the primary
  key makes them.
- The `inline_articles` path of `format_concept_results` takes the stored
  full texts as a map from law id to text. `get_law_by_id` is not modelled.
- The optional nearest-sibling pick, the `batch_verify_citations` check and
  the RRF fusion are not modelled.
- Confidences and relevances are exact reals (`real`), not Python or SQLite
  floats. The scaled confidence `la.confidence * 0.9` is an exact product,
  and its float rounding, which could reorder or tie near-equal rows, is
  ignored.
- The emoji and Markdown decoration of the tools' replies. `Answer`, `Parts`
  and `LawStructure` model the structure of a reply, not its text.
- ConceptSearch.View: the three-item cap on topics and hints is stated on
  `Head3`, not on the joined string a view shows.
- NpcExtract.InsertedArticleLost: the extractor as written drops inserted
  articles such as 第三条之一. The lemma states that loss for every text.
  Whether such an article was meant to be its own entry or part of article
  3 is not evident, so no corrected pattern is modelled.
- Numerals.Cn2anRender: the round trip is stated for 1..9999, the range
  `Render` covers. Larger numbers, which need 万, are not rendered.

## Findings

| source | as written | input that shows it | evidently intended | confidence | as-written member | corrected member |
|---|---|---|---|---|---|---|
| crawler/npc_crawler.py:188 | the numeral class `[一二三四五六七八九十百千\d]` has no 零, so 第一百零一条 is not a marker | "第一百条 甲。\n第一百零一条 乙。" | articles 100 and 101 come out separately, as they do for every number without a gap | not executed | NpcExtract.ZeroMergesArticles | NpcExtract.ZeroCorrected |

Both extractors share one definition, `NpcExtract.ExtractArticles`. It is
parameterised by the numeral class: `AsWritten` is the class in the code, and
`WithZero` adds 零. `NpcExtract.ExtractLayout` proves the intended property
for the class with 零: any law laid out one article per line is read back
exactly. `NpcExtract.ZeroOutsideClass` shows that the rendering of article
101 needs 零.

=== FILE: alias_resolver.dfy ===
/** `resolve_law_alias_cached(query)` of the MCP server over an in-memory
    copy of the `law_aliases` and `laws` tables: the best exact alias of a
    law in force, and only when there is none, the best alias containing
    the query, its confidence scaled by 0.9. */
module AliasResolver {
  import opened Strings
  import opened Catalog

  /** A row of the join: `(l.id, l.title, confidence)` and the publish date
      it is ranked by. */
  datatype Hit = Hit(id: int, title: string, confidence: real, date: string)

  /** The two queries: `la.alias = ?` and `la.alias LIKE '%query%'`. */
  datatype Mode = Exact | Like

  predicate Matches(mode: Mode, alias: string, query: string) {
    match mode
    case Exact => alias == query
    case Like => Find(alias, query)
  }

  /** The confidence a query reports: as stored, or `la.confidence * 0.9`. */
  function Scale(mode: Mode): real {
    if mode == Exact then 1.0 else 0.9
  }

  /** An alias row joins a law in force and matches the query. */
  predicate Qualifies(row: AliasRow, laws: seq<Law>, query: string, mode: Mode) {
    && LawOf(laws, row.lawId).Some?
    && LawOf(laws, row.lawId).value.status == InForce
    && Matches(mode, row.alias, query)
  }

  function HitOf(row: AliasRow, laws: seq<Law>, mode: Mode): Hit
    requires LawOf(laws, row.lawId).Some?
  {
    var law := LawOf(laws, row.lawId).value;
    Hit(law.id, law.title, row.confidence * Scale(mode), law.publishDate)
  }

  /** The rows a query returns before ordering, in alias-table order. */
  function Hits(aliases: seq<AliasRow>, laws: seq<Law>, query: string, mode: Mode): (r: seq<Hit>)
    ensures forall h :: h in r <==>
              exists k :: 0 <= k < |aliases| && Qualifies(aliases[k], laws, query, mode)
                          && h == HitOf(aliases[k], laws, mode)
  {
    if |aliases| == 0 then []
    else
      var rest := Hits(aliases[1..], laws, query, mode);
      assert forall k :: 1 <= k < |aliases| ==> aliases[k] == aliases[1..][k - 1];
      if Qualifies(aliases[0], laws, query, mode) then [HitOf(aliases[0], laws, mode)] + rest
      else rest
  }

  /** `ORDER BY confidence DESC, publish_date DESC`: `a` sorts before `b`. */
  predicate Ahead(a: Hit, b: Hit) {
    a.confidence > b.confidence || (a.confidence == b.confidence && StrLess(b.date, a.date))
  }

  /** Not sorting ahead is transitive, so the first row of the ordering is
      well defined up to ties. */
  lemma NotAheadTrans(x: Hit, y: Hit, z: Hit)
    requires !Ahead(x, y) && !Ahead(y, z)
    ensures !Ahead(x, z)
  {
    if x.confidence == y.confidence && y.confidence == z.confidence {
      if x.date != y.date {
        StrLessTotal(x.date, y.date);
      }
      if y.date != z.date {
        StrLessTotal(y.date, z.date);
      }
      if StrLess(z.date, x.date) {
        if x.date == y.date {
        } else if y.date == z.date {
        } else {
          StrLessTrans(x.date, y.date, z.date);
          StrLessTrans(z.date, x.date, y.date);
          StrLessIrreflexive(y.date);
        }
      }
    }
  }

  /** Nothing in `hits` sorts ahead of `h`. */
  predicate Top(h: Hit, hits: seq<Hit>) {
    forall x :: x in hits ==> !Ahead(x, h)
  }

  /** `LIMIT 1` after the ordering: the first row that nothing sorts ahead of. */
  function Best(hits: seq<Hit>): (r: Option<Hit>)
    ensures r.None? <==> |hits| == 0
    ensures r.Some? ==> r.value in hits && Top(r.value, hits)
  {
    if |hits| == 0 then None
    else
      var b := BestFrom(hits[0], hits[1..]);
      assert hits == [hits[0]] + hits[1..];
      Some(b)
  }

  function BestFrom(cur: Hit, rest: seq<Hit>): (r: Hit)
    ensures r == cur || r in rest
    ensures Top(r, [cur] + rest)
    decreases |rest|
  {
    if |rest| == 0 then
      StrLessIrreflexive(cur.date);
      cur
    else
      var next := if Ahead(rest[0], cur) then rest[0] else cur;
      var r := BestFrom(next, rest[1..]);
      BestFromStep(cur, rest, next, r);
      r
  }

  lemma BestFromStep(cur: Hit, rest: seq<Hit>, next: Hit, r: Hit)
    requires |rest| > 0 && next == (if Ahead(rest[0], cur) then rest[0] else cur)
    requires Top(r, [next] + rest[1..])
    ensures Top(r, [cur] + rest)
  {
    assert !Ahead(next, r) by { assert next in [next] + rest[1..]; }
    forall x | x in [cur] + rest ensures !Ahead(x, r) {
      if x in rest[1..] {
        assert x in [next] + rest[1..];
      } else if x == cur {
        if next == rest[0] {
          if Ahead(cur, r) {
            AheadTrans(rest[0], cur, r);
          }
        }
      } else {
        assert x == rest[0];
        if next == cur {
          NotAheadTrans(x, cur, r);
        }
      }
    }
  }

  lemma AheadTrans(a: Hit, b: Hit, c: Hit)
    requires Ahead(a, b) && Ahead(b, c)
    ensures Ahead(a, c)
  {
    if a.confidence == b.confidence && b.confidence == c.confidence {
      StrLessTrans(c.date, b.date, a.date);
    }
  }

  /** `resolve_law_alias_cached(query)`: `None` is the empty result. */
  function Resolve(aliases: seq<AliasRow>, laws: seq<Law>, query: string): (r: Option<Hit>)
    ensures var exact := Hits(aliases, laws, query, Exact);
            |exact| > 0 ==> r.Some? && r.value in exact && Top(r.value, exact)
    ensures var exact, like := Hits(aliases, laws, query, Exact), Hits(aliases, laws, query, Like);
            |exact| == 0 ==> (r.Some? <==> |like| > 0) && (r.Some? ==> r.value in like && Top(r.value, like))
  {
    match Best(Hits(aliases, laws, query, Exact))
    case Some(h) => Some(h)
    case None => Best(Hits(aliases, laws, query, Like))
  }

  /** The alias query finds something exactly when some alias of a law in
      force contains the query: an exact alias contains it too. */
  lemma ResolveFindsIff(aliases: seq<AliasRow>, laws: seq<Law>, query: string)
    ensures Resolve(aliases, laws, query).Some?
            <==> exists k :: 0 <= k < |aliases| && Qualifies(aliases[k], laws, query, Like)
  {
    var exact, like := Hits(aliases, laws, query, Exact), Hits(aliases, laws, query, Like);
    if |exact| > 0 {
      assert exact[0] in exact;
      var k :| 0 <= k < |aliases| && Qualifies(aliases[k], laws, query, Exact)
               && exact[0] == HitOf(aliases[k], laws, Exact);
      assert OccursAt(aliases[k].alias, query, 0);
      assert Qualifies(aliases[k], laws, query, Like);
    }
    if exists k :: 0 <= k < |aliases| && Qualifies(aliases[k], laws, query, Like) {
      var k :| 0 <= k < |aliases| && Qualifies(aliases[k], laws, query, Like);
      assert HitOf(aliases[k], laws, Like) in like;
    }
  }

  /** A substring hit never displaces an exact one: whenever some alias of a
      law in force equals the query, the answer carries an unscaled
      confidence of such an alias. */
  lemma ExactWins(aliases: seq<AliasRow>, laws: seq<Law>, query: string, k: nat)
    requires k < |aliases| && Qualifies(aliases[k], laws, query, Exact)
    ensures var r := Resolve(aliases, laws, query);
            r.Some? && exists j :: 0 <= j < |aliases| && aliases[j].alias == query
                                 && Qualifies(aliases[j], laws, query, Exact)
                                 && r.value.confidence == aliases[j].confidence
                                 && r.value.confidence >= aliases[k].confidence
  {
    var exact := Hits(aliases, laws, query, Exact);
    assert HitOf(aliases[k], laws, Exact) in exact;
    var r := Resolve(aliases, laws, query).value;
    assert r in exact;
    var j :| 0 <= j < |aliases| && Qualifies(aliases[j], laws, query, Exact)
             && r == HitOf(aliases[j], laws, Exact);
    assert !Ahead(HitOf(aliases[k], laws, Exact), r);
  }
}

=== FILE: alias_seeding.dfy ===
/** The alias seeding of the fifth migration: short-name and abbreviation
    aliases proposed for every law in force, inserted unless the
    (alias, law id) pair is already present. */
module AliasSeeding {
  import opened Strings
  import opened Catalog

  const Prefix: string := "中华人民共和国"
  const ShortName: string := "short_name"
  const Abbreviation: string := "abbreviation"
  const ShortConfidence: real := 0.95
  const AbbrevConfidence: real := 0.9

  /** A key of the abbreviation table and the aliases it proposes. */
  datatype Abbrev = Abbrev(key: string, aliases: seq<string>)

  /** The abbreviation table, in its order. */
  const AbbrevMap: seq<Abbrev> := [
    Abbrev("民法典", ["民法典"]),
    Abbrev("刑法", ["刑法"]),
    Abbrev("公司法", ["公司法"]),
    Abbrev("劳动法", ["劳动法"]),
    Abbrev("劳动合同法", ["劳动合同法", "劳合法"]),
    Abbrev("民事诉讼法", ["民事诉讼法", "民诉法"]),
    Abbrev("刑事诉讼法", ["刑事诉讼法", "刑诉法"]),
    Abbrev("行政诉讼法", ["行政诉讼法", "行诉法"]),
    Abbrev("行政处罚法", ["行政处罚法"]),
    Abbrev("行政许可法", ["行政许可法"]),
    Abbrev("行政强制法", ["行政强制法"]),
    Abbrev("行政复议法", ["行政复议法"]),
    Abbrev("治安管理处罚法", ["治安管理处罚法", "治安处罚法"]),
    Abbrev("个人所得税法", ["个人所得税法", "个税法"]),
    Abbrev("企业所得税法", ["企业所得税法", "企税法"]),
    Abbrev("增值税法", ["增值税法"]),
    Abbrev("消费者权益保护法", ["消费者权益保护法", "消保法", "消费者保护法"]),
    Abbrev("反不正当竞争法", ["反不正当竞争法", "反不正当竞争"]),
    Abbrev("反垄断法", ["反垄断法"]),
    Abbrev("合伙企业法", ["合伙企业法"]),
    Abbrev("个人独资企业法", ["个人独资企业法"]),
    Abbrev("证券法", ["证券法"]),
    Abbrev("保险法", ["保险法"]),
    Abbrev("银行业监督管理法", ["银行业监管法"]),
    Abbrev("商业银行法", ["商业银行法"]),
    Abbrev("票据法", ["票据法"]),
    Abbrev("担保法", ["担保法"]),
    Abbrev("合同法", ["合同法"]),
    Abbrev("物权法", ["物权法"]),
    Abbrev("婚姻法", ["婚姻法"]),
    Abbrev("继承法", ["继承法"]),
    Abbrev("侵权责任法", ["侵权责任法"]),
    Abbrev("著作权法", ["著作权法"]),
    Abbrev("专利法", ["专利法"]),
    Abbrev("商标法", ["商标法"]),
    Abbrev("环境保护法", ["环境保护法", "环保法"]),
    Abbrev("土地管理法", ["土地管理法"]),
    Abbrev("城乡规划法", ["城乡规划法"]),
    Abbrev("建筑法", ["建筑法"]),
    Abbrev("道路交通安全法", ["道路交通安全法", "交通安全法", "道交法"]),
    Abbrev("食品安全法", ["食品安全法"]),
    Abbrev("药品管理法", ["药品管理法"]),
    Abbrev("安全生产法", ["安全生产法"]),
    Abbrev("网络安全法", ["网络安全法"]),
    Abbrev("数据安全法", ["数据安全法"]),
    Abbrev("个人信息保护法", ["个人信息保护法", "个保法"]),
    Abbrev("电子商务法", ["电子商务法", "电商法"]),
    Abbrev("招标投标法", ["招标投标法", "招投标法"]),
    Abbrev("政府采购法", ["政府采购法"]),
    Abbrev("仲裁法", ["仲裁法"]),
    Abbrev("人民调解法", ["人民调解法"]),
    Abbrev("国家赔偿法", ["国家赔偿法"]),
    Abbrev("监察法", ["监察法"]),
    Abbrev("法官法", ["法官法"]),
    Abbrev("检察官法", ["检察官法"]),
    Abbrev("律师法", ["律师法"]),
    Abbrev("公证法", ["公证法"]),
    Abbrev("传染病防治法", ["传染病防治法"]),
    Abbrev("民族区域自治法", ["民族区域自治法"]),
    Abbrev("选举法", ["选举法"]),
    Abbrev("突发事件应对法", ["突发事件应对法"]),
    Abbrev("未成年人保护法", ["未成年人保护法", "未保法"]),
    Abbrev("妇女权益保障法", ["妇女权益保障法"]),
    Abbrev("老年人权益保障法", ["老年人权益保障法"]),
    Abbrev("残疾人保障法", ["残疾人保障法"]),
    Abbrev("慈善法", ["慈善法"]),
    Abbrev("社会保险法", ["社会保险法", "社保法"]),
    Abbrev("工会法", ["工会法"])
  ]

  predicate StartsWith(s: string, p: string) {
    |p| <= |s| && s[..|p|] == p
  }

  // ---------------------------------------------------------------------
  // Proposals

  /** The title without the 中华人民共和国 prefix, at confidence 0.95. */
  function ShortRows(l: Law): (r: seq<AliasRow>)
  {
    if StartsWith(l.title, Prefix) then [AliasRow(l.title[|Prefix|..], l.id, ShortName, ShortConfidence)] else []
  }

  /** The aliases of one entry other than the title itself. */
  function EntryRows(l: Law, aliases: seq<string>): (r: seq<AliasRow>)
    ensures forall row :: row in r <==> exists a :: a in aliases && a != l.title && row == AliasRow(a, l.id, Abbreviation, AbbrevConfidence)
  {
    if |aliases| == 0 then []
    else (if aliases[0] != l.title then [AliasRow(aliases[0], l.id, Abbreviation, AbbrevConfidence)] else [])
         + EntryRows(l, aliases[1..])
  }

  /** The abbreviations of every entry whose key occurs in the title, at
      confidence 0.9. */
  function AbbrevRows(l: Law, entries: seq<Abbrev>): (r: seq<AliasRow>)
    ensures forall row :: row in r <==> exists e, a :: e in entries && Contains(l.title, e.key) && a in e.aliases
                                          && a != l.title && row == AliasRow(a, l.id, Abbreviation, AbbrevConfidence)
  {
    if |entries| == 0 then []
    else (if Find(l.title, entries[0].key) then EntryRows(l, entries[0].aliases) else [])
         + AbbrevRows(l, entries[1..])
  }

  /** What one law proposes: its short name first, then its
      abbreviations. */
  function LawRows(l: Law, entries: seq<Abbrev>): seq<AliasRow>
  {
    ShortRows(l) + AbbrevRows(l, entries)
  }

  /** The proposals of the laws in force, law by law. */
  function Proposals(laws: seq<Law>, entries: seq<Abbrev>): seq<AliasRow>
  {
    if |laws| == 0 then []
    else (if laws[0].status == InForce then LawRows(laws[0], entries) else []) + Proposals(laws[1..], entries)
  }

  /** A row a law in force proposes. */
  ghost predicate Proposed(laws: seq<Law>, entries: seq<Abbrev>, row: AliasRow) {
    exists l :: l in laws && l.status == InForce && Proposes(l, entries, row)
  }

  ghost predicate Proposes(l: Law, entries: seq<Abbrev>, row: AliasRow) {
    || (StartsWith(l.title, Prefix) && row == AliasRow(l.title[|Prefix|..], l.id, ShortName, ShortConfidence))
    || exists e, a :: e in entries && Contains(l.title, e.key) && a in e.aliases && a != l.title
                      && row == AliasRow(a, l.id, Abbreviation, AbbrevConfidence)
  }

  /** The proposals are exactly the short names and abbreviations of the
      laws in force. */
  lemma {:induction false} ProposalsAre(laws: seq<Law>, entries: seq<Abbrev>, row: AliasRow)
    ensures row in Proposals(laws, entries) <==> Proposed(laws, entries, row)
    decreases |laws|
  {
    if |laws| > 0 {
      ProposalsAre(laws[1..], entries, row);
      var l := laws[0];
      assert forall m :: m in laws <==> m == l || m in laws[1..];
      assert row in LawRows(l, entries) <==> Proposes(l, entries, row) by {
        assert row in LawRows(l, entries) <==> row in ShortRows(l) || row in AbbrevRows(l, entries);
      }
    }
  }

  // ---------------------------------------------------------------------
  // Insertion

  function Pair(row: AliasRow): (string, int) {
    (row.alias, row.lawId)
  }

  /** The (alias, law id) pairs of a table. */
  function Pairs(table: seq<AliasRow>): set<(string, int)> {
    set row | row in table :: Pair(row)
  }

  /** The proposals inserted, in order: a proposal is skipped when its
      pair is already present, and when the database refuses it with an
      integrity error (`rejects`), in which case its pair stays free for a
      later proposal. */
  function Accept(existing: set<(string, int)>, props: seq<AliasRow>, rejects: AliasRow -> bool): seq<AliasRow>
    decreases |props|
  {
    if |props| == 0 then []
    else if Pair(props[0]) !in existing && !rejects(props[0]) then
      [props[0]] + Accept(existing + {Pair(props[0])}, props[1..], rejects)
    else Accept(existing, props[1..], rejects)
  }

  predicate DistinctPairs(rows: seq<AliasRow>) {
    forall i, j :: 0 <= i < j < |rows| ==> Pair(rows[i]) != Pair(rows[j])
  }

  /** Every row inserted is a proposal the database accepts whose pair
      was free, and no pair is inserted twice. */
  lemma {:induction false} AcceptSound(existing: set<(string, int)>, props: seq<AliasRow>, rejects: AliasRow -> bool)
    ensures var r := Accept(existing, props, rejects);
            && (forall k :: 0 <= k < |r| ==> r[k] in props && Pair(r[k]) !in existing && !rejects(r[k]))
            && DistinctPairs(r)
    decreases |props|
  {
    if |props| > 0 {
      var p := props[0];
      if Pair(p) !in existing && !rejects(p) {
        var e := existing + {Pair(p)};
        AcceptSound(e, props[1..], rejects);
        var t := Accept(e, props[1..], rejects);
        assert Accept(existing, props, rejects) == [p] + t;
        forall k | 0 <= k < |t| ensures t[k] in props {
          assert t[k] in props[1..];
        }
      } else {
        AcceptSound(existing, props[1..], rejects);
        var t := Accept(existing, props[1..], rejects);
        forall k | 0 <= k < |t| ensures t[k] in props {
          assert t[k] in props[1..];
        }
      }
    }
  }

  /** Every proposal ends with its pair present, unless the database
      refused it. */
  lemma {:induction false} AcceptComplete(existing: set<(string, int)>, props: seq<AliasRow>, rejects: AliasRow -> bool)
    ensures forall i :: 0 <= i < |props| && !rejects(props[i]) ==>
              Pair(props[i]) in existing + Pairs(Accept(existing, props, rejects))
    decreases |props|
  {
    if |props| > 0 {
      var p := props[0];
      var r := Accept(existing, props, rejects);
      if Pair(p) !in existing && !rejects(p) {
        var e := existing + {Pair(p)};
        AcceptComplete(e, props[1..], rejects);
        var t := Accept(e, props[1..], rejects);
        assert r == [p] + t;
        assert Pairs(r) == {Pair(p)} + Pairs(t);
      } else {
        AcceptComplete(existing, props[1..], rejects);
      }
      forall i | 1 <= i < |props| && !rejects(props[i])
        ensures Pair(props[i]) in existing + Pairs(r)
      {
        assert props[i] == props[1..][i - 1];
      }
    }
  }

  /** The first proposal of a pair that the database accepts is the one
      inserted: a later, different proposal of the same pair is not. */
  lemma {:induction false} AcceptEarliest(existing: set<(string, int)>, props: seq<AliasRow>, rejects: AliasRow -> bool, i: nat, j: nat)
    requires i < j < |props| && Pair(props[i]) == Pair(props[j]) && props[i] != props[j]
    requires !rejects(props[i])
    requires forall m :: 0 <= m < i && Pair(props[m]) == Pair(props[i]) ==> rejects(props[m])
    ensures props[j] !in Accept(existing, props, rejects)
    decreases i
  {
    var p := props[0];
    var r := Accept(existing, props, rejects);
    if i == 0 {
      if Pair(p) !in existing {
        var e := existing + {Pair(p)};
        AcceptSound(e, props[1..], rejects);
        assert r == [p] + Accept(e, props[1..], rejects);
      } else {
        AcceptSound(existing, props, rejects);
      }
    } else {
      assert props[j] == props[1..][j - 1] && props[i] == props[1..][i - 1];
      var e := if Pair(p) !in existing && !rejects(p) then existing + {Pair(p)} else existing;
      assert r == (if e == existing then [] else [p]) + Accept(e, props[1..], rejects);
      AcceptEarliest(e, props[1..], rejects, i - 1, j - 1);
    }
  }

  // ---------------------------------------------------------------------
  // The short name before the abbreviations

  /** A short name comes before every abbreviation with its pair. */
  predicate ShortFirst(props: seq<AliasRow>) {
    forall i, j ::
      (0 <= i < |props| && 0 <= j < |props| && props[i].aliasType == ShortName
       && props[j].aliasType == Abbreviation && Pair(props[i]) == Pair(props[j])) ==> i < j
  }

  lemma LawRowsShortFirst(l: Law, entries: seq<Abbrev>)
    ensures ShortFirst(LawRows(l, entries))
    ensures forall row :: row in LawRows(l, entries) ==> row.lawId == l.id
  {
    var a := AbbrevRows(l, entries);
    assert forall k :: 0 <= k < |a| ==> a[k] in a;
  }

  lemma {:induction false} ProposalsShortFirst(laws: seq<Law>, entries: seq<Abbrev>)
    requires forall i, j :: 0 <= i < j < |laws| ==> laws[i].id != laws[j].id
    ensures ShortFirst(Proposals(laws, entries))
    ensures forall row :: row in Proposals(laws, entries) ==> exists l :: l in laws && l.id == row.lawId
    decreases |laws|
  {
    if |laws| > 0 {
      var l := laws[0];
      var head := if l.status == InForce then LawRows(l, entries) else [];
      var tail := Proposals(laws[1..], entries);
      ProposalsShortFirst(laws[1..], entries);
      LawRowsShortFirst(l, entries);
      assert forall m :: m in laws[1..] ==> m in laws;
      forall m | m in laws[1..] ensures m.id != l.id {
        var k :| 0 <= k < |laws[1..]| && laws[1..][k] == m;
        assert laws[k + 1] == m;
      }
      assert Proposals(laws, entries) == head + tail;
      ShortFirstConcat(head, tail);
    }
  }

  lemma ShortFirstConcat(head: seq<AliasRow>, tail: seq<AliasRow>)
    requires ShortFirst(head) && ShortFirst(tail)
    requires forall a, b :: a in head && b in tail ==> Pair(a) != Pair(b)
    ensures ShortFirst(head + tail)
  {
    var all := head + tail;
    forall a, b | |head| <= a < |all| && 0 <= b < |head| ensures Pair(all[a]) != Pair(all[b]) {
      assert all[a] == tail[a - |head|] && all[a] in tail;
      assert all[b] == head[b] && all[b] in head;
    }
    forall i, j | 0 <= i < |all| && 0 <= j < |all| && all[i].aliasType == ShortName
                  && all[j].aliasType == Abbreviation && Pair(all[i]) == Pair(all[j])
      ensures i < j
    {
      if i < |head| && j < |head| {
        assert head[i] == all[i] && head[j] == all[j];
      } else if i >= |head| && j >= |head| {
        assert tail[i - |head|] == all[i] && tail[j - |head|] == all[j];
      }
    }
  }

  /** `expand_aliases`: the table with the accepted proposals appended,
      and the number inserted. */
  datatype Seeded = Seeded(table: seq<AliasRow>, inserted: nat)

  /** The migration's step, with the abbreviation table above; the
      properties below hold for any table of entries. */
  function Seed(table: seq<AliasRow>, laws: seq<Law>, rejects: AliasRow -> bool): Seeded {
    ExpandAliases(table, laws, AbbrevMap, rejects)
  }

  function ExpandAliases(table: seq<AliasRow>, laws: seq<Law>, entries: seq<Abbrev>, rejects: AliasRow -> bool): (r: Seeded)
    ensures |table| <= |r.table| && r.table[..|table|] == table
    ensures r.inserted == |r.table| - |table|
  {
    var added := Accept(Pairs(table), Proposals(laws, entries), rejects);
    assert (table + added)[..|table|] == table;
    Seeded(table + added, |added|)
  }

  /** The seeding only appends: each new row is a proposal of a law in
      force that the database accepts, whose pair was not present and is
      not added twice, so the count is the number of new pairs; and every
      accepted proposal ends with its pair present. */
  lemma ExpandAliasesEffect(table: seq<AliasRow>, laws: seq<Law>, entries: seq<Abbrev>, rejects: AliasRow -> bool)
    ensures var r := ExpandAliases(table, laws, entries, rejects);
            var added := r.table[|table|..];
            && (forall k :: 0 <= k < |added| ==> Proposed(laws, entries, added[k]) && Pair(added[k]) !in Pairs(table) && !rejects(added[k]))
            && DistinctPairs(added)
            && r.inserted == |Pairs(r.table) - Pairs(table)|
            && (forall row :: Proposed(laws, entries, row) && !rejects(row) ==> Pair(row) in Pairs(r.table))
  {
    var props := Proposals(laws, entries);
    var added := Accept(Pairs(table), props, rejects);
    var r := ExpandAliases(table, laws, entries, rejects);
    assert r.table[|table|..] == added;
    AcceptSound(Pairs(table), props, rejects);
    AcceptComplete(Pairs(table), props, rejects);
    forall k | 0 <= k < |added| ensures Proposed(laws, entries, added[k]) {
      ProposalsAre(laws, entries, added[k]);
    }
    forall row | Proposed(laws, entries, row) && !rejects(row) ensures Pair(row) in Pairs(r.table) {
      ProposalsAre(laws, entries, row);
      var i :| 0 <= i < |props| && props[i] == row;
      assert Pairs(r.table) == Pairs(table) + Pairs(added);
    }
    assert Pairs(r.table) - Pairs(table) == Pairs(added);
    DistinctPairsCount(added);
  }

  lemma {:induction false} DistinctPairsCount(rows: seq<AliasRow>)
    requires DistinctPairs(rows)
    ensures |Pairs(rows)| == |rows|
    decreases |rows|
  {
    if |rows| > 0 {
      var t := rows[1..];
      DistinctPairsCount(t);
      assert Pairs(rows) == {Pair(rows[0])} + Pairs(t);
      assert Pair(rows[0]) !in Pairs(t);
    }
  }

  /** A law's short name beats an abbreviation with the same text: when
      the database accepts the short name, the 0.9 abbreviation of that
      pair is never inserted. */
  lemma ShortNameWins(table: seq<AliasRow>, laws: seq<Law>, entries: seq<Abbrev>, rejects: AliasRow -> bool, short: AliasRow, abbrev: AliasRow)
    requires forall i, j :: 0 <= i < j < |laws| ==> laws[i].id != laws[j].id
    requires short in Proposals(laws, entries) && abbrev in Proposals(laws, entries)
    requires short.aliasType == ShortName && abbrev.aliasType == Abbreviation && Pair(short) == Pair(abbrev)
    requires !rejects(short)
    ensures abbrev !in ExpandAliases(table, laws, entries, rejects).table[|table|..]
  {
    var props := Proposals(laws, entries);
    ProposalsShortFirst(laws, entries);
    var i :| 0 <= i < |props| && props[i] == short;
    var j :| 0 <= j < |props| && props[j] == abbrev;
    var i0 := FirstAccepted(props, rejects, Pair(short), i);
    assert i0 < j;
    assert props[i0] != abbrev;
    AcceptEarliest(Pairs(table), props, rejects, i0, j);
    var r := ExpandAliases(table, laws, entries, rejects);
    assert r.table[|table|..] == Accept(Pairs(table), props, rejects);
  }

  /** The first proposal of `pair` the database accepts. */
  function FirstAccepted(props: seq<AliasRow>, rejects: AliasRow -> bool, pair: (string, int), i: nat): (m: nat)
    requires i < |props| && Pair(props[i]) == pair && !rejects(props[i])
    ensures m <= i && Pair(props[m]) == pair && !rejects(props[m])
    ensures forall k :: 0 <= k < m && Pair(props[k]) == pair ==> rejects(props[k])
  {
    FirstFrom(props, rejects, pair, i, 0)
  }

  function FirstFrom(props: seq<AliasRow>, rejects: AliasRow -> bool, pair: (string, int), i: nat, m: nat): (r: nat)
    requires m <= i < |props| && Pair(props[i]) == pair && !rejects(props[i])
    requires forall k :: 0 <= k < m && Pair(props[k]) == pair ==> rejects(props[k])
    ensures m <= r <= i && Pair(props[r]) == pair && !rejects(props[r])
    ensures forall k :: 0 <= k < r && Pair(props[k]) == pair ==> rejects(props[k])
    decreases i - m
  {
    if Pair(props[m]) == pair && !rejects(props[m]) then m else FirstFrom(props, rejects, pair, i, m + 1)
  }

  /** 中华人民共和国刑法 proposes 刑法 twice, as its short name and, through
      the table's 刑法 entry, as an abbreviation; the seeding keeps the
      short name's pair and never inserts the abbreviation. */
  lemma CriminalLawShortName(table: seq<AliasRow>, l: Law, entries: seq<Abbrev>, rejects: AliasRow -> bool)
    requires l.title == "中华人民共和国刑法" && l.status == InForce
    requires Abbrev("刑法", ["刑法"]) in entries
    requires !rejects(AliasRow("刑法", l.id, ShortName, ShortConfidence))
    ensures var added := ExpandAliases(table, [l], entries, rejects).table[|table|..];
            AliasRow("刑法", l.id, Abbreviation, AbbrevConfidence) !in added
    ensures ("刑法", l.id) in Pairs(ExpandAliases(table, [l], entries, rejects).table)
  {
    var short := AliasRow("刑法", l.id, ShortName, ShortConfidence);
    var abbrev := AliasRow("刑法", l.id, Abbreviation, AbbrevConfidence);
    assert l.title[|Prefix|..] == "刑法";
    assert Proposes(l, entries, short);
    var e := Abbrev("刑法", ["刑法"]);
    assert OccursAt(l.title, e.key, 7);
    assert "刑法" in e.aliases;
    assert Proposes(l, entries, abbrev);
    ProposalsAre([l], entries, short);
    ProposalsAre([l], entries, abbrev);
    ShortNameWins(table, [l], entries, rejects, short, abbrev);
    ExpandAliasesEffect(table, [l], entries, rejects);
  }
}

=== FILE: article_extract.dfy ===
/** Pulling articles out of a law's full text in the MCP server: by
    article hints such as "第535-537条,第540条" (`_extract_articles_by_hints`),
    by keyword (`_extract_articles_by_keyword`), and reading a user's
    article number (`_parse_article_number_input`).  Both extractors cut the
    text with `re.split(r'(第[零一二三四五六七八九十百千万]+条)', content)`. */
module ArticleExtract {
  import opened Strings
  import opened Numerals
  import opened Seqs

  // ---------------------------------------------------------------------
  // Cutting the text at article markers

  /** End of the run of numerals starting at `p`. */
  function RunEnd(s: string, p: nat): (q: nat)
    requires p <= |s|
    ensures p <= q <= |s|
    ensures q < |s| ==> !IsNumeral(s[q])
    decreases |s| - p
  {
    if p < |s| && IsNumeral(s[p]) then RunEnd(s, p + 1) else p
  }

  /** Length of a `第[零一二三四五六七八九十百千万]+条` match starting at `i`. */
  function MarkerAt(s: string, i: nat): Option<nat> {
    if i < |s| && s[i] == '第' then
      var q := RunEnd(s, i + 1);
      if q > i + 1 && q < |s| && s[q] == '条' then Some(q + 1 - i) else None
    else None
  }

  /** A match is 第, at least one numeral, and 条, inside the text. */
  lemma MarkerBounds(s: string, i: nat)
    requires MarkerAt(s, i).Some?
    ensures i + MarkerAt(s, i).value <= |s| && MarkerAt(s, i).value >= 3
    ensures s[i] == '第' && s[i + MarkerAt(s, i).value - 1] == '条'
  {
  }

  /** The run of numerals in a slice ends where it ends in the whole text,
      unless the slice ends first. */
  lemma {:induction false} RunEndSlice(s: string, a: nat, b: nat, p: nat)
    requires a <= b <= |s| && p <= b - a
    ensures RunEnd(s[a..b], p) == (if RunEnd(s, a + p) <= b then RunEnd(s, a + p) - a else b - a)
    decreases b - a - p
  {
    if p < b - a {
      assert s[a..b][p] == s[a + p];
      RunEndSlice(s, a, b, p + 1);
    }
  }

  /** Where the leftmost marker at or after `i` starts (`|s|` if none). */
  function NextMarker(s: string, i: nat): (j: nat)
    requires i <= |s|
    ensures i <= j <= |s|
    ensures j < |s| ==> MarkerAt(s, j).Some?
    ensures NoMarker(s, i, j)
    decreases |s| - i
  {
    if i == |s| then |s|
    else if MarkerAt(s, i).Some? then i
    else NextMarker(s, i + 1)
  }

  /** No match starts in `[i, j)`. */
  predicate NoMarker(s: string, i: nat, j: nat)
    decreases j - i
  {
    i >= j || (MarkerAt(s, i).None? && NoMarker(s, i + 1, j))
  }

  lemma {:induction false} NoMarkerAt(s: string, i: nat, j: nat, p: nat)
    requires NoMarker(s, i, j) && i <= p < j
    ensures MarkerAt(s, p).None?
    decreases p - i
  {
    if p > i {
      NoMarkerAt(s, i + 1, j, p);
    }
  }

  /** A marker and the text up to the next marker: `splits[i]` and
      `splits[i + 1]` for odd `i`. */
  datatype Segment = Segment(marker: string, body: string)

  function SegmentsFrom(s: string, i: nat): (r: seq<Segment>)
    requires i <= |s| && (i < |s| ==> MarkerAt(s, i).Some?)
    decreases |s| - i
  {
    if i == |s| then []
    else
      MarkerBounds(s, i);
      var e := i + MarkerAt(s, i).value;
      var j := NextMarker(s, e);
      [Segment(s[i..e], s[e..j])] + SegmentsFrom(s, j)
  }

  /** The marker/body pairs of `re.split` with the capturing group; the
      text before the first marker is dropped. */
  function Segments(s: string): seq<Segment> {
    SegmentsFrom(s, NextMarker(s, 0))
  }

  function Glue(segs: seq<Segment>): string {
    if |segs| == 0 then "" else segs[0].marker + segs[0].body + Glue(segs[1..])
  }

  /** Cutting loses nothing: the text before the first marker followed by
      every marker and body gives back the text. */
  lemma SegmentsCover(s: string)
    ensures s == s[..NextMarker(s, 0)] + Glue(Segments(s))
  {
    var i := NextMarker(s, 0);
    SegmentsFromCover(s, i);
    assert s == s[..i] + s[i..];
  }

  lemma {:induction false} SegmentsFromCover(s: string, i: nat)
    requires i <= |s| && (i < |s| ==> MarkerAt(s, i).Some?)
    ensures Glue(SegmentsFrom(s, i)) == s[i..]
    decreases |s| - i
  {
    if i < |s| {
      MarkerBounds(s, i);
      var e := i + MarkerAt(s, i).value;
      var j := NextMarker(s, e);
      SegmentsFromStep(s, i);
      var segs, rest := SegmentsFrom(s, i), SegmentsFrom(s, j);
      assert segs == [Segment(s[i..e], s[e..j])] + rest;
      SegmentsFromCover(s, j);
      GlueStep(s, i, e, j, rest);
      assert Glue(segs) == s[i..];
    }
  }

  lemma SegmentsFromStep(s: string, i: nat)
    requires i < |s| && MarkerAt(s, i).Some?
    ensures i + MarkerAt(s, i).value <= |s|
    ensures var e := i + MarkerAt(s, i).value;
            var j := NextMarker(s, e);
            SegmentsFrom(s, i) == [Segment(s[i..e], s[e..j])] + SegmentsFrom(s, j)
  {
    MarkerBounds(s, i);
  }

  lemma GlueStep(s: string, i: nat, e: nat, j: nat, rest: seq<Segment>)
    requires i <= e <= j <= |s| && Glue(rest) == s[j..]
    ensures Glue([Segment(s[i..e], s[e..j])] + rest) == s[i..]
  {
    var segs := [Segment(s[i..e], s[e..j])] + rest;
    assert segs[0] == Segment(s[i..e], s[e..j]) && segs[1..] == rest;
    assert s[i..] == s[i..e] + s[e..j] + s[j..];
  }

  /** Every marker is a whole match, and no body holds another match. */
  predicate WellCut(seg: Segment) {
    && MarkerAt(seg.marker, 0) == Some(|seg.marker|)
    && forall p :: 0 <= p < |seg.body| ==> MarkerAt(seg.body, p).None?
  }

  lemma {:induction false} SegmentsWellCut(s: string, i: nat)
    requires i <= |s| && (i < |s| ==> MarkerAt(s, i).Some?)
    ensures forall k :: 0 <= k < |SegmentsFrom(s, i)| ==> WellCut(SegmentsFrom(s, i)[k])
    decreases |s| - i
  {
    if i < |s| {
      MarkerBounds(s, i);
      var e := i + MarkerAt(s, i).value;
      var j := NextMarker(s, e);
      SegmentsFromStep(s, i);
      var segs, rest := SegmentsFrom(s, i), SegmentsFrom(s, j);
      SegmentsWellCut(s, j);
      SegmentWellCut(s, i, e, j);
      AllWellCut(Segment(s[i..e], s[e..j]), rest, segs);
    }
  }

  /** The first segment cut at a marker is well cut. */
  lemma SegmentWellCut(s: string, i: nat, e: nat, j: nat)
    requires MarkerAt(s, i).Some? && e == i + MarkerAt(s, i).value
    requires e <= |s| && j == NextMarker(s, e)
    ensures WellCut(Segment(s[i..e], s[e..j]))
  {
    MarkerOwn(s, i, e, s[i..e]);
    BodyClean(s, e, j);
    WellCutOf(s[i..e], s[e..j]);
  }

  /** The text of a match is a match of its own, whole length. */
  lemma MarkerOwn(s: string, i: nat, e: nat, m: string)
    requires MarkerAt(s, i).Some? && e == i + MarkerAt(s, i).value && e <= |s| && m == s[i..e]
    ensures MarkerAt(m, 0) == Some(|m|)
  {
    MarkerWhole(s, i);
  }

  lemma WellCutOf(m: string, body: string)
    requires MarkerAt(m, 0) == Some(|m|)
    requires forall p :: 0 <= p < |body| ==> MarkerAt(body, p).None?
    ensures WellCut(Segment(m, body))
  {
  }

  /** A stretch with no marker start holds no marker of its own. */
  lemma BodyClean(s: string, e: nat, j: nat)
    requires e <= j <= |s| && NoMarker(s, e, j)
    ensures forall p :: 0 <= p < |s[e..j]| ==> MarkerAt(s[e..j], p).None?
  {
    forall p | 0 <= p < j - e ensures MarkerAt(s[e..j], p).None? {
      if MarkerAt(s[e..j], p).Some? {
        MarkerLocal(s, e, j, p);
        NoMarkerAt(s, e, j, e + p);
      }
    }
  }

  lemma AllWellCut(seg: Segment, rest: seq<Segment>, segs: seq<Segment>)
    requires segs == [seg] + rest
    requires WellCut(seg) && forall k :: 0 <= k < |rest| ==> WellCut(rest[k])
    ensures forall k :: 0 <= k < |segs| ==> WellCut(segs[k])
  {
    forall k | 0 <= k < |segs| ensures WellCut(segs[k]) {
      if k > 0 {
        assert segs[k] == rest[k - 1];
      }
    }
  }

  /** A marker found in a slice is a marker of the whole text, of the same
      length: the numeral run stops at the same 条. */
  lemma MarkerLocal(s: string, a: nat, b: nat, p: nat)
    requires a <= b <= |s| && p < b - a
    requires MarkerAt(s[a..b], p).Some?
    ensures MarkerAt(s, a + p) == MarkerAt(s[a..b], p)
  {
    RunEndSlice(s, a, b, p + 1);
    assert s[a..b][p] == s[a + p];
    var q := RunEnd(s[a..b], p + 1);
    assert s[a..b][q] == s[a + q];
  }

  /** A marker of the whole text is a marker of its own slice. */
  lemma MarkerWhole(s: string, a: nat)
    requires MarkerAt(s, a).Some? && a + MarkerAt(s, a).value <= |s|
    ensures MarkerAt(s[a..a + MarkerAt(s, a).value], 0) == MarkerAt(s, a)
  {
    var b := a + MarkerAt(s, a).value;
    RunEndSlice(s, a, b, 1);
    assert s[a..b][0] == s[a];
    assert s[a..b][b - 1 - a] == s[b - 1];
  }

  // ---------------------------------------------------------------------
  // One extracted article

  /** `text[:n] + "..."` when the text is longer than `n` characters. */
  function Cap(text: string, n: nat): (r: string)
    ensures |r| <= n + 3
    ensures |text| <= n ==> r == text
    ensures |text| > n ==> |r| == n + 3 && r[..n] == text[..n]
  {
    if |text| > n then text[..n] + "..." else text
  }

  /** `(article_num_str + body).strip()`, capped at `n` characters. */
  function Piece(seg: Segment, n: nat): string {
    Cap(Strip(seg.marker + seg.body), n)
  }

  /** A piece cut at a marker starts with that marker's 第. */
  lemma PieceStart(seg: Segment, n: nat)
    requires |seg.marker| > 0 && seg.marker[0] == '第' && n > 0
    ensures |Piece(seg, n)| > 0 && Piece(seg, n)[0] == '第'
  {
    var t := seg.marker + seg.body;
    assert t[0] == '第';
    StripKeepsStart(t);
  }

  // ---------------------------------------------------------------------
  // _extract_articles_by_hints

  /** What one comma-separated part of the hints asks for. */
  datatype Hint = Single(n: int) | Range(lo: int, hi: int) | Unreadable

  /** A part is stripped and loses every 第 and 条 (`Cleaned`); with a "-"
      it must split into exactly two integers and stands for
      `range(start, end + 1)`, otherwise it must be one integer.  A
      `ValueError` asks for nothing. */
  function HintOf(part: string): Hint {
    HintOfCleaned(Cleaned(part))
  }

  function Cleaned(part: string): string {
    RemoveChar(RemoveChar(Strip(part), '第'), '条')
  }

  function HintOfCleaned(t: string): Hint {
    if '-' in t then
      var ends := Split(t, '-');
      if |ends| == 2 && PyInt(ends[0]).Some? && PyInt(ends[1]).Some? then
        Range(PyInt(ends[0]).value, PyInt(ends[1]).value)
      else Unreadable
    else
      match PyInt(t)
      case Some(n) => Single(n)
      case None => Unreadable
  }

  /** `第<x>条`, with no whitespace at its ends, cleans to `x`. */
  lemma CleanedWrapped(x: string)
    requires '第' !in x && '条' !in x
    ensures Cleaned("第" + x + "条") == x
  {
    var part := "第" + x + "条";
    assert part[0] == '第' && part[|part| - 1] == '条';
    StripOfClean(part);
    UnwrappedMarker(x);
  }

  lemma UnwrappedMarker(x: string)
    requires '第' !in x && '条' !in x
    ensures RemoveChar(RemoveChar("第" + x + "条", '第'), '条') == x
  {
    Unwrapped(x, "");
    assert "第" + x + "条" + "" == "第" + x + "条" && x + "" == x;
  }

  predicate Wanted(h: Hint, n: int) {
    match h
    case Single(m) => n == m
    case Range(lo, hi) => lo <= n <= hi
    case Unreadable => false
  }

  /** The parts of the hints, a full-width comma counting as a comma. */
  function HintParts(hints: string): seq<string> {
    Split(ReplaceChar(hints, '，', ','), ',')
  }

  function Hints(parts: seq<string>): seq<Hint> {
    Map(HintOf, parts)
  }

  /** `n in target_nums` */
  predicate Targeted(hs: seq<Hint>, n: int) {
    exists k :: 0 <= k < |hs| && Wanted(hs[k], n)
  }

  predicate Nonempty(h: Hint) {
    h.Single? || (h.Range? && h.lo <= h.hi)
  }

  /** `target_nums` is not empty, decided without building it. */
  predicate AnyTarget(hs: seq<Hint>) {
    exists k :: 0 <= k < |hs| && Nonempty(hs[k])
  }

  /** The emptiness test agrees with the set it stands for. */
  lemma AnyTargetIff(hs: seq<Hint>)
    ensures AnyTarget(hs) <==> exists n :: Targeted(hs, n)
  {
    if AnyTarget(hs) {
      var k :| 0 <= k < |hs| && Nonempty(hs[k]);
      var n := if hs[k].Single? then hs[k].n else hs[k].lo;
      assert Wanted(hs[k], n);
      assert Targeted(hs, n);
    }
    if exists n :: Targeted(hs, n) {
      var n :| Targeted(hs, n);
      var k :| 0 <= k < |hs| && Wanted(hs[k], n);
      assert Nonempty(hs[k]);
    }
  }

  /** `int(part)` reads back a plain article number. */
  lemma HintOfSingle(n: nat)
    ensures HintOf("第" + NatToString(n) + "条") == Single(n)
  {
    var d := NatToString(n);
    assert '第' !in d && '条' !in d && '-' !in d;
    CleanedWrapped(d);
    PyIntOfNatToString(n);
  }

  /** A range of article numbers reads back as that range. */
  lemma HintOfRange(a: nat, b: nat)
    ensures HintOf("第" + NatToString(a) + "-" + NatToString(b) + "条") == Range(a, b)
  {
    var x, y := NatToString(a), NatToString(b);
    var t := x + "-" + y;
    assert "第" + x + "-" + y + "条" == "第" + t + "条";
    assert '第' !in t && '条' !in t by {
      assert forall i :: 0 <= i < |t| ==> t[i] == '-' || IsAsciiDigit(t[i]);
    }
    CleanedWrapped(t);
    RangeCleaned(a, b);
  }

  lemma RangeCleaned(a: nat, b: nat)
    ensures HintOfCleaned(NatToString(a) + "-" + NatToString(b)) == Range(a, b)
  {
    var x, y := NatToString(a), NatToString(b);
    assert '-' !in x && '-' !in y;
    assert (x + "-" + y)[|x|] == '-';
    RangeEnds(x, y);
    PyIntOfNatToString(a);
    PyIntOfNatToString(b);
  }

  lemma RangeEnds(x: string, y: string)
    requires '-' !in x && '-' !in y
    ensures Split(x + "-" + y, '-') == [x, y]
  {
    SplitConcat(x, '-', y);
    SplitWithout(x, '-');
    SplitWithout(y, '-');
  }

  /** Removing 第 and 条 from `第<x>条<y>` leaves `x + y` when neither holds them. */
  lemma Unwrapped(x: string, y: string)
    requires '第' !in x && '条' !in x && '第' !in y && '条' !in y
    ensures RemoveChar(RemoveChar("第" + x + "条" + y, '第'), '条') == x + y
  {
    assert "第" + x + "条" + y == ['第'] + x + ['条'] + y;
    RemoveWrapped('第', x, '条', y);
  }

  lemma ReplaceCharConcat(x: string, y: string, a: char, b: char)
    requires a != ','
    ensures ReplaceChar(x + "," + y, a, b) == ReplaceChar(x, a, b) + "," + ReplaceChar(y, a, b)
  {
    var s := x + "," + y;
    var l := ReplaceChar(s, a, b);
    var rx, ry := ReplaceChar(x, a, b), ReplaceChar(y, a, b);
    var r := rx + "," + ry;
    assert |l| == |r|;
    forall i | 0 <= i < |l| ensures l[i] == r[i] {
      if i < |x| {
        assert s[i] == x[i] && r[i] == rx[i];
      } else if i == |x| {
        assert s[i] == ',' && r[i] == ',';
      } else {
        assert s[i] == y[i - |x| - 1] && r[i] == ry[i - |x| - 1];
      }
    }
  }

  /** A comma joins the wishes of its two sides: the targets of `x,y` are
      the targets of `x` together with those of `y`. */
  lemma HintsComma(x: string, y: string, n: int)
    ensures Targeted(Hints(HintParts(x + "," + y)), n)
            <==> Targeted(Hints(HintParts(x)), n) || Targeted(Hints(HintParts(y)), n)
  {
    HintPartsComma(x, y);
    MapConcat(HintOf, HintParts(x), HintParts(y));
    TargetedConcat(Hints(HintParts(x)), Hints(HintParts(y)), n);
  }

  lemma HintPartsComma(x: string, y: string)
    ensures HintParts(x + "," + y) == HintParts(x) + HintParts(y)
  {
    ReplaceCharConcat(x, y, '，', ',');
    var x', y' := ReplaceChar(x, '，', ','), ReplaceChar(y, '，', ',');
    assert x' + "," + y' == x' + [','] + y';
    SplitConcat(x', ',', y');
  }

  lemma TargetedConcat(hx: seq<Hint>, hy: seq<Hint>, n: int)
    ensures Targeted(hx + hy, n) <==> Targeted(hx, n) || Targeted(hy, n)
  {
    var h := hx + hy;
    if Targeted(h, n) {
      var k :| 0 <= k < |h| && Wanted(h[k], n);
      if k < |hx| {
        assert Wanted(hx[k], n);
      } else {
        assert Wanted(hy[k - |hx|], n);
      }
    }
    if Targeted(hx, n) {
      var k :| 0 <= k < |hx| && Wanted(hx[k], n);
      assert h[k] == hx[k];
    }
    if Targeted(hy, n) {
      var k :| 0 <= k < |hy| && Wanted(hy[k], n);
      assert h[|hx| + k] == hy[k];
    }
  }

  /** The article number of a marker: `cn2an_convert` of the marker with 第
      and 条 removed. */
  function MarkerNumber(marker: string): nat {
    Cn2an(RemoveChar(RemoveChar(marker, '第'), '条'))
  }

  /** The pieces of the segments whose number the hints ask for, in text
      order. */
  function HintPieces(segs: seq<Segment>, hs: seq<Hint>): (r: seq<string>)
    ensures |r| <= |segs|
    ensures forall k :: 0 <= k < |r| ==> |r[k]| <= 503
  {
    if |segs| == 0 then []
    else
      var h, t := Picked(segs[0], hs), HintPieces(segs[1..], hs);
      BoundedConcat(h, t, 503);
      h + t
  }

  /** The piece of one segment when the hints ask for its number. */
  function Picked(seg: Segment, hs: seq<Hint>): (r: seq<string>)
    ensures |r| <= 1
    ensures forall k :: 0 <= k < |r| ==> |r[k]| <= 503
  {
    if Targeted(hs, MarkerNumber(seg.marker)) then [Piece(seg, 500)] else []
  }

  lemma BoundedConcat(h: seq<string>, t: seq<string>, n: nat)
    requires forall k :: 0 <= k < |h| ==> |h[k]| <= n
    requires forall k :: 0 <= k < |t| ==> |t[k]| <= n
    ensures forall k :: 0 <= k < |h + t| ==> |(h + t)[k]| <= n
  {
    forall k | 0 <= k < |h + t| ensures |(h + t)[k]| <= n {
      if k < |h| {
        assert (h + t)[k] == h[k];
      } else {
        assert (h + t)[k] == t[k - |h|];
      }
    }
  }

  /** Whether the hints ask for a segment's article number. */
  function AskedFor(hs: seq<Hint>): Segment -> bool {
    (seg: Segment) => Targeted(hs, MarkerNumber(seg.marker))
  }

  /** A segment's piece, capped at 500 characters. */
  function Capped(seg: Segment): string {
    Piece(seg, 500)
  }

  lemma {:induction false} HintPiecesKeepMap(segs: seq<Segment>, hs: seq<Hint>)
    ensures HintPieces(segs, hs) == KeepMap(segs, AskedFor(hs), Capped)
  {
    if |segs| > 0 {
      HintPiecesKeepMap(segs[1..], hs);
    }
  }

  /** The hint pieces are exactly the capped segments whose number some
      hint asks for, in text order: a segment is returned if and only if
      it is asked for. */
  lemma HintPiecesSelects(segs: seq<Segment>, hs: seq<Hint>)
    ensures var sel := Chosen(segs, AskedFor(hs), |segs|);
            && HintPieces(segs, hs) == At(segs, Capped, sel)
            && forall i :: 0 <= i < |segs| ==> (i in sel <==> Targeted(hs, MarkerNumber(segs[i].marker)))
  {
    HintPiecesKeepMap(segs, hs);
    KeepMapSelects(segs, AskedFor(hs), Capped);
    ChosenExactly(segs, AskedFor(hs), |segs|);
  }

  /** `_extract_articles_by_hints(content, hints_str)` */
  function ExtractByHints(content: string, hints: string): (r: string)
    ensures content == [] || hints == [] ==> r == []
    ensures !(exists n :: Targeted(Hints(HintParts(hints)), n)) ==> r == []
    ensures content != [] && hints != [] && (exists n :: Targeted(Hints(HintParts(hints)), n)) ==>
              var segs := Segments(content);
              r == Join(At(segs, Capped, Chosen(segs, AskedFor(Hints(HintParts(hints))), |segs|)), "\n\n")
  {
    if content == [] || hints == [] then ""
    else
      var hs := Hints(HintParts(hints));
      AnyTargetIff(hs);
      if !AnyTarget(hs) then ""
      else
        HintPiecesSelects(Segments(content), hs);
        Join(HintPieces(Segments(content), hs), "\n\n")
  }

  // ---------------------------------------------------------------------
  // A text holding one article

  lemma {:induction false} RunEndOver(s: string, p: nat, q: nat)
    requires p <= q < |s| && !IsNumeral(s[q])
    requires forall k :: p <= k < q ==> IsNumeral(s[k])
    ensures RunEnd(s, p) == q
    decreases q - p
  {
    if p < q {
      RunEndOver(s, p + 1, q);
    }
  }

  lemma {:induction false} NextMarkerNone(s: string, i: nat)
    requires i <= |s|
    requires forall p :: i <= p < |s| ==> s[p] != '第'
    ensures NextMarker(s, i) == |s|
    decreases |s| - i
  {
    if i < |s| {
      NextMarkerNone(s, i + 1);
    }
  }

  /** The numerals `x` between 第 and 条 make one marker at the start. */
  lemma MarkerOfNumerals(x: string, body: string)
    requires |x| > 0 && forall k :: 0 <= k < |x| ==> IsNumeral(x[k])
    ensures MarkerAt("第" + x + "条" + body, 0) == Some(|x| + 2)
  {
    var s := "第" + x + "条" + body;
    assert s[|x| + 1] == '条';
    forall k | 1 <= k < |x| + 1 ensures IsNumeral(s[k]) {
      assert s[k] == x[k - 1];
    }
    RunEndOver(s, 1, |x| + 1);
  }

  /** A text that is one marker and a body without 第 cuts into exactly one
      segment. */
  lemma SegmentsOfOne(x: string, body: string)
    requires |x| > 0 && forall k :: 0 <= k < |x| ==> IsNumeral(x[k])
    requires '第' !in body
    ensures Segments("第" + x + "条" + body) == [Segment("第" + x + "条", body)]
  {
    var s := "第" + x + "条" + body;
    var e := |x| + 2;
    MarkerOfNumerals(x, body);
    assert NextMarker(s, 0) == 0;
    assert forall p :: e <= p < |s| ==> s[p] == body[p - e];
    NextMarkerNone(s, e);
    SegmentsFromStep(s, 0);
    assert s[0..e] == "第" + x + "条" && s[e..|s|] == body;
  }

  /** Hints with neither kind of comma are a single part. */
  lemma OnePart(h: string)
    requires ',' !in h && '，' !in h
    ensures HintParts(h) == [h]
  {
    assert ReplaceChar(h, '，', ',') == h;
    IndexOfIsFirst(h, ',', |h|);
    SplitWithout(h, ',');
  }

  /** The number of a marker written with the rendered numerals. */
  lemma MarkerNumberRendered(n: nat)
    requires 1 <= n <= 9999
    ensures MarkerNumber("第" + Render(n) + "条") == n
  {
    var x := Render(n);
    assert '第' !in x && '条' !in x by {
      assert forall k :: 0 <= k < |x| ==> IsNumeral(x[k]);
    }
    UnwrappedMarker(x);
    Cn2anRender(n);
  }

  /** Hints naming one article number ask for that number alone. */
  lemma HintsOfOne(m: nat)
    ensures Hints(HintParts("第" + NatToString(m) + "条")) == [Single(m)]
  {
    var h := "第" + NatToString(m) + "条";
    assert ',' !in h && '，' !in h by {
      assert forall k :: 0 <= k < |NatToString(m)| ==> IsAsciiDigit(NatToString(m)[k]);
    }
    OnePart(h);
    HintOfSingle(m);
  }

  lemma TargetedSingle(m: int, n: int)
    ensures AnyTarget([Single(m)])
    ensures Targeted([Single(m)], n) <==> m == n
  {
    var hs := [Single(m)];
    assert Nonempty(hs[0]);
    if m == n {
      assert Wanted(hs[0], n);
    }
  }

  lemma HintPiecesOne(seg: Segment, hs: seq<Hint>)
    ensures HintPieces([seg], hs)
            == (if Targeted(hs, MarkerNumber(seg.marker)) then [Piece(seg, 500)] else [])
  {
    assert [seg][1..] == [];
    assert HintPieces([seg], hs) == Picked(seg, hs) + HintPieces([], hs);
  }

  /** Asking by hint for article `m` of a text holding article `n` returns
      that article, capped, exactly when `m == n`, and nothing otherwise. */
  lemma ExtractOneArticle(n: nat, body: string, m: nat)
    requires 1 <= n <= 9999 && '第' !in body
    ensures var text := "第" + Render(n) + "条" + body;
            ExtractByHints(text, "第" + NatToString(m) + "条")
            == (if m == n then Cap(Strip(text), 500) else "")
  {
    var x := Render(n);
    var text := "第" + x + "条" + body;
    var marker := "第" + x + "条";
    HintsOfOne(m);
    TargetedSingle(m, n);
    SegmentsOfOne(x, body);
    MarkerNumberRendered(n);
    HintPiecesOne(Segment(marker, body), [Single(m)]);
    assert marker + body == text;
  }

  // ---------------------------------------------------------------------
  // _extract_articles_by_keyword

  /** `match_terms`: the keyword, then, for a keyword longer than three
      characters, its suffixes of lengths 3 up to `len - 1`. */
  function MatchTerms(keyword: string): seq<string> {
    [keyword] + (if |keyword| > 3 then Tails(keyword, 3) else [])
  }

  /** The suffixes of `k` of lengths `l .. |k| - 1` that differ from `k`. */
  function Tails(k: string, l: nat): seq<string>
    requires l <= |k|
    decreases |k| - l
  {
    if l == |k| then []
    else
      var sub := k[|k| - l..];
      (if sub != k then [sub] else []) + Tails(k, l + 1)
  }

  /** `any(term in body for term in terms)` */
  function AnyIn(body: string, terms: seq<string>): (b: bool)
    ensures b <==> exists t :: t in terms && Contains(body, t)
  {
    if |terms| == 0 then false
    else
      assert forall t :: t in terms <==> t == terms[0] || t in terms[1..];
      Find(body, terms[0]) || AnyIn(body, terms[1..])
  }

  /** The shortest term: the last three characters of a longer keyword. */
  function CoreTerm(keyword: string): string {
    if |keyword| > 3 then keyword[|keyword| - 3..] else keyword
  }

  /** Every term ends the keyword and is at least `l` long. */
  lemma {:induction false} TailsAreSuffixes(k: string, l: nat)
    requires l <= |k|
    ensures forall t :: t in Tails(k, l) ==> l <= |t| < |k| && t == k[|k| - |t|..]
    decreases |k| - l
  {
    if l < |k| {
      var sub, rest := k[|k| - l..], Tails(k, l + 1);
      TailsAreSuffixes(k, l + 1);
      assert Tails(k, l) == (if sub != k then [sub] else []) + rest;
      forall t | t in Tails(k, l) ensures l <= |t| < |k| && t == k[|k| - |t|..] {
        if t !in rest {
          assert t == sub && |sub| == l;
        }
      }
    }
  }

  lemma SuffixHasCore(k: string, t: string)
    requires 3 <= |t| <= |k| && t == k[|k| - |t|..]
    ensures Contains(t, k[|k| - 3..])
  {
    assert t[|t| - 3..] == k[|k| - 3..];
    assert OccursAt(t, k[|k| - 3..], |t| - 3);
  }

  /** Trying the suffixes adds nothing beyond the last three characters: a
      body matches some term exactly when it contains `CoreTerm`. */
  lemma MatchTermsCore(keyword: string, body: string)
    ensures AnyIn(body, MatchTerms(keyword)) <==> Contains(body, CoreTerm(keyword))
  {
    var terms := MatchTerms(keyword);
    var core := CoreTerm(keyword);
    if |keyword| > 3 {
      TailsAreSuffixes(keyword, 3);
      assert Tails(keyword, 3)[0] == core;
      assert core in terms;
      forall t | t in terms && Contains(body, t) ensures Contains(body, core) {
        SuffixHasCore(keyword, t);
        ContainsTrans(body, t, core);
      }
    } else {
      assert terms == [keyword];
    }
  }

  /** The capped pieces of the segments whose body matches a term. */
  function Mentioning(segs: seq<Segment>, terms: seq<string>): seq<string>
  {
    FlatMap(MentionedIn(terms), segs)
  }

  function MentionedIn(terms: seq<string>): Segment -> seq<string> {
    seg => Mentioned(seg, terms)
  }

  /** At most one piece per segment, each at most 400 characters and the
      ellipsis. */
  lemma {:induction false} MentioningBounds(segs: seq<Segment>, terms: seq<string>)
    ensures var r := Mentioning(segs, terms);
            |r| <= |segs| && forall k :: 0 <= k < |r| ==> |r[k]| <= 403
    decreases |segs|
  {
    if |segs| > 0 {
      MentioningBounds(segs[1..], terms);
      var h := Mentioned(segs[0], terms);
      var t := Mentioning(segs[1..], terms);
      assert MentionedIn(terms)(segs[0]) == h;
      assert Mentioning(segs, terms) == h + t;
      forall k | 0 <= k < |h + t| ensures |(h + t)[k]| <= 403 {
        if k < |h| {
          assert (h + t)[k] == h[k];
        } else {
          assert (h + t)[k] == t[k - |h|];
        }
      }
    }
  }

  /** The capped piece of one segment, when its body matches a term. */
  function Mentioned(seg: Segment, terms: seq<string>): (r: seq<string>)
    ensures |r| <= 1
    ensures forall k :: 0 <= k < |r| ==> |r[k]| <= 403
  {
    if AnyIn(seg.body, terms) then [Piece(seg, 400)] else []
  }

  lemma MentioningConcat(a: seq<Segment>, b: seq<Segment>, terms: seq<string>)
    ensures Mentioning(a + b, terms) == Mentioning(a, terms) + Mentioning(b, terms)
  {
    FlatMapConcat(MentionedIn(terms), a, b);
  }

  lemma MentioningSnoc(segs: seq<Segment>, i: nat, terms: seq<string>)
    requires i < |segs|
    ensures Mentioning(segs[..i + 1], terms)
            == Mentioning(segs[..i], terms) + Mentioned(segs[i], terms)
  {
    assert segs[..i + 1] == segs[..i] + [segs[i]];
    MentioningConcat(segs[..i], [segs[i]], terms);
    var f := MentionedIn(terms);
    assert [segs[i]][1..] == [];
    assert FlatMap(f, [segs[i]]) == f(segs[i]) + FlatMap(f, []);
    assert f(segs[i]) == Mentioned(segs[i], terms);
  }

  /** The first `limit` of `xs`, or all of them when there are fewer. */
  function Take<T>(xs: seq<T>, limit: nat): (r: seq<T>)
    ensures |r| == (if |xs| <= limit then |xs| else limit)
    ensures r == xs[..|r|]
  {
    if |xs| <= limit then xs else xs[..limit]
  }

  /** The loop of the keyword extractor: collects matching pieces in text
      order and stops as soon as `maxArticles` are collected, which is
      after the first when `maxArticles < 1`. */
  method CollectMentioning(segs: seq<Segment>, terms: seq<string>, maxArticles: int)
    returns (pieces: seq<string>)
    ensures pieces == Take(Mentioning(segs, terms), if maxArticles < 1 then 1 else maxArticles)
  {
    ghost var limit := if maxArticles < 1 then 1 else maxArticles;
    pieces := [];
    var i := 0;
    while i < |segs|
      invariant 0 <= i <= |segs|
      invariant pieces == Mentioning(segs[..i], terms)
      invariant |pieces| < limit
    {
      var found := Mentioned(segs[i], terms);
      MentioningSnoc(segs, i, terms);
      pieces := pieces + found;
      if found != [] && |pieces| >= maxArticles {
        TakeWhole(segs, i + 1, terms, limit);
        break;
      }
      i := i + 1;
    }
    if i == |segs| {
      assert segs[..i] == segs;
    }
  }

  /** Once the pieces of a prefix reach the limit, the rest adds none. */
  lemma TakeWhole(segs: seq<Segment>, i: nat, terms: seq<string>, limit: nat)
    requires i <= |segs| && |Mentioning(segs[..i], terms)| == limit
    ensures Take(Mentioning(segs, terms), limit) == Mentioning(segs[..i], terms)
  {
    var pre, post := segs[..i], segs[i..];
    assert segs == pre + post;
    MentioningConcat(pre, post, terms);
    var all, a, b := Mentioning(segs, terms), Mentioning(pre, terms), Mentioning(post, terms);
    assert all == a + b;
    TakeFront(a, b, limit);
  }

  lemma TakeFront<T>(a: seq<T>, b: seq<T>, limit: nat)
    requires |a| == limit
    ensures Take(a + b, limit) == a
  {
    assert (a + b)[..limit] == a;
  }

  /** `_extract_articles_by_keyword(content, keyword, max_articles)` */
  method ExtractByKeyword(content: string, keyword: string, maxArticles: int) returns (r: string)
    ensures content == [] || keyword == [] ==> r == []
    ensures content != [] && keyword != [] ==>
              r == Join(Take(Mentioning(Segments(content), MatchTerms(keyword)),
                             if maxArticles < 1 then 1 else maxArticles), "\n\n")
  {
    if content == [] || keyword == [] {
      return "";
    }
    var pieces := CollectMentioning(Segments(content), MatchTerms(keyword), maxArticles);
    r := Join(pieces, "\n\n");
  }

  // ---------------------------------------------------------------------
  // _parse_article_number_input

  /** The optional group `(之[一二三四五六七八九十]+)?` followed by `$`
      matches all of `r`. */
  predicate SuffixTail(r: string) {
    r == [] || (|r| >= 2 && r[0] == '之' && forall k :: 1 <= k < |r| ==> IsOneToTen(r[k]))
  }

  /** Where the lazy `(.+?)` stops: the least `i >= from` whose rest is a
      whole suffix group (or empty). */
  function LazyEnd(t: string, from: nat): (i: nat)
    requires 1 <= from <= |t|
    ensures from <= i <= |t| && SuffixTail(t[i..])
    ensures forall k :: from <= k < i ==> !SuffixTail(t[k..])
    decreases |t| - from
  {
    if SuffixTail(t[from..]) then from else LazyEnd(t, from + 1)
  }

  /** `_parse_article_number_input(article_number)`: every 第 and 条 removed,
      stripped, a trailing 之X suffix cut off when `^(.+?)(之[...]+)?$`
      matches (it does not when the text is empty or holds a line break,
      which `.` does not cross), then `int` of ASCII digits or the
      Chinese-numeral conversion. */
  function ParseArticleNumberInput(input: string): nat {
    var cleaned := Strip(RemoveChar(RemoveChar(input, '第'), '条'));
    var num := if |cleaned| > 0 && '\n' !in cleaned then cleaned[..LazyEnd(cleaned, 1)] else cleaned;
    if IsDigits(num) then DecimalValue(num) else Cn2an(num)
  }

  /** Digits and Chinese numerals, the characters of an article number. */
  predicate NumberChars(x: string) {
    forall k :: 0 <= k < |x| ==> IsAsciiDigit(x[k]) || IsNumeral(x[k])
  }

  /** The lazy group stops exactly where a suffix starts. */
  lemma LazyEndAtSuffix(x: string, suffix: string)
    requires |x| > 0 && NumberChars(x) && SuffixTail(suffix)
    ensures LazyEnd(x + suffix, 1) == |x|
  {
    var t := x + suffix;
    var i := LazyEnd(t, 1);
    assert t[|x|..] == suffix;
    forall k | 1 <= k < |x| ensures !SuffixTail(t[k..]) {
      assert t[k..][0] == x[k];
    }
  }

  /** The characters a typed article number is made of. */
  predicate InputChar(c: char) {
    c == '之' || IsAsciiDigit(c) || IsNumeral(c)
  }

  lemma InputCharPlain(c: char)
    requires InputChar(c)
    ensures c != '第' && c != '条' && c != '\n' && !IsSpace(c)
  {
  }

  lemma InputChars(x: string, suffix: string)
    requires NumberChars(x) && SuffixTail(suffix)
    ensures forall k :: 0 <= k < |x + suffix| ==> InputChar((x + suffix)[k])
  {
    var t := x + suffix;
    forall k | 0 <= k < |t| ensures InputChar(t[k]) {
      if k >= |x| {
        assert t[k] == suffix[k - |x|];
      }
    }
  }

  lemma NoneOf(t: string)
    requires forall k :: 0 <= k < |t| ==> InputChar(t[k])
    ensures '第' !in t && '条' !in t && '\n' !in t && NoEdgeSpace(t)
  {
    forall k | 0 <= k < |t| ensures t[k] != '第' && t[k] != '条' && t[k] != '\n' && !IsSpace(t[k]) {
      InputCharPlain(t[k]);
    }
  }

  /** An article number typed as `第<x>条<suffix>` has no whitespace at
      its ends and no line break once 第 and 条 are gone. */
  lemma CleanInput(x: string, suffix: string)
    requires |x| > 0 && NumberChars(x) && SuffixTail(suffix)
    ensures Strip(RemoveChar(RemoveChar("第" + x + "条" + suffix, '第'), '条')) == x + suffix
    ensures '\n' !in x + suffix
  {
    var t := x + suffix;
    InputChars(x, suffix);
    NoneOf(t);
    NoneOf(x);
    NoneOf(suffix);
    Unwrapped(x, suffix);
    StripOfClean(t);
  }

  /** A typed article number reads back as its value, with or without a
      之X suffix: Arabic digits give their decimal value, Chinese numerals
      the fallback conversion. */
  lemma ParseInputOf(x: string, suffix: string)
    requires |x| > 0 && NumberChars(x) && SuffixTail(suffix)
    ensures ParseArticleNumberInput("第" + x + "条" + suffix)
            == if IsDigits(x) then DecimalValue(x) else Cn2an(x)
  {
    CleanInput(x, suffix);
    LazyEndAtSuffix(x, suffix);
    assert (x + suffix)[..|x|] == x;
  }

  /** Both spellings of an article number, typed with 第 and 条 and an
      optional 之X suffix, read back as that number. */
  lemma ParseInputRoundTrip(n: nat, suffix: string)
    requires 1 <= n <= 9999 && SuffixTail(suffix)
    ensures ParseArticleNumberInput("第" + NatToString(n) + "条" + suffix) == n
    ensures ParseArticleNumberInput("第" + Render(n) + "条" + suffix) == n
  {
    ParseInputOf(NatToString(n), suffix);
    ParseInputRendered(n, suffix);
  }

  lemma ParseInputRendered(n: nat, suffix: string)
    requires 1 <= n <= 9999 && SuffixTail(suffix)
    ensures ParseArticleNumberInput("第" + Render(n) + "条" + suffix) == n
  {
    var r := Render(n);
    assert !IsDigits(r) by {
      assert !IsAsciiDigit(r[0]);
    }
    ParseInputOf(r, suffix);
    Cn2anRender(n);
  }

  /** The `article_number_str` the splitter stores (decimal digits and an
      optional 之X suffix) reads back as the stored `article_number_int`. */
  lemma ParseInputOfStored(numText: string, suffix: Option<string>)
    requires suffix.Some? ==> SuffixTail(suffix.value)
    ensures ParseArticleNumberInput(ParseArticleNumber(numText, suffix).1)
            == ParseArticleNumber(numText, suffix).0
  {
    var n := ParseArticleNumber(numText, suffix).0;
    var x := NatToString(n);
    var sfx := if suffix.Some? then suffix.value else [];
    var t := x + sfx;
    assert ParseArticleNumber(numText, suffix).1 == t;
    assert NumberChars(x);
    InputChars(x, sfx);
    NoneOf(t);
    RemoveCharAbsent(t, '第');
    RemoveCharAbsent(t, '条');
    StripOfClean(t);
    LazyEndAtSuffix(x, sfx);
    assert t[..|x|] == x;
  }
}

=== FILE: article_splitter.dfy ===
/** `ArticleSplitter.split_law`: cutting the full text of a law into its
    articles (第X条), each with its integer and string number, the path of
    编 / 分编 / 章 / 节 headings above it, and its text. */
module ArticleSplitter {
  import opened Strings
  import opened Numerals

  // ---------------------------------------------------------------------
  // Line patterns (matched against the stripped line)

  /** `[零一二三四五六七八九十]`, the numerals of a heading. */
  predicate IsHeadingNumeral(c: char) {
    CharValue(c).Some? && CharValue(c).value <= 10
  }

  /** `^\s*第[零一二三四五六七八九十]+<marker>\s+` matches the stripped line
      `s`: 第, a run of heading numerals, the marker, then whitespace. */
  predicate HeadingOf(s: string, marker: string) {
    && |s| > 0 && s[0] == '第'
    && var k := Span(s[1..], IsHeadingNumeral);
    && k >= 1 && 1 + k + |marker| < |s|
    && s[1 + k..1 + k + |marker|] == marker
    && IsSpace(s[1 + k + |marker|])
  }

  /** The groups of a match of `^\s*第(?P<num>...)条(?P<suffix>之[...]+)?(?P<rest>.*)`. */
  datatype Head = Head(num: string, suffix: Option<string>, rest: string)

  /** The suffix and rest groups of the text after 条: the optional greedy
      `之[一二三四五六七八九十]+` is taken whenever it can match. */
  function AfterNumber(num: string, after: string): (r: Head)
    ensures r.num == num
    ensures r.suffix.None? ==> r.rest == after
    ensures r.suffix.Some? ==> after == r.suffix.value + r.rest
    ensures r.suffix.Some? ==> |r.suffix.value| >= 2 && r.suffix.value[0] == '之'
    ensures r.suffix.None? <==> !(|after| >= 2 && after[0] == '之' && IsOneToTen(after[1]))
  {
    if |after| >= 2 && after[0] == '之' && IsOneToTen(after[1]) then
      var m := 1 + Span(after[1..], IsOneToTen);
      assert after == after[..m] + after[m..];
      Head(num, Some(after[..m]), after[m..])
    else Head(num, None, after)
  }

  /** `ARTICLE_PATTERN.match(s)`: 第, then either a run of Chinese numerals
      or a run of digits, then 条.  The Chinese alternative is tried first. */
  function MatchArticle(s: string): (r: Option<Head>)
    ensures r.Some? ==> |s| > 0 && s[0] == '第'
    ensures r.Some? ==> |r.value.num| >= 1
    ensures r.Some? ==> (forall i :: 0 <= i < |r.value.num| ==> IsNumeral(r.value.num[i]))
                        || IsDigits(r.value.num)
  {
    if |s| == 0 || s[0] != '第' then None
    else
      var t := s[1..];
      var n := NumberEnd(t);
      if n >= 1 && n < |t| && t[n] == '条' then Some(AfterNumber(t[..n], t[n + 1..]))
      else None
  }

  /** Where the number group ends in the text after 第: after the run of
      Chinese numerals when 条 follows it, else after the run of digits. */
  function NumberEnd(t: string): (n: nat)
    ensures n <= |t|
    ensures (forall i :: 0 <= i < n ==> IsNumeral(t[i])) || IsDigits(t[..n])
  {
    var k := Span(t, IsNumeral);
    if k >= 1 && k < |t| && t[k] == '条' then k else Span(t, IsAsciiDigit)
  }

  /** The groups of a match spell out the whole line. */
  lemma MatchArticleSpells(s: string)
    requires MatchArticle(s).Some?
    ensures var h := MatchArticle(s).value;
            s == "第" + h.num + "条" + SuffixText(h) + h.rest
  {
  }

  /** The suffix group, "" when it did not take part in the match. */
  function SuffixText(h: Head): string {
    if h.suffix.Some? then h.suffix.value else ""
  }

  /** The line head of article `n` written in Chinese numerals matches with
      number group `Render(n)` and no suffix. */
  lemma MatchRendered(n: nat, rest: string)
    requires 1 <= n <= 9999
    requires !(|rest| >= 2 && rest[0] == '之' && IsOneToTen(rest[1]))
    ensures MatchArticle("第" + Render(n) + "条" + rest) == Some(Head(Render(n), None, rest))
  {
    var num := Render(n);
    var s := "第" + num + "条" + rest;
    var t := s[1..];
    assert t == num + ("条" + rest);
    SpanStops(num, "条" + rest, IsNumeral);
    assert t[|num|] == '条';
    assert t[..|num|] == num && t[|num| + 1..] == rest;
  }

  /** What kind of line `split_law` sees, checked in its order. */
  datatype LineKind = Blank | Bian | FenBian | Zhang | Jie | ArticleHead(head: Head) | Body

  function Classify(s: string): (k: LineKind)
    ensures k.Blank? <==> s == []
    ensures k.ArticleHead? ==> MatchArticle(s) == Some(k.head)
    ensures MatchArticle(s).Some? ==> k.ArticleHead?
  {
    if s == [] then Blank
    else
      MatchNotHeading(s);
      if HeadingOf(s, "编") then Bian
    else if HeadingOf(s, "分编") then FenBian
    else if HeadingOf(s, "章") then Zhang
    else if HeadingOf(s, "节") then Jie
    else match MatchArticle(s)
      case Some(h) => ArticleHead(h)
      case None => Body
  }

  /** A line in the shape every law text uses for article `n`, written in
      Chinese numerals, is recognised as the head of article `n`. */
  lemma ClassifyRenderedHead(n: nat, rest: string)
    requires 1 <= n <= 9999
    requires !(|rest| >= 2 && rest[0] == '之' && IsOneToTen(rest[1]))
    ensures Classify("第" + Render(n) + "条" + rest) == ArticleHead(Head(Render(n), None, rest))
    ensures ParseArticleNumber(Render(n), None) == (n, NatToString(n))
  {
    MatchRendered(n, rest);
    ClassifyHeadLine(Render(n), rest);
    ParseArticleNumberSpellings(n, None);
  }

  lemma ClassifyHeadLine(num: string, rest: string)
    requires |num| >= 1 && forall i :: 0 <= i < |num| ==> IsNumeral(num[i])
    requires MatchArticle("第" + num + "条" + rest) == Some(Head(num, None, rest))
    ensures Classify("第" + num + "条" + rest) == ArticleHead(Head(num, None, rest))
  {
  }

  /** An article line is not taken for a heading: the heading numerals stop
      at 百/千/万 or at 条, and none of those starts a marker. */
  /** A line the article pattern matches is no heading: the heading
      patterns cannot match where 第<number>条 starts the line. */
  lemma MatchNotHeading(s: string)
    ensures MatchArticle(s).Some? ==>
              !HeadingOf(s, "编") && !HeadingOf(s, "分编") && !HeadingOf(s, "章") && !HeadingOf(s, "节")
  {
    if MatchArticle(s).Some? {
      var h := MatchArticle(s).value;
      MatchArticleSpells(s);
      NotHeadings(s, h.num, SuffixText(h), h.rest);
    }
  }

  lemma NotHeadings(s: string, num: string, suffix: string, after: string)
    requires s == "第" + num + "条" + suffix + after && |num| >= 1
    requires forall i :: 0 <= i < |num| ==> IsNumeral(num[i]) || IsAsciiDigit(num[i])
    ensures !HeadingOf(s, "编") && !HeadingOf(s, "分编") && !HeadingOf(s, "章") && !HeadingOf(s, "节")
  {
    var rest := suffix + after;
    assert s == "第" + num + "条" + rest;
    NotHeading(s, num, rest, "编");
    NotHeading(s, num, rest, "分编");
    NotHeading(s, num, rest, "章");
    NotHeading(s, num, rest, "节");
  }

  lemma NotHeading(s: string, num: string, rest: string, marker: string)
    requires s == "第" + num + "条" + rest && |num| >= 1
    requires forall i :: 0 <= i < |num| ==> IsNumeral(num[i]) || IsAsciiDigit(num[i])
    requires marker in {"编", "分编", "章", "节"}
    ensures !HeadingOf(s, marker)
  {
    var t := s[1..];
    assert t == num + ("条" + rest);
    var k := Span(t, IsHeadingNumeral);
    assert t[|num|] == '条';
    assert k <= |num|;
    assert s[1 + k] == t[k];
    var c := t[k];
    assert c == '条' || IsNumeral(c) || IsAsciiDigit(c);
    assert c != '编' && c != '分' && c != '章' && c != '节';
    assert s[1 + k] != marker[0];
    if 1 + k + |marker| < |s| {
      assert s[1 + k..1 + k + |marker|][0] != marker[0];
    }
  }

  // ---------------------------------------------------------------------
  // Heading hierarchy

  /** The current 编, 分编, 章 and 节 heading lines ("" for none). */
  datatype Hier = Hier(bian: string, fenbian: string, zhang: string, jie: string)

  const NoHier := Hier("", "", "", "")

  /** A heading replaces its own level and clears every level below it;
      any other line leaves the hierarchy alone. */
  function HierStep(h: Hier, line: string): (r: Hier)
    ensures Classify(Strip(line)).Bian? ==> r == Hier(Strip(line), "", "", "")
    ensures Classify(Strip(line)).FenBian? ==> r == Hier(h.bian, Strip(line), "", "")
    ensures Classify(Strip(line)).Zhang? ==> r == Hier(h.bian, h.fenbian, Strip(line), "")
    ensures Classify(Strip(line)).Jie? ==> r == Hier(h.bian, h.fenbian, h.zhang, Strip(line))
    ensures !IsHeading(Classify(Strip(line))) ==> r == h
  {
    var s := Strip(line);
    match Classify(s)
    case Bian => Hier(s, "", "", "")
    case FenBian => Hier(h.bian, s, "", "")
    case Zhang => Hier(h.bian, h.fenbian, s, "")
    case Jie => Hier(h.bian, h.fenbian, h.zhang, s)
    case _ => h
  }

  predicate IsHeading(k: LineKind) {
    k.Bian? || k.FenBian? || k.Zhang? || k.Jie?
  }

  function NonEmpty(parts: seq<string>): (r: seq<string>)
    ensures forall i :: 0 <= i < |r| ==> r[i] != [] && r[i] in parts
    ensures forall x :: x in parts && x != [] ==> x in r
  {
    if |parts| == 0 then []
    else (if parts[0] != [] then [parts[0]] else []) + NonEmpty(parts[1..])
  }

  /** The chapter path: the non-empty levels joined by " > ". */
  function PathOf(h: Hier): string {
    Join(NonEmpty([h.bian, h.fenbian, h.zhang, h.jie]), " > ")
  }

  /** A heading of level `d`: 0 for 编, 1 for 分编, 2 for 章, 3 for 节. */
  predicate AtLevel(k: LineKind, d: nat) {
    || (d == 0 && k.Bian?) || (d == 1 && k.FenBian?)
    || (d == 2 && k.Zhang?) || (d == 3 && k.Jie?)
  }

  /** The kind of every line. */
  function Kinds(lines: seq<string>): (ks: seq<LineKind>)
    ensures |ks| == |lines|
    ensures forall i :: 0 <= i < |lines| ==> ks[i] == Classify(Strip(lines[i]))
  {
    seq(|lines|, i requires 0 <= i < |lines| => Classify(Strip(lines[i])))
  }

  /** The position of the last heading of level `d` at or after `lo`, if
      there is one. */
  function LastAt(ks: seq<LineKind>, d: nat, lo: nat): (r: Option<nat>)
    ensures r.Some? ==> lo <= r.value < |ks| && AtLevel(ks[r.value], d)
    ensures r.Some? ==> forall j :: r.value < j < |ks| ==> !AtLevel(ks[j], d)
    ensures r.None? ==> forall j :: lo <= j < |ks| ==> !AtLevel(ks[j], d)
    decreases |ks|
  {
    if |ks| <= lo then None
    else if AtLevel(ks[|ks| - 1], d) then Some(|ks| - 1)
    else
      var init := ks[..|ks| - 1];
      assert forall j :: 0 <= j < |init| ==> init[j] == ks[j];
      LastAt(init, d, lo)
  }

  /** Where the search for the next level down starts: after the heading
      found, or where this search started when there was none. */
  function After(p: Option<nat>, lo: nat): nat {
    if p.Some? then p.value + 1 else lo
  }

  function TextAt(lines: seq<string>, p: Option<nat>): string
    requires p.Some? ==> p.value < |lines|
  {
    if p.Some? then Strip(lines[p.value]) else ""
  }

  /** Positions of the headings in force: the last 编; the last 分编
      after it; the last 章 after both; the last 节 after all three. */
  datatype Marks = Marks(bian: Option<nat>, fenbian: Option<nat>, zhang: Option<nat>, jie: Option<nat>)

  function MarksOf(ks: seq<LineKind>): Marks {
    var b := LastAt(ks, 0, 0);
    var f := LastAt(ks, 1, After(b, 0));
    var z := LastAt(ks, 2, After(f, After(b, 0)));
    var j := LastAt(ks, 3, After(z, After(f, After(b, 0))));
    Marks(b, f, z, j)
  }

  predicate Below(m: Marks, n: nat) {
    && (m.bian.Some? ==> m.bian.value < n) && (m.fenbian.Some? ==> m.fenbian.value < n)
    && (m.zhang.Some? ==> m.zhang.value < n) && (m.jie.Some? ==> m.jie.value < n)
  }

  lemma MarksBelow(ks: seq<LineKind>)
    ensures Below(MarksOf(ks), |ks|)
  {
  }

  /** The hierarchy in force after `lines`, read off the lines alone: the
      last 编; the last 分编 after that 编; the last 章 after both; the last
      节 after all three; "" for a level with no such heading. */
  function LevelsOf(lines: seq<string>): Hier {
    var m := MarksOf(Kinds(lines));
    MarksBelow(Kinds(lines));
    Hier(TextAt(lines, m.bian), TextAt(lines, m.fenbian), TextAt(lines, m.zhang), TextAt(lines, m.jie))
  }

  /** The hierarchy `split_law` holds after reading `lines` from none. */
  function HierAfter(lines: seq<string>): Hier
    decreases |lines|
  {
    if |lines| == 0 then NoHier
    else HierStep(HierAfter(lines[..|lines| - 1]), lines[|lines| - 1])
  }

  /** Reading the lines one heading at a time ends with the hierarchy the
      lines themselves determine. */
  lemma {:induction false} HierAfterLevels(lines: seq<string>)
    ensures HierAfter(lines) == LevelsOf(lines)
    decreases |lines|
  {
    if |lines| > 0 {
      var init, x := lines[..|lines| - 1], lines[|lines| - 1];
      HierAfterLevels(init);
      LevelsStep(init, x);
      SnocLast(lines);
    }
  }

  /** One more line moves the hierarchy read off the lines as `HierStep`
      does. */
  lemma LevelsStep(lines: seq<string>, x: string)
    ensures LevelsOf(lines + [x]) == HierStep(LevelsOf(lines), x)
  {
    var all, n := lines + [x], |lines|;
    var k := Classify(Strip(x));
    var ks := Kinds(lines);
    KindsSnoc(lines, x);
    var m := MarksOf(ks);
    MarksBelow(ks);
    MarksSnoc(ks, k);
    TextAtSnoc(lines, x, m.bian);
    TextAtSnoc(lines, x, m.fenbian);
    TextAtSnoc(lines, x, m.zhang);
    TextAtSnoc(lines, x, m.jie);
    assert TextAt(all, Some(n)) == Strip(x);
    HierStepKind(LevelsOf(lines), x, k);
  }

  /** A heading line appended at position `n` becomes the mark of its level
      and clears the marks below it; any other line leaves the marks. */
  lemma MarksSnoc(ks: seq<LineKind>, k: LineKind)
    ensures var m, n := MarksOf(ks), |ks|;
            MarksOf(ks + [k]) == match k
              case Bian => Marks(Some(n), None, None, None)
              case FenBian => Marks(m.bian, Some(n), None, None)
              case Zhang => Marks(m.bian, m.fenbian, Some(n), None)
              case Jie => Marks(m.bian, m.fenbian, m.zhang, Some(n))
              case _ => m
  {
    var m := MarksOf(ks);
    var lo1 := After(m.bian, 0);
    var lo2 := After(m.fenbian, lo1);
    var lo3 := After(m.zhang, lo2);
    LastAtSnoc(ks, k, 0, 0);
    LastAtSnoc(ks, k, 1, lo1);
    LastAtSnoc(ks, k, 2, lo2);
    LastAtSnoc(ks, k, 3, lo3);
  }

  /** `HierStep` read through the kind of the line. */
  lemma HierStepKind(h: Hier, x: string, k: LineKind)
    requires k == Classify(Strip(x))
    ensures HierStep(h, x) == match k
      case Bian => Hier(Strip(x), "", "", "")
      case FenBian => Hier(h.bian, Strip(x), "", "")
      case Zhang => Hier(h.bian, h.fenbian, Strip(x), "")
      case Jie => Hier(h.bian, h.fenbian, h.zhang, Strip(x))
      case _ => h
  {
  }

  lemma SnocLast<T>(xs: seq<T>)
    requires |xs| > 0
    ensures xs == xs[..|xs| - 1] + [xs[|xs| - 1]]
  {
  }

  lemma KindsSnoc(lines: seq<string>, x: string)
    ensures Kinds(lines + [x]) == Kinds(lines) + [Classify(Strip(x))]
  {
    var all := lines + [x];
    assert forall i :: 0 <= i < |lines| ==> all[i] == lines[i];
  }

  lemma LastAtSnoc(ks: seq<LineKind>, k: LineKind, d: nat, lo: nat)
    requires lo <= |ks|
    ensures LastAt(ks + [k], d, lo) == if AtLevel(k, d) then Some(|ks|) else LastAt(ks, d, lo)
  {
    assert (ks + [k])[..|ks|] == ks;
  }

  lemma TextAtSnoc(lines: seq<string>, x: string, p: Option<nat>)
    requires p.Some? ==> p.value < |lines|
    ensures TextAt(lines + [x], p) == TextAt(lines, p)
  {
    if p.Some? {
      assert (lines + [x])[p.value] == lines[p.value];
    }
  }

  // ---------------------------------------------------------------------
  // The state machine of split_law

  datatype Article = Article(numberInt: nat, numberStr: string, chapterPath: string, content: string)

  /** The article being collected. */
  datatype Pending = Pending(numberInt: nat, numberStr: string, path: string, lines: seq<string>)

  /** Hierarchy, the article being collected (`collecting`), the output. */
  datatype Machine = Machine(h: Hier, cur: Option<Pending>, out: seq<Article>)

  /** `flush()` of a pending article. */
  function Emit(p: Pending): seq<Article> {
    var text := Strip(Join(p.lines, "\n"));
    if |p.lines| > 0 && text != [] then [Article(p.numberInt, p.numberStr, p.path, text)] else []
  }

  /** Flushing `cur` after `extra` lines have been collected into it. */
  function Close(cur: Option<Pending>, extra: seq<string>): seq<Article> {
    match cur
    case None => []
    case Some(p) => Emit(p.(lines := p.lines + extra))
  }

  /** Starting to collect the article whose stripped head line is `s`. */
  function Open(h: Hier, head: Head, s: string): Pending {
    var n := ParseArticleNumber(head.num, head.suffix);
    Pending(n.0, n.1, PathOf(h), [s])
  }

  /** What a line adds to the article being collected: "" for a blank line,
      the right-stripped line for an ordinary line, nothing for a heading. */
  function Kept(line: string): seq<string> {
    var k := Classify(Strip(line));
    if k.Blank? then [""] else if k.Body? then [RStrip(line)] else []
  }

  function Extend(cur: Option<Pending>, extra: seq<string>): Option<Pending> {
    match cur
    case None => None
    case Some(p) => Some(p.(lines := p.lines + extra))
  }

  /** One iteration of the loop over lines. */
  function MachineStep(m: Machine, line: string): Machine {
    var s := Strip(line);
    match Classify(s)
    case ArticleHead(head) => Machine(m.h, Some(Open(m.h, head, s)), m.out + Close(m.cur, []))
    case Blank => Machine(m.h, Extend(m.cur, Kept(line)), m.out)
    case Body => Machine(m.h, Extend(m.cur, Kept(line)), m.out)
    case _ => Machine(HierStep(m.h, line), m.cur, m.out)
  }

  function Run(m: Machine, lines: seq<string>): Machine
    decreases |lines|
  {
    if |lines| == 0 then m else Run(MachineStep(m, lines[0]), lines[1..])
  }

  /** The machine `split_law` starts from: no headings, no article. */
  const Start := Machine(NoHier, None, [])

  /** `split_law(content)` */
  function SplitLaw(content: string): seq<Article> {
    if content == [] then []
    else
      Finish(Run(Start, Split(content, '\n')))
  }

  // ---------------------------------------------------------------------
  // Reference: one article per head line, with the lines up to the next head

  predicate IsHeadLine(line: string) {
    Classify(Strip(line)).ArticleHead?
  }

  /** The lines an article collects: those before the next head line. */
  function Attached(lines: seq<string>): seq<string> {
    if |lines| == 0 || IsHeadLine(lines[0]) then []
    else Kept(lines[0]) + Attached(lines[1..])
  }

  /** The articles of `lines` read with hierarchy `h`: each head line opens an
      article under the headings seen so far and takes its attached lines. */
  function Articles(lines: seq<string>, h: Hier): seq<Article> {
    if |lines| == 0 then []
    else
      var s := Strip(lines[0]);
      match Classify(s)
      case ArticleHead(head) => Close(Some(Open(h, head, s)), Attached(lines[1..])) + Articles(lines[1..], h)
      case _ => Articles(lines[1..], HierStep(h, lines[0]))
  }

  /** The state machine produces the reference articles: what is flushed at
      the end equals the pending article completed with the lines attached
      to it, followed by the articles of the remaining lines. */
  lemma {:induction false} RunArticles(m: Machine, lines: seq<string>)
    ensures Finish(Run(m, lines)) == m.out + Close(m.cur, Attached(lines)) + Articles(lines, m.h)
    decreases |lines|
  {
    if |lines| > 0 {
      var m' := MachineStep(m, lines[0]);
      RunArticles(m', lines[1..]);
      assert Run(m, lines) == Run(m', lines[1..]);
      if IsHeadLine(lines[0]) {
        HeadStep(m, lines);
      } else {
        OtherStep(m, lines);
      }
    }
  }

  /** The output once the last article is flushed. */
  function Finish(m: Machine): seq<Article> {
    m.out + Close(m.cur, [])
  }

  lemma HeadStep(m: Machine, lines: seq<string>)
    requires |lines| > 0 && IsHeadLine(lines[0])
    ensures var m' := MachineStep(m, lines[0]);
            m'.out + Close(m'.cur, Attached(lines[1..])) + Articles(lines[1..], m'.h)
            == m.out + Close(m.cur, Attached(lines)) + Articles(lines, m.h)
  {
    var s := Strip(lines[0]);
    var p := Open(m.h, Classify(s).head, s);
    HeadOpens(m, lines[0]);
    HeadArticles(lines, m.h);
    SeqAssoc(m.out + Close(m.cur, []), Close(Some(p), Attached(lines[1..])), Articles(lines[1..], m.h));
  }

  /** A head line flushes the pending article and opens the next. */
  lemma HeadOpens(m: Machine, line: string)
    requires IsHeadLine(line)
    ensures var s := Strip(line);
            MachineStep(m, line) == Machine(m.h, Some(Open(m.h, Classify(s).head, s)), m.out + Close(m.cur, []))
  {
  }

  /** Lines starting with a head line attach nothing to the article before,
      and their first article is the one that line opens. */
  lemma HeadArticles(lines: seq<string>, h: Hier)
    requires |lines| > 0 && IsHeadLine(lines[0])
    ensures Attached(lines) == []
    ensures var s := Strip(lines[0]);
            Articles(lines, h) == Close(Some(Open(h, Classify(s).head, s)), Attached(lines[1..])) + Articles(lines[1..], h)
  {
    var k := Classify(Strip(lines[0]));
    assert k == ArticleHead(k.head);
  }

  lemma OtherStep(m: Machine, lines: seq<string>)
    requires |lines| > 0 && !IsHeadLine(lines[0])
    ensures var m' := MachineStep(m, lines[0]);
            m'.out + Close(m'.cur, Attached(lines[1..])) + Articles(lines[1..], m'.h)
            == m.out + Close(m.cur, Attached(lines)) + Articles(lines, m.h)
  {
    var m' := MachineStep(m, lines[0]);
    var kept := Kept(lines[0]);
    var rest := Attached(lines[1..]);
    assert Attached(lines) == kept + rest;
    NonHeadStep(m, lines[0]);
    assert m'.out == m.out;
    CloseExtend(m.cur, kept, rest);
    assert Close(m'.cur, rest) == Close(m.cur, kept + rest);
    assert Articles(lines, m.h) == Articles(lines[1..], HierStep(m.h, lines[0]));
  }

  /** A line that is not an article head only extends the pending article
      (blank and ordinary lines) or the hierarchy (headings). */
  lemma NonHeadStep(m: Machine, line: string)
    requires !IsHeadLine(line)
    ensures MachineStep(m, line) == Machine(HierStep(m.h, line), Extend(m.cur, Kept(line)), m.out)
  {
    var k := Classify(Strip(line));
    if !(k.Blank? || k.Body?) {
      assert Kept(line) == [];
      ExtendNothing(m.cur);
    }
  }

  lemma ExtendNothing(cur: Option<Pending>)
    ensures Extend(cur, []) == cur
  {
    if cur.Some? {
      assert cur.value.lines + [] == cur.value.lines;
    }
  }

  lemma CloseExtend(cur: Option<Pending>, kept: seq<string>, rest: seq<string>)
    ensures Close(Extend(cur, kept), rest) == Close(cur, kept + rest)
  {
    if cur.Some? {
      SeqAssoc(cur.value.lines, kept, rest);
    }
  }

  /** `split_law` is the reference article list of the content's lines. */
  lemma SplitLawIsArticles(content: string)
    ensures content == [] ==> SplitLaw(content) == []
    ensures content != [] ==> SplitLaw(content) == Articles(Split(content, '\n'), NoHier)
  {
    if content != [] {
      RunArticles(Start, Split(content, '\n'));
    }
  }

  // ---------------------------------------------------------------------
  // Consequences for the articles

  /** The head lines of `lines`, in order: each stripped line with the
      groups its match produced. */
  function Heads(lines: seq<string>): seq<(string, Head)> {
    if |lines| == 0 then []
    else
      var s := Strip(lines[0]);
      (match Classify(s) case ArticleHead(head) => [(s, head)] case _ => []) + Heads(lines[1..])
  }

  /** Article `a` comes from head line `s` with groups `head`: its content
      starts with `s` and its numbers are those of the groups. */
  predicate FromHead(a: Article, s: string, head: Head) {
    && |s| <= |a.content| && a.content[..|s|] == s
    && (a.numberInt, a.numberStr) == ParseArticleNumber(head.num, head.suffix)
  }

  /** Article `j` comes from head line `j`, for every `j`. */
  predicate PairedWith(arts: seq<Article>, heads: seq<(string, Head)>) {
    && |arts| == |heads|
    && (forall j :: 0 <= j < |heads| ==> FromHead(arts[j], heads[j].0, heads[j].1))
  }

  /** Every head line yields exactly one article, in order. */
  lemma {:induction false} ArticlesFromHeads(lines: seq<string>, h: Hier)
    ensures PairedWith(Articles(lines, h), Heads(lines))
    decreases |lines|
  {
    if |lines| > 0 && IsHeadLine(lines[0]) {
      var s := Strip(lines[0]);
      var head := Classify(s).head;
      var p := Open(h, head, s);
      ArticlesFromHeads(lines[1..], h);
      HeadArticles(lines, h);
      var first := Close(Some(p), Attached(lines[1..]));
      EmitOpened(p, s, Attached(lines[1..]));
      assert first == [first[0]];
      assert Heads(lines) == [(s, head)] + Heads(lines[1..]);
      PairedCons(first[0], Articles(lines[1..], h), (s, head), Heads(lines[1..]));
    } else if |lines| > 0 {
      ArticlesFromHeads(lines[1..], HierStep(h, lines[0]));
      OtherArticles(lines, h);
    }
  }

  /** A line that is not a head adds no article and no head. */
  lemma OtherArticles(lines: seq<string>, h: Hier)
    requires |lines| > 0 && !IsHeadLine(lines[0])
    ensures Articles(lines, h) == Articles(lines[1..], HierStep(h, lines[0]))
    ensures Heads(lines) == Heads(lines[1..])
  {
    assert Heads(lines) == [] + Heads(lines[1..]);
  }

  lemma PairedCons(a: Article, arts: seq<Article>, x: (string, Head), heads: seq<(string, Head)>)
    requires FromHead(a, x.0, x.1) && PairedWith(arts, heads)
    ensures PairedWith([a] + arts, [x] + heads)
  {
    forall j | 0 <= j < |heads| + 1
      ensures FromHead(([a] + arts)[j], ([x] + heads)[j].0, ([x] + heads)[j].1)
    {
      if j > 0 {
        assert ([x] + heads)[j] == heads[j - 1] && ([a] + arts)[j] == arts[j - 1];
      }
    }
  }

  /** An opened article is always flushed, and its text starts with the
      head line. */
  lemma EmitOpened(p: Pending, s: string, extra: seq<string>)
    requires p.lines == [s] && s != [] && NoEdgeSpace(s)
    ensures var e := Emit(p.(lines := p.lines + extra));
            |e| == 1 && e[0].numberInt == p.numberInt && e[0].numberStr == p.numberStr
            && e[0].chapterPath == p.path
            && |s| <= |e[0].content| && e[0].content[..|s|] == s
  {
    var ls := [s] + extra;
    var j := Join(ls, "\n");
    var tail := if |extra| == 0 then "" else "\n" + Join(extra, "\n");
    assert j == s + tail by {
      if |extra| > 0 {
        assert ls[1..] == extra;
      }
    }
    assert !IsSpace(j[0]);
    StripKeepsStart(j);
    RStripKeeps(s, tail);
  }

  /** Right-stripping never cuts into a prefix that ends in a non-space. */
  lemma RStripKeeps(x: string, y: string)
    requires |x| > 0 && !IsSpace(x[|x| - 1])
    ensures |x| <= |RStrip(x + y)| && RStrip(x + y)[..|x|] == x
  {
    assert (x + y)[|x| - 1] == x[|x| - 1];
    assert (x + y)[..|x|] == x;
  }

  lemma {:induction false} RunSnoc(m: Machine, pre: seq<string>, x: string)
    ensures Run(m, pre + [x]) == MachineStep(Run(m, pre), x)
    decreases |pre|
  {
    if |pre| == 0 {
      assert pre + [x] == [x];
    } else {
      assert (pre + [x])[1..] == pre[1..] + [x];
      RunSnoc(MachineStep(m, pre[0]), pre[1..], x);
    }
  }

  /** Only headings move the hierarchy. */
  lemma StepHier(m: Machine, line: string)
    ensures MachineStep(m, line).h == HierStep(m.h, line)
  {
  }

  /** The machine's hierarchy after `pre` is the fold of `HierStep`. */
  lemma {:induction false} RunHier(pre: seq<string>)
    ensures Run(Start, pre).h == HierAfter(pre)
    decreases |pre|
  {
    if |pre| > 0 {
      var init, x := pre[..|pre| - 1], pre[|pre| - 1];
      RunHier(init);
      RunSnoc(Start, init, x);
      StepHier(Run(Start, init), x);
      SnocLast(pre);
    }
  }

  /** An article head met after the lines `pre` opens an article whose
      chapter path names the headings in force after `pre`: the last 编,
      the last 分编 after it, the last 章 after both and the last 节 after
      all three, as far as there are any. */
  lemma OpenedPath(pre: seq<string>, line: string)
    requires IsHeadLine(line)
    ensures var m := MachineStep(Run(Start, pre), line);
            m.cur.Some? && m.cur.value.lines == [Strip(line)]
            && m.cur.value.path == PathOf(LevelsOf(pre))
  {
    RunHier(pre);
    HierAfterLevels(pre);
    HeadOpens(Run(Start, pre), line);
  }

  /** The number of articles is the number of article head lines. */
  lemma SplitLawCount(content: string)
    requires content != []
    ensures PairedWith(SplitLaw(content), Heads(Split(content, '\n')))
  {
    SplitLawIsArticles(content);
    ArticlesFromHeads(Split(content, '\n'), NoHier);
  }

  /** An article collects only blank and body lines, all before the next
      head line: no heading line and no line of a later article is ever part
      of its content. */
  lemma {:induction false} AttachedLines(lines: seq<string>, x: string)
    requires x in Attached(lines)
    ensures exists i :: 0 <= i < |lines| && x in Kept(lines[i])
              && (Classify(Strip(lines[i])).Blank? || Classify(Strip(lines[i])).Body?)
              && forall j :: 0 <= j <= i ==> !IsHeadLine(lines[j])
  {
    assert |lines| > 0 && !IsHeadLine(lines[0]);
    if x in Kept(lines[0]) {
      assert Classify(Strip(lines[0])).Blank? || Classify(Strip(lines[0])).Body?;
      assert forall j :: 0 <= j <= 0 ==> !IsHeadLine(lines[j]);
    } else {
      var tail := lines[1..];
      assert x in Attached(tail);
      AttachedLines(tail, x);
      var i :| 0 <= i < |tail| && x in Kept(tail[i])
               && (Classify(Strip(tail[i])).Blank? || Classify(Strip(tail[i])).Body?)
               && forall j :: 0 <= j <= i ==> !IsHeadLine(tail[j]);
      assert tail[i] == lines[i + 1];
      assert forall j :: 0 <= j <= i + 1 ==> !IsHeadLine(lines[j]) by {
        forall j | 0 <= j <= i + 1 ensures !IsHeadLine(lines[j]) {
          if j > 0 { assert lines[j] == tail[j - 1]; }
        }
      }
    }
  }
}

=== FILE: catalog.dfy ===
/** The rows of the `laws` and `law_aliases` tables that the lookups read,
    kept in table order. */
module Catalog {
  import opened Strings

  /** A row of `laws`. */
  datatype Law = Law(id: int, title: string, publishDate: string, category: string, status: string)

  /** A row of `law_aliases`. */
  datatype AliasRow = AliasRow(alias: string, lawId: int, aliasType: string, confidence: real)

  /** The status of a law in force. */
  const InForce: string := "有效"

  /** The law a row of `law_aliases` joins to, `None` when no law has that id
      (`JOIN laws l ON la.law_id = l.id`; ids are unique). */
  function LawOf(laws: seq<Law>, id: int): (r: Option<Law>)
    ensures r.Some? ==> r.value in laws && r.value.id == id
    ensures r.None? ==> forall k :: 0 <= k < |laws| ==> laws[k].id != id
  {
    if |laws| == 0 then None
    else if laws[0].id == id then Some(laws[0])
    else LawOf(laws[1..], id)
  }
}

=== FILE: concept_search.dfy ===
/** Concept hits of the MCP server: `format_concept_results` (without inlined
    article text), which keeps one entry per law, orders the entries by
    relevance and caps what it shows, and the candidate phrases
    `resolve_concept_cached` looks up in turn. */
module ConceptSearch {
  import opened Strings
  import opened Sorting
  import opened ArticleExtract
  import opened Seqs

  /** A row `(topic, law_title, law_id, article_hints, relevance)`. */
  datatype ConceptHit = ConceptHit(topic: string, lawTitle: string, lawId: int, hints: string, relevance: real)

  /** The `seen[law_id]` record: the first hit's title and relevance, and the
      topics and hints of all its hits without repetition. */
  datatype LawEntry = LawEntry(lawId: int, title: string, topics: seq<string>, hints: seq<string>, relevance: real)

  function HitLaw(h: ConceptHit): int { h.lawId }

  function EntryLaw(e: LawEntry): int { e.lawId }

  // ---------------------------------------------------------------------
  // One entry per law

  /** `if x not in xs: xs.append(x)` */
  function AddNew(xs: seq<string>, x: string): seq<string> {
    if x in xs then xs else xs + [x]
  }

  /** One iteration of the grouping loop. */
  function Absorb(es: seq<LawEntry>, h: ConceptHit): seq<LawEntry> {
    var k := IndexBy(es, EntryLaw, h.lawId);
    if k == |es| then es + [LawEntry(h.lawId, h.lawTitle, [h.topic], [h.hints], h.relevance)]
    else es[k := es[k].(topics := AddNew(es[k].topics, h.topic), hints := AddNew(es[k].hints, h.hints))]
  }

  /** The `seen` dictionary after the loop, in insertion order. */
  function Group(hits: seq<ConceptHit>): seq<LawEntry>
    decreases |hits|
  {
    if |hits| == 0 then [] else Absorb(Group(hits[..|hits| - 1]), hits[|hits| - 1])
  }

  /** No law has two entries. */
  predicate DistinctLaws(es: seq<LawEntry>) {
    forall i, j :: 0 <= i < j < |es| ==> es[i].lawId != es[j].lawId
  }

  /** What one iteration keeps: every earlier entry's law, title and
      relevance, plus a new entry at the end for a new law. */
  lemma AbsorbShape(es: seq<LawEntry>, h: ConceptHit)
    ensures var a, k := Absorb(es, h), IndexBy(es, EntryLaw, h.lawId);
            && |a| == (if k == |es| then |es| + 1 else |es|)
            && (forall j :: 0 <= j < |es| ==>
                  a[j].lawId == es[j].lawId && a[j].title == es[j].title && a[j].relevance == es[j].relevance)
            && (k == |es| ==> a[k].lawId == h.lawId && a[k].title == h.lawTitle && a[k].relevance == h.relevance)
  {
  }

  lemma {:induction false} GroupDistinct(hits: seq<ConceptHit>)
    ensures DistinctLaws(Group(hits))
    decreases |hits|
  {
    if |hits| > 0 {
      var init, h := hits[..|hits| - 1], hits[|hits| - 1];
      GroupDistinct(init);
      AbsorbShape(Group(init), h);
    }
  }

  lemma {:induction false} GroupCovers(hits: seq<ConceptHit>)
    ensures forall i :: 0 <= i < |hits| ==> IndexBy(Group(hits), EntryLaw, hits[i].lawId) < |Group(hits)|
    decreases |hits|
  {
    if |hits| > 0 {
      var init, h := hits[..|hits| - 1], hits[|hits| - 1];
      GroupCovers(init);
      var g0 := Group(init);
      forall i | 0 <= i < |hits| ensures IndexBy(Group(hits), EntryLaw, hits[i].lawId) < |Group(hits)| {
        if i < |init| {
          assert hits[i] == init[i];
          EntryIndexKeeps(g0, h, hits[i].lawId);
        } else {
          EntryIndexKeeps(g0, h, h.lawId);
        }
      }
    }
  }

  /** `e` carries the title and relevance of the first hit for its law. */
  predicate FromFirstHit(hits: seq<ConceptHit>, e: LawEntry) {
    var f := IndexBy(hits, HitLaw, e.lawId);
    f < |hits| && e.title == hits[f].lawTitle && e.relevance == hits[f].relevance
  }

  lemma {:induction false} GroupFirst(hits: seq<ConceptHit>)
    ensures forall k :: 0 <= k < |Group(hits)| ==> FromFirstHit(hits, Group(hits)[k])
    decreases |hits|
  {
    if |hits| > 0 {
      var init, h := hits[..|hits| - 1], hits[|hits| - 1];
      assert hits == init + [h];
      GroupFirst(init);
      GroupCovers(init);
      var g0 := Group(init);
      var g := Group(hits);
      AbsorbShape(g0, h);
      forall k | 0 <= k < |g| ensures FromFirstHit(hits, g[k]) {
        IndexBySnoc(init, h, HitLaw, g[k].lawId);
        if k == |g0| {
          NewLawFirst(init, h, g0);
          assert hits[|init|] == h;
        } else {
          assert FromFirstHit(init, g0[k]);
          var f := IndexBy(init, HitLaw, g0[k].lawId);
          assert hits[f] == init[f];
        }
      }
    }
  }

  /** A law without an entry so far has no earlier hit. */
  lemma NewLawFirst(init: seq<ConceptHit>, h: ConceptHit, g0: seq<LawEntry>)
    requires forall i :: 0 <= i < |init| ==> IndexBy(g0, EntryLaw, init[i].lawId) < |g0|
    requires IndexBy(g0, EntryLaw, h.lawId) == |g0|
    ensures IndexBy(init, HitLaw, h.lawId) == |init|
  {
    forall i | 0 <= i < |init| ensures init[i].lawId != h.lawId {
      assert IndexBy(g0, EntryLaw, init[i].lawId) < |g0|;
    }
    IndexByIs(init, HitLaw, h.lawId, |init|);
  }

  /** The grouped entries are exactly the laws of the hits, each once, with
      the title and relevance of that law's first hit. */
  lemma GroupLaws(hits: seq<ConceptHit>)
    ensures var g := Group(hits);
            && DistinctLaws(g)
            && (forall i :: 0 <= i < |hits| ==> IndexBy(g, EntryLaw, hits[i].lawId) < |g|)
            && (forall k :: 0 <= k < |g| ==> FromFirstHit(hits, g[k]))
  {
    GroupDistinct(hits);
    GroupCovers(hits);
    GroupFirst(hits);
  }

  /** Absorbing a hit keeps every law's entry and adds one for the hit. */
  lemma EntryIndexKeeps(es: seq<LawEntry>, h: ConceptHit, id: int)
    requires IndexBy(es, EntryLaw, id) < |es| || id == h.lawId
    ensures IndexBy(Absorb(es, h), EntryLaw, id) < |Absorb(es, h)|
  {
    var a := Absorb(es, h);
    if IndexBy(es, EntryLaw, id) < |es| {
      assert a[IndexBy(es, EntryLaw, id)].lawId == id;
      IndexByBound(a, EntryLaw, id, IndexBy(es, EntryLaw, id));
    } else {
      var k := IndexBy(es, EntryLaw, h.lawId);
      assert a[k].lawId == id;
      IndexByBound(a, EntryLaw, id, k);
    }
  }

  predicate NoDup(xs: seq<string>) {
    forall i, j :: 0 <= i < j < |xs| ==> xs[i] != xs[j]
  }

  /** Some hit for law `id` has topic `t`. */
  predicate TopicIn(hits: seq<ConceptHit>, id: int, t: string) {
    exists i :: 0 <= i < |hits| && hits[i].lawId == id && hits[i].topic == t
  }

  /** Some hit for law `id` has article hints `t`. */
  predicate HintsIn(hits: seq<ConceptHit>, id: int, t: string) {
    exists i :: 0 <= i < |hits| && hits[i].lawId == id && hits[i].hints == t
  }

  /** `e` lists every topic and every hint string of its law's hits, once. */
  ghost predicate ListsAll(hits: seq<ConceptHit>, e: LawEntry) {
    && NoDup(e.topics) && NoDup(e.hints)
    && (forall t :: t in e.topics <==> TopicIn(hits, e.lawId, t))
    && (forall t :: t in e.hints <==> HintsIn(hits, e.lawId, t))
  }

  lemma AddNewProps(xs: seq<string>, x: string)
    requires NoDup(xs)
    ensures NoDup(AddNew(xs, x))
    ensures forall t :: t in AddNew(xs, x) <==> t in xs || t == x
  {
  }

  lemma InSnoc(init: seq<ConceptHit>, h: ConceptHit, id: int, t: string)
    ensures TopicIn(init + [h], id, t) <==> TopicIn(init, id, t) || (h.lawId == id && h.topic == t)
    ensures HintsIn(init + [h], id, t) <==> HintsIn(init, id, t) || (h.lawId == id && h.hints == t)
  {
    var all := init + [h];
    if TopicIn(all, id, t) {
      var i :| 0 <= i < |all| && all[i].lawId == id && all[i].topic == t;
      if i < |init| {
        assert init[i] == all[i];
      }
    }
    if TopicIn(init, id, t) {
      var i :| 0 <= i < |init| && init[i].lawId == id && init[i].topic == t;
      assert all[i] == init[i];
    }
    if h.lawId == id && h.topic == t {
      assert all[|init|] == h;
    }
    if HintsIn(all, id, t) {
      var i :| 0 <= i < |all| && all[i].lawId == id && all[i].hints == t;
      if i < |init| {
        assert init[i] == all[i];
      }
    }
    if HintsIn(init, id, t) {
      var i :| 0 <= i < |init| && init[i].lawId == id && init[i].hints == t;
      assert all[i] == init[i];
    }
    if h.lawId == id && h.hints == t {
      assert all[|init|] == h;
    }
  }

  /** An entry untouched by a hit of another law still lists all its law's
      topics and hints. */
  lemma ListsKept(init: seq<ConceptHit>, h: ConceptHit, e: LawEntry)
    requires ListsAll(init, e) && e.lawId != h.lawId
    ensures ListsAll(init + [h], e)
  {
    forall t ensures TopicIn(init + [h], e.lawId, t) <==> TopicIn(init, e.lawId, t) {
      InSnoc(init, h, e.lawId, t);
    }
    forall t ensures HintsIn(init + [h], e.lawId, t) <==> HintsIn(init, e.lawId, t) {
      InSnoc(init, h, e.lawId, t);
    }
  }

  /** The entry a hit of its own law updates. */
  lemma ListsUpdated(init: seq<ConceptHit>, h: ConceptHit, e: LawEntry)
    requires ListsAll(init, e) && e.lawId == h.lawId
    ensures ListsAll(init + [h], e.(topics := AddNew(e.topics, h.topic), hints := AddNew(e.hints, h.hints)))
  {
    AddNewProps(e.topics, h.topic);
    AddNewProps(e.hints, h.hints);
    forall t ensures TopicIn(init + [h], e.lawId, t) <==> TopicIn(init, e.lawId, t) || h.topic == t {
      InSnoc(init, h, e.lawId, t);
    }
    forall t ensures HintsIn(init + [h], e.lawId, t) <==> HintsIn(init, e.lawId, t) || h.hints == t {
      InSnoc(init, h, e.lawId, t);
    }
  }

  /** The entry a hit of a new law opens. */
  lemma ListsOpened(init: seq<ConceptHit>, h: ConceptHit)
    requires forall i :: 0 <= i < |init| ==> init[i].lawId != h.lawId
    ensures ListsAll(init + [h], LawEntry(h.lawId, h.lawTitle, [h.topic], [h.hints], h.relevance))
  {
    forall t ensures TopicIn(init + [h], h.lawId, t) <==> h.topic == t {
      InSnoc(init, h, h.lawId, t);
    }
    forall t ensures HintsIn(init + [h], h.lawId, t) <==> h.hints == t {
      InSnoc(init, h, h.lawId, t);
    }
  }

  /** Every grouped entry lists its law's topics and hints without
      repetition. */
  lemma {:induction false} GroupLists(hits: seq<ConceptHit>)
    ensures forall k :: 0 <= k < |Group(hits)| ==> ListsAll(hits, Group(hits)[k])
    decreases |hits|
  {
    if |hits| > 0 {
      var init, h := hits[..|hits| - 1], hits[|hits| - 1];
      assert hits == init + [h];
      GroupLists(init);
      GroupCovers(init);
      var g0 := Group(init);
      var g := Group(hits);
      var k0 := IndexBy(g0, EntryLaw, h.lawId);
      forall k | 0 <= k < |g| ensures ListsAll(hits, g[k]) {
        if k < |g0| && k != k0 {
          assert g[k] == g0[k];
          assert ListsAll(init, g0[k]);
          if k0 < |g0| {
            GroupDistinct(init);
            assert g0[k].lawId != g0[k0].lawId;
          }
          ListsKept(init, h, g0[k]);
        } else if k < |g0| {
          assert ListsAll(init, g0[k]);
          ListsUpdated(init, h, g0[k]);
        } else {
          NewLawFirst(init, h, g0);
          forall i | 0 <= i < |init| ensures init[i].lawId != h.lawId {
            IndexByIs(init, HitLaw, h.lawId, |init|);
          }
          ListsOpened(init, h);
        }
      }
    }
  }

  // ---------------------------------------------------------------------
  // Ordering, capping and showing the entries

  /** The entries by non-increasing relevance, ties in first-seen order. */
  function Ranked(hits: seq<ConceptHit>): seq<LawEntry> {
    SortDesc(Group(hits), (e: LawEntry) => e.relevance)
  }

  /** How many entries the loop appends before it breaks: at least one,
      since it checks the count only after appending. */
  function ShowCount(limit: int): nat {
    if limit >= 1 then limit else 1
  }

  /** The first three items, `xs[:3]`. */
  function Head3(xs: seq<string>): (r: seq<string>)
    ensures |r| <= 3 && |r| <= |xs| && r == xs[..|r|]
    ensures |xs| <= 3 ==> r == xs
  {
    if |xs| <= 3 then xs else xs[..3]
  }

  /** One shown law: title, the joined topics and hints, relevance and the
      articles the hints pick from the law's text. */
  datatype EntryView = EntryView(lawId: int, title: string, topics: string, hints: string, relevance: real, articles: string)

  /** The entry text of one law; `contents` maps a law id to its stored full
      text, and inline articles are extracted with the joined hints. */
  function View(e: LawEntry, inline: bool, contents: map<int, string>): (v: EntryView)
    ensures v.lawId == e.lawId && v.title == e.title && v.relevance == e.relevance
    ensures !inline || e.lawId !in contents ==> v.articles == []
  {
    var hs := Join(Head3(e.hints), ", ");
    EntryView(e.lawId, e.title, Join(Head3(e.topics), ", "), hs, e.relevance,
              if inline && e.lawId in contents then ExtractByHints(contents[e.lawId], hs) else "")
  }

  function Views(es: seq<LawEntry>, inline: bool, contents: map<int, string>): (vs: seq<EntryView>)
    ensures |vs| == |es|
    ensures forall k :: 0 <= k < |es| ==> vs[k] == View(es[k], inline, contents)
  {
    if |es| == 0 then [] else [View(es[0], inline, contents)] + Views(es[1..], inline, contents)
  }

  /** The law of `v` has a hit, and `v` carries that law's first title and
      relevance. */
  predicate FirstOfLaw(hits: seq<ConceptHit>, v: EntryView) {
    var f := IndexBy(hits, HitLaw, v.lawId);
    f < |hits| && v.title == hits[f].lawTitle && v.relevance == hits[f].relevance
  }

  /** The relevance of the first hit of law `id` (0 when it has none). */
  function FirstRelevance(hits: seq<ConceptHit>, id: int): real {
    var f := IndexBy(hits, HitLaw, id);
    if f < |hits| then hits[f].relevance else 0.0
  }

  predicate Shows(vs: seq<EntryView>, id: int) {
    exists k :: 0 <= k < |vs| && vs[k].lawId == id
  }

  /** `format_concept_results`: `None` for no hits, otherwise the entries it
      shows, in order. */
  function FormatConceptResults(hits: seq<ConceptHit>, limit: int, inline: bool, contents: map<int, string>)
    : (r: Option<seq<EntryView>>)
    ensures r.None? <==> |hits| == 0
    ensures r.Some? ==> 1 <= |r.value| <= ShowCount(limit)
    ensures r.Some? ==> |r.value| == if ShowCount(limit) <= |Group(hits)| then ShowCount(limit) else |Group(hits)|
    ensures r.Some? ==> forall i, j :: 0 <= i < j < |r.value| ==>
              r.value[i].lawId != r.value[j].lawId && r.value[i].relevance >= r.value[j].relevance
    ensures r.Some? ==> forall k :: 0 <= k < |r.value| ==> FirstOfLaw(hits, r.value[k])
    ensures r.Some? ==> forall i :: 0 <= i < |hits| ==>
              Shows(r.value, hits[i].lawId)
              || FirstRelevance(hits, hits[i].lawId) <= r.value[|r.value| - 1].relevance
  {
    if |hits| == 0 then None
    else
      var vs := Views(Take(Ranked(hits), ShowCount(limit)), inline, contents);
      FormatProps(hits, limit, inline, contents, vs);
      Some(vs)
  }

  lemma FormatProps(hits: seq<ConceptHit>, limit: int, inline: bool, contents: map<int, string>, vs: seq<EntryView>)
    requires |hits| > 0 && vs == Views(Take(Ranked(hits), ShowCount(limit)), inline, contents)
    ensures 1 <= |vs| <= ShowCount(limit)
    ensures |vs| == if ShowCount(limit) <= |Group(hits)| then ShowCount(limit) else |Group(hits)|
    ensures forall i, j :: 0 <= i < j < |vs| ==> vs[i].lawId != vs[j].lawId && vs[i].relevance >= vs[j].relevance
    ensures forall k :: 0 <= k < |vs| ==> FirstOfLaw(hits, vs[k])
    ensures forall i :: 0 <= i < |hits| ==>
              Shows(vs, hits[i].lawId) || FirstRelevance(hits, hits[i].lawId) <= vs[|vs| - 1].relevance
  {
    var shown := Take(Ranked(hits), ShowCount(limit));
    ShownProps(hits, limit);
    ViewsProps(hits, shown, vs, inline, contents);
  }

  /** The views carry over what holds of the entries they show. */
  lemma ViewsProps(hits: seq<ConceptHit>, shown: seq<LawEntry>, vs: seq<EntryView>, inline: bool, contents: map<int, string>)
    requires |shown| > 0 && vs == Views(shown, inline, contents)
    requires DistinctLaws(shown) && SortedDesc(shown, (e: LawEntry) => e.relevance)
    requires forall k :: 0 <= k < |shown| ==> FromFirstHit(hits, shown[k])
    requires forall i :: 0 <= i < |hits| ==> HasOrOutranks(hits, shown, hits[i].lawId)
    ensures forall i, j :: 0 <= i < j < |vs| ==> vs[i].lawId != vs[j].lawId && vs[i].relevance >= vs[j].relevance
    ensures forall k :: 0 <= k < |vs| ==> FirstOfLaw(hits, vs[k])
    ensures forall i :: 0 <= i < |hits| ==>
              Shows(vs, hits[i].lawId) || FirstRelevance(hits, hits[i].lawId) <= vs[|vs| - 1].relevance
  {
    ViewsKeep(shown, vs, inline, contents);
    forall i, j | 0 <= i < j < |vs| ensures vs[i].lawId != vs[j].lawId && vs[i].relevance >= vs[j].relevance {
      assert shown[i].relevance >= shown[j].relevance;
    }
    forall i | 0 <= i < |hits|
      ensures Shows(vs, hits[i].lawId) || FirstRelevance(hits, hits[i].lawId) <= vs[|vs| - 1].relevance
    {
      ViewsShow(hits, shown, vs, hits[i].lawId);
    }
    forall k | 0 <= k < |vs| ensures FirstOfLaw(hits, vs[k]) {
      assert FromFirstHit(hits, shown[k]);
    }
  }

  /** Each view keeps its entry's law, title and relevance. */
  lemma ViewsKeep(shown: seq<LawEntry>, vs: seq<EntryView>, inline: bool, contents: map<int, string>)
    requires vs == Views(shown, inline, contents)
    ensures |vs| == |shown|
    ensures forall k :: 0 <= k < |vs| ==>
              vs[k].lawId == shown[k].lawId && vs[k].title == shown[k].title && vs[k].relevance == shown[k].relevance
  {
  }

  lemma ViewsShow(hits: seq<ConceptHit>, shown: seq<LawEntry>, vs: seq<EntryView>, id: int)
    requires |shown| > 0 && |vs| == |shown| && HasOrOutranks(hits, shown, id)
    requires forall k :: 0 <= k < |vs| ==> vs[k].lawId == shown[k].lawId && vs[k].relevance == shown[k].relevance
    ensures Shows(vs, id) || FirstRelevance(hits, id) <= vs[|vs| - 1].relevance
  {
    if k :| 0 <= k < |shown| && shown[k].lawId == id {
      assert vs[k].lawId == id;
    }
  }

  lemma ShownProps(hits: seq<ConceptHit>, limit: int)
    requires |hits| > 0
    ensures var shown := Take(Ranked(hits), ShowCount(limit));
            && 1 <= |shown| <= ShowCount(limit)
            && |shown| == (if ShowCount(limit) <= |Group(hits)| then ShowCount(limit) else |Group(hits)|)
            && DistinctLaws(shown)
            && SortedDesc(shown, (e: LawEntry) => e.relevance)
            && (forall k :: 0 <= k < |shown| ==> FromFirstHit(hits, shown[k]))
            && (forall i :: 0 <= i < |hits| ==> HasOrOutranks(hits, shown, hits[i].lawId))
  {
    GroupCovers(hits);
    assert IndexBy(Group(hits), EntryLaw, hits[0].lawId) < |Group(hits)|;
    RankedDistinct(hits);
    RankedFirst(hits);
    var s := Ranked(hits);
    var shown := Take(s, ShowCount(limit));
    assert forall k :: 0 <= k < |shown| ==> shown[k] == s[k];
    forall i | 0 <= i < |hits| ensures HasOrOutranks(hits, shown, hits[i].lawId) {
      ShownOrOutranked(hits, shown, i);
    }
  }

  lemma RankedDistinct(hits: seq<ConceptHit>)
    ensures DistinctLaws(Ranked(hits))
  {
    GroupDistinct(hits);
    var g := Group(hits);
    assert Distinct(g, (e: LawEntry) => e.lawId);
    SortDescDistinct(g, (e: LawEntry) => e.relevance, (e: LawEntry) => e.lawId);
    assert Distinct(Ranked(hits), (e: LawEntry) => e.lawId);
  }

  lemma RankedFirst(hits: seq<ConceptHit>)
    ensures forall k :: 0 <= k < |Ranked(hits)| ==> FromFirstHit(hits, Ranked(hits)[k])
  {
    var g := Group(hits);
    var s := Ranked(hits);
    GroupFirst(hits);
    forall k | 0 <= k < |s| ensures FromFirstHit(hits, s[k]) {
      assert s[k] in multiset(g);
      var j :| 0 <= j < |g| && g[j] == s[k];
    }
  }

  lemma ShownOrOutranked(hits: seq<ConceptHit>, shown: seq<LawEntry>, i: nat)
    requires i < |hits| && 0 < |shown| <= |Ranked(hits)|
    requires shown == Ranked(hits)[..|shown|]
    ensures HasOrOutranks(hits, shown, hits[i].lawId)
  {
    var g := Group(hits);
    var s := Ranked(hits);
    GroupCovers(hits);
    GroupFirst(hits);
    var e := g[IndexBy(g, EntryLaw, hits[i].lawId)];
    assert FromFirstHit(hits, e);
    assert e in multiset(s);
    var p :| 0 <= p < |s| && s[p] == e;
    if p < |shown| {
      assert shown[p] == e;
    } else {
      assert s[|shown| - 1] == shown[|shown| - 1];
    }
  }

  /** The law `id` is shown, or its relevance is at most that of every shown
      law. */
  predicate HasOrOutranks(hits: seq<ConceptHit>, shown: seq<LawEntry>, id: int)
    requires |shown| > 0
  {
    var f := IndexBy(hits, HitLaw, id);
    f < |hits|
    && ((exists k :: 0 <= k < |shown| && shown[k].lawId == id)
        || hits[f].relevance <= shown[|shown| - 1].relevance)
  }

  /** The shown entries come from the ranked entries, each listing its law's
      topics and hints once, in the order of their first appearance. */
  lemma ShownLists(hits: seq<ConceptHit>, limit: int, inline: bool, contents: map<int, string>)
    requires |hits| > 0
    ensures var vs := FormatConceptResults(hits, limit, inline, contents).value;
            forall k :: 0 <= k < |vs| ==>
              ListsAll(hits, Ranked(hits)[k]) && vs[k] == View(Ranked(hits)[k], inline, contents)
  {
    var g := Group(hits);
    var s := Ranked(hits);
    GroupLists(hits);
    var vs := FormatConceptResults(hits, limit, inline, contents).value;
    var shown := Take(s, ShowCount(limit));
    forall k | 0 <= k < |vs| ensures ListsAll(hits, s[k]) && vs[k] == View(s[k], inline, contents) {
      assert shown[k] == s[k];
      assert s[k] in multiset(g);
      var j :| 0 <= j < |g| && g[j] == s[k];
    }
  }

  // ---------------------------------------------------------------------
  // Candidate phrases of resolve_concept_cached

  /** `"".join(tokens[start:start + length])` */
  function Phrase(tokens: seq<string>, start: nat, length: nat): string
    requires start + length <= |tokens|
  {
    Join(tokens[start..start + length], "")
  }

  /** The phrases of one length, by start position, except the query. */
  function Level(tokens: seq<string>, query: string, length: nat, start: nat): seq<string>
    requires 1 <= length <= |tokens| && start <= |tokens| - length + 1
    decreases |tokens| - length + 1 - start
  {
    if start == |tokens| - length + 1 then []
    else (if Phrase(tokens, start, length) != query then [Phrase(tokens, start, length)] else [])
         + Level(tokens, query, length, start + 1)
  }

  /** The levels from `length` down to 1. */
  function Levels(tokens: seq<string>, query: string, length: nat): seq<string>
    requires length <= |tokens|
  {
    if length == 0 then [] else Level(tokens, query, length, 0) + Levels(tokens, query, length - 1)
  }

  /** The loop that appends each token not yet listed. */
  function AddMissing(cands: seq<string>, ts: seq<string>): (r: seq<string>)
    ensures |cands| <= |r| && r[..|cands|] == cands
    decreases |ts|
  {
    if |ts| == 0 then cands else AddMissing(AddNew(cands, ts[0]), ts[1..])
  }

  /** The candidate list: the query, then for a query of several tokens every
      contiguous run of fewer tokens, glued without spaces, longest first,
      then any token not yet listed. */
  function ConceptCandidates(query: string): (r: seq<string>)
    ensures |r| > 0 && r[0] == query
    ensures |SplitWhitespace(query)| <= 1 ==> r == [query]
  {
    var tokens := SplitWhitespace(query);
    if |tokens| > 1 then AddMissing([query] + Levels(tokens, query, |tokens| - 1), tokens) else [query]
  }

  /** A sub-phrase of the query's tokens. */
  predicate SubPhrase(tokens: seq<string>, query: string, x: string) {
    exists start: nat, length: nat :: 1 <= length < |tokens| && start + length <= |tokens|
      && x == Phrase(tokens, start, length) && x != query
  }

  lemma {:induction false} LevelMembers(tokens: seq<string>, query: string, length: nat, start: nat, x: string)
    requires 1 <= length <= |tokens| && start <= |tokens| - length + 1
    ensures x in Level(tokens, query, length, start) <==>
            exists i: nat :: start <= i <= |tokens| - length && x == Phrase(tokens, i, length) && x != query
    decreases |tokens| - length + 1 - start
  {
    if start < |tokens| - length + 1 {
      LevelMembers(tokens, query, length, start + 1, x);
      if x == Phrase(tokens, start, length) && x != query {
        assert x in Level(tokens, query, length, start);
      }
    }
  }

  lemma {:induction false} LevelsMembers(tokens: seq<string>, query: string, length: nat, x: string)
    requires length <= |tokens|
    ensures x in Levels(tokens, query, length) <==>
            exists start: nat, l: nat :: 1 <= l <= length && start + l <= |tokens|
              && x == Phrase(tokens, start, l) && x != query
  {
    if length > 0 {
      LevelsMembers(tokens, query, length - 1, x);
      LevelMembers(tokens, query, length, 0, x);
    }
  }

  lemma {:induction false} AddMissingPresent(cands: seq<string>, ts: seq<string>)
    requires forall k :: 0 <= k < |ts| ==> ts[k] in cands
    ensures AddMissing(cands, ts) == cands
  {
    if |ts| > 0 {
      assert ts[0] in cands;
      AddMissingPresent(cands, ts[1..]);
    }
  }

  /** For a query of several tokens the candidates after the query are
      exactly its shorter sub-phrases, and the final per-token loop adds
      nothing: every token is already a sub-phrase of length one. */
  lemma CandidatesAreSubPhrases(query: string)
    requires |SplitWhitespace(query)| > 1
    ensures var tokens := SplitWhitespace(query);
            && ConceptCandidates(query) == [query] + Levels(tokens, query, |tokens| - 1)
            && forall x :: x in ConceptCandidates(query)[1..] <==> SubPhrase(tokens, query, x)
  {
    var tokens := SplitWhitespace(query);
    var base := [query] + Levels(tokens, query, |tokens| - 1);
    TokensListed(query, tokens, base);
    AddMissingPresent(base, tokens);
    assert base[1..] == Levels(tokens, query, |tokens| - 1);
    forall x ensures x in Levels(tokens, query, |tokens| - 1) <==> SubPhrase(tokens, query, x) {
      SubPhraseLevels(tokens, query, x);
    }
  }

  lemma SubPhraseLevels(tokens: seq<string>, query: string, x: string)
    requires |tokens| > 1
    ensures x in Levels(tokens, query, |tokens| - 1) <==> SubPhrase(tokens, query, x)
  {
    LevelsMembers(tokens, query, |tokens| - 1, x);
  }

  lemma TokensListed(query: string, tokens: seq<string>, base: seq<string>)
    requires tokens == SplitWhitespace(query) && |tokens| > 1
    requires base == [query] + Levels(tokens, query, |tokens| - 1)
    ensures forall k :: 0 <= k < |tokens| ==> tokens[k] in base
  {
    WordSplit(query);
    forall k | 0 <= k < |tokens| ensures tokens[k] in base {
      TokenListed(tokens, query, k);
    }
  }

  lemma TokenListed(tokens: seq<string>, query: string, k: nat)
    requires 1 < |tokens| && k < |tokens| && tokens[k] != query
    ensures tokens[k] in Levels(tokens, query, |tokens| - 1)
  {
    assert tokens[k..k + 1] == [tokens[k]];
    assert Phrase(tokens, k, 1) == tokens[k];
    LevelsMembers(tokens, query, |tokens| - 1, tokens[k]);
  }
}

=== FILE: crawler_text.dfy ===
/** Text and date normalisation of the crawler base class: `clean_text`
    collapses whitespace, `extract_date` finds a calendar date in one of four
    spellings and writes it as YYYY-MM-DD. */
module CrawlerText {
  import opened Strings

  // ---------------------------------------------------------------------
  // clean_text

  /** `re.sub(r'\s+', ' ', s)`: every run of whitespace becomes one space. */
  function Collapse(s: string): (r: string)
    ensures |r| <= |s|
    decreases |s|
  {
    if |s| == 0 then ""
    else if IsSpace(s[0]) then [' '] + Collapse(s[LeadingSpaces(s)..])
    else [s[0]] + Collapse(s[1..])
  }

  /** The only whitespace is single spaces. */
  predicate SingleSpaced(s: string) {
    && (forall i :: 0 <= i < |s| && IsSpace(s[i]) ==> s[i] == ' ')
    && (forall i :: 0 <= i < |s| - 1 ==> !(IsSpace(s[i]) && IsSpace(s[i + 1])))
  }

  /** `s` without its whitespace characters. */
  function Visible(s: string): string {
    if |s| == 0 then "" else (if IsSpace(s[0]) then "" else [s[0]]) + Visible(s[1..])
  }

  lemma {:induction false} VisibleConcat(a: string, b: string)
    ensures Visible(a + b) == Visible(a) + Visible(b)
  {
    if |a| == 0 {
      assert a + b == b;
    } else {
      assert (a + b)[1..] == a[1..] + b;
      VisibleConcat(a[1..], b);
    }
  }

  lemma {:induction false} VisibleOfSpaces(s: string)
    requires AllSpace(s)
    ensures Visible(s) == ""
  {
    if |s| > 0 {
      VisibleOfSpaces(s[1..]);
    }
  }

  /** " " when `s` starts with whitespace. */
  function LeadSpace(s: string): string {
    if |s| > 0 && IsSpace(s[0]) then " " else ""
  }

  /** " " when `s` ends with whitespace that follows some word. */
  function TrailSpace(s: string): string {
    if !AllSpace(s) && IsSpace(s[|s| - 1]) then " " else ""
  }

  /** Collapsing passes a run of non-space characters through unchanged. */
  lemma {:induction false} CollapseWord(w: string, x: string)
    requires forall j :: 0 <= j < |w| ==> !IsSpace(w[j])
    ensures Collapse(w + x) == w + Collapse(x)
    decreases |w|
  {
    if |w| > 0 {
      assert (w + x)[0] == w[0];
      assert (w + x)[1..] == w[1..] + x;
      CollapseWord(w[1..], x);
      assert [w[0]] + (w[1..] + Collapse(x)) == w + Collapse(x);
    } else {
      assert w + x == x;
    }
  }

  /** The layout `Collapse` gives `s`: its words separated by single
      spaces, with one space in front when `s` starts with whitespace and one
      at the end when it ends with whitespace after a word. */
  function Spaced(s: string): string {
    LeadSpace(s) + Join(SplitWhitespace(s), " ") + TrailSpace(s)
  }

  /** Collapsing puts one space exactly where `s` has a run of whitespace. */
  lemma {:induction false} CollapseWords(s: string)
    ensures Collapse(s) == Spaced(s)
    decreases |s|
  {
    if |s| > 0 && IsSpace(s[0]) {
      CollapseWords(s[LeadingSpaces(s)..]);
      SpaceStep(s);
    } else if |s| > 0 {
      CollapseWords(s[FirstSpace(s)..]);
      WordStep(s);
    }
  }

  /** A leading run of whitespace becomes the front space. */
  lemma SpaceStep(s: string)
    requires |s| > 0 && IsSpace(s[0])
    requires Collapse(s[LeadingSpaces(s)..]) == Spaced(s[LeadingSpaces(s)..])
    ensures Collapse(s) == Spaced(s)
  {
    var rest := s[LeadingSpaces(s)..];
    var J := Join(SplitWhitespace(rest), " ");
    SplitWhitespaceSkip(s);
    TrailSpaceSkip(s, LeadingSpaces(s));
    assert LeadSpace(rest) == "";
    var T := TrailSpace(rest);
    assert Collapse(s) == " " + Collapse(rest);
    assert Spaced(rest) == "" + J + T;
    assert Spaced(s) == " " + J + T;
    SpaceInFront(Collapse(s), Collapse(rest), J, T);
  }

  lemma SpaceInFront(c: string, cr: string, j: string, t: string)
    requires c == " " + cr && cr == "" + j + t
    ensures c == " " + j + t
  {
    assert "" + j == j;
    SeqAssoc(" ", j, t);
  }

  /** Dropping leading whitespace keeps the end space. */
  lemma TrailSpaceSkip(s: string, k: nat)
    requires k <= |s| && AllSpace(s[..k])
    ensures TrailSpace(s[k..]) == TrailSpace(s)
  {
    var rest := s[k..];
    assert forall i :: 0 <= i < |rest| ==> rest[i] == s[k + i];
    assert forall i :: 0 <= i < k ==> s[..k][i] == s[i];
    if AllSpace(rest) {
      assert AllSpace(s) by {
        forall i | 0 <= i < |s| ensures IsSpace(s[i]) {
          if i >= k { assert s[i] == rest[i - k]; }
        }
      }
    }
  }

  /** A leading word is copied, and the space after it comes from the
      whitespace run that follows. */
  lemma WordStep(s: string)
    requires |s| > 0 && !IsSpace(s[0])
    requires Collapse(s[FirstSpace(s)..]) == Spaced(s[FirstSpace(s)..])
    ensures Collapse(s) == Spaced(s)
  {
    var k := FirstSpace(s);
    var w, rest := s[..k], s[k..];
    TakeDrop(s, k);
    CollapseWord(w, rest);
    SplitWhitespaceWord(s);
    SplitWhitespaceNone(rest);
    TrailSpaceWord(s, k);
    var words := SplitWhitespace(rest);
    assert LeadSpace(s) == "";
    assert Spaced(s) == "" + Join([w] + words, " ") + TrailSpace(s);
    if rest == [] {
      WordAlone(w, words, Join([w] + words, " "), TrailSpace(s));
    } else if words == [] {
      assert LeadSpace(rest) == " ";
      WordThenSpace(w, words, Join([w] + words, " "), TrailSpace(s), Collapse(rest));
    } else {
      assert LeadSpace(rest) == " ";
      assert ([w] + words)[1..] == words;
      WordThenWords(w, words, Join([w] + words, " "), TrailSpace(rest), Collapse(rest));
    }
  }

  /** The end space of a string that starts with a word: none when the word
      is all of it, one when only whitespace follows the word, otherwise
      that of the rest. */
  lemma TrailSpaceWord(s: string, k: nat)
    requires 0 < k <= |s| && forall j :: 0 <= j < k ==> !IsSpace(s[j])
    requires k < |s| ==> IsSpace(s[k])
    ensures !AllSpace(s)
    ensures TrailSpace(s) == if k == |s| then "" else if AllSpace(s[k..]) then " " else TrailSpace(s[k..])
  {
    assert !IsSpace(s[0]);
    if k < |s| {
      var rest := s[k..];
      assert rest[|rest| - 1] == s[|s| - 1];
      assert rest[0] == s[k];
    }
  }

  lemma WordAlone(w: string, words: seq<string>, j: string, t: string)
    requires words == [] && j == Join([w] + words, " ") && t == ""
    ensures w + "" == "" + j + t
  {
    assert [w] + words == [w];
  }

  lemma WordThenSpace(w: string, words: seq<string>, j: string, t: string, c: string)
    requires words == [] && j == Join([w] + words, " ") && t == " " && c == " "
    ensures w + c == "" + j + t
  {
    assert [w] + words == [w];
  }

  lemma WordThenWords(w: string, words: seq<string>, j: string, t: string, c: string)
    requires |words| > 0 && ([w] + words)[1..] == words
    requires j == Join([w] + words, " ") && c == " " + Join(words, " ") + t
    ensures w + c == "" + j + t
  {
    var rest := Join(words, " ");
    JoinCons(w, words, " ");
    Assoc4(w, " ", rest, t);
  }

  lemma Assoc4(a: string, b: string, c: string, d: string)
    ensures a + (b + c + d) == "" + (a + b + c) + d
  {
    assert "" + (a + b + c) == a + b + c;
  }

  /** Collapsing gives the spaced layout of the words, whose whitespace
      is single spaces, and keeps the visible characters. */
  lemma CollapseProps(s: string)
    ensures Collapse(s) == Spaced(s)
    ensures SingleSpaced(Collapse(s))
    ensures |s| > 0 ==> |Collapse(s)| > 0 && (IsSpace(Collapse(s)[0]) <==> IsSpace(s[0]))
    ensures Visible(Collapse(s)) == Visible(s)
  {
    CollapseWords(s);
    CollapseShape(s);
  }

  lemma {:induction false} CollapseShape(s: string)
    ensures SingleSpaced(Collapse(s))
    ensures |s| > 0 ==> |Collapse(s)| > 0 && (IsSpace(Collapse(s)[0]) <==> IsSpace(s[0]))
    ensures Visible(Collapse(s)) == Visible(s)
    decreases |s|
  {
    if |s| > 0 {
      var k := if IsSpace(s[0]) then LeadingSpaces(s) else 1;
      var rest := s[k..];
      CollapseShape(rest);
      var head := if IsSpace(s[0]) then [' '] else [s[0]];
      var r := head + Collapse(rest);
      assert Collapse(s) == r;
      assert s == s[..k] + rest;
      VisibleConcat(s[..k], rest);
      VisibleConcat(head, Collapse(rest));
      if IsSpace(s[0]) {
        VisibleOfSpaces(s[..k]);
        assert Visible(head) == "" by { assert Visible(head) == "" + Visible([]); }
        assert |rest| > 0 ==> !IsSpace(rest[0]);
      } else {
        assert s[..k] == head;
      }
      assert SingleSpaced(r) by {
        forall i | 0 <= i < |r| - 1 ensures !(IsSpace(r[i]) && IsSpace(r[i + 1])) {
          if i > 0 {
            assert r[i] == Collapse(rest)[i - 1] && r[i + 1] == Collapse(rest)[i];
          }
        }
        forall i | 0 <= i < |r| && IsSpace(r[i]) ensures r[i] == ' ' {
          if i > 0 {
            assert r[i] == Collapse(rest)[i - 1];
          }
        }
      }
    }
  }

  /** `clean_text`: the words of `s` (its maximal runs of non-space
      characters), in order, separated by single spaces. */
  function CleanText(s: string): (r: string)
    ensures r == Join(SplitWhitespace(s), " ")
    ensures s == [] ==> r == []
    ensures NoEdgeSpace(r)
    ensures SingleSpaced(r)
    ensures Visible(r) == Visible(s)
  {
    if s == [] then ""
    else
      var c := Collapse(s);
      CollapseShape(s);
      StripKeepsShape(c);
      CleanWords(s, c);
      Strip(c)
  }

  /** Stripping the collapsed text leaves the words joined by single
      spaces. */
  lemma CleanWords(s: string, c: string)
    requires c == Collapse(s)
    ensures Strip(c) == Join(SplitWhitespace(s), " ")
  {
    var j := Join(SplitWhitespace(s), " ");
    CollapseWords(s);
    JoinWordsEdges(SplitWhitespace(s));
    EdgeSpaces(s);
    StripAround(LeadSpace(s), j, TrailSpace(s));
  }

  lemma EdgeSpaces(s: string)
    ensures AllSpace(LeadSpace(s)) && AllSpace(TrailSpace(s))
  {
  }

  /** Stripping a single-spaced string keeps it single-spaced and drops
      only whitespace. */
  lemma StripKeepsShape(c: string)
    requires SingleSpaced(c)
    ensures SingleSpaced(Strip(c))
    ensures Visible(Strip(c)) == Visible(c)
  {
    var l := LStrip(c);
    var r := RStrip(l);
    assert Strip(c) == r;
    var a := |c| - |l|;
    SingleSpacedSlice(c, a, a + |r|);
    assert c[a..a + |r|] == r;
    StripVisible(c, l, r);
  }

  lemma StripVisible(c: string, l: string, r: string)
    requires l == LStrip(c) && r == RStrip(l)
    ensures Visible(r) == Visible(c)
  {
    var a := |c| - |l|;
    assert c == c[..a] + l;
    assert l == r + l[|r|..];
    VisibleConcat(c[..a], l);
    VisibleConcat(r, l[|r|..]);
    VisibleOfSpaces(c[..a]);
    VisibleOfSpaces(l[|r|..]);
  }

  lemma SingleSpacedSlice(c: string, a: nat, b: nat)
    requires a <= b <= |c| && SingleSpaced(c)
    ensures SingleSpaced(c[a..b])
  {
    var t := c[a..b];
    forall i | 0 <= i < |t| - 1 ensures !(IsSpace(t[i]) && IsSpace(t[i + 1])) {
      assert t[i] == c[a + i] && t[i + 1] == c[a + i + 1];
    }
    forall i | 0 <= i < |t| && IsSpace(t[i]) ensures t[i] == ' ' {
      assert t[i] == c[a + i];
    }
  }

  /** Cleaning a cleaned text changes nothing. */
  lemma CleanTextIdempotent(s: string)
    ensures CleanText(CleanText(s)) == CleanText(s)
  {
    var r := CleanText(s);
    if r != [] {
      CollapseOfClean(r);
      StripOfClean(r);
    }
  }

  lemma {:induction false} CollapseOfClean(s: string)
    requires SingleSpaced(s)
    ensures Collapse(s) == s
    decreases |s|
  {
    if |s| > 0 {
      var rest := s[1..];
      assert SingleSpaced(rest) by {
        forall i | 0 <= i < |rest| - 1 ensures !(IsSpace(rest[i]) && IsSpace(rest[i + 1])) {
          assert rest[i] == s[i + 1] && rest[i + 1] == s[i + 2];
        }
      }
      CollapseOfClean(rest);
      if IsSpace(s[0]) {
        assert |s| > 1 ==> !IsSpace(s[1]);
        assert LeadingSpaces(s) == 1;
      }
    }
  }

  // ---------------------------------------------------------------------
  // extract_date

  /** `(\d{4})S1(\d{1,2})S2(\d{1,2})` followed by `close` when present. */
  datatype Pattern = Pattern(sep1: char, sep2: char, close: Option<char>)

  /** The patterns in the order they are tried: 年月日, '-', '.', '/'. */
  const Patterns: seq<Pattern> :=
    [Pattern('年', '月', Some('日')), Pattern('-', '-', None), Pattern('.', '.', None), Pattern('/', '/', None)]

  predicate DigitsAt(s: string, i: nat, n: nat) {
    i + n <= |s| && forall k :: i <= k < i + n ==> IsAsciiDigit(s[k])
  }

  /** The pattern matches at `i` with a month of `ml` and a day of `dl`
      digits. */
  predicate Shape(s: string, i: nat, p: Pattern, ml: nat, dl: nat) {
    var m0 := i + 5;
    var d0 := m0 + ml + 1;
    var e := d0 + dl;
    && DigitsAt(s, i, 4) && i + 4 < |s| && s[i + 4] == p.sep1
    && DigitsAt(s, m0, ml) && m0 + ml < |s| && s[m0 + ml] == p.sep2
    && DigitsAt(s, d0, dl)
    && (p.close.Some? ==> e < |s| && s[e] == p.close.value)
  }

  /** The three captured groups. */
  datatype Groups = Groups(year: string, month: string, day: string)

  function GroupsAt(s: string, i: nat, p: Pattern, ml: nat, dl: nat): (g: Groups)
    requires Shape(s, i, p, ml, dl)
    ensures IsDigits(g.year) || |g.year| == 0
  {
    Groups(s[i..i + 4], s[i + 5..i + 5 + ml], s[i + 6 + ml..i + 6 + ml + dl])
  }

  /** The match the regex engine finds at `i`: greedy month, then greedy
      day, backtracking month before giving up (two digits are tried before
      one). */
  function MatchAt(s: string, i: nat, p: Pattern): Option<Groups> {
    if Shape(s, i, p, 2, 2) then Some(GroupsAt(s, i, p, 2, 2))
    else if Shape(s, i, p, 2, 1) then Some(GroupsAt(s, i, p, 2, 1))
    else if Shape(s, i, p, 1, 2) then Some(GroupsAt(s, i, p, 1, 2))
    else if Shape(s, i, p, 1, 1) then Some(GroupsAt(s, i, p, 1, 1))
    else None
  }

  /** The leftmost position from `i` on where `p` matches, `|s| + 1` when
      there is none. */
  function FirstMatch(s: string, p: Pattern, i: nat): (j: nat)
    requires i <= |s| + 1
    ensures i <= j <= |s| + 1
    ensures forall k :: i <= k < j ==> MatchAt(s, k, p).None?
    ensures j <= |s| ==> MatchAt(s, j, p).Some?
    decreases |s| + 1 - i
  {
    if i > |s| then i
    else if MatchAt(s, i, p).Some? then i
    else FirstMatch(s, p, i + 1)
  }

  /** `re.search(p, s)`. */
  function Search(s: string, p: Pattern): Option<Groups> {
    var j := FirstMatch(s, p, 0);
    if j <= |s| then MatchAt(s, j, p) else None
  }

  predicate Leap(y: int) {
    y % 4 == 0 && (y % 100 != 0 || y % 400 == 0)
  }

  function DaysIn(y: int, m: int): int {
    if m == 2 then (if Leap(y) then 29 else 28)
    else if m == 4 || m == 6 || m == 9 || m == 11 then 30
    else 31
  }

  /** What `datetime(year, month, day)` accepts. */
  predicate ValidDate(y: int, m: int, d: int) {
    1 <= y <= 9999 && 1 <= m <= 12 && 1 <= d <= DaysIn(y, m)
  }

  predicate GroupsDigits(g: Groups) {
    IsDigits(g.year) && IsDigits(g.month) && IsDigits(g.day)
  }

  predicate ValidGroups(g: Groups) {
    GroupsDigits(g) && ValidDate(DecimalValue(g.year), DecimalValue(g.month), DecimalValue(g.day))
  }

  function Zeros(n: nat): (r: string)
    ensures |r| == n && forall k :: 0 <= k < n ==> r[k] == '0'
  {
    if n == 0 then "" else "0" + Zeros(n - 1)
  }

  /** `n` in decimal, padded with zeros on the left to `w` digits. */
  function Pad(n: nat, w: nat): (r: string)
    ensures IsDigits(r) && DecimalValue(r) == n
    ensures |NatToString(n)| <= w ==> |r| == w
  {
    var t := NatToString(n);
    var r := Zeros(if |t| < w then w - |t| else 0) + t;
    LeadingZeros(Zeros(if |t| < w then w - |t| else 0), t);
    r
  }

  lemma {:induction false} LeadingZeros(z: string, t: string)
    requires forall k :: 0 <= k < |z| ==> z[k] == '0'
    requires forall k :: 0 <= k < |t| ==> IsAsciiDigit(t[k])
    ensures forall k :: 0 <= k < |z + t| ==> IsAsciiDigit((z + t)[k])
    ensures DecimalValue(z + t) == DecimalValue(t)
    decreases |t|
  {
    if |t| == 0 {
      assert z + t == z;
      ZerosValue(z);
    } else {
      assert (z + t)[..|z + t| - 1] == z + t[..|t| - 1];
      LeadingZeros(z, t[..|t| - 1]);
    }
  }

  lemma {:induction false} ZerosValue(z: string)
    requires forall k :: 0 <= k < |z| ==> z[k] == '0'
    ensures DecimalValue(z) == 0
  {
    if |z| > 0 {
      ZerosValue(z[..|z| - 1]);
    }
  }

  /** `strftime('%Y-%m-%d')` */
  function FormatDate(y: nat, m: nat, d: nat): string {
    Pad(y, 4) + "-" + Pad(m, 2) + "-" + Pad(d, 2)
  }

  function FormatGroups(g: Groups): string
    requires GroupsDigits(g)
  {
    FormatDate(DecimalValue(g.year), DecimalValue(g.month), DecimalValue(g.day))
  }

  /** Pattern `k`'s first match exists and is a date `datetime` accepts. */
  predicate Accepts(s: string, k: nat)
    requires k < |Patterns|
  {
    var g := Search(s, Patterns[k]);
    g.Some? && ValidGroups(g.value)
  }

  /** Pattern `j` is the first from `k` on to accept `s`, and `r` is its
      date written YYYY-MM-DD. */
  predicate FirstAccepting(s: string, k: nat, j: nat, r: string)
    requires k <= j < |Patterns|
  {
    && Accepts(s, j)
    && (forall i :: k <= i < j ==> !Accepts(s, i))
    && r == FormatGroups(Search(s, Patterns[j]).value)
  }

  /** Some pattern from `k` on is the first to accept `s`, with date `r`. */
  ghost predicate FirstFrom(s: string, k: nat, r: string)
    requires k <= |Patterns|
  {
    exists j :: k <= j < |Patterns| && FirstAccepting(s, k, j, r)
  }

  /** The loop over the patterns from `k` on: a pattern without a match, or
      whose first match is no valid date, passes on to the next. */
  function TryPatterns(s: string, k: nat): (r: Option<string>)
    requires k <= |Patterns|
    ensures r.None? <==> forall j :: k <= j < |Patterns| ==> !Accepts(s, j)
    ensures r.Some? ==> FirstFrom(s, k, r.value)
    ensures r.Some? ==> exists y, m, d :: ValidDate(y, m, d) && r.value == FormatDate(y, m, d)
    decreases |Patterns| - k
  {
    if k == |Patterns| then None
    else
      var g := Search(s, Patterns[k]);
      if g.Some? && ValidGroups(g.value) then
        var v := g.value;
        assert ValidDate(DecimalValue(v.year), DecimalValue(v.month), DecimalValue(v.day));
        assert FirstAccepting(s, k, k, FormatGroups(v));
        Some(FormatGroups(v))
      else
        var r := TryPatterns(s, k + 1);
        FirstAcceptingLater(s, k, r);
        r
  }

  /** When pattern `k` does not accept, the first pattern from `k + 1` on
      to accept is the first from `k` on. */
  lemma FirstAcceptingLater(s: string, k: nat, r: Option<string>)
    requires k < |Patterns| && !Accepts(s, k)
    requires r.Some? ==> FirstFrom(s, k + 1, r.value)
    ensures r.Some? ==> FirstFrom(s, k, r.value)
  {
    if r.Some? {
      var j :| k + 1 <= j < |Patterns| && FirstAccepting(s, k + 1, j, r.value);
      assert FirstAccepting(s, k, j, r.value);
    }
  }

  /** `extract_date`: `None` for empty input or when no pattern's first
      match is a valid date; otherwise the date of the first pattern, in
      the order 年月日, '-', '.', '/', whose first match is valid. */
  function ExtractDate(s: string): (r: Option<string>)
    ensures s == [] ==> r.None?
    ensures s != [] ==> (r.None? <==> forall j :: 0 <= j < |Patterns| ==> !Accepts(s, j))
    ensures r.Some? ==> FirstFrom(s, 0, r.value)
    ensures r.Some? ==> exists y, m, d :: ValidDate(y, m, d) && r.value == FormatDate(y, m, d)
  {
    if s == [] then None else TryPatterns(s, 0)
  }

  /** A first match that is no valid date does not stop the search: the
      '-' pattern finds month 13 first, and the '/' pattern supplies the
      date. */
  lemma ExtractDateFallsThrough()
    ensures ExtractDate("2023-13-01 2023/1/2") == Some("2023-01-02")
  {
    var s := "2023-13-01 2023/1/2";
    NoSeparator(s, Patterns[0]);
    NoSeparator(s, Patterns[2]);
    DashedMonthThirteen(s);
    SlashedDate(s);
  }

  lemma DashedMonthThirteen(s: string)
    requires s == "2023-13-01 2023/1/2"
    ensures !Accepts(s, 1)
  {
    var p := Patterns[1];
    assert Shape(s, 0, p, 2, 2);
    assert FirstMatch(s, p, 0) == 0;
    var g := Search(s, p).value;
    assert g == Groups("2023", "13", "01");
    assert DecimalValue("13") == 13 by {
      assert "13"[..1] == "1";
    }
  }

  lemma SlashedDate(s: string)
    requires s == "2023-13-01 2023/1/2"
    ensures Accepts(s, 3)
    ensures FormatGroups(Search(s, Patterns[3]).value) == "2023-01-02"
  {
    SlashedMatch(s);
    var g := Groups("2023", "1", "2");
    YearValue();
    assert DecimalValue(g.month) == 1 && DecimalValue(g.day) == 2;
    assert ValidDate(2023, 1, 2);
    assert FormatGroups(g) == FormatDate(2023, 1, 2);
    SlashedFormat();
  }

  lemma YearValue()
    ensures DecimalValue("2023") == 2023
  {
    assert "2023"[..3] == "202" && "202"[..2] == "20" && "20"[..1] == "2";
  }

  lemma SlashedMatch(s: string)
    requires s == "2023-13-01 2023/1/2"
    ensures Search(s, Patterns[3]) == Some(Groups("2023", "1", "2"))
  {
    var p := Patterns[3];
    forall k | 0 <= k < 11 ensures MatchAt(s, k, p).None? {
      assert s[k + 4] != '/';
    }
    assert !Shape(s, 11, p, 2, 2) && !Shape(s, 11, p, 2, 1) && !Shape(s, 11, p, 1, 2);
    assert Shape(s, 11, p, 1, 1);
    FirstMatchIs(s, p, 0, 11);
    assert s[11..15] == "2023" && s[16..17] == "1" && s[18..19] == "2";
  }

  lemma SlashedFormat()
    ensures FormatDate(2023, 1, 2) == "2023-01-02"
  {
    YearPad();
    assert Pad(1, 2) == "01";
    assert Pad(2, 2) == "02";
  }

  lemma YearPad()
    ensures Pad(2023, 4) == "2023"
  {
    assert NatToString(2) == "2";
    assert NatToString(20) == "20";
    assert NatToString(202) == "202";
    assert NatToString(2023) == "2023";
  }

  /** The first match from `i` is at `j` when `j` matches and nothing
      between does. */
  lemma {:induction false} FirstMatchIs(s: string, p: Pattern, i: nat, j: nat)
    requires i <= j <= |s| && MatchAt(s, j, p).Some?
    requires forall k :: i <= k < j ==> MatchAt(s, k, p).None?
    ensures FirstMatch(s, p, i) == j
    decreases j - i
  {
    if i < j {
      FirstMatchIs(s, p, i + 1, j);
    }
  }

  // ---------------------------------------------------------------------
  // Round trip

  lemma {:induction false} NatToStringLength(n: nat, w: nat)
    requires 1 <= w && n < Pow10(w)
    ensures |NatToString(n)| <= w
    decreases w
  {
    if n >= 10 {
      assert Pow10(w) == 10 * Pow10(w - 1);
      assert n / 10 < Pow10(w - 1);
      assert w - 1 >= 1;
      NatToStringLength(n / 10, w - 1);
      assert |NatToString(n)| == |NatToString(n / 10)| + 1;
    }
  }

  function Pow10(w: nat): nat {
    if w == 0 then 1 else 10 * Pow10(w - 1)
  }

  /** A text without the first separator of `p` has no match of `p`. */
  lemma NoSeparator(s: string, p: Pattern)
    requires p.sep1 !in s
    ensures Search(s, p).None?
  {
  }

  /** The parts of a formatted valid date. */
  lemma FormattedParts(y: nat, m: nat, d: nat)
    requires ValidDate(y, m, d)
    ensures var s := FormatDate(y, m, d);
            && |s| == 10 && s[4] == '-' && s[7] == '-'
            && s[0..4] == Pad(y, 4) && s[5..7] == Pad(m, 2) && s[8..10] == Pad(d, 2)
            && '年' !in s
  {
    NatToStringLength(y, 4);
    NatToStringLength(m, 2);
    NatToStringLength(d, 2);
    DashedParts(Pad(y, 4), Pad(m, 2), Pad(d, 2));
  }

  /** Where the three digit groups sit in `a-b-c`. */
  lemma DashedParts(a: string, b: string, c: string)
    requires |a| == 4 && |b| == 2 && |c| == 2
    requires IsDigits(a) && IsDigits(b) && IsDigits(c)
    ensures var s := a + "-" + b + "-" + c;
            && |s| == 10 && s[4] == '-' && s[7] == '-'
            && s[0..4] == a && s[5..7] == b && s[8..10] == c
            && '年' !in s
  {
    var s := a + "-" + b + "-" + c;
    forall k | 0 <= k < |s| ensures s[k] != '年' {
      if k < 4 {
        assert s[k] == a[k];
      } else if 4 < k < 7 {
        assert s[k] == b[k - 5];
      } else if 7 < k {
        assert s[k] == c[k - 8];
      }
    }
  }

  /** A written date is read back as itself: the '-' pattern matches at the
      start with two-digit month and day, and the 年月日 pattern finds
      nothing before it. */
  lemma ExtractDateRoundTrip(y: nat, m: nat, d: nat)
    requires ValidDate(y, m, d)
    ensures ExtractDate(FormatDate(y, m, d)) == Some(FormatDate(y, m, d))
  {
    var s := FormatDate(y, m, d);
    FormattedParts(y, m, d);
    NoSeparator(s, Patterns[0]);
    var p := Patterns[1];
    assert Shape(s, 0, p, 2, 2);
    var g := GroupsAt(s, 0, p, 2, 2);
    assert g == Groups(Pad(y, 4), Pad(m, 2), Pad(d, 2));
    assert FirstMatch(s, p, 0) == 0;
    assert Search(s, p) == Some(g);
  }

  /** Extraction is idempotent: a date it returns is read back unchanged. */
  lemma ExtractDateIdempotent(s: string)
    requires ExtractDate(s).Some?
    ensures ExtractDate(ExtractDate(s).value) == ExtractDate(s)
  {
    var y, m, d :| ValidDate(y, m, d) && ExtractDate(s).value == FormatDate(y, m, d);
    ExtractDateRoundTrip(y, m, d);
  }
}

=== FILE: ingestion.dfy ===
/** Ingestion of downloaded law files: the title and date a file name
    carries, the amendment a title announces, the insert-or-update of one
    file into `laws`, and the status a zip's place in the download folder
    gives its files. */
module Ingestion {
  import opened Strings
  import Catalog

  // ---------------------------------------------------------------------
  // File names: `re.match(r"(.+)_(\d{8})\.docx", name)`

  /** `_<8 digits>.docx` starts at position `p` of `name`. */
  predicate DatedSuffixAt(name: string, p: nat) {
    && p + 14 <= |name|
    && name[p] == '_'
    && (forall k :: p + 1 <= k < p + 9 ==> IsAsciiDigit(name[k]))
    && name[p + 9..p + 14] == ".docx"
  }

  /** The greatest `q` in `1..p` where a dated suffix starts: `(.+)` is
      greedy, so the title ends at the last such position. */
  function LastDated(name: string, p: nat): (r: Option<nat>)
    ensures r.Some? ==> 1 <= r.value <= p && DatedSuffixAt(name, r.value)
    ensures r.Some? ==> forall q :: r.value < q <= p ==> !DatedSuffixAt(name, q)
    ensures r.None? ==> forall q :: 1 <= q <= p ==> !DatedSuffixAt(name, q)
    decreases p
  {
    if p == 0 then None
    else if DatedSuffixAt(name, p) then Some(p)
    else LastDated(name, p - 1)
  }

  /** The index of the last `c` in `s`, -1 when there is none
      (`str.rfind`). */
  function LastIndexOf(s: string, c: char): (i: int)
    ensures -1 <= i < |s|
    ensures i >= 0 ==> s[i] == c
    ensures forall j :: i < j < |s| ==> s[j] != c
    decreases |s|
  {
    if |s| == 0 then -1
    else if s[|s| - 1] == c then |s| - 1
    else LastIndexOf(s[..|s| - 1], c)
  }

  /** `Path(name).stem`: the name without its last suffix; a leading or
      trailing dot is no suffix. */
  function Stem(name: string): (r: string)
    ensures r == name || (0 < |r| < |name| - 1 && r == name[..|r|] && name[|r|] == '.')
  {
    var i := LastIndexOf(name, '.');
    if 0 < i < |name| - 1 then name[..i] else name
  }

  /** The title and publication date a file name gives. */
  datatype FileInfo = FileInfo(title: string, publishDate: string)

  const Unknown: string := "Unknown"

  /** YYYY-MM-DD of eight digits. */
  function DashDate(d: string): (r: string)
    requires |d| == 8
    ensures |r| == 10 && r[4] == '-' && r[7] == '-'
    ensures r[..4] == d[..4] && r[5..7] == d[4..6] && r[8..] == d[6..]
  {
    d[..4] + "-" + d[4..6] + "-" + d[6..]
  }

  /** The title and date of `name`: the part before the last dated suffix
      on its first line and that suffix's date, or the stem and "Unknown"
      when there is none. */
  function ParseFileName(name: string): (r: FileInfo)
    ensures r.publishDate != Unknown ==>
              && 0 < |r.title| && |r.title| + 14 <= |name| && '\n' !in r.title
              && r.title == name[..|r.title|]
              && DatedSuffixAt(name, |r.title|)
              && r.publishDate == DashDate(name[|r.title| + 1..|r.title| + 9])
    ensures r.publishDate != Unknown ==>
              && |r.title| <= IndexOf(name, '\n')
              && forall q :: |r.title| < q <= IndexOf(name, '\n') ==> !DatedSuffixAt(name, q)
    ensures r.publishDate == Unknown ==>
              r.title == Stem(name) && forall q :: 1 <= q <= IndexOf(name, '\n') ==> !DatedSuffixAt(name, q)
  {
    var line := IndexOf(name, '\n');
    match LastDated(name, line)
    case None => FileInfo(Stem(name), Unknown)
    case Some(p) =>
      assert '\n' !in name[..p] by {
        forall k | 0 <= k < p ensures name[..p][k] != '\n' {
          assert name[..p][k] == name[k];
        }
      }
      var d := DashDate(name[p + 1..p + 9]);
      assert d[4] != Unknown[4];
      FileInfo(name[..p], d)
  }

  /** A name written as `<title>_<date>.docx` is read back as that title
      and the date with dashes. */
  lemma ParseDatedName(title: string, date: string)
    requires |title| > 0 && '\n' !in title
    requires |date| == 8 && forall k :: 0 <= k < 8 ==> IsAsciiDigit(date[k])
    ensures ParseFileName(title + "_" + date + ".docx") == FileInfo(title, DashDate(date))
  {
    var name := title + "_" + date + ".docx";
    var p := |title|;
    assert name[p + 1..p + 9] == date;
    assert name[p + 9..p + 14] == ".docx";
    assert DatedSuffixAt(name, p);
    assert name[..p] == title;
    var line := IndexOf(name, '\n');
    assert line == |name| by {
      assert '\n' !in name by {
        assert '\n' !in "_" + date + ".docx" by {
          forall k | 0 <= k < 8 ensures date[k] != '\n' { }
        }
      }
    }
    assert LastDated(name, line) == Some(p) by {
      LastDatedIs(name, line, p);
    }
  }

  lemma LastDatedIs(name: string, p: nat, q: nat)
    requires 1 <= q <= p && DatedSuffixAt(name, q)
    requires forall j :: q < j <= p ==> !DatedSuffixAt(name, j)
    ensures LastDated(name, p) == Some(q)
    decreases p
  {
    if p > q {
      LastDatedIs(name, p - 1, q);
    }
  }

  // ---------------------------------------------------------------------
  // Amendments: `re.search` of three patterns `<open>(.+)<close>`

  datatype AmendPattern = AmendPattern(open: string, close: string)

  /** 关于修改《X》的决定, 关于修改〈X〉的决定, X修正案, in the order tried. */
  const AmendPatterns: seq<AmendPattern> := [
    AmendPattern("关于修改《", "》的决定"),
    AmendPattern("关于修改〈", "〉的决定"),
    AmendPattern("", "修正案")
  ]

  /** The end of the line position `a` is on. */
  function LineEnd(s: string, a: nat): (e: nat)
    requires a <= |s|
    ensures a <= e <= |s|
    ensures forall k :: a <= k < e ==> s[k] != '\n'
    ensures e < |s| ==> s[e] == '\n'
  {
    var e := a + IndexOf(s[a..], '\n');
    assert forall k :: a <= k < e ==> s[k] == s[a..][k - a];
    e
  }

  /** The greatest `q` in `a+1..j` where `close` occurs. */
  function LastClose(s: string, a: nat, j: nat, close: string): (r: Option<nat>)
    ensures r.Some? ==> a < r.value <= j && OccursAt(s, close, r.value)
    ensures r.Some? ==> forall q :: r.value < q <= j ==> !OccursAt(s, close, q)
    ensures r.None? ==> forall q :: a < q <= j ==> !OccursAt(s, close, q)
    decreases j
  {
    if j <= a then None
    else if OccursAt(s, close, j) then Some(j)
    else LastClose(s, a, j - 1, close)
  }

  /** The match of `p` starting at `i`: `.+` takes the most characters of
      the line that still leave `close` to follow. */
  function MatchAt(s: string, p: AmendPattern, i: nat): (r: Option<string>)
    requires i <= |s|
    ensures r.Some? ==> |r.value| > 0 && '\n' !in r.value
    ensures r.Some? ==> Contains(s, p.open + r.value + p.close)
  {
    if !OccursAt(s, p.open, i) then None
    else
      var a := i + |p.open|;
      match LastClose(s, a, LineEnd(s, a), p.close)
      case None => None
      case Some(j) =>
        var g := s[a..j];
        GroupFacts(s, p, i, a, j);
        Some(g)
  }

  lemma GroupFacts(s: string, p: AmendPattern, i: nat, a: nat, j: nat)
    requires OccursAt(s, p.open, i) && a == i + |p.open|
    requires a < j <= LineEnd(s, a) && OccursAt(s, p.close, j)
    ensures '\n' !in s[a..j]
    ensures Contains(s, p.open + s[a..j] + p.close)
  {
    var e := LineEnd(s, a);
    GroupInLine(s, a, j, e);
    GroupOccurs(s, p, i, a, j);
  }

  lemma GroupInLine(s: string, a: nat, j: nat, e: nat)
    requires a <= j <= e <= |s|
    requires forall k :: a <= k < e ==> s[k] != '\n'
    ensures '\n' !in s[a..j]
  {
    forall k | 0 <= k < j - a ensures s[a..j][k] != '\n' {
      assert s[a..j][k] == s[a + k];
    }
  }

  lemma GroupOccurs(s: string, p: AmendPattern, i: nat, a: nat, j: nat)
    requires OccursAt(s, p.open, i) && a == i + |p.open|
    requires a <= j && OccursAt(s, p.close, j)
    ensures Contains(s, p.open + s[a..j] + p.close)
  {
    var m := p.open + s[a..j] + p.close;
    var e := j + |p.close|;
    SliceSplit(s, i, a, j, e);
    assert s[i..a] == p.open && s[j..e] == p.close;
    assert OccursAt(s, m, i);
  }

  /** `re.search`: the match at the leftmost position from `i` on. */
  function SearchFrom(s: string, p: AmendPattern, i: nat): (r: Option<string>)
    requires i <= |s|
    ensures r.Some? ==> |r.value| > 0 && '\n' !in r.value && Contains(s, p.open + r.value + p.close)
    ensures r.None? ==> forall k :: i <= k <= |s| ==> MatchAt(s, p, k).None?
    decreases |s| - i
  {
    var m := MatchAt(s, p, i);
    if m.Some? then m
    else if i == |s| then None
    else SearchFrom(s, p, i + 1)
  }

  /** The `is_amendment` flag and `base_law_title` of a title. */
  datatype Amend = Amend(isAmendment: int, baseTitle: Option<string>)

  /** The first pattern from `k` on that matches gives the base title. */
  function AmendFrom(title: string, k: nat): (r: Amend)
    requires k <= |AmendPatterns|
    ensures r.isAmendment == 1 <==> r.baseTitle.Some?
    ensures r.isAmendment == 0 <==> r.baseTitle.None?
    ensures r.baseTitle.Some? ==>
              exists j :: k <= j < |AmendPatterns| && SearchFrom(title, AmendPatterns[j], 0) == r.baseTitle
                && forall i :: k <= i < j ==> SearchFrom(title, AmendPatterns[i], 0).None?
    ensures r.baseTitle.None? ==> forall j :: k <= j < |AmendPatterns| ==> SearchFrom(title, AmendPatterns[j], 0).None?
    decreases |AmendPatterns| - k
  {
    if k == |AmendPatterns| then Amend(0, None)
    else
      var m := SearchFrom(title, AmendPatterns[k], 0);
      if m.Some? then
        FirstPatternHere(title, k);
        Amend(1, m)
      else
        var r := AmendFrom(title, k + 1);
        FirstPatternLater(title, k, r.baseTitle);
        r
  }

  /** A pattern that matches is the first from itself on. */
  lemma FirstPatternHere(title: string, k: nat)
    requires k < |AmendPatterns| && SearchFrom(title, AmendPatterns[k], 0).Some?
    ensures exists j :: k <= j < |AmendPatterns| && SearchFrom(title, AmendPatterns[j], 0) == SearchFrom(title, AmendPatterns[k], 0)
              && forall i :: k <= i < j ==> SearchFrom(title, AmendPatterns[i], 0).None?
  {
  }

  /** When pattern `k` does not match, the first match from `k + 1` on is the
      first from `k` on. */
  lemma FirstPatternLater(title: string, k: nat, b: Option<string>)
    requires k < |AmendPatterns| && SearchFrom(title, AmendPatterns[k], 0).None?
    requires b.Some? ==>
               exists j :: k + 1 <= j < |AmendPatterns| && SearchFrom(title, AmendPatterns[j], 0) == b
                 && forall i :: k + 1 <= i < j ==> SearchFrom(title, AmendPatterns[i], 0).None?
    requires b.None? ==> forall j :: k + 1 <= j < |AmendPatterns| ==> SearchFrom(title, AmendPatterns[j], 0).None?
    ensures b.Some? ==>
              exists j :: k <= j < |AmendPatterns| && SearchFrom(title, AmendPatterns[j], 0) == b
                && forall i :: k <= i < j ==> SearchFrom(title, AmendPatterns[i], 0).None?
    ensures b.None? ==> forall j :: k <= j < |AmendPatterns| ==> SearchFrom(title, AmendPatterns[j], 0).None?
  {
    if b.Some? {
      var j :| k + 1 <= j < |AmendPatterns| && SearchFrom(title, AmendPatterns[j], 0) == b
                 && forall i :: k + 1 <= i < j ==> SearchFrom(title, AmendPatterns[i], 0).None?;
      assert forall i :: k <= i < j ==> SearchFrom(title, AmendPatterns[i], 0).None?;
    }
  }

  /** `is_amendment` and `base_law_title` of `title`: an amendment exactly
      when one of the patterns matches, and then the group of the first
      pattern that does: non-empty, on one line, and enclosed in the title
      by that pattern's delimiters. */
  function Amendment(title: string): (r: Amend)
    ensures r.isAmendment == 1 <==> r.baseTitle.Some?
    ensures r.isAmendment == 0 <==> r.baseTitle.None?
    ensures r.baseTitle.Some? ==>
              && |r.baseTitle.value| > 0 && '\n' !in r.baseTitle.value
              && exists j :: 0 <= j < |AmendPatterns|
                   && Contains(title, AmendPatterns[j].open + r.baseTitle.value + AmendPatterns[j].close)
    ensures r.baseTitle.Some? ==>
              exists j :: 0 <= j < |AmendPatterns| && SearchFrom(title, AmendPatterns[j], 0) == r.baseTitle
                && forall i :: 0 <= i < j ==> SearchFrom(title, AmendPatterns[i], 0).None?
    ensures r.baseTitle.None? ==> forall j :: 0 <= j < |AmendPatterns| ==> SearchFrom(title, AmendPatterns[j], 0).None?
  {
    AmendFrom(title, 0)
  }

  /** The last occurrence of `close` that ends the text is the one `.+`
      stops before. */
  lemma LastCloseAtEnd(s: string, a: nat, close: string)
    requires |close| > 0 && a + |close| < |s| && OccursAt(s, close, |s| - |close|)
    ensures LastClose(s, a, |s|, close) == Some(|s| - |close|)
  {
    var q := |s| - |close|;
    LastCloseIs(s, a, |s|, close, q);
  }

  lemma LastCloseIs(s: string, a: nat, j: nat, close: string, q: nat)
    requires a < q <= j && OccursAt(s, close, q)
    requires forall q' :: q < q' <= j ==> !OccursAt(s, close, q')
    ensures LastClose(s, a, j, close) == Some(q)
    decreases j
  {
    if j > q {
      LastCloseIs(s, a, j - 1, close, q);
    }
  }

  /** 关于修改《X》的决定 is an amendment of X. */
  lemma DecisionAmends(x: string)
    requires |x| > 0 && '\n' !in x
    ensures Amendment("关于修改《" + x + "》的决定") == Amend(1, Some(x))
  {
    var p := AmendPatterns[0];
    var s := "关于修改《" + x + "》的决定";
    assert OccursAt(s, p.open, 0) by {
      assert s[..5] == p.open;
    }
    assert '\n' !in s;
    assert LineEnd(s, 5) == |s|;
    assert OccursAt(s, p.close, |s| - 4) by {
      assert s[|s| - 4..] == p.close;
    }
    LastCloseAtEnd(s, 5, p.close);
    assert s[5..|s| - 4] == x;
    assert MatchAt(s, p, 0) == Some(x);
  }

  /** Without 修 no pattern matches: every pattern has it. */
  lemma NoAmendment(title: string)
    requires '修' !in title
    ensures Amendment(title) == Amend(0, None)
  {
    var ps := AmendPatterns;
    assert ps[0].open[2] == '修' && ps[1].open[2] == '修' && ps[2].close[0] == '修';
    NoMatchWithout(title, ps[0], '修', 0);
    NoMatchWithout(title, ps[1], '修', 0);
    NoMatchWithout(title, ps[2], '修', 0);
  }

  /** A pattern whose delimiters hold a character the text lacks never
      matches. */
  lemma {:induction false} NoMatchWithout(s: string, p: AmendPattern, c: char, i: nat)
    requires i <= |s| && c !in s && (c in p.open || c in p.close)
    ensures SearchFrom(s, p, i).None?
    decreases |s| - i
  {
    if c in p.open {
      NotOccurs(s, p.open, c, i);
    } else {
      forall q ensures !OccursAt(s, p.close, q) {
        NotOccurs(s, p.close, c, q);
      }
    }
    if i < |s| {
      NoMatchWithout(s, p, c, i + 1);
    }
  }

  lemma NotOccurs(s: string, w: string, c: char, i: int)
    requires c in w && c !in s
    ensures !OccursAt(s, w, i)
  {
    var t :| 0 <= t < |w| && w[t] == c;
    if 0 <= i && i + |w| <= |s| {
      assert s[i..i + |w|][t] == s[i + t];
    }
  }

  /** X修正案 followed by text without 修 (such as （十一）) is an
      amendment of X, provided neither decision pattern can match. */
  lemma ActAmends(x: string, y: string)
    requires |x| > 0 && '\n' !in x && '修' !in y
    requires '《' !in x + y && '〈' !in x + y
    ensures Amendment(x + "修正案" + y) == Amend(1, Some(x))
  {
    var s := x + "修正案" + y;
    NoBracket(x, y);
    NoMatchWithout(s, AmendPatterns[0], '《', 0);
    NoMatchWithout(s, AmendPatterns[1], '〈', 0);
    ActMatch(x, y);
    assert SearchFrom(s, AmendPatterns[2], 0) == Some(x);
  }

  lemma NoBracket(x: string, y: string)
    requires '《' !in x + y && '〈' !in x + y
    ensures '《' !in x + "修正案" + y && '〈' !in x + "修正案" + y
  {
    var s := x + "修正案" + y;
    forall k | 0 <= k < |s| ensures s[k] != '《' && s[k] != '〈' {
      if k < |x| {
        assert s[k] == (x + y)[k];
      } else if k >= |x| + 3 {
        assert s[k] == (x + y)[k - 3];
      }
    }
  }

  /** `(.+)修正案` stops before the last 修正案 of the line. */
  lemma ActMatch(x: string, y: string)
    requires |x| > 0 && '\n' !in x && '修' !in y
    ensures MatchAt(x + "修正案" + y, AmendPatterns[2], 0) == Some(x)
  {
    var c := "修正案";
    var s := x + c + y;
    var p := AmendPatterns[2];
    assert p.open == [] && p.close == c;
    assert OccursAt(s, p.open, 0);
    assert c[1] != c[0] && c[2] != c[0] && '\n' !in c;
    var e := LineEnd(s, 0);
    LineRunsPast(s, x, c, y);
    CloseOnce(s, x, c, y);
    LastCloseIs(s, 0, e, c, |x|);
    assert s[0..|x|] == x;
  }

  /** The line of `x + c + y` runs at least past `c` when neither holds a
      line break. */
  lemma LineRunsPast(s: string, x: string, c: string, y: string)
    requires s == x + c + y && '\n' !in x && '\n' !in c
    ensures LineEnd(s, 0) >= |x| + |c|
  {
    forall k | 0 <= k < |x| + |c| ensures s[k] != '\n' {
      if k < |x| {
        assert s[k] == x[k];
      } else {
        assert s[k] == c[k - |x|];
      }
    }
  }

  /** `c` occurs in `x + c + y` right after `x` and nowhere later, when its
      first character appears neither later in `c` nor in `y`. */
  lemma CloseOnce(s: string, x: string, c: string, y: string)
    requires s == x + c + y && |c| > 0
    requires forall k :: 0 < k < |c| ==> c[k] != c[0]
    requires c[0] !in y
    ensures OccursAt(s, c, |x|)
    ensures forall q :: |x| < q <= |s| ==> !OccursAt(s, c, q)
  {
    assert s[|x|..|x| + |c|] == c;
    forall q | |x| < q <= |s| ensures !OccursAt(s, c, q) {
      if q < |s| {
        if q < |x| + |c| {
          assert s[q] == c[q - |x|];
        } else {
          assert s[q] == y[q - |x| - |c|];
        }
        assert q + |c| <= |s| ==> s[q..q + |c|][0] == s[q];
      }
    }
  }

  // ---------------------------------------------------------------------
  // The `laws` table and the insert-or-update of one file

  /** The columns of `laws` that ingestion writes. */
  datatype LawRecord = LawRecord(
    id: nat, title: string, content: string, publishDate: string, category: string,
    status: string, fileName: string, isAmendment: int, baseTitle: Option<string>)

  /** The table and its AUTOINCREMENT counter. */
  datatype Db = Db(rows: seq<LawRecord>, next: nat)

  /** The key the existence check uses. */
  predicate HasKey(r: LawRecord, title: string, date: string, category: string) {
    r.title == title && r.publishDate == date && r.category == category
  }

  predicate SameKey(r: LawRecord, s: LawRecord) {
    HasKey(s, r.title, r.publishDate, r.category)
  }

  /** Ids below the counter and distinct, keys distinct. */
  predicate Valid(db: Db) {
    && (forall j :: 0 <= j < |db.rows| ==> db.rows[j].id < db.next)
    && (forall i, j :: 0 <= i < j < |db.rows| ==> db.rows[i].id != db.rows[j].id)
    && (forall i, j :: 0 <= i < j < |db.rows| ==> !SameKey(db.rows[i], db.rows[j]))
  }

  /** `fetchone()` of the key query: the first row with the key. */
  function FindKey(rows: seq<LawRecord>, title: string, date: string, category: string, i: nat): (r: Option<nat>)
    requires i <= |rows|
    ensures r.Some? ==> i <= r.value < |rows| && HasKey(rows[r.value], title, date, category)
    ensures r.Some? ==> forall j :: i <= j < r.value ==> !HasKey(rows[j], title, date, category)
    ensures r.None? ==> forall j :: i <= j < |rows| ==> !HasKey(rows[j], title, date, category)
    decreases |rows| - i
  {
    if i == |rows| then None
    else if HasKey(rows[i], title, date, category) then Some(i)
    else FindKey(rows, title, date, category, i + 1)
  }

  /** A file of an extracted zip: its name and its text. */
  datatype DocFile = DocFile(name: string, content: string)

  /** Only the status and the amendment columns differ. */
  predicate FlagsOnly(before: LawRecord, after: LawRecord) {
    after == before.(status := after.status, isAmendment := after.isAmendment, baseTitle := after.baseTitle)
  }

  /** Processing one file: insert a row for a new key, otherwise update
      the status and amendment columns of the first row with the key. */
  function ProcessFile(db: Db, f: DocFile, category: string, status: string): (r: Db)
  {
    var info := ParseFileName(f.name);
    var a := Amendment(info.title);
    match FindKey(db.rows, info.title, info.publishDate, category, 0)
    case None =>
      Db(db.rows + [LawRecord(db.next, info.title, f.content, info.publishDate, category,
                              status, f.name, a.isAmendment, a.baseTitle)], db.next + 1)
    case Some(k) =>
      Db(db.rows[k := db.rows[k].(status := status, isAmendment := a.isAmendment, baseTitle := a.baseTitle)], db.next)
  }

  /** A row with `key` holds `status` and the flags its title gives. */
  predicate Recorded(db: Db, info: FileInfo, category: string, status: string) {
    exists k :: 0 <= k < |db.rows| && HasKey(db.rows[k], info.title, info.publishDate, category)
      && db.rows[k].status == status && db.rows[k].isAmendment == Amendment(info.title).isAmendment
      && db.rows[k].baseTitle == Amendment(info.title).baseTitle
  }

  /** Processing a file records it; a row is added only for a key not yet
      present; existing rows keep everything but the status and the
      amendment columns, and a changed row takes the zip's status; the
      table stays valid. */
  lemma ProcessFileEffect(db: Db, f: DocFile, category: string, status: string)
    ensures var r := ProcessFile(db, f, category, status);
            var info := ParseFileName(f.name);
            && Recorded(r, info, category, status)
            && |r.rows| == |db.rows| + (if FindKey(db.rows, info.title, info.publishDate, category, 0).None? then 1 else 0)
            && (forall j :: 0 <= j < |db.rows| ==> FlagsOnly(db.rows[j], r.rows[j]))
            && (forall j :: 0 <= j < |db.rows| && r.rows[j] != db.rows[j] ==> r.rows[j].status == status)
            && (forall j :: 0 <= j < |db.rows| && !HasKey(db.rows[j], info.title, info.publishDate, category)
                  ==> r.rows[j] == db.rows[j])
            && (Valid(db) ==> Valid(r))
    /** A new key appends exactly the row the INSERT writes. */
    ensures var r := ProcessFile(db, f, category, status);
            var info := ParseFileName(f.name);
            var a := Amendment(info.title);
            FindKey(db.rows, info.title, info.publishDate, category, 0).None? ==>
              r.rows[|db.rows|] == LawRecord(db.next, info.title, f.content, info.publishDate, category,
                                             status, f.name, a.isAmendment, a.baseTitle)
    /** A known key changes only the first row with it, and only its status
        and amendment columns. */
    ensures var r := ProcessFile(db, f, category, status);
            var info := ParseFileName(f.name);
            var a := Amendment(info.title);
            var key := FindKey(db.rows, info.title, info.publishDate, category, 0);
            key.Some? ==>
              && r.rows[key.value] == db.rows[key.value].(status := status, isAmendment := a.isAmendment, baseTitle := a.baseTitle)
              && (forall j :: 0 <= j < |db.rows| && j != key.value ==> r.rows[j] == db.rows[j])
  {
    var r := ProcessFile(db, f, category, status);
    var info := ParseFileName(f.name);
    var a := Amendment(info.title);
    match FindKey(db.rows, info.title, info.publishDate, category, 0)
    case None =>
      InsertEffect(db, r, info, a, category, status, f);
    case Some(k) =>
      UpdateEffect(db, r, info, a, category, status, k);
  }

  /** The insert branch of `ProcessFile`. */
  lemma InsertEffect(db: Db, r: Db, info: FileInfo, a: Amend, category: string, status: string, f: DocFile)
    requires a == Amendment(info.title)
    requires FindKey(db.rows, info.title, info.publishDate, category, 0).None?
    requires r == Db(db.rows + [LawRecord(db.next, info.title, f.content, info.publishDate, category,
                                          status, f.name, a.isAmendment, a.baseTitle)], db.next + 1)
    ensures Recorded(r, info, category, status) && |r.rows| == |db.rows| + 1
    ensures forall j :: 0 <= j < |db.rows| ==> r.rows[j] == db.rows[j]
    ensures r.rows[|db.rows|] == LawRecord(db.next, info.title, f.content, info.publishDate, category,
                                           status, f.name, a.isAmendment, a.baseTitle)
    ensures Valid(db) ==> Valid(r)
  {
    var n := |db.rows|;
    assert HasKey(r.rows[n], info.title, info.publishDate, category);
    assert forall j :: 0 <= j < n ==> r.rows[j] == db.rows[j];
    if Valid(db) {
      InsertValid(db, r, info, category);
    }
  }

  /** The update branch of `ProcessFile`. */
  lemma UpdateEffect(db: Db, r: Db, info: FileInfo, a: Amend, category: string, status: string, k: nat)
    requires a == Amendment(info.title)
    requires k < |db.rows| && HasKey(db.rows[k], info.title, info.publishDate, category)
    requires r == Db(db.rows[k := db.rows[k].(status := status, isAmendment := a.isAmendment, baseTitle := a.baseTitle)], db.next)
    ensures Recorded(r, info, category, status) && |r.rows| == |db.rows|
    ensures forall j :: 0 <= j < |db.rows| ==> FlagsOnly(db.rows[j], r.rows[j])
    ensures forall j :: 0 <= j < |db.rows| && r.rows[j] != db.rows[j] ==> r.rows[j].status == status
    ensures forall j :: 0 <= j < |db.rows| && j != k ==> r.rows[j] == db.rows[j]
    ensures Valid(db) ==> Valid(r)
  {
    assert HasKey(r.rows[k], info.title, info.publishDate, category);
    if Valid(db) {
      UpdateValid(db, r, k);
    }
  }

  lemma InsertValid(db: Db, r: Db, info: FileInfo, category: string)
    requires Valid(db) && |r.rows| == |db.rows| + 1 && r.next == db.next + 1
    requires forall j :: 0 <= j < |db.rows| ==> r.rows[j] == db.rows[j]
    requires r.rows[|db.rows|].id == db.next
    requires HasKey(r.rows[|db.rows|], info.title, info.publishDate, category)
    requires forall j :: 0 <= j < |db.rows| ==> !HasKey(db.rows[j], info.title, info.publishDate, category)
    ensures Valid(r)
  {
  }

  lemma UpdateValid(db: Db, r: Db, k: nat)
    requires Valid(db) && k < |db.rows| && |r.rows| == |db.rows| && r.next == db.next
    requires forall j :: 0 <= j < |db.rows| && j != k ==> r.rows[j] == db.rows[j]
    requires FlagsOnly(db.rows[k], r.rows[k])
    ensures Valid(r)
  {
    forall i, j | 0 <= i < j < |r.rows| ensures !SameKey(r.rows[i], r.rows[j]) && r.rows[i].id != r.rows[j].id {
      assert !SameKey(db.rows[i], db.rows[j]);
    }
  }

  /** Processing the same file twice leaves the table as processing it
      once. */
  lemma ProcessFileIdempotent(db: Db, f: DocFile, category: string, status: string)
    ensures var once := ProcessFile(db, f, category, status);
            ProcessFile(once, f, category, status) == once
  {
    var once := ProcessFile(db, f, category, status);
    var info := ParseFileName(f.name);
    var a := Amendment(info.title);
    var key := FindKey(db.rows, info.title, info.publishDate, category, 0);
    var k := if key.None? then |db.rows| else key.value;
    assert FindKey(once.rows, info.title, info.publishDate, category, 0) == Some(k) by {
      FindKeyAgain(db.rows, once.rows, info.title, info.publishDate, category, k);
    }
    assert once.rows[k].(status := status, isAmendment := a.isAmendment, baseTitle := a.baseTitle) == once.rows[k];
    assert once.rows[k := once.rows[k]] == once.rows;
  }

  /** After processing, the row found or added is the first with the key. */
  lemma FindKeyAgain(before: seq<LawRecord>, after: seq<LawRecord>, title: string, date: string, category: string, k: nat)
    requires k < |after| && HasKey(after[k], title, date, category)
    requires k <= |before| && forall j :: 0 <= j < k ==> !HasKey(before[j], title, date, category)
    requires forall j :: 0 <= j < k ==> after[j] == before[j]
    ensures FindKey(after, title, date, category, 0) == Some(k)
  {
    FindKeyFrom(before, after, title, date, category, k, 0);
  }

  lemma FindKeyFrom(before: seq<LawRecord>, after: seq<LawRecord>, title: string, date: string, category: string, k: nat, i: nat)
    requires i <= k < |after| && HasKey(after[k], title, date, category)
    requires k <= |before| && forall j :: i <= j < k ==> !HasKey(before[j], title, date, category)
    requires forall j :: i <= j < k ==> after[j] == before[j]
    ensures FindKey(after, title, date, category, i) == Some(k)
    decreases k - i
  {
    if i < k {
      assert after[i] == before[i];
      FindKeyFrom(before, after, title, date, category, k, i + 1);
    }
  }

  // ---------------------------------------------------------------------
  // One zip

  /** `process_zip`: the files of the zip in turn, in one category and
      with one status. */
  function ProcessZip(db: Db, files: seq<DocFile>, category: string, status: string): Db
    decreases |files|
  {
    if |files| == 0 then db
    else ProcessZip(ProcessFile(db, files[0], category, status), files[1..], category, status)
  }

  /** A recorded file stays recorded while files with the same status
      are processed. */
  lemma StaysRecorded(db: Db, info: FileInfo, f: DocFile, category: string, status: string)
    requires Recorded(db, info, category, status)
    ensures Recorded(ProcessFile(db, f, category, status), info, category, status)
  {
    var k :| 0 <= k < |db.rows| && HasKey(db.rows[k], info.title, info.publishDate, category)
      && db.rows[k].status == status && db.rows[k].isAmendment == Amendment(info.title).isAmendment
      && db.rows[k].baseTitle == Amendment(info.title).baseTitle;
    var r := ProcessFile(db, f, category, status);
    var fi := ParseFileName(f.name);
    var key := FindKey(db.rows, fi.title, fi.publishDate, category, 0);
    if key == Some(k) {
      // the row updated has the new file's key, so the same title and
      // the same amendment columns
      assert fi.title == info.title;
    }
    assert r.rows[k] == db.rows[k];
  }

  /** After a zip every one of its files is recorded with the zip's
      status, the table has at most one new row per file, and stays
      valid. */
  lemma {:induction false} ProcessZipRecords(db: Db, files: seq<DocFile>, category: string, status: string)
    ensures var r := ProcessZip(db, files, category, status);
            && (forall k :: 0 <= k < |files| ==> Recorded(r, ParseFileName(files[k].name), category, status))
            && |db.rows| <= |r.rows| <= |db.rows| + |files|
            && (Valid(db) ==> Valid(r))
    decreases |files|
  {
    if |files| > 0 {
      var db1 := ProcessFile(db, files[0], category, status);
      ProcessFileEffect(db, files[0], category, status);
      ProcessZipRecords(db1, files[1..], category, status);
      var r := ProcessZip(db, files, category, status);
      assert r == ProcessZip(db1, files[1..], category, status);
      forall k | 0 <= k < |files| ensures Recorded(r, ParseFileName(files[k].name), category, status) {
        if k == 0 {
          StaysRecordedAll(db1, ParseFileName(files[0].name), files[1..], category, status);
        } else {
          assert files[k] == files[1..][k - 1];
        }
      }
    }
  }

  lemma {:induction false} StaysRecordedAll(db: Db, info: FileInfo, files: seq<DocFile>, category: string, status: string)
    requires Recorded(db, info, category, status)
    ensures Recorded(ProcessZip(db, files, category, status), info, category, status)
    decreases |files|
  {
    if |files| > 0 {
      StaysRecorded(db, info, files[0], category, status);
      StaysRecordedAll(ProcessFile(db, files[0], category, status), info, files[1..], category, status);
    }
  }

  // ---------------------------------------------------------------------
  // The download folder

  /** An entry of a category folder: a file, or a status subfolder with
      the names of the files in it. */
  datatype Item = File(name: string) | Folder(name: string, files: seq<string>)

  /** An entry of the download folder. */
  datatype Top = CategoryDir(name: string, items: seq<Item>) | StrayFile(name: string)

  /** A zip to process, with the category and status its files get. */
  datatype Job = Job(zip: string, category: string, status: string)

  function EndsWith(s: string, suffix: string): bool {
    |suffix| <= |s| && s[|s| - |suffix|..] == suffix
  }

  /** `Path(name).suffix == ".zip"` */
  predicate ZipSuffix(name: string) {
    var i := LastIndexOf(name, '.');
    0 < i < |name| - 1 && name[i..] == ".zip"
  }

  /** `folder.glob("*.zip")`, in the order given. */
  function Zips(files: seq<string>): (r: seq<string>)
    ensures forall z :: z in r <==> z in files && EndsWith(z, ".zip")
  {
    if |files| == 0 then []
    else (if EndsWith(files[0], ".zip") then [files[0]] else []) + Zips(files[1..])
  }

  function FolderJobs(category: string, status: string, zips: seq<string>): (r: seq<Job>)
    ensures |r| == |zips|
    ensures forall k :: 0 <= k < |r| ==> r[k] == Job(zips[k], category, status)
  {
    if |zips| == 0 then [] else [Job(zips[0], category, status)] + FolderJobs(category, status, zips[1..])
  }

  /** The jobs of one category folder: a zip at its root is in force, a
      zip in a subfolder takes the subfolder's name as status. */
  function CategoryJobs(category: string, items: seq<Item>): seq<Job>
  {
    if |items| == 0 then []
    else
      (match items[0]
       case File(n) => if ZipSuffix(n) then [Job(n, category, Catalog.InForce)] else []
       case Folder(n, fs) => FolderJobs(category, n, Zips(fs)))
      + CategoryJobs(category, items[1..])
  }

  /** `run`: the jobs of every category folder in turn. */
  function RunJobs(tops: seq<Top>): seq<Job>
  {
    if |tops| == 0 then []
    else
      (match tops[0]
       case CategoryDir(c, items) => CategoryJobs(c, items)
       case StrayFile(_) => [])
      + RunJobs(tops[1..])
  }

  /** A job comes from a root zip, with status 有效, or from a subfolder
      zip, with the subfolder's name as status; and every such zip has
      its job. */
  lemma {:induction false} CategoryJobsStatus(category: string, items: seq<Item>, j: Job)
    ensures j in CategoryJobs(category, items) <==>
              j.category == category
              && ((j.status == Catalog.InForce && File(j.zip) in items && ZipSuffix(j.zip))
                  || exists fs :: Folder(j.status, fs) in items && j.zip in fs && EndsWith(j.zip, ".zip"))
    decreases |items|
  {
    if |items| > 0 {
      CategoryJobsStatus(category, items[1..], j);
      var head := match items[0]
        case File(n) => if ZipSuffix(n) then [Job(n, category, Catalog.InForce)] else []
        case Folder(n, fs) => FolderJobs(category, n, Zips(fs));
      assert CategoryJobs(category, items) == head + CategoryJobs(category, items[1..]);
      assert forall it :: it in items <==> it == items[0] || it in items[1..];
      match items[0]
      case File(n) =>
      case Folder(n, fs) =>
        assert j in head <==> j.category == category && j.status == n && j.zip in Zips(fs) by {
          if j in head {
            var k :| 0 <= k < |head| && head[k] == j;
          }
          if j.category == category && j.status == n && j.zip in Zips(fs) {
            var k :| 0 <= k < |Zips(fs)| && Zips(fs)[k] == j.zip;
            assert head[k] == j;
          }
        }
    }
  }

  /** The run's jobs are those of its category folders; stray files at
      the top give none. */
  lemma {:induction false} RunJobsFrom(tops: seq<Top>, j: Job)
    ensures j in RunJobs(tops) <==> exists items :: CategoryDir(j.category, items) in tops && j in CategoryJobs(j.category, items)
    decreases |tops|
  {
    if |tops| > 0 {
      RunJobsFrom(tops[1..], j);
      assert forall t :: t in tops <==> t == tops[0] || t in tops[1..];
      match tops[0]
      case CategoryDir(c, items) =>
        if j in CategoryJobs(c, items) {
          CategoryJobsStatus(c, items, j);
        }
      case StrayFile(_) =>
    }
  }
}

=== FILE: law_structure.dfy ===
/** `get_law_structure`: the table of contents of a law, a tree of its
    编 / 章 / 节 heading lines.  A 章 goes under the open 编, a 节 under the
    open 章 (or the open 编 when no 章 is open), and anything without an
    open parent goes to the top level. */
module LawStructure {
  import opened Strings
  import opened Numerals

  datatype Kind = Bian | Zhang | Jie

  /** The depth a heading kind belongs at: 编 above 章 above 节. */
  function Rank(k: Kind): int {
    match k
    case Bian => 0
    case Zhang => 1
    case Jie => 2
  }

  function Marker(k: Kind): char {
    match k
    case Bian => '编'
    case Zhang => '章'
    case Jie => '节'
  }

  /** The `type`, `name` and `title` of a TOC entry. */
  datatype Heading = Heading(kind: Kind, name: string, title: string)

  datatype Toc = Toc(kind: Kind, name: string, title: string, children: seq<Toc>)

  function HeadingOf(t: Toc): Heading {
    Heading(t.kind, t.name, t.title)
  }

  // ---------------------------------------------------------------------
  // Heading lines

  /** `^\s*(第[一二三四五六七八九十]+<marker>)\s+(.+)$` on a stripped line:
      group 1 runs through the marker; the greedy `\s+` takes the whole
      whitespace run, and group 2 is the non-empty rest. */
  function MatchHeading(s: string, k: Kind): (r: Option<Heading>)
    ensures r.Some? ==> r.value.kind == k && |r.value.name| >= 3 && |r.value.title| > 0
    ensures r.Some? ==> r.value.name[0] == '第' && r.value.name[|r.value.name| - 1] == Marker(k)
    ensures r.Some? ==> !IsSpace(r.value.title[0])
  {
    if |s| == 0 || s[0] != '第' then None
    else
      var n := Span(s[1..], IsOneToTen);
      var e := 1 + n + 1;
      if n >= 1 && e < |s| && s[1 + n] == Marker(k) && IsSpace(s[e]) then
        var w := Span(s[e..], IsSpace);
        if e + w < |s| then Some(Heading(k, s[..e], s[e + w..])) else None
      else None
  }

  /** A line's heading, trying 编, then 章, then 节. */
  function ParseTocLine(line: string): Option<Heading> {
    var s := Strip(line);
    if s == [] then None
    else if MatchHeading(s, Bian).Some? then MatchHeading(s, Bian)
    else if MatchHeading(s, Zhang).Some? then MatchHeading(s, Zhang)
    else MatchHeading(s, Jie)
  }

  /** A heading spells out its stripped line: name, a whitespace run, title. */
  lemma MatchHeadingSpells(s: string, k: Kind)
    requires MatchHeading(s, k).Some?
    ensures var h := MatchHeading(s, k).value;
            && |h.name| + |h.title| < |s|
            && s == h.name + s[|h.name|..|s| - |h.title|] + h.title
            && AllSpace(s[|h.name|..|s| - |h.title|])
  {
  }

  /** Every TOC heading written the standard way is read back: a name made
      of 第, a numeral, the marker, and a title after one space. */
  lemma MatchHeadingOfRendered(n: nat, k: Kind, title: string)
    requires 1 <= n <= 99 && |title| > 0 && !IsSpace(title[0])
    ensures MatchHeading("第" + Render(n) + [Marker(k)] + " " + title, k)
            == Some(Heading(k, "第" + Render(n) + [Marker(k)], title))
  {
    var num := Render(n);
    RenderOneToTen(n);
    MatchHeadingOf(num, k, title);
  }

  /** Numbers below 100 are written with 一..十 alone. */
  lemma RenderOneToTen(n: nat)
    requires 1 <= n <= 99
    ensures forall i :: 0 <= i < |Render(n)| ==> IsOneToTen(Render(n)[i])
  {
    var r := Render(n);
    if 20 <= n {
      assert HighUnit(n) == 10;
      var head := [DigitNumeral(n / 10), UnitNumeral(10)];
      if n % 10 == 0 {
        assert r == head;
      } else {
        assert Lead(n % 10) == [DigitNumeral(n % 10)];
        assert r == head + [DigitNumeral(n % 10)];
      }
    }
  }

  /** The same for any non-empty run of 一..十. */
  lemma MatchHeadingOf(num: string, k: Kind, title: string)
    requires |num| > 0 && forall i :: 0 <= i < |num| ==> IsOneToTen(num[i])
    requires |title| > 0 && !IsSpace(title[0])
    ensures MatchHeading("第" + num + [Marker(k)] + " " + title, k)
            == Some(Heading(k, "第" + num + [Marker(k)], title))
  {
    var s := "第" + num + [Marker(k)] + " " + title;
    HeadingText(s, num, Marker(k), title);
    SpanStops(num, [Marker(k)] + " " + title, IsOneToTen);
    SpanStops(" ", title, IsSpace);
    MatchHeadingAt(s, k, |num|, 1);
  }

  /** Where the parts of a heading line sit. */
  lemma HeadingText(s: string, num: string, m: char, title: string)
    requires s == "第" + num + [m] + " " + title
    ensures |s| == |num| + 3 + |title| && s[0] == '第' && s[|num| + 1] == m && s[|num| + 2] == ' '
    ensures s[1..] == num + ([m] + " " + title)
    ensures s[|num| + 2..] == " " + title
    ensures s[..|num| + 2] == "第" + num + [m] && s[|num| + 3..] == title
  {
  }

  /** `MatchHeading` once the numeral run and the whitespace run are known. */
  lemma MatchHeadingAt(s: string, k: Kind, n: nat, w: nat)
    requires |s| > 0 && s[0] == '第' && n >= 1 && 1 + n + 1 < |s|
    requires Span(s[1..], IsOneToTen) == n && s[1 + n] == Marker(k) && IsSpace(s[1 + n + 1])
    requires Span(s[1 + n + 1..], IsSpace) == w && 1 + n + 1 + w < |s|
    ensures MatchHeading(s, k) == Some(Heading(k, s[..1 + n + 1], s[1 + n + 1 + w..]))
  {
  }

  /** An article line 第<numerals>条… is no heading: the heading numerals
      stop inside the number or at 条, and neither is a 编, 章 or 节 marker. */
  lemma ArticleLineNoHeading(line: string, num: string, rest: string)
    requires Strip(line) == "第" + num + "条" + rest
    requires forall i :: 0 <= i < |num| ==> IsNumeral(num[i])
    ensures ParseTocLine(line).None?
  {
    var s := Strip(line);
    ArticleNoMatch(s, num, rest, Bian);
    ArticleNoMatch(s, num, rest, Zhang);
    ArticleNoMatch(s, num, rest, Jie);
  }

  lemma ArticleNoMatch(s: string, num: string, rest: string, k: Kind)
    requires s == "第" + num + "条" + rest
    requires forall i :: 0 <= i < |num| ==> IsNumeral(num[i])
    ensures MatchHeading(s, k).None?
  {
    var t := s[1..];
    assert t == num + ("条" + rest);
    var n := Span(t, IsOneToTen);
    assert t[|num|] == '条';
    assert n <= |num|;
    assert s[1 + n] != Marker(k) by {
      assert s[1 + n] == t[n];
      if n < |num| {
        assert t[n] == num[n] && IsNumeral(num[n]);
      }
    }
  }

  // ---------------------------------------------------------------------
  // The tree

  /** Preorder listing: each node's heading, then its subtree. */
  function Flatten(nodes: seq<Toc>): seq<Heading>
    decreases nodes
  {
    if |nodes| == 0 then []
    else [HeadingOf(nodes[0])] + Flatten(nodes[0].children) + Flatten(nodes[1..])
  }

  function Last(nodes: seq<Toc>): Toc
    requires |nodes| > 0
  {
    nodes[|nodes| - 1]
  }

  /** The chain of last nodes reaches depth `d`. */
  predicate PathOK(nodes: seq<Toc>, d: nat) {
    d == 0 || (|nodes| > 0 && PathOK(Last(nodes).children, d - 1))
  }

  /** Kinds along the chain of last nodes, from the top down to depth `d`. */
  function PathKinds(nodes: seq<Toc>, d: nat): (r: seq<Kind>)
    requires PathOK(nodes, d)
    ensures |r| == d
  {
    if d == 0 then [] else [Last(nodes).kind] + PathKinds(Last(nodes).children, d - 1)
  }

  /** Appends `x` to the children of the last node at depth `d` (the top
      level when `d` is 0): `current['children'].append(x)`. */
  function AddAt(nodes: seq<Toc>, d: nat, x: Toc): (r: seq<Toc>)
    requires PathOK(nodes, d)
    ensures |r| > 0
  {
    if d == 0 then nodes + [x]
    else
      var l := Last(nodes);
      nodes[..|nodes| - 1] + [l.(children := AddAt(l.children, d - 1, x))]
  }

  /** Every node ranks below the node above it. */
  predicate Ranked(nodes: seq<Toc>, above: int)
    decreases nodes
  {
    forall i :: 0 <= i < |nodes| ==> Rank(nodes[i].kind) > above && Ranked(nodes[i].children, Rank(nodes[i].kind))
  }

  lemma {:induction false} FlattenConcat(a: seq<Toc>, b: seq<Toc>)
    ensures Flatten(a + b) == Flatten(a) + Flatten(b)
    decreases |a|
  {
    if |a| == 0 {
      assert a + b == b;
    } else {
      assert (a + b)[0] == a[0] && (a + b)[1..] == a[1..] + b;
      FlattenConcat(a[1..], b);
    }
  }

  /** Adding a leaf anywhere on the chain of last nodes lists it last. */
  lemma {:induction false} FlattenAddAt(nodes: seq<Toc>, d: nat, x: Toc)
    requires PathOK(nodes, d) && x.children == []
    ensures Flatten(AddAt(nodes, d, x)) == Flatten(nodes) + [HeadingOf(x)]
    decreases d
  {
    FlattenConcat(nodes, [x]);
    assert Flatten([x]) == [HeadingOf(x)] by {
      assert [x][1..] == [];
    }
    if d > 0 {
      var init := nodes[..|nodes| - 1];
      var l := Last(nodes);
      var l' := l.(children := AddAt(l.children, d - 1, x));
      FlattenAddAt(l.children, d - 1, x);
      assert nodes == init + [l];
      FlattenConcat(init, [l]);
      FlattenConcat(init, [l']);
      assert [l][1..] == [] && [l'][1..] == [];
      assert Flatten([l']) == Flatten([l]) + [HeadingOf(x)];
      SeqAssoc(Flatten(init), Flatten([l]), [HeadingOf(x)]);
    }
  }

  /** After adding, the chain reaches one level deeper and ends at `x`. */
  lemma {:induction false} PathAddAt(nodes: seq<Toc>, d: nat, x: Toc)
    requires PathOK(nodes, d)
    ensures PathOK(AddAt(nodes, d, x), d + 1)
    ensures PathKinds(AddAt(nodes, d, x), d + 1) == PathKinds(nodes, d) + [x.kind]
    decreases d
  {
    var r := AddAt(nodes, d, x);
    if d == 0 {
      assert Last(r) == x;
      assert PathKinds(r, 1) == [x.kind] + PathKinds(x.children, 0);
    } else {
      var l := Last(nodes);
      PathAddAt(l.children, d - 1, x);
      assert Last(r) == l.(children := AddAt(l.children, d - 1, x));
    }
  }

  lemma {:induction false} PathPrefix(nodes: seq<Toc>, j: nat, k: nat)
    requires PathOK(nodes, j) && k <= j
    ensures PathOK(nodes, k) && PathKinds(nodes, k) == PathKinds(nodes, j)[..k]
    decreases k
  {
    if k > 0 {
      PathPrefix(Last(nodes).children, j - 1, k - 1);
    }
  }

  /** Adding a node below a parent of smaller rank keeps the tree ranked. */
  lemma {:induction false} RankedAddAt(nodes: seq<Toc>, d: nat, x: Toc, above: int)
    requires Ranked(nodes, above) && PathOK(nodes, d) && x.children == []
    requires Rank(x.kind) > (if d == 0 then above else Rank(PathKinds(nodes, d)[d - 1]))
    ensures Ranked(AddAt(nodes, d, x), above)
    decreases d
  {
    var r := AddAt(nodes, d, x);
    if d == 0 {
      assert forall i :: 0 <= i < |nodes| ==> r[i] == nodes[i];
      assert Ranked(x.children, Rank(x.kind));
    } else {
      var l := Last(nodes);
      var l' := l.(children := AddAt(l.children, d - 1, x));
      if d - 1 > 0 {
        assert PathKinds(l.children, d - 1)[d - 2] == PathKinds(nodes, d)[d - 1];
      } else {
        assert PathKinds(nodes, d)[d - 1] == l.kind;
      }
      RankedAddAt(l.children, d - 1, x, Rank(l.kind));
      assert forall i :: 0 <= i < |nodes| - 1 ==> r[i] == nodes[i];
      assert r[|nodes| - 1] == l';
    }
  }

  /** Preorder depths, parallel to `Flatten`: `d` for a top-level node and
      one more for each level down. */
  function Depths(nodes: seq<Toc>, d: nat): (r: seq<nat>)
    ensures |r| == |Flatten(nodes)|
    decreases nodes
  {
    if |nodes| == 0 then []
    else [d] + Depths(nodes[0].children, d + 1) + Depths(nodes[1..], d)
  }

  lemma {:induction false} DepthsConcat(a: seq<Toc>, b: seq<Toc>, d: nat)
    ensures Depths(a + b, d) == Depths(a, d) + Depths(b, d)
    decreases |a|
  {
    if |a| == 0 {
      assert a + b == b;
    } else {
      assert (a + b)[0] == a[0] && (a + b)[1..] == a[1..] + b;
      DepthsConcat(a[1..], b, d);
    }
  }

  /** A leaf added at depth `dd` is listed last, at depth `d + dd`. */
  lemma {:induction false} DepthsAddAt(nodes: seq<Toc>, dd: nat, x: Toc, d: nat)
    requires PathOK(nodes, dd) && x.children == []
    ensures Depths(AddAt(nodes, dd, x), d) == Depths(nodes, d) + [d + dd]
    decreases dd
  {
    if dd == 0 {
      DepthsConcat(nodes, [x], d);
      DepthsOne(x, d);
    } else {
      var l := Last(nodes);
      DepthsAddAt(l.children, dd - 1, x, d + 1);
      DepthsLast(nodes, l.(children := AddAt(l.children, dd - 1, x)), d, d + dd);
    }
  }

  lemma DepthsOne(t: Toc, d: nat)
    ensures Depths([t], d) == [d] + Depths(t.children, d + 1)
  {
    assert [t][1..] == [];
  }

  /** Replacing the last node by one whose subtree lists one more depth `e`
      lists `e` last. */
  lemma DepthsLast(nodes: seq<Toc>, l': Toc, d: nat, e: nat)
    requires |nodes| > 0
    requires Depths(l'.children, d + 1) == Depths(Last(nodes).children, d + 1) + [e]
    ensures Depths(nodes[..|nodes| - 1] + [l'], d) == Depths(nodes, d) + [e]
  {
    var init, l := nodes[..|nodes| - 1], Last(nodes);
    assert nodes == init + [l];
    DepthsConcat(init, [l], d);
    DepthsConcat(init, [l'], d);
    DepthsOne(l, d);
    DepthsOne(l', d);
  }

  /** Below a depth-`d` level, every listed depth is at least `d`. */
  lemma {:induction false} DepthsAtLeast(nodes: seq<Toc>, d: nat)
    ensures forall k :: 0 <= k < |Depths(nodes, d)| ==> Depths(nodes, d)[k] >= d
    decreases nodes
  {
    if |nodes| > 0 {
      DepthsAtLeast(nodes[0].children, d + 1);
      DepthsAtLeast(nodes[1..], d);
      var ds := Depths(nodes, d);
      var c, r := Depths(nodes[0].children, d + 1), Depths(nodes[1..], d);
      assert ds == [d] + c + r;
      forall k | 0 <= k < |ds| ensures ds[k] >= d {
        if 1 <= k < 1 + |c| {
          assert ds[k] == c[k - 1];
        } else if 1 + |c| <= k {
          assert ds[k] == r[k - 1 - |c|];
        }
      }
    }
  }

  /** Where the first node's subtree ends in the two listings: after it
      every depth is deeper than `d`, and the next depth, if any, is `d`. */
  lemma FirstSubtree(nodes: seq<Toc>, d: nat)
    requires |nodes| > 0
    ensures var c, hs, ds := |Flatten(nodes[0].children)|, Flatten(nodes), Depths(nodes, d);
            && c < |ds|
            && hs[0] == HeadingOf(nodes[0])
            && hs[1..c + 1] == Flatten(nodes[0].children) && hs[c + 1..] == Flatten(nodes[1..])
            && ds[1..c + 1] == Depths(nodes[0].children, d + 1) && ds[c + 1..] == Depths(nodes[1..], d)
            && (forall k :: 1 <= k <= c ==> ds[k] > d)
            && (c + 1 < |ds| ==> ds[c + 1] == d)
  {
    var ch, rest := nodes[0].children, nodes[1..];
    var ds := Depths(nodes, d);
    var dc, dr := Depths(ch, d + 1), Depths(rest, d);
    assert ds == [d] + dc + dr;
    assert Flatten(nodes) == [HeadingOf(nodes[0])] + Flatten(ch) + Flatten(rest);
    DepthsAtLeast(ch, d + 1);
    assert forall k :: 1 <= k <= |dc| ==> ds[k] == dc[k - 1];
    if |rest| > 0 {
      assert dr[0] == d;
      assert ds[|dc| + 1] == dr[0];
    }
  }

  /** A forest is determined by its preorder listing and its depths: no
      other arrangement of the same headings at the same depths exists. */
  lemma {:induction false} TocDetermined(a: seq<Toc>, b: seq<Toc>, d: nat)
    requires Flatten(a) == Flatten(b) && Depths(a, d) == Depths(b, d)
    ensures a == b
    decreases a
  {
    FlattenEmpty(a);
    FlattenEmpty(b);
    if |a| > 0 {
      FirstSubtree(a, d);
      FirstSubtree(b, d);
      TocDetermined(a[0].children, b[0].children, d + 1);
      TocDetermined(a[1..], b[1..], d);
      assert a[0] == b[0];
      assert a == [a[0]] + a[1..] && b == [b[0]] + b[1..];
    }
  }

  // ---------------------------------------------------------------------
  // Building the TOC

  /** The TOC so far and whether `current_bian` / `current_zhang` are set
      (they always denote the last node at their depth). */
  datatype TocState = TocState(nodes: seq<Toc>, bianOpen: bool, zhangOpen: bool)

  function BianDepth(st: TocState): nat {
    if st.bianOpen then 1 else 0
  }

  function OpenDepth(st: TocState): nat {
    BianDepth(st) + (if st.zhangOpen then 1 else 0)
  }

  /** The open 编 and 章 are the chain of last nodes. */
  predicate WellShaped(st: TocState) {
    && PathOK(st.nodes, OpenDepth(st))
    && PathKinds(st.nodes, OpenDepth(st)) == (if st.bianOpen then [Bian] else []) + (if st.zhangOpen then [Zhang] else [])
  }

  /** One heading line of the loop. */
  function TocStep(st: TocState, h: Heading): (r: TocState)
    requires WellShaped(st)
  {
    var x := Toc(h.kind, h.name, h.title, []);
    PathPrefix(st.nodes, OpenDepth(st), BianDepth(st));
    match h.kind
    case Bian => TocState(AddAt(st.nodes, 0, x), true, false)
    case Zhang => TocState(AddAt(st.nodes, BianDepth(st), x), st.bianOpen, true)
    case Jie => TocState(AddAt(st.nodes, OpenDepth(st), x), st.bianOpen, st.zhangOpen)
  }

  /** The depth a heading is added at: 编 at the top, 章 below the open
      编, 节 below the open 章. */
  function TocDepth(st: TocState, k: Kind): nat {
    match k case Bian => 0 case Zhang => BianDepth(st) case Jie => OpenDepth(st)
  }

  /** Each step keeps the shape, keeps the tree ranked, and lists the new
      heading last in preorder. */
  lemma TocStepProps(st: TocState, h: Heading)
    requires WellShaped(st) && Ranked(st.nodes, -1)
    ensures WellShaped(TocStep(st, h))
    ensures Ranked(TocStep(st, h).nodes, -1)
    ensures Flatten(TocStep(st, h).nodes) == Flatten(st.nodes) + [h]
  {
    var x := Toc(h.kind, h.name, h.title, []);
    var d := TocDepth(st, h.kind);
    TocStepAdds(st, h);
    FlattenAddAt(st.nodes, d, x);
    RankedAddAt(st.nodes, d, x, -1);
    TocStepShape(st, h);
  }

  /** A step adds the heading as a leaf at its depth, which is on the path
      of open nodes. */
  lemma TocStepAdds(st: TocState, h: Heading)
    requires WellShaped(st)
    ensures var d := TocDepth(st, h.kind);
            && d <= OpenDepth(st) && PathOK(st.nodes, d)
            && Rank(h.kind) > (if d == 0 then -1 else Rank(PathKinds(st.nodes, d)[d - 1]))
            && TocStep(st, h).nodes == AddAt(st.nodes, d, Toc(h.kind, h.name, h.title, []))
  {
    var od, bd := OpenDepth(st), BianDepth(st);
    PathPrefix(st.nodes, od, bd);
    PathPrefix(st.nodes, od, TocDepth(st, h.kind));
  }

  lemma TocStepShape(st: TocState, h: Heading)
    requires WellShaped(st)
    ensures WellShaped(TocStep(st, h))
  {
    var x := Toc(h.kind, h.name, h.title, []);
    var d := TocDepth(st, h.kind);
    TocStepAdds(st, h);
    PathAddAt(st.nodes, d, x);
    var r := TocStep(st, h);
    PathPrefix(r.nodes, d + 1, OpenDepth(r));
  }

  // ---------------------------------------------------------------------
  // The depth each heading belongs at, read off the headings alone

  /** Some 编 comes before position `i`, so `current_bian` is set there. */
  predicate BianBefore(hs: seq<Heading>, i: nat)
    requires i <= |hs|
  {
    exists j :: 0 <= j < i && hs[j].kind == Bian
  }

  /** A 章 comes before position `i` with no 编 after it, so
      `current_zhang` is set there. */
  predicate ZhangOpenAt(hs: seq<Heading>, i: nat)
    requires i <= |hs|
  {
    exists j :: 0 <= j < i && hs[j].kind == Zhang && forall m :: j < m < i ==> hs[m].kind != Bian
  }

  /** The depth of heading `i`: a 编 at the top; a 章 one down when some
      编 came before; a 节 one further down when a 章 is still open. */
  function DepthAt(hs: seq<Heading>, i: nat): nat
    requires i < |hs|
  {
    var b := if BianBefore(hs, i) then 1 else 0;
    match hs[i].kind
    case Bian => 0
    case Zhang => b
    case Jie => b + (if ZhangOpenAt(hs, i) then 1 else 0)
  }

  /** Every node of the tree sits at the depth its heading belongs at. */
  predicate DepthsFollow(nodes: seq<Toc>) {
    var hs, ds := Flatten(nodes), Depths(nodes, 0);
    forall i :: 0 <= i < |hs| ==> ds[i] == DepthAt(hs, i)
  }

  /** The open 编 and 章 are the ones the headings so far imply, and every
      node sits at its depth. */
  predicate Nested(st: TocState) {
    var hs := Flatten(st.nodes);
    && st.bianOpen == BianBefore(hs, |hs|)
    && st.zhangOpen == ZhangOpenAt(hs, |hs|)
    && DepthsFollow(st.nodes)
  }

  /** Appending a heading changes nothing about the earlier positions. */
  lemma AppendKeeps(hs: seq<Heading>, h: Heading, i: nat)
    requires i <= |hs|
    ensures BianBefore(hs + [h], i) == BianBefore(hs, i)
    ensures ZhangOpenAt(hs + [h], i) == ZhangOpenAt(hs, i)
    ensures i < |hs| ==> DepthAt(hs + [h], i) == DepthAt(hs, i)
  {
    var a := hs + [h];
    assert forall j :: 0 <= j < |hs| ==> a[j] == hs[j];
  }

  /** The open flags after one more heading. */
  lemma AppendFlags(hs: seq<Heading>, h: Heading)
    ensures BianBefore(hs + [h], |hs| + 1) == (h.kind == Bian || BianBefore(hs, |hs|))
    ensures ZhangOpenAt(hs + [h], |hs| + 1)
            == (h.kind == Zhang || (h.kind == Jie && ZhangOpenAt(hs, |hs|)))
  {
    var a, n := hs + [h], |hs|;
    assert forall j :: 0 <= j < n ==> a[j] == hs[j];
    assert a[n] == h;
    if h.kind == Zhang {
      assert a[n].kind == Zhang;
    } else {
      if ZhangOpenAt(a, n + 1) {
        var j :| 0 <= j < n + 1 && a[j].kind == Zhang && forall m :: j < m < n + 1 ==> a[m].kind != Bian;
        assert j < n && a[n].kind != Bian;
        assert ZhangOpenAt(hs, n);
      }
      if h.kind == Jie && ZhangOpenAt(hs, n) {
        var j :| 0 <= j < n && hs[j].kind == Zhang && forall m :: j < m < n ==> hs[m].kind != Bian;
        assert a[j].kind == Zhang && forall m :: j < m < n + 1 ==> a[m].kind != Bian;
      }
    }
  }

  /** Each step places the heading at the depth it belongs at and keeps
      the open flags those the headings imply. */
  lemma TocStepNests(st: TocState, h: Heading)
    requires WellShaped(st) && Nested(st)
    ensures Nested(TocStep(st, h))
  {
    var d := TocDepth(st, h.kind);
    var hs, ds := Flatten(st.nodes), Depths(st.nodes, 0);
    var r := TocStep(st, h);
    TocStepLists(st, h);
    NestedAfter(hs, ds, h, d, st.bianOpen, st.zhangOpen, Flatten(r.nodes), Depths(r.nodes, 0));
    AppendFlags(hs, h);
    NestedOf(r, hs + [h]);
  }

  /** A step lists the heading last, at the depth it is added at. */
  lemma TocStepLists(st: TocState, h: Heading)
    requires WellShaped(st)
    ensures Flatten(TocStep(st, h).nodes) == Flatten(st.nodes) + [h]
    ensures Depths(TocStep(st, h).nodes, 0) == Depths(st.nodes, 0) + [TocDepth(st, h.kind)]
  {
    var x := Toc(h.kind, h.name, h.title, []);
    var d := TocDepth(st, h.kind);
    TocStepAdds(st, h);
    FlattenAddAt(st.nodes, d, x);
    DepthsAddAt(st.nodes, d, x, 0);
  }

  lemma NestedOf(st: TocState, hs: seq<Heading>)
    requires Flatten(st.nodes) == hs
    requires st.bianOpen == BianBefore(hs, |hs|) && st.zhangOpen == ZhangOpenAt(hs, |hs|)
    requires forall i :: 0 <= i < |hs| ==> Depths(st.nodes, 0)[i] == DepthAt(hs, i)
    ensures Nested(st)
  {
  }

  lemma NestedAfter(hs: seq<Heading>, ds: seq<nat>, h: Heading, d: nat, b: bool, z: bool,
                    hs': seq<Heading>, ds': seq<nat>)
    requires |ds| == |hs| && forall i :: 0 <= i < |hs| ==> ds[i] == DepthAt(hs, i)
    requires b == BianBefore(hs, |hs|) && z == ZhangOpenAt(hs, |hs|)
    requires d == match h.kind
                 case Bian => 0
                 case Zhang => (if b then 1 else 0)
                 case Jie => (if b then 1 else 0) + (if z then 1 else 0)
    requires hs' == hs + [h] && ds' == ds + [d]
    ensures forall i :: 0 <= i < |hs'| ==> ds'[i] == DepthAt(hs', i)
  {
    forall i | 0 <= i < |hs'| ensures ds'[i] == DepthAt(hs', i) {
      AppendKeeps(hs, h, i);
    }
  }

  function Headings(lines: seq<string>): seq<Heading> {
    if |lines| == 0 then []
    else (match ParseTocLine(lines[0]) case Some(h) => [h] case None => []) + Headings(lines[1..])
  }

  function BuildFrom(st: TocState, lines: seq<string>): (r: TocState)
    requires WellShaped(st) && Ranked(st.nodes, -1)
    ensures WellShaped(r) && Ranked(r.nodes, -1)
    ensures Flatten(r.nodes) == Flatten(st.nodes) + Headings(lines)
    decreases |lines|
  {
    if |lines| == 0 then st
    else
      match ParseTocLine(lines[0])
      case None =>
        assert Headings(lines) == Headings(lines[1..]);
        BuildFrom(st, lines[1..])
      case Some(h) =>
        TocStepProps(st, h);
        var r := BuildFrom(TocStep(st, h), lines[1..]);
        assert Headings(lines) == [h] + Headings(lines[1..]);
        SeqAssoc(Flatten(st.nodes), [h], Headings(lines[1..]));
        r
  }

  /** Folding the lines places every heading at the depth it belongs at. */
  lemma {:induction false} BuildFromNests(st: TocState, lines: seq<string>)
    requires WellShaped(st) && Ranked(st.nodes, -1) && Nested(st)
    ensures Nested(BuildFrom(st, lines))
    decreases |lines|
  {
    if |lines| > 0 {
      match ParseTocLine(lines[0])
      case None =>
        BuildFromNests(st, lines[1..]);
      case Some(h) =>
        TocStepProps(st, h);
        TocStepNests(st, h);
        BuildFromNests(TocStep(st, h), lines[1..]);
    }
  }

  /** The `structure` list built from a law's content. */
  function BuildToc(content: string): (toc: seq<Toc>)
    ensures Flatten(toc) == Headings(Split(content, '\n'))
    ensures Ranked(toc, -1)
    ensures DepthsFollow(toc)
  {
    var st := TocState([], false, false);
    assert Nested(st);
    BuildFromNests(st, Split(content, '\n'));
    BuildFrom(st, Split(content, '\n')).nodes
  }

  /** The TOC is the only forest that lists the heading lines in order,
      each at the depth the headings before it imply. */
  lemma BuildTocUnique(content: string, t: seq<Toc>)
    requires Flatten(t) == Headings(Split(content, '\n')) && DepthsFollow(t)
    ensures t == BuildToc(content)
  {
    var toc := BuildToc(content);
    assert Depths(t, 0) == Depths(toc, 0);
    TocDetermined(t, toc, 0);
  }

  lemma FlattenEmpty(nodes: seq<Toc>)
    ensures Flatten(nodes) == [] <==> nodes == []
  {
  }

  /** What the tool answers: no content, no 编/章/节 structure, or the tree. */
  datatype TocReply = NoContent | NoStructure | Tree(toc: seq<Toc>)

  function LawStructure(content: string): (r: TocReply)
    ensures r.NoContent? <==> content == []
    ensures r.NoStructure? <==> content != [] && Headings(Split(content, '\n')) == []
    ensures r.Tree? ==> Flatten(r.toc) == Headings(Split(content, '\n')) && Ranked(r.toc, -1)
    ensures r.Tree? ==> DepthsFollow(r.toc)
  {
    if content == [] then NoContent
    else
      var toc := BuildToc(content);
      FlattenEmpty(toc);
      if toc == [] then NoStructure else Tree(toc)
  }
}

=== FILE: npc_extract.dfy ===
/** The article extractor of the NPC crawler: `re.finditer` of
    `第([一二三四五六七八九十百千\d]+)条\s+(.*?)(?=第[一二三四五六七八九十百千\d]+条|$)`
    with DOTALL over a law's text, numbering the matches from 1 and
    stripping each body.  The numeral class is a parameter so that the class
    as written and the class with 零 share one definition. */
module NpcExtract {
  import opened Strings
  import Numerals

  /** The numeral characters the character class lists. */
  const Listed: set<char> := {'一', '二', '三', '四', '五', '六', '七', '八', '九', '十', '百', '千'}

  /** The class as written, and the class with 零 that numbers such as
      一百零一 need. */
  datatype NumeralClass = AsWritten | WithZero

  /** `[一二三四五六七八九十百千\d]`, with 零 for `WithZero`. */
  predicate InClass(c: char, cls: NumeralClass) {
    c in Listed || IsAsciiDigit(c) || (cls == WithZero && c == '零')
  }

  /** Length of the run of class characters `s` starts with. */
  function RunLen(s: string, cls: NumeralClass): (n: nat)
    ensures n <= |s|
    ensures n < |s| ==> !InClass(s[n], cls)
    decreases |s|
  {
    if |s| > 0 && InClass(s[0], cls) then 1 + RunLen(s[1..], cls) else 0
  }

  lemma {:induction false} RunLenIn(s: string, k: nat, cls: NumeralClass)
    requires k < RunLen(s, cls)
    ensures InClass(s[k], cls)
    decreases |s|
  {
    if k > 0 {
      RunLenIn(s[1..], k - 1, cls);
    }
  }

  /** `第[...]+条` matches at the start of `s`.  条 is not in the class, so
      the greedy run is the whole run and 条 must follow it directly. */
  predicate Marker(s: string, cls: NumeralClass) {
    |s| > 0 && s[0] == '第'
    && var n := RunLen(s[1..], cls);
       n > 0 && n + 1 < |s| && s[n + 1] == '条'
  }

  /** A marker starts at position `k` of `t`. */
  predicate MarkerAt(t: string, k: nat, cls: NumeralClass) {
    k < |t| && Marker(t[k..], cls)
  }

  /** No marker starts anywhere in `t`. */
  predicate NoMarkerIn(t: string, cls: NumeralClass) {
    forall k :: 0 <= k < |t| ==> !MarkerAt(t, k, cls)
  }

  /** A non-empty numeral of the class. */
  predicate ClassNumeral(num: string, cls: NumeralClass) {
    |num| > 0 && forall i :: 0 <= i < |num| ==> InClass(num[i], cls)
  }

  /** 第<numeral>条 with a numeral of the class. */
  predicate ArticleNumber(number: string, cls: NumeralClass) {
    |number| >= 3 && number[0] == '第' && number[|number| - 1] == '条'
    && ClassNumeral(number[1..|number| - 1], cls)
  }

  /** Where the lazy body may stop: before a marker, at the end of the
      text, or before a final newline (`$` without MULTILINE). */
  predicate Stop(s: string, cls: NumeralClass) {
    s == [] || s == "\n" || Marker(s, cls)
  }

  /** The length of the shortest body: the first stop. */
  function BodyLen(s: string, cls: NumeralClass): (n: nat)
    ensures n <= |s|
    ensures Stop(s[n..], cls)
    decreases |s|
  {
    if Stop(s, cls) then 0
    else
      var n := 1 + BodyLen(s[1..], cls);
      assert s[n..] == s[1..][n - 1..];
      n
  }

  /** The body is the shortest one: no stop lies before its end. */
  lemma {:induction false} BodyLenFirst(s: string, k: nat, cls: NumeralClass)
    requires k < BodyLen(s, cls)
    ensures !Stop(s[k..], cls)
    decreases |s|
  {
    if k > 0 {
      BodyLenFirst(s[1..], k - 1, cls);
      assert s[k..] == s[1..][k - 1..];
    }
  }

  /** The numeral and the start of the body of a match at the start of
      `s`. */
  datatype Head = Head(numeral: string, bodyStart: nat)

  /** `第([...]+)条\s+` at the start of `s`: the marker followed by at least
      one whitespace character, which `\s+` takes greedily. */
  function HeadOf(s: string, cls: NumeralClass): (h: Option<Head>)
    ensures h.Some? ==> Marker(s, cls) && 3 <= |h.value.numeral| + 3 <= h.value.bodyStart <= |s|
  {
    if !Marker(s, cls) then None
    else
      var n := RunLen(s[1..], cls);
      if n + 2 == |s| then None
      else
        var w := LeadingSpaces(s[n + 2..]);
        if w == 0 then None
        else Some(Head(s[1..n + 1], n + 2 + w))
  }

  /** A match as `finditer` reports it: the numeral group and the body
      group. */
  datatype Found = Found(numeral: string, body: string)

  /** `finditer` from the start of `s`: at each position a match is tried;
      after a match the search resumes where it ended. */
  function Scan(s: string, cls: NumeralClass): seq<Found>
    decreases |s|
  {
    if |s| == 0 then []
    else
      match HeadOf(s, cls)
      case None => Scan(s[1..], cls)
      case Some(h) =>
        var t := s[h.bodyStart..];
        var b := BodyLen(t, cls);
        [Found(h.numeral, t[..b])] + Scan(t[b..], cls)
  }

  /** A match with a numeral of the class and a marker-free body. */
  predicate GoodFound(f: Found, cls: NumeralClass) {
    ClassNumeral(f.numeral, cls) && NoMarkerIn(f.body, cls)
  }

  /** Every match has a numeral of the class and a marker-free body. */
  lemma {:induction false} ScanFound(s: string, k: nat, cls: NumeralClass)
    requires k < |Scan(s, cls)|
    ensures GoodFound(Scan(s, cls)[k], cls)
    decreases |s|
  {
    assert |s| > 0;
    if HeadOf(s, cls).None? {
      ScanSkip(s, cls);
      ScanFound(s[1..], k, cls);
    } else {
      var h := HeadOf(s, cls).value;
      var t := s[h.bodyStart..];
      var b := BodyLen(t, cls);
      ScanHead(s, cls);
      if k > 0 {
        ScanTail(Scan(s, cls), Found(h.numeral, t[..b]), Scan(t[b..], cls), k);
        ScanFound(t[b..], k - 1, cls);
      } else {
        ScanFirst(s, cls);
      }
    }
  }

  lemma ScanTail(all: seq<Found>, f: Found, r: seq<Found>, k: nat)
    requires all == [f] + r && 0 < k < |all|
    ensures k - 1 < |r| && all[k] == r[k - 1]
  {
  }

  /** The first match of a text a match starts is good. */
  lemma ScanFirst(s: string, cls: NumeralClass)
    requires |s| > 0 && HeadOf(s, cls).Some?
    ensures |Scan(s, cls)| > 0 && GoodFound(Scan(s, cls)[0], cls)
  {
    var h := HeadOf(s, cls).value;
    var t := s[h.bodyStart..];
    var b := BodyLen(t, cls);
    ScanHead(s, cls);
    BodyNoMarker(t, b, cls);
    HeadNumeral(s, cls);
  }

  /** `Scan` of a text no match starts. */
  lemma ScanSkip(s: string, cls: NumeralClass)
    requires |s| > 0 && HeadOf(s, cls).None?
    ensures Scan(s, cls) == Scan(s[1..], cls)
  {
  }

  /** `Scan` of a text a match starts. */
  lemma ScanHead(s: string, cls: NumeralClass)
    requires |s| > 0 && HeadOf(s, cls).Some?
    ensures var h := HeadOf(s, cls).value;
            var t := s[h.bodyStart..];
            Scan(s, cls) == [Found(h.numeral, t[..BodyLen(t, cls)])] + Scan(t[BodyLen(t, cls)..], cls)
  {
  }

  lemma HeadNumeral(s: string, cls: NumeralClass)
    requires HeadOf(s, cls).Some?
    ensures ClassNumeral(HeadOf(s, cls).value.numeral, cls)
  {
    var n := RunLen(s[1..], cls);
    var num := HeadOf(s, cls).value.numeral;
    assert num == s[1..n + 1];
    forall i | 0 <= i < |num| ensures InClass(num[i], cls) {
      assert num[i] == s[1..][i];
      RunLenIn(s[1..], i, cls);
    }
  }

  /** One extracted article. */
  datatype Article = Article(number: string, index: nat, content: string)

  function Number(fs: seq<Found>, first: nat): (r: seq<Article>)
    ensures |r| == |fs|
    ensures forall k :: 0 <= k < |r| ==> r[k] == Article("第" + fs[k].numeral + "条", first + k, Strip(fs[k].body))
    decreases |fs|
  {
    if |fs| == 0 then []
    else [Article("第" + fs[0].numeral + "条", first, Strip(fs[0].body))] + Number(fs[1..], first + 1)
  }

  /** `_extract_articles`: articles numbered 1, 2, 3, … in match order,
      each numbered 第<numeral>条 with a non-empty numeral of the class, and
      each holding a stripped body in which no marker starts. */
  function ExtractArticles(text: string, cls: NumeralClass): (r: seq<Article>)
    ensures forall k :: 0 <= k < |r| ==> r[k].index == k + 1
    ensures forall k :: 0 <= k < |r| ==> ArticleNumber(r[k].number, cls)
    ensures forall k :: 0 <= k < |r| ==> NoEdgeSpace(r[k].content) && NoMarkerIn(r[k].content, cls)
  {
    var fs := Scan(text, cls);
    var r := Number(fs, 1);
    forall k | 0 <= k < |r| ensures ArticleNumber(r[k].number, cls) && NoMarkerIn(r[k].content, cls) {
      ScanFound(text, k, cls);
      StripNoMarker(fs[k].body, cls);
      var num := fs[k].numeral;
      assert r[k].number[1..|r[k].number| - 1] == num;
    }
    r
  }

  // ---------------------------------------------------------------------
  // Markers inside longer texts

  /** A run that stops inside `a`, or at a non-class character after it,
      is not lengthened by what follows. */
  lemma {:induction false} RunLenAppend(a: string, y: string, cls: NumeralClass)
    requires RunLen(a, cls) < |a| || y == [] || !InClass(y[0], cls)
    ensures RunLen(a + y, cls) == RunLen(a, cls)
    decreases |a|
  {
    if |a| == 0 {
      assert a + y == y;
    } else if InClass(a[0], cls) {
      assert (a + y)[1..] == a[1..] + y;
      RunLenAppend(a[1..], y, cls);
    }
  }

  /** A marker stays a marker whatever follows it. */
  lemma MarkerPrefix(p: string, y: string, cls: NumeralClass)
    requires Marker(p, cls)
    ensures Marker(p + y, cls)
  {
    assert (p + y)[1..] == p[1..] + y;
    RunLenAppend(p[1..], y, cls);
  }

  /** A marker at the start of `c + x`, where `x` is empty or starts with
      a newline, lies within `c`. */
  lemma MarkerCut(c: string, x: string, cls: NumeralClass)
    requires x == [] || x[0] == '\n'
    requires Marker(c + x, cls)
    ensures Marker(c, cls)
  {
    assert (c + x)[0] == '第';
    assert |c| > 0;
    assert (c + x)[1..] == c[1..] + x;
    RunLenAppend(c[1..], x, cls);
  }

  /** The body is marker-free: every marker in it would be a stop before
      the one `BodyLen` found. */
  lemma BodyNoMarker(t: string, b: nat, cls: NumeralClass)
    requires b == BodyLen(t, cls)
    ensures NoMarkerIn(t[..b], cls)
  {
    forall k | 0 <= k < b ensures !MarkerAt(t[..b], k, cls) {
      BodyLenFirst(t, k, cls);
      assert t[k..] == t[..b][k..] + t[b..];
      if Marker(t[..b][k..], cls) {
        MarkerPrefix(t[..b][k..], t[b..], cls);
      }
    }
  }

  /** A slice of a marker-free text is marker-free. */
  lemma NoMarkerSlice(t: string, i: nat, j: nat, u: string, cls: NumeralClass)
    requires i <= j <= |t| && u == t[i..j] && NoMarkerIn(t, cls)
    ensures NoMarkerIn(u, cls)
  {
    forall k | 0 <= k < |u| ensures !MarkerAt(u, k, cls) {
      assert !MarkerAt(t, i + k, cls);
      assert t[i + k..] == u[k..] + t[j..];
      if Marker(u[k..], cls) {
        MarkerPrefix(u[k..], t[j..], cls);
      }
    }
  }

  lemma StripNoMarker(body: string, cls: NumeralClass)
    requires NoMarkerIn(body, cls)
    ensures NoMarkerIn(Strip(body), cls)
  {
    StripIsSlice(body);
    var a := |body| - |LStrip(body)|;
    NoMarkerSlice(body, a, a + |Strip(body)|, Strip(body), cls);
  }

  /** Without the character 第 there is no marker. */
  lemma NoMarkerWithout(t: string, cls: NumeralClass)
    requires '第' !in t
    ensures NoMarkerIn(t, cls)
  {
    forall k | 0 <= k < |t| ensures !MarkerAt(t, k, cls) {
      assert t[k..][0] == t[k];
    }
  }

  // ---------------------------------------------------------------------
  // Round trip: a law laid out one article per line

  /** An article to lay out: its numeral and its text. */
  datatype Entry = Entry(numeral: string, content: string)

  /** What the extractor can read back: a numeral of the class, and a
      non-empty text without edge whitespace in which no marker starts. */
  predicate Readable(e: Entry, cls: NumeralClass) {
    && |e.numeral| > 0
    && (forall i :: 0 <= i < |e.numeral| ==> InClass(e.numeral[i], cls))
    && |e.content| > 0 && NoEdgeSpace(e.content)
    && NoMarkerIn(e.content, cls)
  }

  /** `第<numeral>条 <content>` */
  function Line(e: Entry): string {
    "第" + e.numeral + "条 " + e.content
  }

  function Lines(es: seq<Entry>): (r: seq<string>)
    ensures |r| == |es|
    ensures forall k :: 0 <= k < |es| ==> r[k] == Line(es[k])
  {
    if |es| == 0 then [] else [Line(es[0])] + Lines(es[1..])
  }

  /** The articles one per line. */
  function Layout(es: seq<Entry>): string {
    Join(Lines(es), "\n")
  }

  /** The articles the extractor should report for `es`. */
  function Listing(es: seq<Entry>, first: nat): (r: seq<Article>)
    ensures |r| == |es|
    ensures forall k :: 0 <= k < |es| ==> r[k] == Article("第" + es[k].numeral + "条", first + k, es[k].content)
    decreases |es|
  {
    if |es| == 0 then [] else [Article("第" + es[0].numeral + "条", first, es[0].content)] + Listing(es[1..], first + 1)
  }

  lemma LineMarker(e: Entry, y: string, cls: NumeralClass)
    requires Readable(e, cls)
    ensures Marker(Line(e) + y, cls)
  {
    var s := Line(e);
    assert s[1..] == e.numeral + ("条 " + e.content);
    RunLenAppend(e.numeral, "条 " + e.content, cls);
    RunLenAll(e.numeral, cls);
    MarkerPrefix(s, y, cls);
  }

  lemma {:induction false} RunLenAll(a: string, cls: NumeralClass)
    requires forall i :: 0 <= i < |a| ==> InClass(a[i], cls)
    ensures RunLen(a, cls) == |a|
  {
  }

  /** The head of a laid-out line: the numeral, and the body right after
      the single space. */
  lemma LineHead(e: Entry, x: string, cls: NumeralClass)
    requires Readable(e, cls)
    ensures HeadOf(Line(e) + x, cls) == Some(Head(e.numeral, |e.numeral| + 3))
  {
    var s := Line(e) + x;
    LineMarker(e, x, cls);
    var n := |e.numeral|;
    assert s[1..] == e.numeral + ("条 " + e.content + x);
    RunLenAppend(e.numeral, "条 " + e.content + x, cls);
    RunLenAll(e.numeral, cls);
    var u := s[n + 2..];
    assert u == [' '] + e.content + x;
    assert u[1] == e.content[0];
    assert s[1..n + 1] == e.numeral;
  }

  /** Nothing inside a readable text stops the body before its end. */
  lemma NoStopInside(c: string, x: string, cls: NumeralClass)
    requires |c| > 0 && NoEdgeSpace(c) && NoMarkerIn(c, cls)
    requires x == [] || (|x| >= 2 && x[0] == '\n')
    ensures forall k :: 0 <= k < |c| ==> !Stop(c[k..] + x, cls)
  {
    forall k | 0 <= k < |c| ensures !Stop(c[k..] + x, cls) {
      var u := c[k..] + x;
      if x == [] {
        assert u[|u| - 1] == c[|c| - 1];
      } else {
        assert |u| >= 3;
      }
      assert !MarkerAt(c, k, cls);
      if Marker(c[k..] + x, cls) {
        MarkerCut(c[k..], x, cls);
      }
    }
  }

  lemma {:induction false} BodyLenSkip(c: string, x: string, cls: NumeralClass)
    requires forall k :: 0 <= k < |c| ==> !Stop(c[k..] + x, cls)
    ensures BodyLen(c + x, cls) == |c| + BodyLen(x, cls)
    decreases |c|
  {
    if |c| == 0 {
      assert c + x == x;
    } else {
      assert c[0..] + x == c + x;
      assert (c + x)[1..] == c[1..] + x;
      forall k | 0 <= k < |c[1..]| ensures !Stop(c[1..][k..] + x, cls) {
        assert c[1..][k..] == c[k + 1..];
      }
      BodyLenSkip(c[1..], x, cls);
    }
  }

  lemma StripNewline(c: string)
    requires |c| > 0 && NoEdgeSpace(c)
    ensures Strip(c + "\n") == c
  {
    var s := c + "\n";
    assert LeadingSpaces(s) == 0;
    assert LStrip(s) == s;
    var r := RStrip(s);
    assert TrailingSpaces(s) == 1 by {
      assert s[..|s| - 1] == c;
      assert TrailingSpaces(c) == 0;
    }
    assert r == s[..|c|] == c;
  }

  /** The body of a readable text runs to its end, taking the newline
      before a following line. */
  lemma LineBody(c: string, rest: string, cls: NumeralClass)
    requires |c| > 0 && NoEdgeSpace(c) && NoMarkerIn(c, cls)
    requires rest == [] || Marker(rest, cls)
    ensures rest == [] ==> BodyLen(c, cls) == |c|
    ensures rest != [] ==> BodyLen(c + ("\n" + rest), cls) == |c| + 1
  {
    if rest == [] {
      NoStopInside(c, [], cls);
      BodyLenSkip(c, [], cls);
      assert c + [] == c;
    } else {
      var x := "\n" + rest;
      NoStopInside(c, x, cls);
      BodyLenSkip(c, x, cls);
      assert !Stop(x, cls);
      assert x[1..] == rest;
    }
  }

  /** `Scan` of a text whose match has the numeral `numeral`, and whose
      body starts at `n` and is `body`. */
  lemma ScanAt(s: string, n: nat, numeral: string, body: string, rest: string, cls: NumeralClass)
    requires HeadOf(s, cls) == Some(Head(numeral, n)) && n <= |s| && s[n..] == body + rest
    requires BodyLen(body + rest, cls) == |body|
    ensures Scan(s, cls) == [Found(numeral, body)] + Scan(rest, cls)
  {
    var c := body + rest;
    assert c[..|body|] == body;
    assert c[|body|..] == rest;
    ScanHead(s, cls);
  }

  /** Reading a last line gives its article. */
  lemma ScanLastLine(e: Entry, cls: NumeralClass)
    requires Readable(e, cls)
    ensures Scan(Line(e), cls) == [Found(e.numeral, e.content)]
  {
    var s := Line(e);
    var n := |e.numeral| + 3;
    assert s + "" == s;
    LineHead(e, "", cls);
    assert s[n..] == e.content + [];
    LineBody(e.content, [], cls);
    ScanAt(s, n, e.numeral, e.content, [], cls);
    assert Scan([], cls) == [];
  }

  /** Reading a line followed by a newline and further lines gives that
      line's article, its body ending in the newline, and leaves the
      further lines. */
  lemma ScanLineThen(e: Entry, rest: string, cls: NumeralClass)
    requires Readable(e, cls) && Marker(rest, cls)
    ensures Scan(Line(e) + ("\n" + rest), cls) == [Found(e.numeral, e.content + "\n")] + Scan(rest, cls)
  {
    var x := "\n" + rest;
    var s := Line(e) + x;
    var n := |e.numeral| + 3;
    LineHead(e, x, cls);
    var body := e.content + "\n";
    assert e.content + x == body + rest;
    assert s[n..] == body + rest;
    LineBody(e.content, rest, cls);
    ScanAt(s, n, e.numeral, body, rest, cls);
  }

  /** A layout of two or more articles is the first line, a newline, and
      the layout of the rest, which starts with a marker. */
  lemma LayoutCons(es: seq<Entry>, cls: NumeralClass)
    requires |es| > 1 && Readable(es[1], cls)
    ensures Layout(es) == Line(es[0]) + ("\n" + Layout(es[1..]))
    ensures Marker(Layout(es[1..]), cls)
  {
    assert Lines(es)[1..] == Lines(es[1..]);
    var rest := Layout(es[1..]);
    var more := if |es| == 2 then "" else "\n" + Layout(es[2..]);
    assert rest == Line(es[1]) + more by {
      assert Lines(es[1..])[1..] == Lines(es[2..]);
    }
    LineMarker(es[1], more, cls);
  }

  /** The matches a layout should give: each body keeps the newline
      that ends its line. */
  function LaidOut(es: seq<Entry>): (r: seq<Found>)
    ensures |r| == |es|
    decreases |es|
  {
    if |es| == 0 then []
    else if |es| == 1 then [Found(es[0].numeral, es[0].content)]
    else [Found(es[0].numeral, es[0].content + "\n")] + LaidOut(es[1..])
  }

  /** Laid out one per line, readable articles are matched line by line. */
  lemma {:induction false} ScanLayout(es: seq<Entry>, cls: NumeralClass)
    requires forall k :: 0 <= k < |es| ==> Readable(es[k], cls)
    ensures Scan(Layout(es), cls) == LaidOut(es)
    decreases |es|
  {
    if |es| == 0 {
      assert Layout(es) == [];
    } else if |es| == 1 {
      assert Layout(es) == Line(es[0]);
      ScanLastLine(es[0], cls);
    } else {
      LayoutCons(es, cls);
      ScanLineThen(es[0], Layout(es[1..]), cls);
      ScanLayout(es[1..], cls);
    }
  }

  /** Numbering the matches of a layout gives its listing. */
  lemma {:induction false} NumberLaidOut(es: seq<Entry>, first: nat)
    requires forall k :: 0 <= k < |es| ==> |es[k].content| > 0 && NoEdgeSpace(es[k].content)
    ensures Number(LaidOut(es), first) == Listing(es, first)
    decreases |es|
  {
    if |es| == 1 {
      StripOfClean(es[0].content);
    } else if |es| > 1 {
      StripNewline(es[0].content);
      NumberLaidOut(es[1..], first + 1);
    }
  }

  /** The extractor reads back the articles of a law laid out one per
      line, numbered from 1. */
  lemma ExtractLayout(es: seq<Entry>, cls: NumeralClass)
    requires forall k :: 0 <= k < |es| ==> Readable(es[k], cls)
    ensures ExtractArticles(Layout(es), cls) == Listing(es, 1)
  {
    ScanLayout(es, cls);
    NumberLaidOut(es, 1);
  }

  /** An article starts only where whitespace follows 条: a marker
      followed by anything else, as in 第三条之一, starts no match. */
  lemma HeadNeedsSpace(numeral: string, c: char, y: string, cls: NumeralClass)
    requires ClassNumeral(numeral, cls) && !IsSpace(c)
    ensures HeadOf("第" + numeral + "条" + [c] + y, cls).None?
  {
    var s := "第" + numeral + "条" + [c] + y;
    var n := |numeral|;
    assert s[1..] == numeral + ("条" + [c] + y);
    RunLenAppend(numeral, "条" + [c] + y, cls);
    RunLenAll(numeral, cls);
    assert s[n + 2..][0] == c;
  }

  /** An inserted article 第<numeral>条之一 is read by no extracted article:
      no match starts at it, since 之 follows 条, and no body holds it,
      since every body stops before the 第<numeral>条 it begins with. */
  lemma InsertedArticleLost(text: string, numeral: string, y: string, cls: NumeralClass)
    requires ClassNumeral(numeral, cls)
    ensures HeadOf("第" + numeral + "条之一" + y, cls).None?
    ensures forall k :: 0 <= k < |ExtractArticles(text, cls)| ==>
              !Contains(ExtractArticles(text, cls)[k].content, "第" + numeral + "条之一" + y)
  {
    InsertedHead(numeral, y, cls);
    InsertedMarker(numeral, y, cls);
    NoBodyHolds(text, "第" + numeral + "条之一" + y, cls);
  }

  lemma InsertedHead(numeral: string, y: string, cls: NumeralClass)
    requires ClassNumeral(numeral, cls)
    ensures HeadOf("第" + numeral + "条之一" + y, cls).None?
  {
    assert "第" + numeral + "条之一" + y == "第" + numeral + "条" + ['之'] + ("一" + y);
    HeadNeedsSpace(numeral, '之', "一" + y, cls);
  }

  /** 第<numeral>条之一 is a marker: the lookahead stops a body there. */
  lemma InsertedMarker(numeral: string, y: string, cls: NumeralClass)
    requires ClassNumeral(numeral, cls)
    ensures Marker("第" + numeral + "条之一" + y, cls)
  {
    var s := "第" + numeral + "条之一" + y;
    assert s[1..] == numeral + ("条之一" + y);
    RunLenAppend(numeral, "条之一" + y, cls);
    RunLenAll(numeral, cls);
    assert s[|numeral| + 1] == '条';
  }

  /** No extracted body holds a marker. */
  lemma NoBodyHolds(text: string, sub: string, cls: NumeralClass)
    requires Marker(sub, cls)
    ensures forall k :: 0 <= k < |ExtractArticles(text, cls)| ==>
              !Contains(ExtractArticles(text, cls)[k].content, sub)
  {
    var r := ExtractArticles(text, cls);
    forall k, i | 0 <= k < |r| && 0 <= i ensures !OccursAt(r[k].content, sub, i) {
      MarkerWithin(r[k].content, sub, i, cls);
    }
  }

  /** Where a marker occurs inside a text, a marker starts in the text. */
  lemma MarkerWithin(t: string, sub: string, i: int, cls: NumeralClass)
    requires Marker(sub, cls)
    ensures OccursAt(t, sub, i) ==> MarkerAt(t, i, cls)
  {
    if OccursAt(t, sub, i) {
      assert t[i..] == sub + t[i + |sub|..];
      MarkerPrefix(sub, t[i + |sub|..], cls);
    }
  }

  // ---------------------------------------------------------------------
  // Numbers with a zero digit

  /** Every character of a standard numeral 1..9999 is in the class with
      零. */
  lemma RenderInClass(n: nat)
    requires 1 <= n <= 9999
    ensures forall i :: 0 <= i < |Numerals.Render(n)| ==> InClass(Numerals.Render(n)[i], WithZero)
  {
    if 10 <= n <= 19 {
      if n > 10 {
        DigitListed(n - 10);
      }
    } else {
      LeadInClass(n);
    }
  }

  lemma DigitListed(d: nat)
    requires 1 <= d <= 9
    ensures Numerals.DigitNumeral(d) in Listed
  {
  }

  lemma {:induction false} LeadInClass(n: nat)
    requires 1 <= n <= 9999
    ensures forall i :: 0 <= i < |Numerals.Lead(n)| ==> InClass(Numerals.Lead(n)[i], WithZero)
    decreases n
  {
    var u := Numerals.HighUnit(n);
    if u == 1 {
      DigitListed(n);
    } else {
      DigitListed(n / u);
      var rest := n % u;
      if rest != 0 {
        LeadInClass(rest);
      }
    }
  }

  /** 一百零一: a standard numeral outside the class as written. */
  lemma ZeroOutsideClass()
    ensures Numerals.Render(101) == "一百零一"
    ensures !InClass(Numerals.Render(101)[2], AsWritten)
  {
    assert Numerals.HighUnit(101) == 100;
    assert Numerals.Lead(1) == "一";
  }

  /** Article 100 followed by article 101. */
  const Hundred: seq<Entry> := [Entry("一百", "甲。"), Entry("一百零一", "乙。")]

  /** What the class as written reads as the body of article 100. */
  const Merged: string := "甲。\n第一百零一条 乙。"

  lemma HundredText(es: seq<Entry>)
    requires es == Hundred
    ensures Layout(es) == Line(Entry("一百", Merged))
  {
    assert Lines(es)[1..] == Lines(es[1..]);
  }

  /** 第一百零一条 is no marker for the class as written. */
  lemma MergedReadable()
    ensures Readable(Entry("一百", Merged), AsWritten)
  {
    var t := Merged;
    assert "一百"[0] in Listed && "一百"[1] in Listed;
    MergedOneMarkerSign(t);
    MergedNotAtThree(t);
    forall k | 0 <= k < |t| && k != 3 ensures !MarkerAt(t, k, AsWritten) {
      NoSignNoMarker(t, k, AsWritten);
    }
    assert NoMarkerIn(t, AsWritten);
    assert NoEdgeSpace(t) by { assert t[0] == '甲' && t[|t| - 1] == '。'; }
  }

  /** No marker starts where there is no 第. */
  lemma NoSignNoMarker(t: string, k: nat, cls: NumeralClass)
    requires k < |t| && t[k] != '第'
    ensures !MarkerAt(t, k, cls)
  {
    assert t[k..][0] == t[k];
  }

  lemma MergedOneMarkerSign(t: string)
    requires t == Merged
    ensures |t| == 12 && forall k :: 0 <= k < |t| && k != 3 ==> t[k] != '第'
  {
  }

  lemma MergedNotAtThree(t: string)
    requires t == Merged
    ensures !MarkerAt(t, 3, AsWritten)
  {
    var n := "一百";
    assert n[0] in Listed && n[1] in Listed;
    assert t[3..] == ['第'] + n + (['零'] + "一条 乙。");
    RunBroken(t[3..], n, '零', "一条 乙。", AsWritten);
  }

  /** A run of class characters ended by anything but 条 is no marker. */
  lemma RunBroken(s: string, n: string, z: char, rest: string, cls: NumeralClass)
    requires s == ['第'] + n + ([z] + rest)
    requires forall i :: 0 <= i < |n| ==> InClass(n[i], cls)
    requires !InClass(z, cls) && z != '条'
    ensures !Marker(s, cls)
  {
    assert s[1..] == n + ([z] + rest);
    RunLenAppend(n, [z] + rest, cls);
    RunLenAll(n, cls);
    assert s[|n| + 1] == z;
  }

  /** With the class as written, 第一百零一条 is no marker, so article 101
      is swallowed by the body of article 100. */
  lemma ZeroMergesArticles(es: seq<Entry>)
    requires es == Hundred
    ensures ExtractArticles(Layout(es), AsWritten) == [Article("第一百条", 1, Merged)]
  {
    var e := Entry("一百", Merged);
    HundredText(es);
    MergedReadable();
    ScanLastLine(e, AsWritten);
    ExtractNumbers(Layout(es), AsWritten);
    MergedNumber();
  }

  lemma MergedNumber()
    ensures Number([Found("一百", Merged)], 1) == [Article("第一百条", 1, Merged)]
  {
    StripOfClean(Merged);
    assert "第" + "一百" + "条" == "第一百条";
  }

  /** With 零 in the class, the same text gives both articles. */
  lemma ZeroCorrected(es: seq<Entry>)
    requires es == Hundred
    ensures ExtractArticles(Layout(es), WithZero)
              == [Article("第一百条", 1, "甲。"), Article("第一百零一条", 2, "乙。")]
  {
    HundredReadable();
    ExtractLayout(es, WithZero);
    HundredListing(es);
  }

  lemma HundredListing(es: seq<Entry>)
    requires es == Hundred
    ensures Listing(es, 1) == [Article("第一百条", 1, "甲。"), Article("第一百零一条", 2, "乙。")]
  {
    var l := Listing(es, 1);
    assert l[0] == Article("第一百条", 1, "甲。") by {
      assert "第" + "一百" + "条" == "第一百条";
    }
    assert l[1] == Article("第一百零一条", 2, "乙。") by {
      assert "第" + "一百零一" + "条" == "第一百零一条";
    }
  }

  lemma HundredReadable()
    ensures forall k :: 0 <= k < |Hundred| ==> Readable(Hundred[k], WithZero)
  {
    NoMarkerWithout("甲。", WithZero);
    NoMarkerWithout("乙。", WithZero);
    assert "一百"[0] in Listed && "一百"[1] in Listed;
    assert "一百零一"[0] in Listed && "一百零一"[1] in Listed && "一百零一"[3] in Listed;
  }

  lemma ExtractNumbers(text: string, cls: NumeralClass)
    ensures ExtractArticles(text, cls) == Number(Scan(text, cls), 1)
  {
  }
}

=== FILE: numerals.dfy ===
/** Chinese article numerals: the built-in `cn2an_convert` fallback of the
    article splitter, a standard rendering of 1..9999 as its inverse, and
    the splitter's `_parse_article_number`. */
module Numerals {
  import opened Strings

  /** Value of a character in the fallback table, `None` for any other
      character (which the conversion skips). */
  function CharValue(c: char): Option<nat> {
    match c
    case '零' => Some(0)
    case '一' => Some(1)
    case '二' => Some(2)
    case '三' => Some(3)
    case '四' => Some(4)
    case '五' => Some(5)
    case '六' => Some(6)
    case '七' => Some(7)
    case '八' => Some(8)
    case '九' => Some(9)
    case '十' => Some(10)
    case '百' => Some(100)
    case '千' => Some(1000)
    case '万' => Some(10000)
    case _ => None
  }

  predicate IsNumeral(c: char) {
    CharValue(c).Some?
  }

  /** `[一二三四五六七八九十]`: the numerals of a 之X suffix and of a
      table-of-contents heading. */
  predicate IsOneToTen(c: char) {
    CharValue(c).Some? && 1 <= CharValue(c).value <= 10
  }

  /** The running pair `(result, current)` of the conversion loop. */
  datatype Acc = Acc(result: nat, current: nat)

  /** One loop iteration: a unit multiplies the pending digit (1 when none
      is pending) into the result; a digit becomes the pending digit. */
  function Step(a: Acc, c: char): Acc {
    match CharValue(c)
    case None => a
    case Some(v) =>
      if v >= 10 then Acc(a.result + (if a.current == 0 then 1 else a.current) * v, 0)
      else Acc(a.result, v)
  }

  function Fold(a: Acc, s: string): Acc
    decreases |s|
  {
    if |s| == 0 then a else Fold(Step(a, s[0]), s[1..])
  }

  /** `cn2an_convert(text)` of the fallback path. */
  function Cn2an(s: string): nat {
    var a := Fold(Acc(0, 0), s);
    a.result + a.current
  }

  lemma {:induction false} FoldConcat(a: Acc, x: string, y: string)
    ensures Fold(a, x + y) == Fold(Fold(a, x), y)
    decreases |x|
  {
    if |x| == 0 {
      assert x + y == y;
    } else {
      assert (x + y)[1..] == x[1..] + y;
      FoldConcat(Step(a, x[0]), x[1..], y);
    }
  }

  /** The numeral characters of `s`, in order. */
  function Numerals(s: string): (r: string)
    ensures forall i :: 0 <= i < |r| ==> IsNumeral(r[i])
  {
    if |s| == 0 then []
    else (if IsNumeral(s[0]) then [s[0]] else []) + Numerals(s[1..])
  }

  /** Characters outside the table do not change the value. */
  lemma {:induction false} FoldIgnoresOthers(a: Acc, s: string)
    ensures Fold(a, s) == Fold(a, Numerals(s))
    decreases |s|
  {
    if |s| > 0 {
      FoldIgnoresOthers(Step(a, s[0]), s[1..]);
      if !IsNumeral(s[0]) {
        assert Step(a, s[0]) == a;
        assert Numerals(s) == Numerals(s[1..]);
      } else {
        var n := [s[0]] + Numerals(s[1..]);
        assert Numerals(s) == n;
        assert n[0] == s[0] && n[1..] == Numerals(s[1..]);
      }
    }
  }

  lemma Cn2anIgnoresOthers(s: string)
    ensures Cn2an(s) == Cn2an(Numerals(s))
  {
    FoldIgnoresOthers(Acc(0, 0), s);
  }

  // ---------------------------------------------------------------------
  // Standard rendering, the inverse of the conversion on 1..9999

  function DigitNumeral(d: nat): (c: char)
    requires 1 <= d <= 9
    ensures CharValue(c) == Some(d)
  {
    ["一", "二", "三", "四", "五", "六", "七", "八", "九"][d - 1][0]
  }

  function UnitNumeral(u: nat): (c: char)
    requires u == 10 || u == 100 || u == 1000
    ensures CharValue(c) == Some(u)
  {
    if u == 10 then '十' else if u == 100 then '百' else '千'
  }

  function HighUnit(n: nat): (u: nat)
    requires 1 <= n <= 9999
    ensures u == 1 || u == 10 || u == 100 || u == 1000
    ensures u <= n < 10 * u
  {
    if n >= 1000 then 1000 else if n >= 100 then 100 else if n >= 10 then 10 else 1
  }

  /** `n` written from its highest digit down: each non-zero digit with its
      unit, one 零 for every run of zero digits between non-zero ones, and
      no trailing zeros (一百零一, 一千零一十, 一千一百). */
  function Lead(n: nat): (r: string)
    requires 1 <= n <= 9999
    ensures forall i :: 0 <= i < |r| ==> IsNumeral(r[i])
    decreases n
  {
    var u := HighUnit(n);
    if u == 1 then [DigitNumeral(n)]
    else
      var head := [DigitNumeral(n / u), UnitNumeral(u)];
      var rest := n % u;
      if rest == 0 then head
      else if rest >= u / 10 then head + Lead(rest)
      else head + ['零'] + Lead(rest)
  }

  /** How law texts number 1..9999: as `Lead`, except that 10..19 drop the
      leading 一 (十, 十五). */
  function Render(n: nat): (r: string)
    requires 1 <= n <= 9999
    ensures |r| > 0
    ensures forall i :: 0 <= i < |r| ==> IsNumeral(r[i])
  {
    if 10 <= n <= 19 then ['十'] + (if n == 10 then [] else [DigitNumeral(n - 10)])
    else Lead(n)
  }

  /** Reading `Lead(n)` from a state with no pending digit adds the tens and
      above to the result and leaves the units digit pending. */
  lemma {:induction false} FoldLead(r: nat, n: nat)
    requires 1 <= n <= 9999
    ensures Fold(Acc(r, 0), Lead(n)) == Acc(r + n - n % 10, n % 10)
    decreases n
  {
    var u := HighUnit(n);
    if u == 1 {
      FoldOneDigit(r, n);
    } else {
      var q: nat, rest: nat := n / u, n % u;
      var base: nat := q * u;
      if rest != 0 {
        assert rest < n;
        FoldLead(r + base, rest);
      }
      FoldLeadJoin(r, n, u, q, rest);
    }
  }

  /** The head and the numeral of the remaining digits together. */
  lemma FoldLeadJoin(r: nat, n: nat, u: nat, q: nat, rest: nat)
    requires 1 <= n <= 9999
    requires u == HighUnit(n) && u != 1 && q == n / u && rest == n % u
    requires rest != 0 ==> Fold(Acc(r + q * u, 0), Lead(rest)) == Acc(r + q * u + rest - rest % 10, rest % 10)
    ensures Fold(Acc(r, 0), Lead(n)) == Acc(r + n - n % 10, n % 10)
  {
    FoldLeadHead(r, n, u, q, rest);
    LeadSum(r, n, u, q, rest);
  }

  lemma FoldOneDigit(r: nat, n: nat)
    requires 1 <= n <= 9
    ensures Fold(Acc(r, 0), Lead(n)) == Acc(r + n - n % 10, n % 10)
  {
    assert Lead(n)[1..] == [];
  }

  /** Reading the leading digit and unit of `Lead(n)` (and any 零 after
      them) adds their value and leaves the rest of the numeral. */
  lemma FoldLeadHead(r: nat, n: nat, u: nat, q: nat, rest: nat)
    requires 1 <= n <= 9999
    requires u == HighUnit(n) && u != 1 && q == n / u && rest == n % u
    ensures rest == 0 ==> Fold(Acc(r, 0), Lead(n)) == Acc(r + q * u, 0)
    ensures rest != 0 ==> Fold(Acc(r, 0), Lead(n)) == Fold(Acc(r + q * u, 0), Lead(rest))
  {
    assert 1 <= q <= 9 by { UnitsDigit(n, u); }
    var head := [DigitNumeral(q), UnitNumeral(u)];
    var sep: string := if rest >= u / 10 then [] else ['零'];
    FoldHead(r, q, u);
    LeadShape(n, u, q, rest, head, sep);
    if rest != 0 {
      FoldHeadSep(Acc(r, 0), Acc(r + q * u, 0), head, sep, Lead(rest));
    }
  }

  /** `Lead(n)` is the head, then, when digits remain, the separator and
      their numeral. */
  lemma LeadShape(n: nat, u: nat, q: nat, rest: nat, head: string, sep: string)
    requires 1 <= n <= 9999
    requires u == HighUnit(n) && u != 1 && q == n / u && rest == n % u
    requires head == [DigitNumeral(q), UnitNumeral(u)]
    requires sep == if rest >= u / 10 then [] else ['零']
    ensures rest == 0 ==> Lead(n) == head
    ensures rest != 0 ==> Lead(n) == head + sep + Lead(rest)
  {
  }

  /** Reading a head, then at most one 零, then a tail. */
  lemma FoldHeadSep(a: Acc, b: Acc, head: string, sep: string, tail: string)
    requires Fold(a, head) == b && b.current == 0 && (sep == [] || sep == ['零'])
    ensures Fold(a, head + sep + tail) == Fold(b, tail)
  {
    FoldConcat(a, head + sep, tail);
    FoldConcat(a, head, sep);
    FoldSep(b.result, sep);
  }

  lemma LeadSum(r: nat, n: nat, u: nat, q: nat, rest: nat)
    requires 1 <= n <= 9999
    requires u == HighUnit(n) && u != 1 && q == n / u && rest == n % u
    ensures Acc(r + q * u + rest - rest % 10, rest % 10) == Acc(r + n - n % 10, n % 10)
    ensures rest == 0 ==> Acc(r + q * u, 0) == Acc(r + n - n % 10, n % 10)
  {
    UnitsDigit(n, u);
  }

  /** A 零 read with no pending digit changes nothing. */
  lemma FoldSep(r: nat, sep: string)
    requires sep == [] || sep == ['零']
    ensures Fold(Acc(r, 0), sep) == Acc(r, 0)
  {
    if sep != [] {
      assert Fold(Acc(r, 0), sep) == Fold(Step(Acc(r, 0), '零'), []);
    }
  }

  /** A digit followed by its unit adds their product to the result. */
  lemma FoldHead(r: nat, q: nat, u: nat)
    requires 1 <= q <= 9 && (u == 10 || u == 100 || u == 1000)
    ensures Fold(Acc(r, 0), [DigitNumeral(q), UnitNumeral(u)]) == Acc(r + q * u, 0)
  {
    var head := [DigitNumeral(q), UnitNumeral(u)];
    assert Step(Acc(r, 0), head[0]) == Acc(r, q);
    assert Step(Acc(r, q), head[1]) == Acc(r + q * u, 0);
    var tail := head[1..];
    assert tail[0] == head[1] && tail[1..] == [];
    assert Fold(Acc(r, 0), head) == Fold(Acc(r, q), tail);
    assert Fold(Acc(r, q), tail) == Fold(Acc(r + q * u, 0), []);
  }

  lemma UnitsDigit(n: nat, u: nat)
    requires 1 <= n <= 9999
    requires u == HighUnit(n) && u != 1
    ensures 1 <= n / u <= 9
    ensures n % 10 == (n % u) % 10
    ensures n - n % 10 == n / u * u + (n % u - (n % u) % 10)
  {
    var q, rest := n / u, n % u;
    assert n == q * u + rest;
    if u == 10 {
    } else if u == 100 {
      assert q * u == (10 * q) * 10;
    } else {
      assert q * u == (100 * q) * 10;
    }
  }

  /** The fallback conversion reads back every rendered number. */
  lemma Cn2anRender(n: nat)
    requires 1 <= n <= 9999
    ensures Cn2an(Render(n)) == n
  {
    if 10 <= n <= 19 {
      var t := Render(n);
      assert Step(Acc(0, 0), t[0]) == Acc(10, 0);
      assert Fold(Acc(0, 0), t) == Fold(Acc(10, 0), t[1..]);
      if n > 10 {
        assert Step(Acc(10, 0), t[1]) == Acc(10, n - 10);
        assert t[1..][1..] == [];
        assert Fold(Acc(10, 0), t[1..]) == Fold(Acc(10, n - 10), t[1..][1..]);
      } else {
        assert t[1..] == [];
      }
    } else {
      FoldLead(0, n);
    }
  }

  // ---------------------------------------------------------------------
  // ArticleSplitter._parse_article_number

  /** `(article_number_int, article_number_str)` of a numeral (Arabic digits
      or Chinese) and an optional 之X suffix.  The string form reads back:
      its leading digits are the integer's decimal value, and the 之X
      suffix, if any, follows them. */
  function ParseArticleNumber(numText: string, suffix: Option<string>): (r: (nat, string))
    ensures var k := |NatToString(r.0)|;
            k <= |r.1| && IsDigits(r.1[..k]) && DecimalValue(r.1[..k]) == r.0
    ensures r.1[|NatToString(r.0)|..] == if suffix.Some? then suffix.value else []
  {
    var n := if IsDigits(numText) then DecimalValue(numText) else Cn2an(numText);
    (n, NatToString(n) + (if suffix.Some? then suffix.value else []))
  }

  /** Both spellings of an article number give the same integer, and its
      string form starts with the decimal digits of that integer. */
  lemma ParseArticleNumberSpellings(n: nat, suffix: Option<string>)
    requires 1 <= n <= 9999
    ensures ParseArticleNumber(Render(n), suffix).0 == n
    ensures ParseArticleNumber(NatToString(n), suffix).0 == n
    ensures ParseArticleNumber(Render(n), suffix).1 == ParseArticleNumber(NatToString(n), suffix).1
    ensures ParseArticleNumber(Render(n), None).1 == NatToString(n)
  {
    var r := Render(n);
    assert !IsAsciiDigit(r[0]);
    Cn2anRender(n);
  }
}

=== FILE: query_rewriter.dfy ===
/** `expand_query` of the query rewriter: the query together with the law
    titles and aliases and the concept synonyms it looks up, ordered longest
    first and assembled into an FTS5 OR query. */
module QueryRewriter {
  import opened Strings
  import opened Catalog
  import opened Sorting
  import opened Quoting

  /** A row `(term, canonical_term)` of `concept_synonyms`. */
  datatype Synonym = Synonym(term: string, canonical: string)

  /** The tables the four lookups read. */
  datatype Tables = Tables(laws: seq<Law>, aliases: seq<AliasRow>, synonyms: seq<Synonym>)

  // ---------------------------------------------------------------------
  // The four lookups

  /** Titles of the laws in force that have `q` as an alias. */
  function AliasTitles(t: Tables, aliases: seq<AliasRow>, q: string): (r: seq<string>)
    ensures forall x :: x in r <==> exists k :: 0 <= k < |aliases| && AliasTitle(t, aliases[k], q, x)
  {
    if |aliases| == 0 then []
    else
      var a := aliases[0];
      var l := LawOf(t.laws, a.lawId);
      (if a.alias == q && l.Some? && l.value.status == InForce then [l.value.title] else [])
      + AliasTitles(t, aliases[1..], q)
  }

  predicate AliasTitle(t: Tables, a: AliasRow, q: string, x: string) {
    a.alias == q && LawOf(t.laws, a.lawId).Some?
    && LawOf(t.laws, a.lawId).value.status == InForce && LawOf(t.laws, a.lawId).value.title == x
  }

  /** Aliases of the laws (of any status) titled `q`. */
  function TitleAliases(t: Tables, aliases: seq<AliasRow>, q: string): (r: seq<string>)
    ensures forall x :: x in r <==> exists k :: 0 <= k < |aliases| && aliases[k].alias == x && Titled(t, aliases[k].lawId, q)
  {
    if |aliases| == 0 then []
    else
      (if Titled(t, aliases[0].lawId, q) then [aliases[0].alias] else [])
      + TitleAliases(t, aliases[1..], q)
  }

  predicate Titled(t: Tables, id: int, q: string) {
    exists l :: l in t.laws && l.id == id && l.title == q
  }

  /** `fetchone()` of the canonical term for `q`: the first row's. */
  function CanonicalOf(syns: seq<Synonym>, q: string): (r: Option<string>)
    ensures r.Some? ==> exists k :: 0 <= k < |syns| && syns[k].term == q && syns[k].canonical == r.value
    ensures r.None? ==> forall k :: 0 <= k < |syns| ==> syns[k].term != q
  {
    if |syns| == 0 then None
    else if syns[0].term == q then Some(syns[0].canonical)
    else CanonicalOf(syns[1..], q)
  }

  /** The terms whose canonical term is `q`. */
  function TermsOf(syns: seq<Synonym>, q: string): (r: seq<string>)
    ensures forall x :: x in r <==> exists k :: 0 <= k < |syns| && syns[k].canonical == q && syns[k].term == x
  {
    if |syns| == 0 then []
    else (if syns[0].canonical == q then [syns[0].term] else []) + TermsOf(syns[1..], q)
  }

  // ---------------------------------------------------------------------
  // The expansion set

  /** `expanded_terms.add(x)` for each `x` of `xs`, on a list without
      repetition standing for the set. */
  function AddAll(acc: seq<string>, xs: seq<string>): (r: seq<string>)
    requires NoRepeat(acc)
    ensures NoRepeat(r)
    ensures forall x :: x in r <==> x in acc || x in xs
    decreases |xs|
  {
    if |xs| == 0 then acc
    else if xs[0] in acc then AddAll(acc, xs[1..])
    else AddAll(acc + [xs[0]], xs[1..])
  }

  predicate NoRepeat(xs: seq<string>) {
    forall i, j :: 0 <= i < j < |xs| ==> xs[i] != xs[j]
  }

  /** `x` is the query or something one of the four lookups returns for it. */
  ghost predicate Related(q: string, t: Tables, x: string) {
    || x == q
    || (exists k :: 0 <= k < |t.aliases| && AliasTitle(t, t.aliases[k], q, x))
    || (exists k :: 0 <= k < |t.aliases| && t.aliases[k].alias == x && Titled(t, t.aliases[k].lawId, q))
    || CanonicalOf(t.synonyms, q) == Some(x)
    || (exists k :: 0 <= k < |t.synonyms| && t.synonyms[k].canonical == q && t.synonyms[k].term == x)
  }

  /** The expansion holds each related term once, and nothing else: the
      union of the four lookups, with no lookup applied to another's
      result. */
  function Expanded(q: string, t: Tables): (r: seq<string>)
    ensures NoRepeat(r)
    ensures q in r
    ensures forall x :: x in r <==> Related(q, t, x)
  {
    var c := CanonicalOf(t.synonyms, q);
    var r := AddAll(AddAll(AddAll(AddAll([q], AliasTitles(t, t.aliases, q)), TitleAliases(t, t.aliases, q)),
                           if c.Some? then [c.value] else []),
                    TermsOf(t.synonyms, q));
    ExpandedRelated(q, t, r);
    r
  }

  lemma ExpandedRelated(q: string, t: Tables, r: seq<string>)
    requires forall x :: x in r <==>
      || x == q || x in AliasTitles(t, t.aliases, q) || x in TitleAliases(t, t.aliases, q)
      || CanonicalOf(t.synonyms, q) == Some(x) || x in TermsOf(t.synonyms, q)
    ensures forall x :: x in r <==> Related(q, t, x)
  {
  }

  // ---------------------------------------------------------------------
  // The OR query

  function Length(s: string): real {
    |s| as real
  }

  /** The terms with every quote character removed. */
  function Cleaned(terms: seq<string>): (r: seq<string>)
    ensures |r| == |terms|
    ensures forall k :: 0 <= k < |terms| ==> r[k] == RemoveChar(terms[k], Quote)
  {
    if |terms| == 0 then [] else [RemoveChar(terms[0], Quote)] + Cleaned(terms[1..])
  }

  /** `expand_query`; `None` tables stand for a failed lookup. */
  function ExpandQuery(query: string, tables: Option<Tables>): string {
    if query == [] then ""
    else
      var q := Strip(query);
      if tables.None? then q
      else if ' ' in q then q
      else
        var terms := SortDesc(Expanded(q, tables.value), Length);
        if |terms| == 1 then terms[0]
        else Join(QuoteEach(Cleaned(terms)), " OR ")
  }

  /** The cases that return the query itself: empty input gives "", and a
      failed lookup, a query with a space, or a query nothing expands give
      the stripped query. */
  lemma ExpandQueryPlain(query: string, tables: Option<Tables>)
    ensures query == [] ==> ExpandQuery(query, tables) == []
    ensures query != [] && tables.None? ==> ExpandQuery(query, tables) == Strip(query)
    ensures query != [] && ' ' in Strip(query) ==> ExpandQuery(query, tables) == Strip(query)
    ensures query != [] && tables.Some? && |Expanded(Strip(query), tables.value)| == 1
            ==> ExpandQuery(query, tables) == Strip(query)
  {
  }

  /** Reading the quoted words of the OR query gives the cleaned terms. */
  lemma OrQueryWords(terms: seq<string>)
    ensures Unquote(Join(QuoteEach(Cleaned(terms)), " OR ")) == Cleaned(terms)
  {
    var ws := Cleaned(terms);
    forall k | 0 <= k < |ws| ensures Quote !in ws[k] {
      RemoveCharGone(terms[k], Quote);
    }
    AlternativesJoin(ws, " OR ");
    UnquoteRender(Alternatives(ws, " OR "));
  }

  /** Sorting keeps the terms and orders them by non-increasing length. */
  lemma SortedTerms(e: seq<string>)
    ensures var terms := SortDesc(e, Length);
            && |terms| == |e|
            && (forall x :: x in terms <==> x in e)
            && (forall i, j :: 0 <= i < j < |terms| ==> |terms[i]| >= |terms[j]|)
  {
    var terms := SortDesc(e, Length);
    forall x ensures x in terms <==> x in e {
      assert x in terms <==> x in multiset(terms);
      assert x in e <==> x in multiset(e);
    }
    forall i, j | 0 <= i < j < |terms| ensures |terms[i]| >= |terms[j]| {
      assert Length(terms[i]) >= Length(terms[j]);
    }
  }

  /** Otherwise the result is an OR of quoted terms: reading its quoted
      words gives every related term once, without its quote characters,
      longest first. */
  lemma ExpandQueryTerms(query: string, t: Tables)
    requires query != [] && ' ' !in Strip(query)
    requires |Expanded(Strip(query), t)| > 1
    ensures var q := Strip(query);
            var terms := SortDesc(Expanded(q, t), Length);
            var words := Unquote(ExpandQuery(query, Some(t)));
            && |words| == |terms|
            && (forall k :: 0 <= k < |words| ==> words[k] == RemoveChar(terms[k], Quote))
            && (forall i, j :: 0 <= i < j < |terms| ==> |terms[i]| >= |terms[j]|)
            && (forall x :: Related(q, t, x) <==> x in terms)
  {
    var q := Strip(query);
    var e := Expanded(q, t);
    var terms := SortDesc(e, Length);
    assert ExpandQuery(query, Some(t)) == Join(QuoteEach(Cleaned(terms)), " OR ");
    OrQueryWords(terms);
    SortedTerms(e);
  }
}

=== FILE: quoting.dfy ===
/** Double-quoted phrases in FTS5 query strings: the quoted words a query is
    assembled from, the reading that recovers them, and the phrase escape
    that doubles every inner quote. */
module Quoting {
  import opened Strings

  const Quote: char := '"'

  /** A query string as a sequence of pieces: bare text (operators,
      parentheses, separators) and quoted words. */
  datatype Piece = Bare(text: string) | Quoted(word: string)

  function Render(ps: seq<Piece>): string {
    if |ps| == 0 then ""
    else
      (match ps[0]
       case Bare(t) => t
       case Quoted(w) => [Quote] + w + [Quote])
      + Render(ps[1..])
  }

  /** The words of the quoted pieces, in order. */
  function Words(ps: seq<Piece>): seq<string> {
    if |ps| == 0 then []
    else (if ps[0].Quoted? then [ps[0].word] else []) + Words(ps[1..])
  }

  /** No piece contains a quote character of its own. */
  predicate QuoteFree(ps: seq<Piece>) {
    forall k :: 0 <= k < |ps| ==>
      Quote !in (match ps[k] case Bare(t) => t case Quoted(w) => w)
  }

  /** The texts enclosed by successive pairs of quote characters; an
      unpaired last quote encloses nothing. */
  function Unquote(s: string): seq<string>
    decreases |s|
  {
    var i := IndexOf(s, Quote);
    if i == |s| then [] else Enclosed(s[i + 1..])
  }

  /** The texts read after an opening quote: up to the closing one, then
      the rest as `Unquote` reads it. */
  function Enclosed(t: string): seq<string>
    decreases |t|
  {
    var j := IndexOf(t, Quote);
    if j == |t| then [] else [t[..j]] + Unquote(t[j + 1..])
  }

  lemma {:induction false} RenderConcat(a: seq<Piece>, b: seq<Piece>)
    ensures Render(a + b) == Render(a) + Render(b)
    ensures Words(a + b) == Words(a) + Words(b)
  {
    if |a| == 0 {
      assert a + b == b;
    } else {
      assert (a + b)[1..] == a[1..] + b;
      RenderConcat(a[1..], b);
    }
  }

  lemma {:induction false} UnquoteBare(a: string, rest: string)
    requires Quote !in a
    ensures Unquote(a + rest) == Unquote(rest)
    decreases |a|
  {
    if |a| > 0 {
      var x := a[1..] + rest;
      assert a + rest == [a[0]] + x;
      assert Quote !in a[1..];
      assert a[0] != Quote;
      UnquoteSkip(a[0], x);
      UnquoteBare(a[1..], rest);
    } else {
      assert a + rest == rest;
    }
  }

  /** A character other than a quote in front changes nothing. */
  lemma UnquoteSkip(c: char, x: string)
    requires c != Quote
    ensures Unquote([c] + x) == Unquote(x)
  {
    var s := [c] + x;
    assert s[1..] == x;
    var i := IndexOf(x, Quote);
    assert IndexOf(s, Quote) == 1 + i;
    if i < |x| {
      assert s[i + 2..] == x[i + 1..];
    }
  }

  lemma UnquoteWord(w: string, rest: string)
    requires Quote !in w
    ensures Unquote([Quote] + w + [Quote] + rest) == [w] + Unquote(rest)
  {
    var s := [Quote] + w + [Quote] + rest;
    IndexOfIsFirst(s, Quote, 0);
    var t := s[1..];
    assert t == w + [Quote] + rest;
    IndexOfIsFirst(t, Quote, |w|);
    assert t[..|w|] == w;
    assert t[|w| + 1..] == rest;
  }

  /** Reading a rendered query recovers exactly its quoted words. */
  lemma {:induction false} UnquoteRender(ps: seq<Piece>)
    requires QuoteFree(ps)
    ensures Unquote(Render(ps)) == Words(ps)
  {
    if |ps| > 0 {
      assert QuoteFree(ps[1..]) by {
        forall k | 0 <= k < |ps[1..]| ensures Quote !in (match ps[1..][k] case Bare(t) => t case Quoted(w) => w) {
          assert ps[1..][k] == ps[k + 1];
        }
      }
      UnquoteRender(ps[1..]);
      var head := Quote !in (match ps[0] case Bare(t) => t case Quoted(w) => w);
      assert head;
      match ps[0]
      case Bare(t) =>
        UnquoteBare(t, Render(ps[1..]));
      case Quoted(w) =>
        UnquoteWord(w, Render(ps[1..]));
    }
  }

  // ---------------------------------------------------------------------
  // `sep.join(f'"{w}"' for w in ws)`

  /** Each word wrapped in quotes. */
  function QuoteEach(ws: seq<string>): (r: seq<string>)
    ensures |r| == |ws|
    ensures forall k :: 0 <= k < |ws| ==> r[k] == [Quote] + ws[k] + [Quote]
  {
    if |ws| == 0 then [] else [[Quote] + ws[0] + [Quote]] + QuoteEach(ws[1..])
  }

  /** The quoted words separated by bare `sep`. */
  function Alternatives(ws: seq<string>, sep: string): seq<Piece> {
    if |ws| == 0 then []
    else if |ws| == 1 then [Quoted(ws[0])]
    else [Quoted(ws[0]), Bare(sep)] + Alternatives(ws[1..], sep)
  }

  lemma {:induction false} AlternativesJoin(ws: seq<string>, sep: string)
    ensures Render(Alternatives(ws, sep)) == Join(QuoteEach(ws), sep)
    ensures Words(Alternatives(ws, sep)) == ws
    ensures Quote !in sep && (forall k :: 0 <= k < |ws| ==> Quote !in ws[k]) ==> QuoteFree(Alternatives(ws, sep))
  {
    if Quote !in sep && (forall k :: 0 <= k < |ws| ==> Quote !in ws[k]) {
      AlternativesQuoteFree(ws, sep);
    }
    if |ws| == 1 {
      assert Render([Quoted(ws[0])]) == [Quote] + ws[0] + [Quote] + Render([]);
    } else if |ws| > 1 {
      AlternativesJoin(ws[1..], sep);
      var head := [Quoted(ws[0]), Bare(sep)];
      RenderConcat(head, Alternatives(ws[1..], sep));
      WordThenSep(ws[0], sep);
      assert QuoteEach(ws)[1..] == QuoteEach(ws[1..]);
    }
  }

  lemma {:induction false} AlternativesQuoteFree(ws: seq<string>, sep: string)
    requires Quote !in sep && forall k :: 0 <= k < |ws| ==> Quote !in ws[k]
    ensures QuoteFree(Alternatives(ws, sep))
  {
    if |ws| > 1 {
      AlternativesQuoteFree(ws[1..], sep);
      var rest := Alternatives(ws[1..], sep);
      var a := [Quoted(ws[0]), Bare(sep)] + rest;
      forall k | 0 <= k < |a| ensures Quote !in (match a[k] case Bare(t) => t case Quoted(w) => w) {
        if k >= 2 {
          assert a[k] == rest[k - 2];
        }
      }
    }
  }

  /** A quoted word followed by a separator. */
  lemma WordThenSep(w: string, sep: string)
    ensures Render([Quoted(w), Bare(sep)]) == [Quote] + w + [Quote] + sep
    ensures Words([Quoted(w), Bare(sep)]) == [w]
  {
    var head := [Quoted(w), Bare(sep)];
    var tail := [Bare(sep)];
    assert head[1..] == tail && tail[1..] == [];
    assert Render(tail) == sep + Render([]);
    assert Render(head) == [Quote] + w + [Quote] + Render(tail);
    assert Words(tail) == [] + Words([]);
    assert Words(head) == [w] + Words(tail);
  }

  // ---------------------------------------------------------------------
  // The phrase query of `search_laws_pro`

  /** `s.replace('"', '""')` */
  function Escape(s: string): (r: string)
    ensures |r| >= |s|
  {
    if |s| == 0 then ""
    else (if s[0] == Quote then [Quote, Quote] else [s[0]]) + Escape(s[1..])
  }

  /** `'"' + s.replace('"', '""') + '"'`: the whole query as one FTS5 phrase. */
  function PhraseQuery(s: string): (r: string)
    ensures |r| >= 2 && r[0] == Quote && r[|r| - 1] == Quote
  {
    [Quote] + Escape(s) + [Quote]
  }

  /** FTS5's reading of the inside of a phrase: a doubled quote stands for
      one quote character. */
  function Unescape(t: string): string
    decreases |t|
  {
    if |t| == 0 then ""
    else if |t| >= 2 && t[0] == Quote && t[1] == Quote then [Quote] + Unescape(t[2..])
    else [t[0]] + Unescape(t[1..])
  }

  /** Inside the escaped text every quote comes in a doubled pair. */
  predicate PairedQuotes(t: string)
    decreases |t|
  {
    if |t| == 0 then true
    else if t[0] == Quote then |t| >= 2 && t[1] == Quote && PairedQuotes(t[2..])
    else PairedQuotes(t[1..])
  }

  /** The phrase reads back as the query it was built from, and no quote
      inside it can close the phrase early. */
  lemma {:induction false} PhraseRoundTrip(s: string)
    ensures Unescape(PhraseQuery(s)[1..|PhraseQuery(s)| - 1]) == s
    ensures PairedQuotes(PhraseQuery(s)[1..|PhraseQuery(s)| - 1])
  {
    var q := PhraseQuery(s);
    assert q[1..|q| - 1] == Escape(s);
    EscapeRoundTrip(s);
  }

  lemma {:induction false} EscapeRoundTrip(s: string)
    ensures Unescape(Escape(s)) == s
    ensures PairedQuotes(Escape(s))
    decreases |s|
  {
    if |s| > 0 {
      EscapeRoundTrip(s[1..]);
      var e := Escape(s);
      if s[0] == Quote {
        assert e[2..] == Escape(s[1..]);
      } else {
        assert e[1..] == Escape(s[1..]);
      }
    }
  }
}

=== FILE: search_merge.dfy ===
/** The tail of the MCP server's `search_laws`: merging the fallback, FTS and
    vector rows into one list with one row per law, skipping laws already
    shown by the alias or concept sections; assembling the output parts;
    and the FTS5 query with one synonym group per token. */
module SearchMerge {
  import opened Strings
  import opened Quoting
  import opened Seqs

  /** A result row `(law_id, title, ..., status[, snippet])`; only the id
      matters for the merge. */
  datatype ResultRow = ResultRow(lawId: int, title: string, status: string, snippet: string)

  /** The law ids of `rows`. */
  function Ids(rows: seq<ResultRow>): (ids: set<int>)
    ensures forall i :: 0 <= i < |rows| ==> rows[i].lawId in ids
    ensures forall id :: id in ids ==> exists i :: 0 <= i < |rows| && rows[i].lawId == id
  {
    set i | 0 <= i < |rows| :: rows[i].lawId
  }

  /** `seen_ids` before the first `add_rows`: every concept hit's law and the
      alias match's law. */
  function Seed(conceptIds: seq<int>, aliasId: Option<int>): (s: set<int>)
    ensures forall k :: 0 <= k < |conceptIds| ==> conceptIds[k] in s
    ensures aliasId.Some? ==> aliasId.value in s
    ensures forall id :: id in s ==> id in conceptIds || aliasId == Some(id)
  {
    (set k | 0 <= k < |conceptIds| :: conceptIds[k]) + (if aliasId.Some? then {aliasId.value} else {})
  }

  function RowLaw(r: ResultRow): int { r.lawId }

  /** The rows `add_rows` keeps, given the ids seen before the call: each
      row whose law is neither seen before nor seen earlier in the call. */
  function Keep(seen: set<int>, rows: seq<ResultRow>): (r: seq<ResultRow>)
    ensures forall k :: 0 <= k < |r| ==> r[k].lawId !in seen
    ensures forall i, j :: 0 <= i < j < |r| ==> r[i].lawId != r[j].lawId
    ensures Ids(r) == Ids(rows) - seen
    decreases |rows|
  {
    if |rows| == 0 then []
    else
      var init, last := rows[..|rows| - 1], rows[|rows| - 1];
      var kept := Keep(seen, init);
      assert rows == init + [last];
      KeepStep(seen, init, last, kept);
      kept + Tail(seen, init, last)
  }

  lemma KeepStep(seen: set<int>, init: seq<ResultRow>, last: ResultRow, kept: seq<ResultRow>)
    requires forall k :: 0 <= k < |kept| ==> kept[k].lawId !in seen
    requires forall i, j :: 0 <= i < j < |kept| ==> kept[i].lawId != kept[j].lawId
    requires Ids(kept) == Ids(init) - seen
    ensures var r := kept + Tail(seen, init, last);
            && (forall k :: 0 <= k < |r| ==> r[k].lawId !in seen)
            && (forall i, j :: 0 <= i < j < |r| ==> r[i].lawId != r[j].lawId)
            && Ids(r) == Ids(init + [last]) - seen
  {
    IdsSnoc(init, last);
    if last.lawId in seen || last.lawId in Ids(init) {
      assert kept + Tail(seen, init, last) == kept;
    } else {
      IdsSnoc(kept, last);
      var r := kept + [last];
      assert r[|kept|] == last;
      forall k | 0 <= k < |kept| ensures r[k] == kept[k] && r[k].lawId != last.lawId {
        assert kept[k].lawId in Ids(kept);
      }
    }
  }

  lemma IdsSnoc(rows: seq<ResultRow>, last: ResultRow)
    ensures Ids(rows + [last]) == Ids(rows) + {last.lawId}
  {
    var all := rows + [last];
    assert all[|rows|] == last;
    forall id | id in Ids(rows) ensures id in Ids(all) {
      var i :| 0 <= i < |rows| && rows[i].lawId == id;
      assert all[i] == rows[i];
    }
  }

  /** One more row: kept exactly when its law is new. */
  lemma KeepSnoc(seen: set<int>, rows: seq<ResultRow>, last: ResultRow)
    ensures Keep(seen, rows + [last]) == Keep(seen, rows) + Tail(seen, rows, last)
  {
    var all := rows + [last];
    assert all[..|all| - 1] == rows;
    assert all[|all| - 1] == last;
  }

  /** What the last row adds to the kept rows. */
  function Tail(seen: set<int>, rows: seq<ResultRow>, last: ResultRow): seq<ResultRow> {
    if last.lawId in seen || last.lawId in Ids(rows) then [] else [last]
  }

  /** The kept row of a law is that law's first row, and the kept rows are
      in the order of their laws' first rows. */
  lemma {:induction false} KeepFirstRows(seen: set<int>, rows: seq<ResultRow>)
    ensures FirstRows(rows, Keep(seen, rows))
    decreases |rows|
  {
    if |rows| > 0 {
      var init, last := rows[..|rows| - 1], rows[|rows| - 1];
      assert rows == init + [last];
      KeepFirstRows(seen, init);
      KeepFirstStep(seen, init, last);
    }
  }

  lemma KeepFirstStep(seen: set<int>, init: seq<ResultRow>, last: ResultRow)
    requires FirstRows(init, Keep(seen, init))
    ensures FirstRows(init + [last], Keep(seen, init + [last]))
  {
    KeepSnoc(seen, init, last);
    KeptStay(seen, init, last);
    var kept := Keep(seen, init);
    var r := kept + Tail(seen, init, last);
    if Tail(seen, init, last) != [] {
      NewRowFirst(init, last);
    }
    FirstRowsSnoc(init, last, kept, r);
  }

  /** Each row of `r` is the first row of its law in `rows`, and `r` lists
      them in the order of those first rows. */
  predicate FirstRows(rows: seq<ResultRow>, r: seq<ResultRow>) {
    && (forall k :: 0 <= k < |r| ==> IndexBy(rows, RowLaw, r[k].lawId) < |rows| && r[k] == rows[IndexBy(rows, RowLaw, r[k].lawId)])
    && (forall i, j :: 0 <= i < j < |r| ==> IndexBy(rows, RowLaw, r[i].lawId) < IndexBy(rows, RowLaw, r[j].lawId))
  }

  lemma FirstRowsSnoc(init: seq<ResultRow>, last: ResultRow, kept: seq<ResultRow>, r: seq<ResultRow>)
    requires FirstRows(init, kept)
    requires forall k :: 0 <= k < |kept| ==>
               IndexBy(init + [last], RowLaw, kept[k].lawId) == IndexBy(init, RowLaw, kept[k].lawId) < |init|
    requires r == kept || (r == kept + [last] && IndexBy(init + [last], RowLaw, last.lawId) == |init|)
    ensures FirstRows(init + [last], r)
  {
    FirstRowsKept(init, last, kept);
    if r != kept {
      FirstRowsAppend(init, last, kept);
    }
  }

  lemma FirstRowsKept(init: seq<ResultRow>, last: ResultRow, kept: seq<ResultRow>)
    requires FirstRows(init, kept)
    requires forall k :: 0 <= k < |kept| ==>
               IndexBy(init + [last], RowLaw, kept[k].lawId) == IndexBy(init, RowLaw, kept[k].lawId) < |init|
    ensures FirstRows(init + [last], kept)
  {
    var rows := init + [last];
    forall k | 0 <= k < |kept| ensures rows[IndexBy(rows, RowLaw, kept[k].lawId)] == init[IndexBy(init, RowLaw, kept[k].lawId)] {
    }
  }

  lemma FirstRowsAppend(init: seq<ResultRow>, last: ResultRow, kept: seq<ResultRow>)
    requires FirstRows(init + [last], kept)
    requires forall k :: 0 <= k < |kept| ==> IndexBy(init + [last], RowLaw, kept[k].lawId) < |init|
    requires IndexBy(init + [last], RowLaw, last.lawId) == |init|
    ensures FirstRows(init + [last], kept + [last])
  {
    var rows := init + [last];
    var r := kept + [last];
    AppendPlaces(init, last, kept);
    AppendOrder(rows, last, kept, |init|);
  }

  lemma AppendOrder(rows: seq<ResultRow>, last: ResultRow, kept: seq<ResultRow>, n: nat)
    requires forall i, j :: 0 <= i < j < |kept| ==> IndexBy(rows, RowLaw, kept[i].lawId) < IndexBy(rows, RowLaw, kept[j].lawId)
    requires forall k :: 0 <= k < |kept| ==> IndexBy(rows, RowLaw, kept[k].lawId) < n
    requires IndexBy(rows, RowLaw, last.lawId) == n
    ensures var r := kept + [last];
            forall i, j :: 0 <= i < j < |r| ==> IndexBy(rows, RowLaw, r[i].lawId) < IndexBy(rows, RowLaw, r[j].lawId)
  {
    var r := kept + [last];
    forall i, j | 0 <= i < j < |r| ensures IndexBy(rows, RowLaw, r[i].lawId) < IndexBy(rows, RowLaw, r[j].lawId) {
      assert r[i] == kept[i];
      if j < |kept| {
        assert r[j] == kept[j];
      } else {
        assert r[j] == last;
      }
    }
  }

  lemma AppendPlaces(init: seq<ResultRow>, last: ResultRow, kept: seq<ResultRow>)
    requires forall k :: 0 <= k < |kept| ==>
               IndexBy(init + [last], RowLaw, kept[k].lawId) < |init| + 1
               && kept[k] == (init + [last])[IndexBy(init + [last], RowLaw, kept[k].lawId)]
    requires IndexBy(init + [last], RowLaw, last.lawId) == |init|
    ensures var rows, r := init + [last], kept + [last];
            forall k :: 0 <= k < |r| ==> IndexBy(rows, RowLaw, r[k].lawId) < |rows| && r[k] == rows[IndexBy(rows, RowLaw, r[k].lawId)]
  {
    var rows := init + [last];
    var r := kept + [last];
    assert rows[|init|] == last;
    forall k | 0 <= k < |r| ensures IndexBy(rows, RowLaw, r[k].lawId) < |rows| && r[k] == rows[IndexBy(rows, RowLaw, r[k].lawId)] {
      if k < |kept| {
        assert r[k] == kept[k];
      }
    }
  }

  /** Rows kept before the last row keep their first positions. */
  lemma KeptStay(seen: set<int>, init: seq<ResultRow>, last: ResultRow)
    ensures var kept := Keep(seen, init);
            forall k :: 0 <= k < |kept| ==>
              IndexBy(init + [last], RowLaw, kept[k].lawId) == IndexBy(init, RowLaw, kept[k].lawId) < |init|
  {
    var kept := Keep(seen, init);
    forall k | 0 <= k < |kept|
      ensures IndexBy(init + [last], RowLaw, kept[k].lawId) == IndexBy(init, RowLaw, kept[k].lawId) < |init|
    {
      assert kept[k].lawId in Ids(kept);
      IndexBySnoc(init, last, RowLaw, kept[k].lawId);
    }
  }

  /** A row of a law not seen before is that law's first row. */
  lemma NewRowFirst(init: seq<ResultRow>, last: ResultRow)
    requires last.lawId !in Ids(init)
    ensures IndexBy(init + [last], RowLaw, last.lawId) == |init|
  {
    assert forall j :: 0 <= j < |init| ==> init[j].lawId != last.lawId;
    IndexByIs(init, RowLaw, last.lawId, |init|);
    IndexBySnoc(init, last, RowLaw, last.lawId);
  }

  /** Two successive `add_rows` calls that share `seen_ids` keep what one
      call over the concatenated rows keeps. */
  lemma {:induction false} KeepConcat(seen: set<int>, a: seq<ResultRow>, b: seq<ResultRow>)
    ensures Keep(seen, a + b) == Keep(seen, a) + Keep(seen + Ids(a), b)
    decreases |b|
  {
    if |b| == 0 {
      assert a + b == a;
    } else {
      var init, last := b[..|b| - 1], b[|b| - 1];
      assert a + b == (a + init) + [last];
      assert b == init + [last];
      KeepSnoc(seen, a + init, last);
      KeepConcat(seen, a, init);
      TailConcat(seen, a, init, last);
      KeepSnoc(seen + Ids(a), init, last);
      Glue(Keep(seen, a), Keep(seen + Ids(a), init), Keep(seen, a + init),
           Tail(seen + Ids(a), init, last), Keep(seen, a + b), Keep(seen + Ids(a), b));
    }
  }

  lemma Glue<T>(x: seq<T>, y: seq<T>, xy: seq<T>, t: seq<T>, whole: seq<T>, right: seq<T>)
    requires xy == x + y && whole == xy + t && right == y + t
    ensures whole == x + right
  {
  }

  lemma TailConcat(seen: set<int>, a: seq<ResultRow>, init: seq<ResultRow>, last: ResultRow)
    ensures Tail(seen, a + init, last) == Tail(seen + Ids(a), init, last)
  {
    IdsConcat(a, init);
  }

  lemma IdsConcat(a: seq<ResultRow>, b: seq<ResultRow>)
    ensures Ids(a + b) == Ids(a) + Ids(b)
  {
    var all := a + b;
    forall id | id in Ids(a) ensures id in Ids(all) {
      var i :| 0 <= i < |a| && a[i].lawId == id;
      assert all[i] == a[i];
    }
    forall id | id in Ids(b) ensures id in Ids(all) {
      var i :| 0 <= i < |b| && b[i].lawId == id;
      assert all[|a| + i] == b[i];
    }
    forall id | id in Ids(all) ensures id in Ids(a) + Ids(b) {
      var i :| 0 <= i < |all| && all[i].lawId == id;
      if i < |a| {
        assert all[i] == a[i];
      } else {
        assert all[i] == b[i - |a|];
      }
    }
  }

  /** `add_rows(fallback_results)`, then `results`, then `vector_results`. */
  function Merge(seed: set<int>, fallback: seq<ResultRow>, fts: seq<ResultRow>, vector: seq<ResultRow>)
    : seq<ResultRow>
  {
    var s1 := seed + Ids(fallback);
    var s2 := s1 + Ids(fts);
    Keep(seed, fallback) + Keep(s1, fts) + Keep(s2, vector)
  }

  /** Across the three sources every law appears at most once, no law of the
      seed appears, every other law of any source appears, and each law's
      row is its first row in fallback, FTS, vector order. */
  lemma MergeOnce(seed: set<int>, fallback: seq<ResultRow>, fts: seq<ResultRow>, vector: seq<ResultRow>)
    ensures var m, all := Merge(seed, fallback, fts, vector), fallback + fts + vector;
            && m == Keep(seed, all)
            && (forall i, j :: 0 <= i < j < |m| ==> m[i].lawId != m[j].lawId)
            && (forall k :: 0 <= k < |m| ==> m[k].lawId !in seed)
            && Ids(m) == Ids(all) - seed
            && (forall k :: 0 <= k < |m| ==> IndexBy(all, RowLaw, m[k].lawId) < |all| && m[k] == all[IndexBy(all, RowLaw, m[k].lawId)])
  {
    var ab := fallback + fts;
    KeepConcat(seed, fallback, fts);
    KeepConcat(seed, ab, vector);
    IdsConcat(fallback, fts);
    assert seed + Ids(ab) == seed + Ids(fallback) + Ids(fts);
    KeepFirstRows(seed, ab + vector);
  }

  // ---------------------------------------------------------------------
  // Output parts

  const Divider: string := "--- 相关法律法规 ---"
  const NotFound: string := "未找到相关法律法规。"

  /** The parts joined into the answer: alias section, concept section, then
      the merged rows behind a divider when a section precedes them. */
  function Parts(aliasText: string, conceptText: Option<string>, entries: seq<string>): (ps: seq<string>)
    ensures |ps| == 0 <==> aliasText == [] && (conceptText.None? || conceptText.value == []) && entries == []
    ensures aliasText != [] ==> ps[0] == aliasText
    ensures conceptText.Some? && conceptText.value != [] ==>
              |ps| > (if aliasText != [] then 1 else 0) && ps[if aliasText != [] then 1 else 0] == conceptText.value
    ensures entries != [] ==> ps[|ps| - 1] == Join(entries, "\n\n")
    ensures entries != [] && (aliasText != [] || (conceptText.Some? && conceptText.value != [])) ==>
              |ps| >= 3 && ps[|ps| - 2] == Divider
    ensures entries != [] && aliasText == [] && (conceptText.None? || conceptText.value == []) ==>
              ps == [Join(entries, "\n\n")]
    ensures entries == [] ==> forall k :: 0 <= k < |ps| ==> ps[k] == aliasText || Some(ps[k]) == conceptText
  {
    var a := if aliasText != [] then [aliasText] else [];
    var c := if conceptText.Some? && conceptText.value != [] then [conceptText.value] else [];
    var head := a + c;
    if entries == [] then head
    else if head == [] then [Join(entries, "\n\n")]
    else head + [Divider, Join(entries, "\n\n")]
  }

  /** The reply: the alias section, then the concept section, each once and
      separated by a blank line; the merged entries, one blank line apart,
      come last, behind the divider when a section precedes them; the
      not-found message only when there is nothing at all. */
  function Answer(aliasText: string, conceptText: Option<string>, entries: seq<string>): (r: string)
    ensures var c := if conceptText.Some? then conceptText.value else [];
            var head := if aliasText != [] && c != [] then aliasText + "\n\n" + c else aliasText + c;
            var body := Join(entries, "\n\n");
            && (head == [] && entries == [] ==> r == NotFound)
            && (head != [] && entries == [] ==> r == head)
            && (head == [] && entries != [] ==> r == body)
            && (head != [] && entries != [] ==> r == head + "\n\n" + Divider + "\n\n" + body)
  {
    var ps := Parts(aliasText, conceptText, entries);
    AnswerLayout(aliasText, conceptText, entries, ps);
    if ps != [] then Join(ps, "\n\n") else NotFound
  }

  lemma AnswerLayout(aliasText: string, conceptText: Option<string>, entries: seq<string>, ps: seq<string>)
    requires ps == Parts(aliasText, conceptText, entries)
    ensures var c := if conceptText.Some? then conceptText.value else [];
            var head := if aliasText != [] && c != [] then aliasText + "\n\n" + c else aliasText + c;
            var body := Join(entries, "\n\n");
            && (ps == [] <==> head == [] && entries == [])
            && (head != [] && entries == [] ==> Join(ps, "\n\n") == head)
            && (head == [] && entries != [] ==> Join(ps, "\n\n") == body)
            && (head != [] && entries != [] ==> Join(ps, "\n\n") == head + "\n\n" + Divider + "\n\n" + body)
  {
    var c := if conceptText.Some? then conceptText.value else [];
    var hs := (if aliasText != [] then [aliasText] else []) + (if c != [] then [c] else []);
    var body := Join(entries, "\n\n");
    PartsAre(aliasText, conceptText, entries, c, hs, body);
    HeadJoin(aliasText, c, hs);
    if hs != [] && entries != [] {
      JoinTwoMore(hs, Divider, body, "\n\n");
    }
  }

  /** `Parts` as the section list, then the divider and the entries. */
  lemma PartsAre(aliasText: string, conceptText: Option<string>, entries: seq<string>,
                 c: string, hs: seq<string>, body: string)
    requires c == (if conceptText.Some? then conceptText.value else [])
    requires hs == (if aliasText != [] then [aliasText] else []) + (if c != [] then [c] else [])
    requires body == Join(entries, "\n\n")
    ensures Parts(aliasText, conceptText, entries)
            == if entries == [] then hs else if hs == [] then [body] else hs + [Divider, body]
  {
  }

  /** The sections joined by a blank line. */
  lemma HeadJoin(a: string, c: string, hs: seq<string>)
    requires hs == (if a != [] then [a] else []) + (if c != [] then [c] else [])
    ensures hs == [] <==> a == [] && c == []
    ensures hs != [] ==> Join(hs, "\n\n") == if a != [] && c != [] then a + "\n\n" + c else a + c
  {
    if a != [] && c != [] {
      JoinAppend([a], c, "\n\n");
    } else if a != [] {
      assert hs == [a] && a + c == a;
    } else if c != [] {
      assert hs == [c] && a + c == c;
    }
  }

  lemma JoinTwoMore(hs: seq<string>, d: string, b: string, sep: string)
    requires |hs| > 0
    ensures Join(hs + [d, b], sep) == Join(hs, sep) + sep + d + sep + b
  {
    JoinAppend(hs, d, sep);
    assert hs + [d, b] == (hs + [d]) + [b];
    JoinAppend(hs + [d], b, sep);
  }

  // ---------------------------------------------------------------------
  // _expand_synonyms / _build_fts_query_with_synonyms

  /** `_expand_synonyms`: the words of the keyword's synonym group as the
      lookup returns them, or just the keyword when the lookup fails
      (`None`) or finds nothing. */
  function ExpandSynonyms(keyword: string, lookup: string -> Option<seq<string>>): (r: seq<string>)
    ensures |r| >= 1
    ensures r == [keyword] || (lookup(keyword).Some? && r == lookup(keyword).value)
    ensures lookup(keyword).None? ==> r == [keyword]
  {
    match lookup(keyword)
    case None => [keyword]
    case Some(ws) => if |ws| > 0 then ws else [keyword]
  }

  /** One AND-clause: a parenthesised OR group of quoted synonyms, or the
      quoted token when it has no other synonym. */
  function Clause(token: string, lookup: string -> Option<seq<string>>): (c: string)
    ensures |c| >= 2
    ensures c[0] == '(' <==> |ExpandSynonyms(token, lookup)| > 1
    ensures |ExpandSynonyms(token, lookup)| <= 1 ==> c == [Quote] + token + [Quote]
  {
    var syns := ExpandSynonyms(token, lookup);
    if |syns| > 1 then "(" + Join(QuoteEach(syns), " OR ") + ")" else [Quote] + token + [Quote]
  }

  function Clauses(tokens: seq<string>, lookup: string -> Option<seq<string>>): (cs: seq<string>)
    ensures |cs| == |tokens|
    ensures forall k :: 0 <= k < |tokens| ==> cs[k] == Clause(tokens[k], lookup)
  {
    if |tokens| == 0 then [] else [Clause(tokens[0], lookup)] + Clauses(tokens[1..], lookup)
  }

  function BuildFtsQuery(tokens: seq<string>, lookup: string -> Option<seq<string>>): string {
    Join(Clauses(tokens, lookup), " AND ")
  }

  /** The words a clause quotes: the synonym group when it has several
      words, the token otherwise. */
  function ClauseWords(token: string, lookup: string -> Option<seq<string>>): seq<string> {
    var syns := ExpandSynonyms(token, lookup);
    if |syns| > 1 then syns else [token]
  }

  function AllWords(tokens: seq<string>, lookup: string -> Option<seq<string>>): seq<string> {
    if |tokens| == 0 then [] else ClauseWords(tokens[0], lookup) + AllWords(tokens[1..], lookup)
  }

  /** No token and no synonym the lookup returns for a token holds a quote. */
  predicate QuoteFreeInput(tokens: seq<string>, lookup: string -> Option<seq<string>>) {
    forall k :: 0 <= k < |tokens| ==> QuoteFreeWords(ClauseWords(tokens[k], lookup))
  }

  predicate QuoteFreeWords(ws: seq<string>) {
    forall j :: 0 <= j < |ws| ==> Quote !in ws[j]
  }

  function ClausePieces(token: string, lookup: string -> Option<seq<string>>): seq<Piece> {
    var syns := ExpandSynonyms(token, lookup);
    if |syns| > 1 then [Bare("(")] + Alternatives(syns, " OR ") + [Bare(")")] else [Quoted(token)]
  }

  function QueryPieces(tokens: seq<string>, lookup: string -> Option<seq<string>>): seq<Piece> {
    if |tokens| == 0 then []
    else if |tokens| == 1 then ClausePieces(tokens[0], lookup)
    else ClausePieces(tokens[0], lookup) + [Bare(" AND ")] + QueryPieces(tokens[1..], lookup)
  }

  lemma ClauseRendered(token: string, lookup: string -> Option<seq<string>>)
    ensures Render(ClausePieces(token, lookup)) == Clause(token, lookup)
    ensures Words(ClausePieces(token, lookup)) == ClauseWords(token, lookup)
    ensures QuoteFreeWords(ClauseWords(token, lookup)) ==> QuoteFree(ClausePieces(token, lookup))
  {
    var syns := ExpandSynonyms(token, lookup);
    if |syns| > 1 {
      Parenthesized(syns);
      if QuoteFreeWords(syns) {
        ParenthesizedQuoteFree(syns);
      }
    } else {
      var ws := ClauseWords(token, lookup);
      assert ws == [token] && ws[0] == token;
      SingleQuoted(token);
    }
  }

  /** A synonym group: the alternatives between parentheses. */
  lemma Parenthesized(ws: seq<string>)
    ensures var ps := [Bare("(")] + Alternatives(ws, " OR ") + [Bare(")")];
            Render(ps) == "(" + Join(QuoteEach(ws), " OR ") + ")" && Words(ps) == ws
  {
    var alts := Alternatives(ws, " OR ");
    AlternativesJoin(ws, " OR ");
    RenderConcat([Bare("(")], alts);
    RenderConcat([Bare("(")] + alts, [Bare(")")]);
    assert Render([Bare("(")]) == "(" + Render([]);
    assert Render([Bare(")")]) == ")" + Render([]);
    assert Words([Bare("(")]) == [] + Words([]);
    assert Words([Bare(")")]) == [] + Words([]);
  }

  lemma ParenthesizedQuoteFree(ws: seq<string>)
    requires QuoteFreeWords(ws)
    ensures QuoteFree([Bare("(")] + Alternatives(ws, " OR ") + [Bare(")")])
  {
    var alts := Alternatives(ws, " OR ");
    AlternativesQuoteFree(ws, " OR ");
    var ps := [Bare("(")] + alts + [Bare(")")];
    forall k | 0 <= k < |ps| ensures Quote !in (match ps[k] case Bare(t) => t case Quoted(w) => w) {
      if 0 < k < |ps| - 1 {
        assert ps[k] == alts[k - 1];
      }
    }
  }

  /** A token without synonyms: the token quoted. */
  lemma SingleQuoted(token: string)
    ensures Render([Quoted(token)]) == [Quote] + token + [Quote]
    ensures Words([Quoted(token)]) == [token]
    ensures Quote !in token ==> QuoteFree([Quoted(token)])
  {
    assert Render([Quoted(token)]) == [Quote] + token + [Quote] + Render([]);
    assert Words([Quoted(token)]) == [token] + Words([]);
  }

  lemma {:induction false} QueryRendered(tokens: seq<string>, lookup: string -> Option<seq<string>>)
    ensures Render(QueryPieces(tokens, lookup)) == BuildFtsQuery(tokens, lookup)
    ensures Words(QueryPieces(tokens, lookup)) == AllWords(tokens, lookup)
    ensures QuoteFreeInput(tokens, lookup) ==> QuoteFree(QueryPieces(tokens, lookup))
  {
    if |tokens| == 1 {
      ClauseRendered(tokens[0], lookup);
      assert AllWords(tokens, lookup) == ClauseWords(tokens[0], lookup) + AllWords([], lookup);
      assert BuildFtsQuery(tokens, lookup) == Clause(tokens[0], lookup);
    } else if |tokens| > 1 {
      QueryRendered(tokens[1..], lookup);
      QueryStep(tokens, lookup);
      if QuoteFreeInput(tokens, lookup) {
        QueryStepFree(tokens, lookup);
      }
    }
  }

  lemma QueryStep(tokens: seq<string>, lookup: string -> Option<seq<string>>)
    requires |tokens| > 1
    requires Render(QueryPieces(tokens[1..], lookup)) == BuildFtsQuery(tokens[1..], lookup)
    requires Words(QueryPieces(tokens[1..], lookup)) == AllWords(tokens[1..], lookup)
    ensures Render(QueryPieces(tokens, lookup)) == BuildFtsQuery(tokens, lookup)
    ensures Words(QueryPieces(tokens, lookup)) == AllWords(tokens, lookup)
  {
    QueryStepRender(tokens, lookup);
    QueryStepWords(tokens, lookup);
  }

  lemma QueryStepRender(tokens: seq<string>, lookup: string -> Option<seq<string>>)
    requires |tokens| > 1
    requires Render(QueryPieces(tokens[1..], lookup)) == BuildFtsQuery(tokens[1..], lookup)
    ensures Render(QueryPieces(tokens, lookup)) == BuildFtsQuery(tokens, lookup)
  {
    var head := ClausePieces(tokens[0], lookup);
    var rest := QueryPieces(tokens[1..], lookup);
    assert QueryPieces(tokens, lookup) == head + [Bare(" AND ")] + rest;
    calc {
      Render(head + [Bare(" AND ")] + rest);
      { RenderConcat(head + [Bare(" AND ")], rest); }
      Render(head + [Bare(" AND ")]) + Render(rest);
      { RenderConcat(head, [Bare(" AND ")]); AndPiece(); }
      Render(head) + " AND " + Render(rest);
      { ClauseRendered(tokens[0], lookup); }
      Clause(tokens[0], lookup) + " AND " + BuildFtsQuery(tokens[1..], lookup);
      { QueryUnfold(tokens, lookup); }
      BuildFtsQuery(tokens, lookup);
    }
  }

  lemma QueryStepWords(tokens: seq<string>, lookup: string -> Option<seq<string>>)
    requires |tokens| > 1
    requires Words(QueryPieces(tokens[1..], lookup)) == AllWords(tokens[1..], lookup)
    ensures Words(QueryPieces(tokens, lookup)) == AllWords(tokens, lookup)
  {
    var head := ClausePieces(tokens[0], lookup);
    var rest := QueryPieces(tokens[1..], lookup);
    assert QueryPieces(tokens, lookup) == head + [Bare(" AND ")] + rest;
    calc {
      Words(head + [Bare(" AND ")] + rest);
      { RenderConcat(head + [Bare(" AND ")], rest); }
      Words(head + [Bare(" AND ")]) + Words(rest);
      { WordsAnd(head); }
      Words(head) + Words(rest);
      { ClauseRendered(tokens[0], lookup); }
      ClauseWords(tokens[0], lookup) + AllWords(tokens[1..], lookup);
      { WordsUnfold(tokens, lookup); }
      AllWords(tokens, lookup);
    }
  }

  lemma AndPiece()
    ensures Render([Bare(" AND ")]) == " AND "
    ensures Words([Bare(" AND ")]) == []
  {
    assert Render([Bare(" AND ")]) == " AND " + Render([]);
    assert Words([Bare(" AND ")]) == [] + Words([]);
  }

  lemma QueryUnfold(tokens: seq<string>, lookup: string -> Option<seq<string>>)
    requires |tokens| > 1
    ensures BuildFtsQuery(tokens, lookup) == Clause(tokens[0], lookup) + " AND " + BuildFtsQuery(tokens[1..], lookup)
  {
    assert Clauses(tokens, lookup)[1..] == Clauses(tokens[1..], lookup);
  }

  lemma WordsUnfold(tokens: seq<string>, lookup: string -> Option<seq<string>>)
    requires |tokens| > 1
    ensures AllWords(tokens, lookup) == ClauseWords(tokens[0], lookup) + AllWords(tokens[1..], lookup)
  {
  }

  lemma WordsAnd(head: seq<Piece>)
    ensures Words(head + [Bare(" AND ")]) == Words(head)
  {
    RenderConcat(head, [Bare(" AND ")]);
    AndPiece();
  }
  lemma QueryStepFree(tokens: seq<string>, lookup: string -> Option<seq<string>>)
    requires |tokens| > 1 && QuoteFreeInput(tokens, lookup)
    requires QuoteFreeInput(tokens[1..], lookup) ==> QuoteFree(QueryPieces(tokens[1..], lookup))
    ensures QuoteFree(QueryPieces(tokens, lookup))
  {
    ClauseRendered(tokens[0], lookup);
    assert QuoteFreeWords(ClauseWords(tokens[0], lookup));
    assert QuoteFreeInput(tokens[1..], lookup) by {
      forall k | 0 <= k < |tokens[1..]| ensures QuoteFreeWords(ClauseWords(tokens[1..][k], lookup)) {
        assert tokens[1..][k] == tokens[k + 1];
      }
    }
    PiecesJoinFree(ClausePieces(tokens[0], lookup), QueryPieces(tokens[1..], lookup));
  }

  lemma PiecesJoinFree(head: seq<Piece>, rest: seq<Piece>)
    requires QuoteFree(head) && QuoteFree(rest)
    ensures QuoteFree(head + [Bare(" AND ")] + rest)
  {
    var ps := head + [Bare(" AND ")] + rest;
    forall k | 0 <= k < |ps| ensures Quote !in (match ps[k] case Bare(t) => t case Quoted(w) => w) {
      if k < |head| {
        assert ps[k] == head[k];
      } else if k > |head| {
        assert ps[k] == rest[k - |head| - 1];
      }
    }
  }

  /** Reading the quoted phrases of the FTS query gives back, clause by
      clause, the synonym group of each token that has several synonyms and
      the token itself otherwise. */
  lemma FtsQueryWords(tokens: seq<string>, lookup: string -> Option<seq<string>>)
    requires QuoteFreeInput(tokens, lookup)
    ensures Unquote(BuildFtsQuery(tokens, lookup)) == AllWords(tokens, lookup)
  {
    QueryRendered(tokens, lookup);
    UnquoteRender(QueryPieces(tokens, lookup));
  }
}

=== FILE: seqs.dfy ===
/** Looking up the first element of a sequence that carries a given key
    (for rows, hits and entries the key is a law id), and picking out the
    elements a test accepts. */
module Seqs {

  /** Position of the first element whose key is `id`, `|xs|` when there
      is none. */
  function IndexBy<T>(xs: seq<T>, key: T -> int, id: int): (k: nat)
    ensures k <= |xs|
    ensures forall j :: 0 <= j < k ==> key(xs[j]) != id
    ensures k < |xs| ==> key(xs[k]) == id
  {
    if |xs| == 0 then 0
    else if key(xs[0]) == id then 0
    else 1 + IndexBy(xs[1..], key, id)
  }

  /** A position that carries `id` and has no earlier `id` is the one
      `IndexBy` finds. */
  lemma IndexByIs<T>(xs: seq<T>, key: T -> int, id: int, k: nat)
    requires k <= |xs| && (k < |xs| ==> key(xs[k]) == id)
    requires forall j :: 0 <= j < k ==> key(xs[j]) != id
    ensures IndexBy(xs, key, id) == k
  {
    if |xs| > 0 && k > 0 {
      IndexByIs(xs[1..], key, id, k - 1);
    }
  }

  /** Any position that carries `id` bounds the first one. */
  lemma IndexByBound<T>(xs: seq<T>, key: T -> int, id: int, k: nat)
    requires k < |xs| && key(xs[k]) == id
    ensures IndexBy(xs, key, id) <= k
  {
    if k > 0 && key(xs[0]) != id {
      IndexByBound(xs[1..], key, id, k - 1);
    }
  }

  /** Appending an element keeps a first position already found; otherwise
      the new element is the first when it carries `id`. */
  lemma IndexBySnoc<T>(xs: seq<T>, x: T, key: T -> int, id: int)
    ensures IndexBy(xs + [x], key, id)
            == if IndexBy(xs, key, id) < |xs| then IndexBy(xs, key, id)
               else if key(x) == id then |xs| else |xs| + 1
  {
    var all := xs + [x];
    var k := IndexBy(xs, key, id);
    assert forall j :: 0 <= j < |xs| ==> all[j] == xs[j];
    if k < |xs| {
      IndexByIs(all, key, id, k);
    } else if key(x) == id {
      IndexByIs(all, key, id, |xs|);
    } else {
      IndexByIs(all, key, id, |all|);
    }
  }

  /** `[f(x) for x in xs if keep(x)]` */
  function KeepMap<T, U>(xs: seq<T>, keep: T -> bool, f: T -> U): (r: seq<U>)
    ensures |r| <= |xs|
  {
    if |xs| == 0 then []
    else (if keep(xs[0]) then [f(xs[0])] else []) + KeepMap(xs[1..], keep, f)
  }

  /** The positions below `n` of the elements `keep` accepts, in increasing
      order. */
  function Chosen<T>(xs: seq<T>, keep: T -> bool, n: nat): (sel: seq<nat>)
    requires n <= |xs|
    ensures forall k :: 0 <= k < |sel| ==> sel[k] < n
    ensures forall k, l :: 0 <= k < l < |sel| ==> sel[k] < sel[l]
  {
    if n == 0 then [] else Chosen(xs, keep, n - 1) + (if keep(xs[n - 1]) then [n - 1] else [])
  }

  /** A position below `n` is chosen exactly when `keep` accepts its
      element. */
  lemma {:induction false} ChosenExactly<T>(xs: seq<T>, keep: T -> bool, n: nat)
    requires n <= |xs|
    ensures forall i :: 0 <= i < n ==> (i in Chosen(xs, keep, n) <==> keep(xs[i]))
  {
    if n > 0 {
      ChosenExactly(xs, keep, n - 1);
      assert n - 1 !in Chosen(xs, keep, n - 1);
    }
  }

  /** `f` of the elements at positions `sel`, in that order. */
  function At<T, U>(xs: seq<T>, f: T -> U, sel: seq<nat>): (r: seq<U>)
    requires forall k :: 0 <= k < |sel| ==> sel[k] < |xs|
    ensures |r| == |sel|
    ensures forall k :: 0 <= k < |sel| ==> r[k] == f(xs[sel[k]])
  {
    seq(|sel|, k requires 0 <= k < |sel| => f(xs[sel[k]]))
  }

  lemma {:induction false} KeepMapConcat<T, U>(a: seq<T>, b: seq<T>, keep: T -> bool, f: T -> U)
    ensures KeepMap(a + b, keep, f) == KeepMap(a, keep, f) + KeepMap(b, keep, f)
    decreases |a|
  {
    if |a| == 0 {
      assert a + b == b;
    } else {
      var ab := a + b;
      var h := if keep(a[0]) then [f(a[0])] else [];
      assert ab[0] == a[0] && ab[1..] == a[1..] + b;
      assert KeepMap(ab, keep, f) == h + KeepMap(a[1..] + b, keep, f);
      KeepMapConcat(a[1..], b, keep, f);
      assert KeepMap(a, keep, f) == h + KeepMap(a[1..], keep, f);
      assert h + (KeepMap(a[1..], keep, f) + KeepMap(b, keep, f))
          == (h + KeepMap(a[1..], keep, f)) + KeepMap(b, keep, f);
    }
  }

  lemma AtConcat<T, U>(xs: seq<T>, f: T -> U, sel: seq<nat>, last: seq<nat>)
    requires forall k :: 0 <= k < |sel| ==> sel[k] < |xs|
    requires forall k :: 0 <= k < |last| ==> last[k] < |xs|
    ensures At(xs, f, sel + last) == At(xs, f, sel) + At(xs, f, last)
  {
    var all := sel + last;
    assert forall k :: 0 <= k < |sel| ==> all[k] == sel[k];
    assert forall k :: |sel| <= k < |all| ==> all[k] == last[k - |sel|];
  }

  lemma {:induction false} KeepMapPrefix<T, U>(xs: seq<T>, keep: T -> bool, f: T -> U, n: nat)
    requires n <= |xs|
    ensures KeepMap(xs[..n], keep, f) == At(xs, f, Chosen(xs, keep, n))
  {
    if n > 0 {
      var x := xs[n - 1];
      var last := if keep(x) then [n - 1] else [];
      KeepMapPrefix(xs, keep, f, n - 1);
      assert xs[..n] == xs[..n - 1] + [x];
      KeepMapConcat(xs[..n - 1], [x], keep, f);
      assert [x][1..] == [];
      assert KeepMap([x], keep, f) == At(xs, f, last);
      AtConcat(xs, f, Chosen(xs, keep, n - 1), last);
    } else {
      assert xs[..0] == [];
    }
  }

  /** The kept images are `f` of exactly the accepted elements, in their
      order. */
  lemma KeepMapSelects<T, U>(xs: seq<T>, keep: T -> bool, f: T -> U)
    ensures KeepMap(xs, keep, f) == At(xs, f, Chosen(xs, keep, |xs|))
  {
    KeepMapPrefix(xs, keep, f, |xs|);
    assert xs[..|xs|] == xs;
  }
}

=== FILE: sorting.dfy ===
/** Python's `sorted(xs, key=..., reverse=True)` (and `sorted(xs, key=-k)`):
    a stable sort by a numeric key, largest key first, that keeps elements
    with equal keys in their original order. */
module Sorting {

  /** `xs` is ordered by non-increasing key. */
  ghost predicate SortedDesc<T>(xs: seq<T>, key: T -> real) {
    forall i, j :: 0 <= i < j < |xs| ==> key(xs[i]) >= key(xs[j])
  }

  /** The elements of `xs` whose key is `k`, in their order in `xs`. */
  function WithKey<T>(xs: seq<T>, key: T -> real, k: real): seq<T> {
    if |xs| == 0 then []
    else (if key(xs[0]) == k then [xs[0]] else []) + WithKey(xs[1..], key, k)
  }

  /** Puts `x` in front of the first element whose key is not larger. */
  function Insert<T>(x: T, ys: seq<T>, key: T -> real): seq<T> {
    if |ys| == 0 || key(ys[0]) <= key(x) then [x] + ys
    else [ys[0]] + Insert(x, ys[1..], key)
  }

  lemma {:induction false} InsertSorted<T>(x: T, ys: seq<T>, key: T -> real)
    requires SortedDesc(ys, key)
    ensures SortedDesc(Insert(x, ys, key), key)
    ensures |ys| > 0 ==> Insert(x, ys, key)[0] == (if key(ys[0]) <= key(x) then x else ys[0])
    ensures |Insert(x, ys, key)| == |ys| + 1
  {
    if |ys| == 0 || key(ys[0]) <= key(x) {
    } else {
      InsertSorted(x, ys[1..], key);
      var rest := Insert(x, ys[1..], key);
      var r := [ys[0]] + rest;
      assert r == Insert(x, ys, key);
      forall i, j | 0 <= i < j < |r| ensures key(r[i]) >= key(r[j]) {
        if i == 0 {
          if |ys| == 1 {
            assert r[j] == x;
          } else {
            assert key(ys[0]) >= key(ys[1]);
            assert key(r[1]) >= key(r[j]);
          }
        }
      }
    }
  }

  lemma {:induction false} InsertMultiset<T>(x: T, ys: seq<T>, key: T -> real)
    ensures multiset(Insert(x, ys, key)) == multiset(ys) + multiset{x}
  {
    if |ys| == 0 || key(ys[0]) <= key(x) {
    } else {
      InsertMultiset(x, ys[1..], key);
      assert ys == [ys[0]] + ys[1..];
    }
  }

  lemma {:induction false} InsertWithKey<T>(x: T, ys: seq<T>, key: T -> real, k: real)
    ensures WithKey(Insert(x, ys, key), key, k) == (if key(x) == k then [x] else []) + WithKey(ys, key, k)
  {
    if |ys| == 0 || key(ys[0]) <= key(x) {
      assert ([x] + ys)[1..] == ys;
    } else {
      InsertWithKey(x, ys[1..], key, k);
      var r := [ys[0]] + Insert(x, ys[1..], key);
      assert r[1..] == Insert(x, ys[1..], key);
      var a: seq<T> := if key(ys[0]) == k then [ys[0]] else [];
      var b: seq<T> := if key(x) == k then [x] else [];
      var w := WithKey(ys[1..], key, k);
      assert WithKey(r, key, k) == a + (b + w);
      assert WithKey(ys, key, k) == a + w;
      assert a == [] || b == [];
    }
  }

  /** Stable sort by non-increasing key. */
  function SortDesc<T>(xs: seq<T>, key: T -> real): (r: seq<T>)
    ensures SortedDesc(r, key)
    ensures multiset(r) == multiset(xs)
    ensures |r| == |xs|
    ensures forall k :: WithKey(r, key, k) == WithKey(xs, key, k)
  {
    if |xs| == 0 then []
    else
      var rest := SortDesc(xs[1..], key);
      SortDescStep(xs, rest, key);
      Insert(xs[0], rest, key)
  }

  lemma SortDescStep<T>(xs: seq<T>, rest: seq<T>, key: T -> real)
    requires |xs| > 0 && SortedDesc(rest, key)
    requires multiset(rest) == multiset(xs[1..]) && |rest| == |xs| - 1
    requires forall k :: WithKey(rest, key, k) == WithKey(xs[1..], key, k)
    ensures SortedDesc(Insert(xs[0], rest, key), key)
    ensures multiset(Insert(xs[0], rest, key)) == multiset(xs)
    ensures |Insert(xs[0], rest, key)| == |xs|
    ensures forall k :: WithKey(Insert(xs[0], rest, key), key, k) == WithKey(xs, key, k)
  {
    assert xs == [xs[0]] + xs[1..];
    InsertSorted(xs[0], rest, key);
    InsertMultiset(xs[0], rest, key);
    forall k ensures WithKey(Insert(xs[0], rest, key), key, k) == WithKey(xs, key, k) {
      InsertWithKey(xs[0], rest, key, k);
    }
  }

  /** No two elements of `xs` share an identity. */
  ghost predicate Distinct<T, K>(xs: seq<T>, id: T -> K) {
    forall i, j :: 0 <= i < j < |xs| ==> id(xs[i]) != id(xs[j])
  }

  lemma {:induction false} InsertDistinct<T, K>(x: T, ys: seq<T>, key: T -> real, id: T -> K)
    requires Distinct(ys, id)
    requires forall j :: 0 <= j < |ys| ==> id(ys[j]) != id(x)
    ensures Distinct(Insert(x, ys, key), id)
  {
    if |ys| == 0 || key(ys[0]) <= key(x) {
      var r := [x] + ys;
      forall i, j | 0 <= i < j < |r| ensures id(r[i]) != id(r[j]) {
        if i > 0 {
          assert r[i] == ys[i - 1] && r[j] == ys[j - 1];
        } else {
          assert r[j] == ys[j - 1];
        }
      }
    } else {
      var tail := ys[1..];
      InsertDistinct(x, tail, key, id);
      InsertMultiset(x, tail, key);
      var rest := Insert(x, tail, key);
      var r := [ys[0]] + rest;
      forall i, j | 0 <= i < j < |r| ensures id(r[i]) != id(r[j]) {
        if i > 0 {
          assert r[i] == rest[i - 1] && r[j] == rest[j - 1];
        } else {
          var z := rest[j - 1];
          assert z == r[j];
          assert z in multiset(rest);
          if z != x {
            assert z in multiset(tail);
            var m :| 0 <= m < |tail| && tail[m] == z;
            assert ys[m + 1] == z;
          }
        }
      }
    }
  }

  /** Sorting keeps the elements' identities distinct. */
  lemma {:induction false} SortDescDistinct<T, K>(xs: seq<T>, key: T -> real, id: T -> K)
    requires Distinct(xs, id)
    ensures Distinct(SortDesc(xs, key), id)
  {
    if |xs| > 0 {
      var tail := xs[1..];
      assert Distinct(tail, id) by {
        forall i, j | 0 <= i < j < |tail| ensures id(tail[i]) != id(tail[j]) {
          assert tail[i] == xs[i + 1] && tail[j] == xs[j + 1];
        }
      }
      SortDescDistinct(tail, key, id);
      var rest := SortDesc(tail, key);
      forall j | 0 <= j < |rest| ensures id(rest[j]) != id(xs[0]) {
        assert rest[j] in multiset(tail);
        var m :| 0 <= m < |tail| && tail[m] == rest[j];
        assert xs[m + 1] == rest[j];
      }
      InsertDistinct(xs[0], rest, key, id);
    }
  }
}

=== FILE: strings.dfy ===
/** Python `str` behaviour the rest of the model relies on: whitespace as
    `str.isspace()` / `\s` see it, `strip`, `split`, `join`, `replace` of a
    single character, `isdigit`, `int(...)` and `str(n)`.  Digits are the
    ASCII digits; Unicode digits of other scripts are not modelled. */
module Strings {

  datatype Option<+T> = None | Some(value: T)

  /** The characters Python's `str.isspace()` (and so `\s`, `strip()` and
      `split()`) treat as whitespace. */
  predicate IsSpace(c: char) {
    || c == ' '
    || ('\t' <= c <= '\r')
    || ('\U{1C}' <= c <= '\U{1F}')
    || c == '\U{85}' || c == '\U{A0}' || c == '\U{1680}'
    || ('\U{2000}' <= c <= '\U{200A}')
    || c == '\U{2028}' || c == '\U{2029}' || c == '\U{202F}' || c == '\U{205F}'
    || c == '\U{3000}'
  }

  predicate AllSpace(s: string) {
    forall i :: 0 <= i < |s| ==> IsSpace(s[i])
  }

  /** Neither end of `s` is whitespace. */
  predicate NoEdgeSpace(s: string) {
    |s| == 0 || (!IsSpace(s[0]) && !IsSpace(s[|s| - 1]))
  }

  // ---------------------------------------------------------------- strip

  function LeadingSpaces(s: string): (k: nat)
    ensures k <= |s|
    ensures forall i :: 0 <= i < k ==> IsSpace(s[i])
    ensures k < |s| ==> !IsSpace(s[k])
  {
    if |s| > 0 && IsSpace(s[0]) then 1 + LeadingSpaces(s[1..]) else 0
  }

  function TrailingSpaces(s: string): (k: nat)
    ensures k <= |s|
    ensures forall i :: |s| - k <= i < |s| ==> IsSpace(s[i])
    ensures k < |s| ==> !IsSpace(s[|s| - k - 1])
  {
    if |s| > 0 && IsSpace(s[|s| - 1]) then 1 + TrailingSpaces(s[..|s| - 1]) else 0
  }

  /** `s.lstrip()` */
  function LStrip(s: string): (r: string)
    ensures |r| <= |s| && r == s[|s| - |r|..]
    ensures AllSpace(s[..|s| - |r|])
    ensures |r| > 0 ==> !IsSpace(r[0])
  {
    s[LeadingSpaces(s)..]
  }

  /** `s.rstrip()` */
  function RStrip(s: string): (r: string)
    ensures |r| <= |s| && r == s[..|r|]
    ensures AllSpace(s[|r|..])
    ensures |r| > 0 ==> !IsSpace(r[|r| - 1])
  {
    s[..|s| - TrailingSpaces(s)]
  }

  /** `s.strip()`: the part of `s` between its leading and trailing whitespace. */
  function Strip(s: string): (r: string)
    ensures NoEdgeSpace(r)
    ensures Contains(s, r)
    ensures r == [] <==> AllSpace(s)
  {
    var l := LStrip(s);
    var r := RStrip(l);
    assert OccursAt(s, r, |s| - |l|);
    StripEmptyIffSpace(s, l, r);
    r
  }

  /** `s.strip()` is the slice of `s` after its leading whitespace. */
  lemma StripIsSlice(s: string)
    ensures var a := |s| - |LStrip(s)|;
            a + |Strip(s)| <= |s| && Strip(s) == s[a..a + |Strip(s)|]
  {
    var l := LStrip(s);
    var r := RStrip(l);
    assert l == s[|s| - |l|..];
    assert r == l[..|r|];
  }

  lemma StripEmptyIffSpace(s: string, l: string, r: string)
    requires l == LStrip(s) && r == RStrip(l)
    ensures r == [] <==> AllSpace(s)
  {
    assert s == s[..|s| - |l|] + l;
    if r == [] {
      assert l[|r|..] == l;
    } else {
      assert r[0] == l[0] == s[|s| - |l|];
    }
  }

  /** Stripping a string that starts with a non-space character keeps that
      start: the result is a prefix of `s`. */
  lemma StripKeepsStart(s: string)
    requires |s| > 0 && !IsSpace(s[0])
    ensures Strip(s) == RStrip(s)
    ensures |Strip(s)| > 0 && Strip(s) == s[..|Strip(s)|]
  {
    assert LeadingSpaces(s) == 0;
    assert LStrip(s) == s;
  }

  lemma StripOfClean(s: string)
    requires NoEdgeSpace(s)
    ensures Strip(s) == s
  {
    assert LStrip(s) == s;
    assert RStrip(s) == s;
  }

  // ---------------------------------------------------------------- search

  /** `sub` occurs in `s` at position `i`. */
  predicate OccursAt(s: string, sub: string, i: int) {
    0 <= i && i + |sub| <= |s| && s[i..i + |sub|] == sub
  }

  /** Python's `sub in s`. */
  ghost predicate Contains(s: string, sub: string) {
    exists i :: OccursAt(s, sub, i)
  }

  /** `sub in s` decided by a left-to-right scan. */
  function ContainsFrom(s: string, sub: string, i: nat): (b: bool)
    requires i <= |s|
    ensures b <==> exists j :: i <= j && OccursAt(s, sub, j)
    decreases |s| - i
  {
    if i + |sub| <= |s| && s[i..i + |sub|] == sub then
      assert OccursAt(s, sub, i);
      true
    else if i == |s| then false
    else ContainsFrom(s, sub, i + 1)
  }

  function Find(s: string, sub: string): (b: bool)
    ensures b <==> Contains(s, sub)
  {
    ContainsFrom(s, sub, 0)
  }

  /** Occurrence is transitive: text that contains `mid` contains every
      substring of `mid`. */
  lemma ContainsTrans(s: string, mid: string, sub: string)
    requires Contains(s, mid) && Contains(mid, sub)
    ensures Contains(s, sub)
  {
    var i :| OccursAt(s, mid, i);
    var j :| OccursAt(mid, sub, j);
    forall k | 0 <= k < |sub| ensures s[i + j + k] == sub[k] {
      assert sub[k] == mid[j + k] == s[i + j + k];
    }
    assert s[i + j..i + j + |sub|] == sub;
    assert OccursAt(s, sub, i + j);
  }

  /** Position of the first `c` in `s`, or `|s|` when there is none. */
  function IndexOf(s: string, c: char): (k: nat)
    ensures k <= |s|
    ensures forall j :: 0 <= j < k ==> s[j] != c
    ensures k < |s| ==> s[k] == c
  {
    if |s| == 0 then 0
    else if s[0] == c then 0
    else 1 + IndexOf(s[1..], c)
  }

  /** Length of the longest prefix of `s` whose characters all satisfy `p`:
      what a greedy `[...]+` or `[...]*` consumes. */
  function Span(s: string, p: char -> bool): (k: nat)
    ensures k <= |s|
    ensures forall i :: 0 <= i < k ==> p(s[i])
    ensures k < |s| ==> !p(s[k])
  {
    if |s| > 0 && p(s[0]) then 1 + Span(s[1..], p) else 0
  }

  /** A run of class characters followed by a character outside the class
      is consumed exactly. */
  lemma SpanStops(x: string, y: string, p: char -> bool)
    requires forall i :: 0 <= i < |x| ==> p(x[i])
    requires |y| > 0 && !p(y[0])
    ensures Span(x + y, p) == |x|
  {
    assert forall i :: 0 <= i < |x| ==> (x + y)[i] == x[i];
    assert (x + y)[|x|] == y[0];
  }

  // ---------------------------------------------------------------- join / split

  /** `sep.join(parts)` */
  function Join(parts: seq<string>, sep: string): string
  {
    if |parts| == 0 then ""
    else if |parts| == 1 then parts[0]
    else parts[0] + sep + Join(parts[1..], sep)
  }

  lemma JoinCons(first: string, parts: seq<string>, sep: string)
    requires |parts| > 0
    ensures Join([first] + parts, sep) == first + sep + Join(parts, sep)
  {
    assert ([first] + parts)[1..] == parts;
  }

  lemma JoinAppend(parts: seq<string>, last: string, sep: string)
    requires |parts| > 0
    ensures Join(parts + [last], sep) == Join(parts, sep) + sep + last
  {
    if |parts| == 1 {
      assert parts + [last] == [parts[0], last];
    } else {
      assert (parts + [last])[1..] == parts[1..] + [last];
      JoinAppend(parts[1..], last, sep);
    }
  }

  /** `s.split(sep)` for a one-character separator: the pieces between the
      separators, which join back to `s`. */
  function Split(s: string, sep: char): (parts: seq<string>)
    ensures |parts| >= 1
    ensures forall k :: 0 <= k < |parts| ==> sep !in parts[k]
    ensures Join(parts, [sep]) == s
    decreases |s|
  {
    var i := IndexOf(s, sep);
    if i == |s| then
      [s]
    else
      var rest := Split(s[i + 1..], sep);
      assert s == s[..i] + [sep] + s[i + 1..];
      [s[..i]] + rest
  }

  lemma SplitAt(s: string, sep: char, i: nat)
    requires i < |s| && IndexOf(s, sep) == i
    ensures Split(s, sep) == [s[..i]] + Split(s[i + 1..], sep)
  {
  }

  lemma SplitWithout(s: string, sep: char)
    requires IndexOf(s, sep) == |s|
    ensures Split(s, sep) == [s]
  {
  }

  /** Splitting distributes over a separator placed between two pieces. */
  lemma {:induction false} SplitConcat(a: string, sep: char, b: string)
    ensures Split(a + [sep] + b, sep) == Split(a, sep) + Split(b, sep)
    decreases |a|
  {
    var i := IndexOf(a, sep);
    if i == |a| {
      SplitConcatLast(a, sep, b);
    } else {
      SplitConcat(a[i + 1..], sep, b);
      SplitConcatStep(a, sep, b, i);
    }
  }

  lemma SplitConcatLast(a: string, sep: char, b: string)
    requires IndexOf(a, sep) == |a|
    ensures Split(a + [sep] + b, sep) == Split(a, sep) + Split(b, sep)
  {
    var s := a + [sep] + b;
    IndexOfIsFirst(s, sep, |a|);
    SplitAt(s, sep, |a|);
    assert s[..|a|] == a;
    assert s[|a| + 1..] == b;
    SplitWithout(a, sep);
  }

  lemma SplitConcatStep(a: string, sep: char, b: string, i: nat)
    requires i < |a| && IndexOf(a, sep) == i
    requires Split(a[i + 1..] + [sep] + b, sep) == Split(a[i + 1..], sep) + Split(b, sep)
    ensures Split(a + [sep] + b, sep) == Split(a, sep) + Split(b, sep)
  {
    var s := a + [sep] + b;
    ConcatSlices(a, sep, b, i);
    IndexOfIsFirst(s, sep, i);
    SplitAt(s, sep, i);
    SplitAt(a, sep, i);
    var h, p, q := [a[..i]], Split(a[i + 1..], sep), Split(b, sep);
    calc {
      Split(s, sep);
      h + Split(a[i + 1..] + [sep] + b, sep);
      h + (p + q);
      { SeqAssoc(h, p, q); }
      (h + p) + q;
      Split(a, sep) + q;
    }
  }

  lemma SeqAssoc<T>(x: seq<T>, y: seq<T>, z: seq<T>)
    ensures x + (y + z) == (x + y) + z
  {
  }

  lemma TakeDrop<T>(s: seq<T>, k: nat)
    requires k <= |s|
    ensures s == s[..k] + s[k..]
  {
  }

  lemma SliceSplit<T>(s: seq<T>, i: nat, a: nat, j: nat, e: nat)
    requires i <= a <= j <= e <= |s|
    ensures s[i..e] == s[i..a] + s[a..j] + s[j..e]
  {
  }

  lemma ConcatSlices(a: string, sep: char, b: string, i: nat)
    requires i < |a|
    ensures (a + [sep] + b)[..i] == a[..i]
    ensures (a + [sep] + b)[i + 1..] == a[i + 1..] + [sep] + b
  {
  }

  lemma IndexOfIsFirst(s: string, c: char, k: nat)
    requires k <= |s| && (k < |s| ==> s[k] == c)
    requires forall j :: 0 <= j < k ==> s[j] != c
    ensures IndexOf(s, c) == k
  {
    if k > 0 {
      IndexOfIsFirst(s[1..], c, k - 1);
    }
  }

  /** A non-empty run of non-space characters. */
  predicate IsWord(w: string) {
    |w| > 0 && forall j :: 0 <= j < |w| ==> !IsSpace(w[j])
  }

  /** Python's `s.split()` with no argument: the maximal runs of non-space
      characters, in order. */
  function SplitWhitespace(s: string): (words: seq<string>)
    ensures forall k :: 0 <= k < |words| ==> IsWord(words[k])
    decreases |s|
  {
    var t := LStrip(s);
    if t == [] then []
    else
      var k := FirstSpace(t);
      var w, rest := t[..k], SplitWhitespace(t[k..]);
      FirstWord(t, k);
      AllWords(w, rest);
      [w] + rest
  }

  lemma FirstWord(t: string, k: nat)
    requires 0 < k <= |t| && forall j :: 0 <= j < k ==> !IsSpace(t[j])
    ensures IsWord(t[..k])
  {
    assert forall j :: 0 <= j < k ==> t[..k][j] == t[j];
  }

  lemma AllWords(w: string, rest: seq<string>)
    requires IsWord(w) && forall k :: 0 <= k < |rest| ==> IsWord(rest[k])
    ensures forall k :: 0 <= k < |[w] + rest| ==> IsWord(([w] + rest)[k])
  {
    forall k | 0 <= k < |[w] + rest| ensures IsWord(([w] + rest)[k]) {
      if k > 0 {
        assert ([w] + rest)[k] == rest[k - 1];
      }
    }
  }

  /** A string of one word splits into itself alone; so a string that
      splits into several words is not one word. */
  lemma WordSplit(s: string)
    ensures IsWord(s) ==> SplitWhitespace(s) == [s]
  {
    if IsWord(s) {
      assert LeadingSpaces(s) == 0;
      assert LStrip(s) == s;
      var k := FirstSpace(s);
      assert k == |s|;
      assert s[..k] == s;
      assert LStrip(s[k..]) == [];
    }
  }

  function FirstSpace(t: string): (k: nat)
    requires |t| > 0 && !IsSpace(t[0])
    ensures 0 < k <= |t|
    ensures forall j :: 0 <= j < k ==> !IsSpace(t[j])
    ensures k < |t| ==> IsSpace(t[k])
  {
    if |t| == 1 || IsSpace(t[1]) then 1 else 1 + FirstSpace(t[1..])
  }

  /** A string has no words exactly when it is all whitespace. */
  lemma SplitWhitespaceNone(s: string)
    ensures SplitWhitespace(s) == [] <==> AllSpace(s)
  {
    var k := LeadingSpaces(s);
    if k < |s| {
      assert !IsSpace(s[k]) && LStrip(s) != [];
    }
  }

  /** Leading whitespace separates no words. */
  lemma SplitWhitespaceSkip(s: string)
    requires |s| > 0 && IsSpace(s[0])
    ensures SplitWhitespace(s) == SplitWhitespace(s[LeadingSpaces(s)..])
  {
    var rest := s[LeadingSpaces(s)..];
    assert LeadingSpaces(rest) == 0 by {
      if |rest| > 0 { assert rest[0] == s[LeadingSpaces(s)]; }
    }
    assert LStrip(rest) == rest;
  }

  /** A string that starts with a non-space character starts with its first
      word. */
  lemma SplitWhitespaceWord(s: string)
    requires |s| > 0 && !IsSpace(s[0])
    ensures SplitWhitespace(s) == [s[..FirstSpace(s)]] + SplitWhitespace(s[FirstSpace(s)..])
  {
    assert LeadingSpaces(s) == 0;
    assert LStrip(s) == s;
  }

  /** Words joined by single spaces neither start nor end with whitespace. */
  lemma {:induction false} JoinWordsEdges(ws: seq<string>)
    requires forall k :: 0 <= k < |ws| ==> IsWord(ws[k])
    ensures NoEdgeSpace(Join(ws, " "))
    ensures ws != [] ==> |Join(ws, " ")| > 0
  {
    if |ws| > 1 {
      var rest := Join(ws[1..], " ");
      JoinWordsEdges(ws[1..]);
      assert IsWord(ws[1]);
      var j := ws[0] + " " + rest;
      assert j[0] == ws[0][0];
      assert j[|j| - 1] == rest[|rest| - 1];
    } else if |ws| == 1 {
      assert IsWord(ws[0]);
    }
  }

  /** Stripping removes exactly the whitespace around a text with no edge
      whitespace. */
  lemma StripAround(a: string, j: string, b: string)
    requires AllSpace(a) && AllSpace(b) && NoEdgeSpace(j)
    ensures Strip(a + j + b) == j
  {
    var s := a + j + b;
    if j == [] {
      assert AllSpace(s) by {
        forall i | 0 <= i < |s| ensures IsSpace(s[i]) {
          if i < |a| { assert s[i] == a[i]; } else { assert s[i] == b[i - |a|]; }
        }
      }
    } else {
      assert forall i :: 0 <= i < |a| ==> s[i] == a[i];
      assert s[|a|] == j[0];
      var l := LStrip(s);
      assert LeadingSpaces(s) == |a|;
      assert l == j + b;
      assert forall i :: 0 <= i < |b| ==> l[|j| + i] == b[i];
      assert l[|j| - 1] == j[|j| - 1];
      assert TrailingSpaces(l) == |b|;
      assert RStrip(l) == l[..|j|] == j;
    }
  }

  // ---------------------------------------------------------------- replace

  /** `s.replace(c, "")` */
  function RemoveChar(s: string, c: char): (r: string)
    ensures |r| <= |s|
  {
    if |s| == 0 then ""
    else (if s[0] == c then "" else [s[0]]) + RemoveChar(s[1..], c)
  }

  lemma RemoveCharConcat(a: string, b: string, c: char)
    ensures RemoveChar(a + b, c) == RemoveChar(a, c) + RemoveChar(b, c)
  {
    if |a| > 0 {
      assert (a + b)[1..] == a[1..] + b;
      RemoveCharConcat(a[1..], b, c);
    } else {
      assert a + b == b;
    }
  }

  lemma RemoveCharAbsent(s: string, c: char)
    requires c !in s
    ensures RemoveChar(s, c) == s
  {
    if |s| > 0 {
      RemoveCharAbsent(s[1..], c);
    }
  }

  /** A removed character at the front just disappears. */
  lemma RemoveCharHead(c: char, y: string)
    ensures RemoveChar([c] + y, c) == RemoveChar(y, c)
  {
    RemoveCharConcat([c], y, c);
    assert RemoveChar([c], c) == "";
  }

  /** Removing `c` around one occurrence of it between two parts free of it. */
  lemma RemoveCharBetween(x: string, c: char, y: string)
    requires c !in x && c !in y
    ensures RemoveChar(x + ([c] + y), c) == x + y
  {
    RemoveCharConcat(x, [c] + y, c);
    RemoveCharAbsent(x, c);
    RemoveCharHead(c, y);
    RemoveCharAbsent(y, c);
  }

  /** Removing `a` and then `b` from `[a] + x + [b] + y` leaves `x + y`
      when neither part holds them. */
  lemma RemoveWrapped(a: char, x: string, b: char, y: string)
    requires a != b && a !in x && b !in x && a !in y && b !in y
    ensures RemoveChar(RemoveChar([a] + x + [b] + y, a), b) == x + y
  {
    var t := x + ([b] + y);
    assert [a] + x + [b] + y == [a] + t;
    RemoveCharHead(a, t);
    assert a !in t;
    RemoveCharAbsent(t, a);
    RemoveCharBetween(x, b, y);
  }

  /** `s.replace(a, b)` for single characters. */
  function ReplaceChar(s: string, a: char, b: char): (r: string)
    ensures |r| == |s|
    ensures forall i :: 0 <= i < |s| ==> r[i] == (if s[i] == a then b else s[i])
  {
    if |s| == 0 then "" else [if s[0] == a then b else s[0]] + ReplaceChar(s[1..], a, b)
  }

  // ---------------------------------------------------------------- digits

  predicate IsAsciiDigit(c: char) {
    '0' <= c <= '9'
  }

  /** `s.isdigit()` over ASCII digits: non-empty and all digits. */
  predicate IsDigits(s: string) {
    |s| > 0 && forall i :: 0 <= i < |s| ==> IsAsciiDigit(s[i])
  }

  function DigitValue(c: char): nat
    requires IsAsciiDigit(c)
  {
    (c as int - '0' as int) as nat
  }

  function DigitChar(d: nat): (c: char)
    requires d < 10
    ensures IsAsciiDigit(c) && DigitValue(c) == d
  {
    ('0' as int + d) as char
  }

  /** The number a string of decimal digits denotes (most significant first). */
  function DecimalValue(s: string): nat
    requires forall i :: 0 <= i < |s| ==> IsAsciiDigit(s[i])
  {
    if |s| == 0 then 0 else 10 * DecimalValue(s[..|s| - 1]) + DigitValue(s[|s| - 1])
  }

  /** `str(n)`: the decimal rendering of `n`, with no leading zero. */
  function NatToString(n: nat): (r: string)
    ensures IsDigits(r)
    ensures DecimalValue(r) == n
    ensures r[0] == '0' ==> n == 0
  {
    if n < 10 then [DigitChar(n)]
    else
      var r := NatToString(n / 10) + [DigitChar(n % 10)];
      assert r[..|r| - 1] == NatToString(n / 10);
      r
  }

  /** Python `int(s)` on a string: optional surrounding whitespace, an
      optional sign, then digits with single underscores allowed between
      them.  `None` is the `ValueError` case. */
  function PyInt(s: string): (r: Option<int>)
    ensures r.Some? ==> exists i :: 0 <= i < |s| && IsAsciiDigit(s[i])
  {
    var t := Strip(s);
    if |t| > 0 && (t[0] == '+' || t[0] == '-') then
      match Underscored(t[1..])
      case Some(v) =>
        StripHasDigit(s, t, t[1..]);
        Some(if t[0] == '-' then 0 - v as int else v as int)
      case None => None
    else
      match Underscored(t)
      case Some(v) =>
        StripHasDigit(s, t, t);
        Some(v)
      case None => None
  }

  lemma StripHasDigit(s: string, t: string, u: string)
    requires t == Strip(s) && UnderscoreForm(u)
    requires u == t || (|t| > 0 && u == t[1..])
    ensures exists i :: 0 <= i < |s| && IsAsciiDigit(s[i])
  {
    var j := if u == t then 0 else 1;
    assert IsAsciiDigit(t[j]) by { assert t[j] == u[0]; }
    var i :| OccursAt(s, t, i);
    assert s[i + j] == t[j];
  }

  /** `int(s)` of a digit string is its decimal value. */
  lemma PyIntOfDigits(s: string)
    requires IsDigits(s)
    ensures PyInt(s) == Some(DecimalValue(s))
  {
    StripOfClean(s);
    assert Strip(s) == s;
    assert !(s[0] == '+' || s[0] == '-');
    assert UnderscoreForm(s);
    RemoveCharAbsent(s, '_');
  }

  /** Digits with single underscores between them, as `int()` accepts. */
  predicate UnderscoreForm(t: string) {
    && |t| > 0
    && IsAsciiDigit(t[0]) && IsAsciiDigit(t[|t| - 1])
    && (forall i :: 0 <= i < |t| ==> IsAsciiDigit(t[i]) || t[i] == '_')
    && (forall i :: 0 <= i < |t| - 1 ==> !(t[i] == '_' && t[i + 1] == '_'))
  }

  function Underscored(t: string): (r: Option<nat>)
    ensures r.Some? <==> UnderscoreForm(t)
  {
    if UnderscoreForm(t) then
      var d := RemoveChar(t, '_');
      assert forall i :: 0 <= i < |d| ==> IsAsciiDigit(d[i]) by {
        forall i | 0 <= i < |d| ensures IsAsciiDigit(d[i]) {
          RemoveCharKeeps(t, '_', d[i]);
        }
      }
      Some(DecimalValue(d))
    else None
  }

  lemma {:induction false} RemoveCharGone(s: string, c: char)
    ensures c !in RemoveChar(s, c)
    decreases |s|
  {
    if |s| > 0 {
      RemoveCharGone(s[1..], c);
    }
  }

  lemma RemoveCharKeeps(s: string, c: char, x: char)
    requires x in RemoveChar(s, c)
    ensures x in s && x != c
  {
  }

  /** `int(str(n)) == n` */
  lemma PyIntOfNatToString(n: nat)
    ensures PyInt(NatToString(n)) == Some(n)
  {
    PyIntOfDigits(NatToString(n));
  }

  // ---------------------------------------------------------------- ordering

  /** SQLite's BINARY order on TEXT: UTF-8 bytes compared left to right,
      which is code-point order, a proper prefix coming first. */
  predicate StrLess(a: string, b: string)
    decreases |a|
  {
    if |a| == 0 then |b| > 0
    else if |b| == 0 then false
    else if a[0] == b[0] then StrLess(a[1..], b[1..])
    else a[0] < b[0]
  }

  lemma {:induction false} StrLessTrans(a: string, b: string, c: string)
    requires StrLess(a, b) && StrLess(b, c)
    ensures StrLess(a, c)
    decreases |a|
  {
    if |a| > 0 && a[0] == b[0] && b[0] == c[0] {
      StrLessTrans(a[1..], b[1..], c[1..]);
    }
  }

  lemma {:induction false} StrLessIrreflexive(a: string)
    ensures !StrLess(a, a)
    decreases |a|
  {
    if |a| > 0 {
      StrLessIrreflexive(a[1..]);
    }
  }

  /** Two different strings are ordered one way or the other. */
  lemma {:induction false} StrLessTotal(a: string, b: string)
    requires a != b
    ensures StrLess(a, b) || StrLess(b, a)
    decreases |a|
  {
    if |a| > 0 && |b| > 0 && a[0] == b[0] {
      assert a == [a[0]] + a[1..] && b == [b[0]] + b[1..];
      StrLessTotal(a[1..], b[1..]);
    }
  }

  // ------------------------------------------------------------ sequences

  /** `[f(x) for x in xs]` */
  function Map<A, B>(f: A -> B, xs: seq<A>): (r: seq<B>)
    ensures |r| == |xs|
    ensures forall k :: 0 <= k < |xs| ==> r[k] == f(xs[k])
  {
    if |xs| == 0 then [] else [f(xs[0])] + Map(f, xs[1..])
  }

  lemma {:induction false} MapConcat<A, B>(f: A -> B, xs: seq<A>, ys: seq<A>)
    ensures Map(f, xs + ys) == Map(f, xs) + Map(f, ys)
    decreases |xs|
  {
    if |xs| == 0 {
      assert xs + ys == ys;
    } else {
      assert (xs + ys)[0] == xs[0];
      assert (xs + ys)[1..] == xs[1..] + ys;
      MapConcat(f, xs[1..], ys);
    }
  }

  /** The concatenation of `f(x)` over `xs`. */
  function FlatMap<A, B>(f: A -> seq<B>, xs: seq<A>): seq<B>
  {
    if |xs| == 0 then [] else f(xs[0]) + FlatMap(f, xs[1..])
  }

  lemma {:induction false} FlatMapConcat<A, B>(f: A -> seq<B>, xs: seq<A>, ys: seq<A>)
    ensures FlatMap(f, xs + ys) == FlatMap(f, xs) + FlatMap(f, ys)
    decreases |xs|
  {
    if |xs| == 0 {
      assert xs + ys == ys;
    } else {
      assert (xs + ys)[0] == xs[0];
      assert (xs + ys)[1..] == xs[1..] + ys;
      FlatMapConcat(f, xs[1..], ys);
    }
  }
}
